=== FILE: README.md ===
# foslog core, modelled in Dafny

foslog is a Next.js media-review site. Its users rate and review films, series,
games, books and music; they comment and follow one another; they import
Letterboxd histories; and they read a small markdown blog. This project models
the logic under its pages as pure Dafny functions over immutable records, and
proves what that logic promises. The model covers:

- **parsers**: blog front matter, the TMDB and IGDB search results, the genre
  tables and the Google Books classifier, and the `cn` class merger;
- **URL logic**: the pagination page list, the query rewrites of the type
  filter, search bar and pager, the middleware's locale and redirect decision,
  the header's home test, and the sitemap;
- **server actions**: profile, review, media and statistics reads, with their
  paging arithmetic;
- **client state machines**: the zustand stores, toasts, the follow toggle
  with rollback, the review form and the two-step review modal, the half-star
  rating input, the stats carousel, the CSV import progress and the scroll
  collapse;
- **API routes**: the comment, review, media, user and Letterboxd-import
  routes, with their validation order, status codes and uniqueness rules.

Conventions used throughout:

- The database is a `Tables` record of row sequences (`Db`). `findFirst` and
  `findUnique` return the first matching row.
- The session is an `Option<string>` user id. A request body that is not JSON
  is `None`.
- A `fault` flag stands for a database error. Fresh ids and the current time
  are parameters.
- Single ratings are half-star units, 0 to 10. Average ratings are tenths of a
  star.
- `URLSearchParams` is a list of name/value pairs with the `get`, `set` and
  `delete` of section 6.2 of the WHATWG URL Standard (`QueryParams`).
- `parseInt` follows section 19.2.5 of ECMA-262 (`ParseInt`).
- Lower-casing and whitespace are ASCII only (`Text`).
- Sorting is a stable insertion sort by a "may stay ahead" test (`Sorting`),
  which models JavaScript's stable `Array.prototype.sort` for a consistent
  comparator; for an inconsistent one it fixes one admissible order.

## Model

| member | source | states |
|---|---|---|
| AppStore.ParseType | lib/store.ts:5-12 | Reading a lower-case type name back gives a type whose name is that text. |
| AppStore.ParseTypeName | lib/store.ts:5-12 | Every media type's name reads back as that type. |
| AppStore.AddMediaItem | lib/store.ts:87-90 | `addMediaItem` puts the item last and changes nothing else in the state. |
| AppStore.AddReview | lib/store.ts:95-98 | `addReview` appends exactly one review at the end; every other field is kept. |
| AppStore.UpdateReview | lib/store.ts:99-106 | Reviews with the id take the merged update. The others and the length are unchanged. |
| AppStore.UpdateReviewIdempotent | lib/store.ts:99-106 | An update that does not rename the review, applied twice, equals applying it once. |
| AppStore.WithoutId | lib/store.ts:107-112 | The kept reviews are exactly those whose id differs. |
| AppStore.DeleteReview | lib/store.ts:107-112 | `deleteReview` removes every review with the id and keeps the rest in order. |
| AppStore.WithoutAbsentId | lib/store.ts:107-112 | Deleting an id no review carries changes nothing. |
| AppStore.WithoutIdAppend | lib/store.ts:107-112 | Deletion distributes over concatenation. |
| AppStore.DeleteUndoesAdd | lib/store.ts:95-112 | Deleting a review just added under a fresh id restores the previous state. |
| AppStore.DeleteReviewIdempotent | lib/store.ts:107-112 | Deleting twice equals deleting once. |
| AppStore.PersistRehydrate | lib/store.ts:128-132 | Persisting a restored state gives back exactly what was stored. |
| AppStore.RehydrateKeepsPersisted | lib/store.ts:128-132 | A restored state keeps theme, user and reviews, and the other fields are initial. |
| AppStore.UiActionsNotPersisted | lib/store.ts:113-124 | Setting items, filter, query or modal flag never changes the persisted subset. |
| Blog.SkipInline | utils/blog-utils.ts:29 | Skips exactly the run of non-line-break whitespace after the position. |
| Blog.DelimiterEnd | utils/blog-utils.ts:29 | A delimiter line is "---", inline whitespace, then a line break. |
| Blog.FindClose | utils/blog-utils.ts:29 | Finds the first closing delimiter at or after a position, or reports none. |
| Blog.SplitBlock | utils/blog-utils.ts:29-36 | Text that does not start with "---" has no front-matter block. |
| Blog.FindCloseFirst | utils/blog-utils.ts:29 | The search stops at the earliest closing delimiter, as the lazy match does. |
| Blog.BlockOfDocument | utils/blog-utils.ts:29-36 | A document built from a front matter without dash lines and a body splits back into them. |
| Blog.StripQuotes | utils/blog-utils.ts:46 | At most one quote character goes from each end. A value without end quotes is unchanged. |
| Blog.ParseLine | utils/blog-utils.ts:40-46 | A line carries a pair iff it has a colon past index 0. The key is the trimmed text before the first colon; the value is the trimmed, unquoted rest. |
| Blog.ParseLines | utils/blog-utils.ts:40-49 | The pairs are exactly those of the lines that carry one; other lines are ignored. |
| Blog.MetaGet | utils/blog-utils.ts:47 | A key is present iff some pair has it. Its value is that of the last such pair. |
| Blog.MetaGetAppend | utils/blog-utils.ts:47 | A later pair overwrites an earlier one with the same key and leaves other keys alone. |
| Blog.ParseFrontmatter | utils/blog-utils.ts:25-52 | Without a leading block: empty metadata and the content unchanged, not trimmed. With metadata, a block was found. |
| Blog.ParseDocument | utils/blog-utils.ts:29-51 | A document parses to the pairs of its front-matter lines and its trimmed body. |
| Blog.ParseLineOfPair | utils/blog-utils.ts:40-46 | A line `key: value` with a plain key and an unquoted, trimmed value reads back as the pair. |
| Blog.MetaOf | utils/blog-utils.ts:73-80 | Each field is the front matter's value when present and non-empty. Otherwise: title "Untitled", date "", description "", and the category falls back to the directory. |
| Blog.GetBlogPost | utils/blog-utils.ts:57-88 | No post for a missing file. Otherwise the post has the slug and the parsed content. |
| Blog.PostWithoutFrontmatter | utils/blog-utils.ts:73-80 | A file without front matter gets every default and its whole text as content. |
| Blog.FilePosts | utils/blog-utils.ts:109-144 | A post is listed iff it comes from a readable ".md" file; no more posts than files. |
| Blog.FilePostsInOrder | utils/blog-utils.ts:109-144 | Directory order: a file gives its post iff it is a readable ".md" file, and a split listing gives each part's posts in turn. |
| Blog.AllBlogPosts | utils/blog-utils.ts:93-168 | No posts without a blog directory. Otherwise the listing is a permutation of every category's posts. |
| Blog.MixedDatesInconsistent | utils/blog-utils.ts:157-161 | An undated post ties with each of two dated posts that do not tie with each other, so the comparator is not consistent. |
| Blog.ListedFromMarkdown | utils/blog-utils.ts:110-126 | Every listed post comes from a markdown file, with slug "category/name" and the first ".md" removed. |
| Blog.SlugOfPlainName | utils/blog-utils.ts:126 | A name with one ".md", at its end, gives the name without it as slug. |
| Blog.AllDatedSorted | utils/blog-utils.ts:157-161 | When every post is dated, the listing is newest first. |
| Blog.UndatedKeepOrder | utils/blog-utils.ts:157-161 | When no post is dated, every comparison ties and the listing keeps directory order. |
| Blog.ByCategory | utils/blog-utils.ts:173-180 | "all" keeps the list. Any other name keeps exactly the posts of that category. |
| Blog.ByCategoryInOrder | utils/blog-utils.ts:173-180 | The filtered posts are an order-preserving subsequence. |
| Blog.Categories | utils/blog-utils.ts:185-205 | Categories are the sub-directory names. An unreadable root or entry gives none. |
| Blog.DirNames | utils/blog-utils.ts:185-205 | A failed stat fails the listing. Otherwise exactly the directories' names are listed. |
| ClassNames.FirstPrefixGroup | lib/utils.ts:43-53 | The first group, in declared order, whose prefix the class carries, or none. |
| ClassNames.GroupOf | lib/utils.ts:11-53 | The conflict group of a class. A class with none matches no prefix and is no display class. |
| ClassNames.Put | lib/utils.ts:49 | `Map.set`: an existing key keeps its place and takes the new value; a new key goes last; keys stay distinct. |
| ClassNames.Values | lib/utils.ts:61 | The values of the map, in insertion order. |
| ClassNames.Build | lib/utils.ts:39-62 | The map built from the classes has distinct keys. |
| ClassNames.BuildCharacterised | lib/utils.ts:39-62 | Keys are the classes' keys in first-appearance order. Each value is the last class with that key. |
| ClassNames.ResolveKeepsOnePerKey | lib/utils.ts:39-61 | Every kept class was given, and no two kept classes share a group. |
| ClassNames.LastWithKeyFound | lib/utils.ts:39-61 | The last class with a key was given and has that key. |
| ClassNames.ResolveDistinct | lib/utils.ts:39-61 | Classes whose keys are already distinct come out unchanged. |
| ClassNames.CnShape | lib/utils.ts:64-87 | The output joins the resolved classes with single spaces. The classes are non-empty tokens, each with its own key. |
| ClassNames.CnIdempotent | lib/utils.ts:39-87 | `cn` applied to its own output returns it unchanged. |
| ClassNames.CnNested | lib/utils.ts:72-74 | Wrapping the arguments in an array changes nothing. |
| CommentRoute.AddToCounter | app/api/comment/route.ts:56-62 | Only the named review's counter moves, by the delta. |
| CommentRoute.RefererLocale | app/api/comment/route.ts:66-68 | The locale is "en" or a configured locale whose "/L/" occurs in the referer. |
| CommentRoute.FirstLocaleIn | app/api/comment/route.ts:66-68 | The first configured locale found in the referer; no earlier one occurs. |
| CommentRoute.RefererUnderLocale | app/api/comment/route.ts:66-68 | A page under a locale yields that locale unless an earlier locale also occurs. |
| CommentRoute.Post | app/api/comment/route.ts:14-90 | Checks in order: 401, missing review id, blank comment, over 2000 characters, unknown review (404). A valid body for an existing review with no database error always gives 201, which adds one comment and raises that review's counter by one. Nothing is written otherwise. |
| CommentRoute.CommentsOnAppend | app/api/comment/route.ts:39-64 | Appending a comment raises its review's count by one and no other. |
| CommentRoute.CreateKeepsCounters | app/api/comment/route.ts:39-64 | Creating a comment and raising its counter keeps every counter equal to its comment count. |
| CommentRoute.PostKeepsCounters | app/api/comment/route.ts:14-90 | Whatever the request, POST keeps every counter equal to its number of comments. |
| CommentRoute.WithoutComment | app/api/comment/route.ts:120 | Exactly the comments with other ids are kept. |
| CommentRoute.Delete | app/api/comment/route.ts:92-158 | Checks in order: 401, missing comment id, missing review id, unknown comment (404), foreign comment (401). For the owner, 200 exactly when the request's review exists, else 500. Success deletes the comment and lowers the request's review counter. |
| CommentRoute.CommentsOnWithout | app/api/comment/route.ts:120 | Deleting one comment by a unique id lowers its review's count by one. |
| CommentRoute.WithoutAbsent | app/api/comment/route.ts:120 | Deleting an id no comment carries changes nothing. |
| CommentRoute.DeleteKeepsCounters | app/api/comment/route.ts:110-130 | When the request names the comment's own review, DELETE keeps every counter consistent. |
| CommentRoute.MismatchedDeleteBreaksCounters | app/api/comment/route.ts:120-128 | Naming another review lowers that one's counter; the comment's review keeps a stale count. |
| ConsumedBadge.LabelKey | components/review/consumed-badge.tsx:24-29 | The key is the lower-cased type when it is film, serie, book, game or music, else "default". |
| ConsumedBadge.LabelKeyCaseInsensitive | components/review/consumed-badge.tsx:25-28 | The key depends only on the lower-cased type. |
| ConsumedBadge.LabelKeyOfType | components/review/consumed-badge.tsx:24-29 | Client and database names give the same key, and "series" gives "default". |
| ConsumedBadge.Badge | components/review/consumed-badge.tsx:13 | Nothing is shown for a missing or empty type; otherwise the label key is shown. |
| Db.Find | app/api/review/route.ts:34-43 | `findUnique`/`findFirst`: a row with the key, or none iff no row has it. |
| Db.UserReview | app/api/review/route.ts:45-59 | The position of the user's review of the media item, or none iff there is none. |
| Db.CeilDiv | app/actions/user.ts:74 | `Math.ceil(a / b)` for a positive divisor: the least r with a ≤ r·b. |
| Db.TotalPages | app/actions/media.ts:200 | `Math.ceil(total / pageSize)`: the least integer at or above the quotient, for a positive or a negative size. Not finite exactly when the size is 0. |
| Db.Window | app/actions/user.ts:56-72 | `skip`/`take`: the rows from `skip` on, as many as fit in `take`, each at its position. Negative arguments fail. |
| Db.RowOnPage | app/actions/user.ts:56-72 | Every row lies in the window of exactly one page. |
| Db.SafeMediaOf | app/actions/media.ts:206-221 | The safe media copies the row with the type lower-cased, and that type reads back. |
| Db.LowerEnumName | app/actions/media.ts:209 | Lower-casing a database type name gives the client name. |
| FollowsModal.ShownList | components/modal/follows-modal.tsx:35-39 | The followers list iff the behaviour is followers, else the following list. |
| FollowsModal.Flip | components/modal/follows-modal.tsx:56-70 | Only rows with the target id flip `isFollowing`; ids, names and length are kept. |
| FollowsModal.FlipTwice | components/modal/follows-modal.tsx:56-70 | Flipping twice restores the list. |
| FollowsModal.StartToggle | components/modal/follows-modal.tsx:41-73 | Signed out, the toggle goes to login. While pending it is ignored. Otherwise both lists flip, the previous lists are kept, and DELETE is sent iff the user is followed. |
| FollowsModal.FinishToggle | components/modal/follows-modal.tsx:82-88 | Pending is cleared. On failure both lists revert and an error shows. |
| FollowsModal.FailedToggleRollsBack | components/modal/follows-modal.tsx:53-88 | A failed toggle leaves both lists as before it. |
| FollowsModal.SucceededToggleFlips | components/modal/follows-modal.tsx:56-70 | A successful toggle flips exactly the target's rows. |
| FollowsModal.RowButton | components/modal/follows-modal.tsx:219-229 | There is no button on one's own row. A button is disabled iff its user is pending. |
| FollowsModal.HiddenModalFetchesNothing | components/modal/follows-modal.tsx:111-113 | A hidden or initial modal fetches nothing. |
| Genres.Lookup | utils/media-utils.ts:5-154 | A listed id gives its table entry; "unknown" iff the id is not listed. With distinct ids, the label is that of the id's one entry. |
| Genres.TablesGood | utils/media-utils.ts:5-154 | Every table entry has a non-empty label other than "unknown". |
| Genres.TablesDistinct | utils/media-utils.ts:5-154 | Every table lists each id once, as the object literals' keys do. |
| Genres.AscendingDistinct | utils/media-utils.ts:58-154 | Ids listed in ascending order are pairwise distinct. |
| Genres.MovieGenre | utils/media-utils.ts:5-28 | The label the table pairs with the id, or "unknown" iff the id is not listed. |
| Genres.SerieGenre | utils/media-utils.ts:32-52 | The label the table pairs with the id, or "unknown" iff the id is not listed. |
| Genres.GameGenre | utils/media-utils.ts:58-86 | The label the table pairs with the id, or "unknown" iff the id is not listed. |
| Genres.GameMode | utils/media-utils.ts:92-103 | The label the table pairs with the id, or "unknown" iff the id is not listed. |
| Genres.GamePerspective | utils/media-utils.ts:109-121 | The label the table pairs with the id, or "unknown" iff the id is not listed. |
| Genres.GameTheme | utils/media-utils.ts:127-154 | The label the table pairs with the id, or "unknown" iff the id is not listed. |
| Genres.FirstMatch | utils/media-utils.ts:157-196 | The first rule whose substring test holds; no earlier rule holds. |
| Genres.BookGenreCaseInsensitive | utils/media-utils.ts:158 | The book genre depends only on the lower-cased category. |
| Genres.BookGenreIsOfLower | utils/media-utils.ts:158 | The classifier runs on the lower-cased text. |
| Genres.KeywordMatches | utils/media-utils.ts:160-195 | A text containing a keyword hits some rule. |
| Genres.RuleGenreKnown | utils/media-utils.ts:160-195 | No rule yields "unknown". |
| Genres.UnknownHasNoKeyword | utils/media-utils.ts:160-195 | An "unknown" text contains no keyword. |
| Genres.NoKeywordIsUnknown | utils/media-utils.ts:192-195 | A text without any keyword is "unknown". |
| Genres.BookGenreUnknownIff | utils/media-utils.ts:160-195 | The genre is "unknown" iff the lower-cased category contains no keyword. |
| Genres.BookSciFiFirst | utils/media-utils.ts:160-161 | "science fiction" or "sci-fi" gives sci-fi, ahead of every later rule. |
| Genres.ScienceWithoutFiction | utils/media-utils.ts:179 | Past the earlier rules, "science" without "fiction" hits the science rule. |
| Genres.ExceptFictionNotFirst | utils/media-utils.ts:179 | A rule that excludes "fiction" never wins on a text with "fiction". |
| Genres.ScienceExceptsFiction | utils/media-utils.ts:179 | The science rule excludes "fiction". |
| Genres.NotScienceWithFiction | utils/media-utils.ts:179 | A text with "fiction" is never science. |
| Genres.ScienceOfLower | utils/media-utils.ts:179 | Past the earlier rules, a "science" text is science iff "fiction" is absent. |
| Genres.BookScience | utils/media-utils.ts:179 | The same for any category, through lower-casing. |
| Genres.BookNonFictionBeforeFiction | utils/media-utils.ts:192-193 | "non-fiction" is tested before plain "fiction" and gives non-fiction. |
| Genres.MediaGenreLabel | utils/media-utils.ts:199-210 | Films use the movie table. Other types give the decimal id, or "" for id 0. |
| Genres.MediaGenreLabelReadsBack | utils/media-utils.ts:199-210 | The decimal label of a positive id parses back to the id. |
| Header.Visible | components/header/header.tsx:74-102 | The search bar and the filter show iff the route is home. |
| Header.LocaleRootIsHome | components/header/header.tsx:21-25 | "/L" and "/L/" are home for a configured locale; deeper paths are not. |
| Header.NotLocaleRoot | components/header/header.tsx:21-25 | A path below a locale equals no locale root. |
| Header.Toggle | components/header/header.tsx:27-33 | Each toggle flips the filter. |
| Header.ToggleTwice | components/header/header.tsx:27-33 | Two toggles restore the filter. |
| Header.ToggleLabel | components/header/header.tsx:34-35 | The label reads "Collapse filter" iff the filter is expanded. |
| HomePage.LoadDemo | app/page.tsx:23-30 | Demo data loads only into an empty item list; nothing else changes. |
| HomePage.LoadDemoOnce | app/page.tsx:23-30 | Loading again after a non-empty load changes nothing. |
| HomePage.FilteredMedia | app/page.tsx:33-55 | The listed items are exactly those passing type and query, in stored order. |
| HomePage.BlankSearchListsAll | app/page.tsx:41-52 | With every type and a blank query, every item is listed in order. |
| HomePage.RankIsOrder | app/page.tsx:58-66 | The comparator is total and transitive. |
| HomePage.SortedMedia | app/page.tsx:58-66 | A permutation, highest average first, ties by most reviews. |
| HomePage.RecentlyAdded | app/page.tsx:163 | Counts items from 2023 on; zero iff none is. |
| HomePage.RecentCountIgnoresOrder | app/page.tsx:163 | Sorting does not change the recent count. |
| HomePage.TypeDisplayName | app/page.tsx:68-77 | "All Media" exactly for text that is no type name. |
| ImportModal.Reset | components/modal/import-reviews-modal.tsx:32-45 | Clears the import fields and keeps the open and dragging flags. |
| ImportModal.Close | components/modal/import-reviews-modal.tsx:32-45 | Close is a no-op while importing; otherwise it resets and closes. |
| ImportModal.RemainingText | components/modal/import-reviews-modal.tsx:137-142 | "Mm Ss" when at least a minute remains, else "Rs". |
| ImportModal.TakeFile | components/modal/import-reviews-modal.tsx:47-52 | A file is taken only from a non-empty list, and taking one clears the error. |
| ImportModal.Drop | components/modal/import-reviews-modal.tsx:64-71 | A drop ends dragging and then takes the file. |
| ImportModal.SelectTab | components/modal/import-reviews-modal.tsx:307-310 | Tab switching is blocked while importing. |
| ImportModal.StartParsing | components/modal/import-reviews-modal.tsx:73-80 | Parsing starts iff a file is chosen, and clears the error. |
| ImportModal.ParseFailed | components/modal/import-reviews-modal.tsx:129-132 | A parse error shows "Failed to parse CSV: …" and stops parsing. |
| ImportModal.Parsed | components/modal/import-reviews-modal.tsx:86-92 | No rows gives an error and no import; rows start the import at 0 of n. |
| ImportModal.Finished | components/modal/import-reviews-modal.tsx:125-127 | After the loop: not importing, success, progress n of n. |
| ImportModal.ImportRows | components/modal/import-reviews-modal.tsx:95-123 | Rows are sent one at a time in order. Progress rises by one per row whatever each row's outcome. |
| LetterboxdRoute.MatchFilm | app/api/reviews/import/letterboxd/route.ts:45-51 | An existing film with the same title, ignoring case, and the same year; none iff there is none. |
| LetterboxdRoute.FromTmdb | app/api/reviews/import/letterboxd/route.ts:53-91 | A film built from the first TMDB hit. Title and year fall back to the CSV's. |
| LetterboxdRoute.Bare | app/api/reviews/import/letterboxd/route.ts:93-103 | Without TMDB data the film carries only the CSV's name and year. |
| LetterboxdRoute.ResolveFilm | app/api/reviews/import/letterboxd/route.ts:45-103 | Exactly one film: the matched one, else a new one appended. |
| LetterboxdRoute.BareFilmFoundAgain | app/api/reviews/import/letterboxd/route.ts:45-103 | A film created from the CSV is matched by the next import of the same row. |
| LetterboxdRoute.Post | app/api/reviews/import/letterboxd/route.ts:14-176 | Checks in order: 401 before the body, missing name or year (400), a year whose base-10 `parseInt` is NaN (400). An accepted row with no failing call does exactly the writes of `Save`. A failing TMDB create falls back to the bare film. A failing lookup, or a failing bare create when a bare film is needed, gives 500 with the tables unchanged. A failing review step gives 500, and the tables keep exactly the film resolved before it. No failure writes a review. |
| LetterboxdRoute.Searched | app/api/reviews/import/letterboxd/route.ts:57-103 | A failing create from the TMDB result is caught and leads to the bare create, as if the search had found nothing. |
| LetterboxdRoute.Save | app/api/reviews/import/letterboxd/route.ts:110-171 | An existing review only ORs the rewatch flag (200); otherwise one review is created (201). |
| LetterboxdRoute.NewReview | app/api/reviews/import/letterboxd/route.ts:146-171 | The created review has the rating, the rewatch flag, and the text or null. |
| LetterboxdRoute.ReimportKeepsOneReview | app/api/reviews/import/letterboxd/route.ts:45-142 | When the film of the first import has the row's title and year (a stored match, a bare film, or a TMDB film that agrees), importing the row again updates the one review and creates no film. |
| LetterboxdRoute.MatchAppended | app/api/reviews/import/letterboxd/route.ts:45-51 | After a table without a match, an appended film is found exactly when it has the row's title and year. |
| LetterboxdRoute.TmdbMismatchDuplicates | app/api/reviews/import/letterboxd/route.ts:45-103 | When TMDB's first result has another title or year than the row, importing the row again creates a second film and a second review. |
| LetterboxdRoute.RewatchNeverCleared | app/api/reviews/import/letterboxd/route.ts:117-142 | A set rewatch flag is never cleared by an import. |
| MediaActions.GetMedias | app/actions/media.ts:14-20 | Always an empty list with total 0. |
| MediaActions.GetMediasConstant | app/actions/media.ts:14-20 | The result does not depend on any argument. |
| MediaActions.GetGlobalMediaStats | app/actions/media.ts:236-240 | Always 0 top rated and 0 recently added. |
| MediaActions.GetMediaMetadata | app/actions/media.ts:107-142 | The title of the media iff it exists, else null; null on a database error. |
| MediaActions.WithUsers | app/actions/media.ts:173-198 | Each review joined with its author, in order; fails iff an author is missing. |
| MediaActions.MediaReviews | app/actions/media.ts:165-171 | Only the media item's reviews. |
| MediaActions.GetMediaById | app/actions/media.ts:144-233 | Null for an unknown id. Otherwise the safe media with a page of reviews, the page count and the current page. Any failure is "Could not fetch media item.". |
| MediaActions.MediaReviewsPage | app/actions/media.ts:150-171 | When the item is found, the page holds min(pageSize, reviews left after (page−1)·pageSize) reviews, and entry k is the item's review at position (page−1)·pageSize + k in newest-first order. |
| MediaActions.DefaultMediaReviewsPage | app/actions/media.ts:144-147 | With the defaults page 1 and page size 5, the page is the item's five newest reviews, or all of them when fewer. |
| MediaCard.CreatorLabel | components/media/media-card.tsx:85-90 | Director, else author, else artist, else nothing. |
| MediaCard.CardImage | components/media/media-card.tsx:92 | The poster, else the cover; none iff neither is set. |
| MediaCard.TypeLabelKey | components/media/media-card.tsx:121-123 | "musicSingle" for music, else the type itself. |
| MediaCard.IconOfName | components/media/media-card.tsx:27-42 | The fallback note exactly for text that is no type name. |
| MediaCard.IconAgreesWithSuggestions | components/media/media-card.tsx:27-42 | The card's icon of a type is the suggestion list's icon of it. |
| MediaCard.CardGenres | components/media/media-card.tsx:158-165 | Every genre is shown, in order, with no cap. |
| MediaCard.RatingAreaOf | components/media/media-card.tsx:171-194 | Stars iff the average is positive, else thumbs iff any likes or dislikes, else nothing. The compact panel uses the same choice. |
| MediaCard.StarsAgreeWithInput | components/media/media-card.tsx:51-53 | The card's full and half stars are those of the rating input. |
| MediaContext.FindIcon | components/media/media-context.tsx:30-41 | An unlisted type gives the note icon. |
| MediaContext.IconMatchesCard | components/media/media-context.tsx:30-41 | The panel's icon table agrees with the card for every text. |
| MediaContext.ContextGenres | components/media/media-context.tsx:87-101 | The first two genres, plus "+n" iff there are more; together they count every genre. |
| MediaContext.CardShowsPanelGenres | components/media/media-card.tsx:158-165 | The card lists the panel's genres first, then exactly as many as the panel's "+n" counts. |
| MediaContext.ContextImage | components/media/media-context.tsx:47 | Only the poster is used. |
| MediaContext.CoverOnlyOnCard | components/media/media-context.tsx:47 | A cover without a poster shows on the card and not in the panel. |
| MediaRoute.EnumType | app/api/media/route.ts:30-46 | Reading an upper-case type back gives a type of that name. |
| MediaRoute.EnumTypeName | app/api/media/route.ts:30-46 | Every type's database name reads back. |
| MediaRoute.FindEntry | app/api/media/route.ts:15-28 | The first entry with the same title, type and year, or none iff there is none. |
| MediaRoute.NewEntry | app/api/media/route.ts:30-46 | The created entry carries the given fields, with no genres and zero counters. |
| MediaRoute.Post | app/api/media/route.ts:6-53 | 400 without `selectedMedia`. 409 for an existing triple. 201 appends the new entry. Errors give 500. Only 201 writes. |
| MediaRoute.PostKeepsEntriesDistinct | app/api/media/route.ts:15-28 | Whatever the request, no two entries share title, type and year. |
| MediaRoute.RepeatIsConflict | app/api/media/route.ts:15-28 | Adding the same suggestion again gives 409 and writes nothing. |
| MediaRoute.CheckOf | components/modal/review-modal.tsx:97-140 | The modal's check of this route's answer: the created id, never "reviewed"; otherwise a failure with the message. |
| MediaRoute.CatalogedSuggestionStaysOnStepOne | components/modal/review-modal.tsx:105-140 | A suggestion already catalogued keeps the modal on step 1 with the conflict message. |
| MediaRoute.NewSuggestionOpensStepTwo | components/modal/review-modal.tsx:105-140 | A new suggestion opens step 2 with the new id and the box cleared. |
| MediaTypeFilter.SelectedType | components/media/media-type-filter.tsx:12 | The `type` parameter, or "all" when it is absent or empty. |
| MediaTypeFilter.HandleTypeChange | components/media/media-type-filter.tsx:14-30 | The bare path when no parameter remains, else path?query. |
| MediaTypeFilter.TypeQuerySpec | components/media/media-type-filter.tsx:17-27 | "page" goes; "all" deletes `type`, any other choice sets it; other parameters are kept. |
| MediaTypeFilter.PickedTypeShown | components/media/media-type-filter.tsx:12-21 | The filter on the new address shows the type that was picked. |
| Middleware.Strip | middleware.ts:47-49 | A path without a locale is unchanged; a stripped path is never empty. |
| Middleware.SplitSlashLocale | middleware.ts:37-44 | The first path segment of "/L…" is L. |
| Middleware.LocaleOfPrefixed | middleware.ts:37-49 | "/L" or "/L/…" has locale L and strips to "/" or the rest. |
| Middleware.ProtectedNotAuth | middleware.ts:12-15 | No path is both protected and an auth route, so at most one redirect applies. |
| Middleware.Decide | middleware.ts:20-80 | Skipped paths pass through. Signed out on a protected prefix goes to login with a callback. Signed in on an auth prefix goes home. Otherwise the intl response. |
| Middleware.ProtectedNeedsSession | middleware.ts:58-72 | A locale's dashboard or settings page without a session redirects to that locale's login. |
| Middleware.NotSkipped | middleware.ts:24-31 | A locale page without a dot is not skipped. |
| Middleware.NotUnderSegment | middleware.ts:24-31 | A path under one segment is not under another. |
| OptionsModalStore.ShowModal | lib/options-modal-store.ts:34-44 | Opens with every field replaced; loading defaults to false. |
| OptionsModalStore.HideModal | lib/options-modal-store.ts:45-51 | Only `isOpen` changes, to false. |
| OptionsModalStore.SetIsCTALoading | lib/options-modal-store.ts:52-58 | Only the loading flag changes. |
| OptionsModalStore.ShowReplacesAll | lib/options-modal-store.ts:34-51 | Showing does not depend on the previous state. |
| FollowsModalStore.ShowModal | lib/follows-modal-store.ts:29-38 | Opens for the user with the behaviour. |
| FollowsModalStore.HideModal | lib/follows-modal-store.ts:39-48 | Hiding restores exactly the initial state. |
| FollowsModalStore.SetBehavior | lib/follows-modal-store.ts:49-55 | Only the behaviour changes. |
| FollowsModalStore.ShowThenHide | lib/follows-modal-store.ts:23-48 | Showing then hiding gives the initial state. |
| Pagination.Pages | components/pagination/pagination.tsx:50-59 | The consecutive pages lo..hi. |
| Pagination.FewPagesAllShown | components/pagination/pagination.tsx:50-59 | With at most 7 pages the list is exactly 1..T. |
| Pagination.ManyPagesShown | components/pagination/pagination.tsx:61-82 | With more than 7 pages a page shows iff it is 1, T, or in max(2,c−1)..min(T−1,c+1). |
| Pagination.ManyPagesBounded | components/pagination/pagination.tsx:61-82 | At most 7 entries, and the current page is among them. |
| Pagination.ManyPagesLayout | components/pagination/pagination.tsx:61-82 | 1, an ellipsis iff c > 3, the window, an ellipsis iff c < T−2, then T. |
| Pagination.LayoutIncreasing | components/pagination/pagination.tsx:64-78 | The numbers of that layout strictly increase. |
| Pagination.LayoutNeighbours | components/pagination/pagination.tsx:64-78 | Adjacent numbers without an ellipsis between them are consecutive. |
| Pagination.LayoutEllipses | components/pagination/pagination.tsx:64-78 | Each ellipsis stands between two numbers with a gap. |
| Pagination.PageNumbersIncreasing | components/pagination/pagination.tsx:50-82 | Every page list strictly increases. |
| Pagination.PageNumbersGapsMarked | components/pagination/pagination.tsx:50-82 | Every gap in a page list is marked by an ellipsis. |
| Pagination.ManyPagesAllOnMobile | components/pagination/pagination.tsx:118-125 | With more than 7 pages every listed page also shows on mobile. |
| Pagination.Render | components/pagination/pagination.tsx:87-147 | Nothing for T ≤ 1. Previous is disabled iff c = 1 and next iff c = T. Only the current page is marked current. |
| Pagination.HandlePageChange | components/pagination/pagination.tsx:22-43 | Nothing happens for a page outside 1..T. |
| Pagination.PageChangeQuery | components/pagination/pagination.tsx:26-35 | Page 1 deletes `page`, another page sets it; the other parameters are kept. |
| Pagination.PageChangeReadsBack | components/pagination/pagination.tsx:26-35 | The new address's `page` parses back to the page. |
| ParseInt.CharValue | app/api/search/utils/parsers.ts:41 | A digit or letter's value in base 36, or −1. |
| ParseInt.DigitRun | app/api/search/utils/parsers.ts:41 | The longest prefix of digits of the radix. |
| ParseInt.Parse | app/api/search/utils/parsers.ts:41 | `parseInt`: a radix outside 2..36, other than 0, gives NaN. |
| ParseInt.DecimalValue | app/api/search/utils/parsers.ts:41 | Decimal digits are radix-10 digits with their usual value. |
| ParseInt.ParseDecimalStart | app/api/search/utils/parsers.ts:41 | Text starting with a decimal digit, not "0x", parses its digit prefix. |
| ParseInt.ParseNumeral | app/api/search/utils/parsers.ts:41 | A numeral followed by a non-digit parses back to its number. |
| ParseInt.DigitRunOf | app/api/search/utils/parsers.ts:41 | The digit run stops at the first non-digit. |
| ParseInt.NoDigitIsNaN | app/api/reviews/import/letterboxd/route.ts:38-42 | Text with no digit after its sign is NaN. |
| QueryParams.Get | components/media/media-type-filter.tsx:12 | `get`: some pair's value, or none iff no pair has the name. |
| QueryParams.Delete | components/media/media-type-filter.tsx:17-23 | `delete`: exactly the pairs with other names are kept. |
| QueryParams.GetAfterSet | components/media/media-type-filter.tsx:17-23 | After `set`, `get` gives the value. |
| QueryParams.SetOthersUnchanged | components/media/media-type-filter.tsx:17-23 | `set` leaves every other pair as it was. |
| QueryParams.DeleteIdempotent | components/media/media-type-filter.tsx:17-23 | Deleting twice equals deleting once. |
| QueryParams.GetAfterDeleteOther | components/pagination/pagination.tsx:26-31 | Deleting one name leaves every other name's value. |
| QueryParams.DeleteCommutes | components/header/search-bar.tsx:21-27 | Deletions commute. |
| QueryParams.CountAfterDelete | components/media/media-type-filter.tsx:17-23 | No pair with the name remains. |
| QueryParams.SetLeavesOne | components/media/media-type-filter.tsx:17-23 | After `set` exactly one pair has the name. |
| QueryParams.Serialize | components/media/media-type-filter.tsx:25-27 | The query text is empty iff there are no pairs. |
| QueryParams.ParseSerialize | components/header/search-bar.tsx:29-31 | Plain pairs parse back from their text. |
| QueryParams.Href | components/header/search-bar.tsx:29-31 | The bare path when no parameter is left, else path?query. |
| Rating.PointerValue | components/input/rating.tsx:38-49 | Star i gives i+0.5 on its left half and i+1 otherwise, so 1..10 half-units. |
| Rating.EveryHalfStarReachable | components/input/rating.tsx:38-49 | Every half-star value is some star half's value. |
| Rating.Current | components/input/rating.tsx:36 | The hover value while hovering, else the value. |
| Rating.MouseMove | components/input/rating.tsx:38-49 | A hover over a star half shows its value, unless read-only. |
| Rating.MouseLeave | components/input/rating.tsx:62-65 | Leaving shows the value again. |
| Rating.Click | components/input/rating.tsx:51-60 | A click changes nothing when read-only or without a handler; otherwise it gives the pointer's value. |
| Rating.StarsDrawn | components/input/rating.tsx:80-84 | Star i is full iff i+1 ≤ r; no star is both full and half. |
| Rating.HalfStarsDrawn | components/input/rating.tsx:80-84 | For a half-star value, the full stars and the single half star are as expected. |
| Rating.NumberText | components/input/rating.tsx:137 | A whole-star value prints without a fraction. |
| Rating.ValueLabel | components/input/rating.tsx:137 | "r/5" when r > 0, else "No rating". |
| Rating.WholeStarLabel | components/input/rating.tsx:137 | n stars read "n/5". |
| Rating.Display | components/input/rating.tsx:155-157 | Nothing for a missing or zero rating. |
| Rating.DisplayIsReadOnly | components/input/rating.tsx:155-157 | The display is read-only: clicks and hovers change nothing. |
| RatingDistribution.MaxCount | components/profile/rating-distribution.tsx:11 | The largest count, or 0 for no counts. |
| RatingDistribution.MaxExists | components/profile/rating-distribution.tsx:11 | A non-empty set of counts has a largest element. |
| RatingDistribution.CountOf | components/profile/rating-distribution.tsx:23 | The count of a whole-star rating, 0 when missing. |
| RatingDistribution.Bars | components/profile/rating-distribution.tsx:12-25 | Nothing when the largest count is 0. Otherwise five bars for 5 down to 1, with their counts and the largest count. |
| RatingDistribution.BarsWithinPanel | components/profile/rating-distribution.tsx:22-25 | Every bar is at most full, and a most frequent rating's bar is full. |
| RatingDistribution.PanelShownIffRated | components/profile/rating-distribution.tsx:14-16 | The panel shows iff the user has a rated review. |
| RatingDistribution.HalfStarsOnlyShowEmptyBars | components/profile/rating-distribution.tsx:22-23 | Only half-star ratings show a panel with every bar empty. |
| RatingDistribution.NoWholeStar | components/profile/rating-distribution.tsx:22-23 | Only half-star ratings leave every whole-star key unset. |
| ReviewActions.WithAuthors | app/actions/review.ts:62-70 | Each comment joined with its author, defaulting the name; fails iff an author is missing. |
| ReviewActions.ReviewComments | app/actions/review.ts:35-39 | Only the review's comments. |
| ReviewActions.GetReviewById | app/actions/review.ts:8-131 | Null for an unknown id. Otherwise the review's fields, a page of comments, the page count and the current page. Any failure is "Could not fetch review.". |
| ReviewActions.ReviewCommentsPage | app/actions/review.ts:35-39 | When the review is found, the page holds min(pageSize, comments left after (page−1)·pageSize) comments, and entry k is the review's comment at position (page−1)·pageSize + k in newest-first order. |
| ReviewActions.DefaultCommentsPage | app/actions/review.ts:8-11 | With the defaults page 1 and page size 12, the page is the review's twelve newest comments, or all of them when fewer. |
| ReviewForm.OnStars | components/review/review-form.tsx:153-158 | A positive star value clears the like choice. |
| ReviewForm.OnLike | components/review/review-form.tsx:169-188 | A like or dislike resets the stars to 0. |
| ReviewForm.ExclusiveAlways | components/review/review-form.tsx:153-188 | After any picks, stars and a like choice are never both set. |
| ReviewForm.LastLikeWins | components/review/review-form.tsx:153-188 | The last like pick decides the choice. |
| ReviewForm.Open | components/review/review-form.tsx:37-43 | A new form is empty; an edit starts from the original. The box starts as `hasReviewed`. |
| ReviewForm.FreshEditDisabled | components/review/review-form.tsx:50-54 | An edit form just opened counts as unedited, so submit is disabled. |
| ReviewForm.WhitespaceIsNoEdit | components/review/review-form.tsx:50-54 | Padding the text with whitespace is not an edit. |
| ReviewForm.StarsField | components/review/review-form.tsx:70-78 | Stars are omitted when 0. |
| ReviewForm.PostBody | components/review/review-form.tsx:70-78 | The POST body has the stars, the like choice, the trimmed text and the checkbox. |
| ReviewForm.PatchBody | components/review/review-form.tsx:114-121 | The PATCH body never includes the checkbox. |
| ReviewForm.PatchIsPostWithoutCheckbox | components/review/review-form.tsx:114-121 | The PATCH body is the POST body without the checkbox. |
| ReviewForm.EnabledSendsAChoice | components/review/review-form.tsx:259-263 | An enabled submit sends exactly one of stars and a like choice. |
| ReviewForm.SubmitPost | components/review/review-form.tsx:56-80 | Signed out, the submit goes to login and sends nothing; otherwise it posts the body. |
| ReviewForm.FinishPost | components/review/review-form.tsx:80-101 | Success resets the form; a failure keeps it and shows the error. |
| ReviewForm.SubmitPatch | components/review/review-form.tsx:103-121 | A patch is sent only for an edit, to its id. |
| ReviewForm.FinishPatch | components/review/review-form.tsx:122-137 | The modal closes iff the patch succeeded; the choice and text are kept. |
| ReviewForm.ConsumedCheckbox | components/review/review-form.tsx:216-230 | The box shows only for a new review and is disabled when submitting or reviewed. |
| ReviewModal.OnlyMusicDisabled | components/modal/review-modal.tsx:56-62 | The music option is the only one disabled. |
| ReviewModal.Cleared | components/modal/review-modal.tsx:66-79 | Every field is initial except the open and loading flags. |
| ReviewModal.Close | components/modal/review-modal.tsx:81-84 | Closing resets the modal and closes it. |
| ReviewModal.CloseIsInitial | components/modal/review-modal.tsx:81-84 | Closing with nothing loading gives the initial state. |
| ReviewModal.Back | components/modal/review-modal.tsx:86-95 | Back returns to step 1 and clears the choice, text, flags and error. It keeps the selection and the media id. |
| ReviewModal.PickStars | components/modal/review-modal.tsx:262-267 | Stars as in the form; the choice stays exclusive. |
| ReviewModal.PickLike | components/modal/review-modal.tsx:282-304 | A like choice as in the form; the choice stays exclusive. |
| ReviewModal.StartNext | components/modal/review-modal.tsx:97-104 | A no-op without a selected media; otherwise loading starts. |
| ReviewModal.FinishNext | components/modal/review-modal.tsx:105-140 | Success opens step 2, and both flags take the answer's `hasReviewed`. Failure keeps the step and shows an error. |
| ReviewModal.ReviewBody | components/modal/review-modal.tsx:150-160 | The body has the stars, the like choice, the text and the box. |
| ReviewModal.StartSubmit | components/modal/review-modal.tsx:142-150 | Without a media id, "Media ID is missing" and nothing is sent. |
| ReviewModal.FinishSubmit | components/modal/review-modal.tsx:160-185 | Success closes the modal and goes to the media page; failure keeps the modal with the error. |
| ReviewModal.SubmittedIsInitial | components/modal/review-modal.tsx:66-185 | After a successful submit the modal is in its initial state. |
| ReviewModal.ReviewedLocksCheckbox | components/modal/review-modal.tsx:347-350 | A reviewed media item leaves the box checked and locked. |
| ReviewModal.NextBlockedWhileLoading | components/modal/review-modal.tsx:367 | Next is disabled while its check is loading. |
| ReviewModal.PicksStayExclusive | components/modal/review-modal.tsx:86-304 | Picks in any order, and back, keep stars and like exclusive. |
| ReviewRoute.FromBody | components/modal/review-modal.tsx:150-160 | The JSON of a client body keeps stars, text, like and box. |
| ReviewRoute.NewReview | app/api/review/route.ts:61-68 | The created review has the given stars and text and nothing else. |
| ReviewRoute.Post | app/api/review/route.ts:11-85 | Checks in order: 401, missing review object, missing media id, unknown media (404), an existing review of the pair (409). Success appends one review with 201; errors give 500. |
| ReviewRoute.PostKeepsOneReviewPerPair | app/api/review/route.ts:45-59 | Whatever the request, each user has at most one review per media item. |
| ReviewRoute.RepeatIsConflict | app/api/review/route.ts:45-59 | Sending the same review again gives 409 and writes nothing. |
| ReviewRoute.ModalLikeNotStored | app/api/review/route.ts:61-68 | A review from the modal is stored without its like choice and its box. |
| ScrollDirection.HandleScroll | hooks/useScrollDirection.ts:8-22 | Below 50 the header expands. Down past 100 it collapses. Up it expands. Otherwise it is unchanged. The offset is always recorded. |
| ScrollDirection.RunSettled | hooks/useScrollDirection.ts:13-21 | A collapsed header was last scrolled beyond 100, after any scrolls. |
| ScrollDirection.CollapsedOnlyFarDown | hooks/useScrollDirection.ts:13-21 | From the start, the header is collapsed only when the last offset is beyond 100. |
| Search.TmdbYear | app/api/search/utils/parsers.ts:41 | No year for a missing or empty date; otherwise the `parseInt` of the text before the first dash. |
| Search.TmdbYearOfDate | app/api/search/utils/parsers.ts:41 | A date "YYYY-…" gives the year YYYY. |
| Search.TmdbPoster | app/api/search/utils/parsers.ts:42-44 | The image base followed by the path, or none. |
| Search.MapIds | app/api/search/utils/parsers.ts:46 | Each id mapped in order; a missing list gives none. |
| Search.ParseMovie | app/api/search/utils/parsers.ts:38-47 | Title, film type, year, poster, description "" when missing, and a genre per id in order. |
| Search.ParseSerie | app/api/search/utils/parsers.ts:49-60 | The same rules from `name` and `first_air_date`, with the series type. |
| Search.SerieLikeMovie | app/api/search/utils/parsers.ts:49-60 | A series parses like a movie with the same fields, apart from type and table. |
| Search.ReplaceSizeOf | app/api/search/utils/parsers.ts:68-70 | The first size token becomes t_1080p. |
| Search.ReplaceSizeNoToken | app/api/search/utils/parsers.ts:68-70 | A URL without a size token is unchanged. |
| Search.ParseGame | app/api/search/utils/parsers.ts:62-81 | Title, game type, the year when dated, the https poster with a large size, and genres, modes, perspectives and themes in order. |
| Search.GameGenreCount | app/api/search/utils/parsers.ts:72-80 | The genre list has one entry per listed id; missing lists add nothing. |
| Search.ItemLikeParsed | app/api/search/route.ts:42-54 | A result item has the parser's title, year, poster and description and no genre. |
| Search.Handle | app/api/search/route.ts:12-60 | A missing type is 400 before the title is checked. Any type but "film" is 400. A failing upstream is 502. |
| Search.ToReply | app/api/search/route.ts:61-73 | An API error keeps its status; any other error is 500. |
| Search.GetStatus | app/api/search/route.ts:17-38 | The status is 200, 400, 502 or 500, and 200 only for a film search that succeeds. |
| Search.InvalidTypeMessage | app/api/search/route.ts:58-59 | Another type answers "Invalid media type: …". |
| Search.GetItems | app/api/search/route.ts:42-56 | A successful film search answers the parsed items in order. |
| SearchBar.InitialValue | components/header/search-bar.tsx:12-14 | The `search` parameter, or "" when absent. |
| SearchBar.HandleSearch | components/header/search-bar.tsx:18-34 | The bare path when no parameter remains, else path?query. |
| SearchBar.OnEvent | components/header/search-bar.tsx:46-59 | A search runs iff the key is Enter or the button is pressed; typing only updates the text. |
| SearchBar.SearchQuerySpec | components/header/search-bar.tsx:21-31 | "page" goes. A non-blank text sets `search` to the trimmed text, a blank one deletes it. Other parameters are kept. |
| SearchBar.SearchRoundTrip | components/header/search-bar.tsx:12-25 | The bar on the new address shows the trimmed text. |
| SearchInput.FromItem | app/api/search/route.ts:42-56 | A result item as the input reads it: title, database type, and the year when it is a number. |
| SearchInput.FindTitle | components/input/search-input.tsx:89-96 | The first suggestion with exactly the title, or none iff there is none. |
| SearchInput.DedupSpec | components/input/search-input.tsx:122-131 | An order-preserving subsequence with distinct (title, year, type). It keeps the first item of each. |
| SearchInput.OnValue | components/input/search-input.tsx:98-113 | Any typing clears suggestions and selection. A blank value fetches nothing; otherwise the request carries the type and the trimmed title. |
| SearchInput.Fire | components/input/search-input.tsx:101-103 | When the debounced request fires, the box shows loading and keeps its list, selection and title. |
| SearchInput.OnResponse | components/input/search-input.tsx:115-148 | A failure gives no suggestions and no selection. Otherwise the de-duplicated list and the first exact title match. |
| SearchInput.LoadingSpansRequest | components/input/search-input.tsx:101-146 | Loading is on from the request until its response, which ends it in every case. |
| SearchInput.Select | components/input/search-input.tsx:158-162 | Choosing sets the title, selects the item and closes the list. |
| SearchInput.SelectFirstExact | components/input/search-input.tsx:133-137 | A list with an exact title match selects it. |
| SearchInput.IconOf | components/input/search-input.tsx:39-54 | The note icon exactly for text that is no database type. |
| SearchInput.IconsDistinct | components/input/search-input.tsx:39-54 | The five types have distinct icons. |
| Sitemap.StaticEntry | app/sitemap.ts:21-30 | Priority 1.0 for the root and 0.8 for every other route; weekly iff the blog, else monthly. |
| Sitemap.RowEntry | app/sitemap.ts:44-105 | A row's address under the locale and kind, dated by the row: media weekly at 0.7, reviews monthly at 0.6, profiles weekly at 0.5. |
| Sitemap.PostEntry | app/sitemap.ts:111-129 | A post's address, monthly at 0.7, dated by the post, or by the build time when undated. |
| Sitemap.StaticEntriesAt | app/sitemap.ts:21-30 | Locale-major order: locale i's static route j is entry 6i + j. |
| Sitemap.StaticEntries | app/sitemap.ts:12-30 | One entry per locale and static route: 6 per locale. |
| Sitemap.RowEntries | app/sitemap.ts:33-108 | One entry per locale and row: the locale count times the row count. |
| Sitemap.RowEntriesAt | app/sitemap.ts:44-53 | Locale-major order: with n rows, locale i's row j is entry i * n + j. |
| Sitemap.SectionEntries | app/sitemap.ts:54-56 | A failed section adds nothing. |
| Sitemap.PostEntries | app/sitemap.ts:111-129 | One entry per locale and listed post. |
| Sitemap.PostEntriesInOrder | app/sitemap.ts:111-129 | Locale-major order: one locale's entries follow its listing, and a split locale list gives each part's entries in turn. |
| Sitemap.EverythingListed | app/sitemap.ts:21-129 | Every static route, loaded row and post appears for every locale, whatever other sections do. |
| Sitemap.FailureIsEmpty | app/sitemap.ts:80-82 | A failing section adds what an empty one adds. |
| Sitemap.EntriesUnderLocales | app/sitemap.ts:21-129 | Every address is under a configured locale. |
| Sitemap.RowUnderLocale | app/sitemap.ts:96-105 | Every row address is under a configured locale. |
| Sorting.SortBy | app/actions/user.ts:179-182 | The sorted list is a permutation of the input. |
| Sorting.SortDescStable | app/actions/user.ts:179-182 | Sorting by a descending key keeps the order of equal keys. |
| Sorting.SortDescOrdered | app/actions/user.ts:179-182 | Sorting by a descending key orders the keys from largest down. |
| StatsCarousel.Next | components/carousel/stats-carousel.tsx:61-66 | Next clamps at the last card. |
| StatsCarousel.Prev | components/carousel/stats-carousel.tsx:68-71 | Previous clamps at 0. |
| StatsCarousel.ButtonsClamp | components/carousel/stats-carousel.tsx:61-71 | The buttons never wrap, and each undoes the other away from the ends. |
| StatsCarousel.DisabledButtonsAreNoOps | components/carousel/stats-carousel.tsx:145 | A disabled button's action keeps the index. |
| StatsCarousel.Dot | components/carousel/stats-carousel.tsx:218-221 | A dot goes to its card. |
| StatsCarousel.Tick | components/carousel/stats-carousel.tsx:116-134 | Auto-play advances by one and wraps to 0; it does nothing during a touch. |
| StatsCarousel.TickCycles | components/carousel/stats-carousel.tsx:116-134 | Three ticks return to the same card. |
| StatsCarousel.TouchStart | components/carousel/stats-carousel.tsx:73-77 | A touch records its start and clears the drag. |
| StatsCarousel.Swipe | components/carousel/stats-carousel.tsx:92-110 | The card moves only when the end-time distance passes a tenth of the width: back for a positive distance, on for a negative one. A zero width never moves it, since the distance is then 0 or NaN. |
| StatsCarousel.SwipeByPixels | components/carousel/stats-carousel.tsx:79-114 | With positive widths, a drag of d pixels goes back iff 10d exceeds the width at the move and on iff -10d does, within the cards; the width at the end cancels out. Auto-play resumes. |
| StatsCarousel.DistanceByPixels | components/carousel/stats-carousel.tsx:86-97 | The end-time distance has the drag's sign and passes the threshold iff ten times the pixel drag exceeds the move-time width. |
| StatsCarousel.ZeroMoveWidthSwipesAnyDrag | components/carousel/stats-carousel.tsx:86-97 | A zero width at the move gives an infinite offset, which swipes on any non-zero drag once the width is positive; no drag gives NaN and no swipe. |
| StatsCarousel.TouchMoveAsWritten | components/carousel/stats-carousel.tsx:79-88 | As written: a start at 0 counts as no touch. |
| StatsCarousel.TouchEndAsWritten | components/carousel/stats-carousel.tsx:90-114 | As written: a start at 0 counts as no touch. Any other touch ends, with the drag cleared and auto-play resumed; a zero width moves no card. |
| StatsCarousel.LeftEdgeTouchSticks | components/carousel/stats-carousel.tsx:80-119 | A touch at x = 0, whatever the move and width, leaves the touch recorded, so auto-play stays paused. |
| StatsCarousel.TouchMove | components/carousel/stats-carousel.tsx:79-88 | The drag is the distance from the touch start as a percentage of the current width. |
| StatsCarousel.TouchEnd | components/carousel/stats-carousel.tsx:90-114 | The swipe decides the card, then the start and drag are cleared. A zero width moves no card. |
| StatsCarousel.SwipeFromAnyPosition | components/carousel/stats-carousel.tsx:79-114 | With a positive width, a touch from any x, 0 included, swipes and resumes auto-play. |
| StatsCarousel.CorrectedAgreesAwayFromEdge | components/carousel/stats-carousel.tsx:79-114 | Away from x = 0 the corrected and as-written handlers agree. |
| StatsCarousel.RunStaysValid | components/carousel/stats-carousel.tsx:37-71 | Every action sequence keeps the index within the three cards. |
| StatsCarousel.StepValid | components/carousel/stats-carousel.tsx:218-221 | Every single action keeps the index within the three cards. |
| StatsCarousel.TotalDescription | components/carousel/stats-carousel.tsx:48-51 | "allMediaTypes" iff the type is "all", else the type's display name. |
| Toast.Show | lib/toast-store.ts:21-28 | Visible with the message and the type, success by default. |
| Toast.Hide | lib/toast-store.ts:29-35 | Only the visibility clears. |
| Toast.ShowForgetsPast | lib/toast-store.ts:21-28 | The state after showing depends only on the arguments. |
| Toast.HideIdempotent | lib/toast-store.ts:29-35 | Hiding twice equals hiding once. |
| Toast.RunLastShow | hooks/useToast.ts:16-29 | After any calls, the message and type are the last show's. It is visible iff that show was the last call. |
| Toast.RunOnlyHides | hooks/useToast.ts:10-29 | Hides alone leave the initial state. |
| UserActions.GetUserProfile | app/actions/user.ts:8-43 | Null for an unknown user. Otherwise the name or "Unknown User", email "" and the optional fields. |
| UserActions.OwnReviews | app/actions/user.ts:58-72 | Exactly the user's reviews. |
| UserActions.WithMedia | app/actions/user.ts:76-112 | Each review joined with its media, type lower-cased; fails iff a media item is missing. |
| UserActions.UserReviewsPage | app/actions/user.ts:56-72 | When the query succeeds, the page holds min(pageSize, reviews left after (page−1)·pageSize) reviews, and entry k is the user's review at position (page−1)·pageSize + k in newest-first order. |
| UserActions.DefaultReviewsPage | app/actions/user.ts:45-48 | With the defaults page 1 and page size 12, the page is the user's twelve newest reviews, or all of them when fewer. |
| UserActions.GetUserReviews | app/actions/user.ts:45-134 | A page of reviews with total, ceiling page count and current page. Any failure is the fetch error. |
| UserActions.MediaGenres | app/actions/user.ts:172-177 | Each review's media genres; fails iff a media item is missing. |
| UserActions.GetUserStats | app/actions/user.ts:144-208 | On success: the review count, the number of liked reviews, the average as (sum of ratings, number of rated reviews), and at most five favourites. Any failure is the stats error. |
| UserActions.StatsCounts | app/actions/user.ts:159-177 | When the query succeeds, the distribution accounts for every rated review and each genre counts its occurrences among the reviewed items. |
| UserStats.Likes | app/actions/user.ts:154-157 | Counts liked reviews, so it is at most the review count. |
| UserStats.Ratings | app/actions/user.ts:159 | Exactly the non-null ratings. |
| UserStats.Distribution | app/actions/user.ts:166-170 | Each rating's number of occurrences. |
| UserStats.DistributionTotal | app/actions/user.ts:166-170 | The counts sum to the number of ratings. |
| UserStats.GenreCounts | app/actions/user.ts:172-177 | One entry per genre, in first-seen order, counting its occurrences. |
| UserStats.FavoriteGenres | app/actions/user.ts:179-182 | At most 5 entries, taken from the counts, with non-increasing counts. |
| UserStats.FavoritesAreTop | app/actions/user.ts:179-182 | A genre left out counts no more than any listed one. |
| UserStats.FavoriteTiesStable | app/actions/user.ts:179-182 | Ties keep first-seen order. |
| UserStats.StatsOf | app/actions/user.ts:153-182 | The review count, the liked count, the average as the rated reviews' rating sum and count, the distribution's keys, and at most 5 favourites. |
| UserStats.SumOfRatings | app/actions/user.ts:159-164 | The ratings list adds up to the sum of the rated reviews' ratings. |
| UserStats.StatsDistributionTotal | app/actions/user.ts:159-170 | The distribution sums to the number of rated reviews. |
| UserRoute.ReviewIdsOf | app/api/user/route.ts:34-36 | Exactly the ids of the user's reviews. |
| UserRoute.WithoutUser | app/api/user/route.ts:34-36 | The account goes with its reviews, its comments and the comments on its reviews. |
| UserRoute.Delete | app/api/user/route.ts:7-48 | 401 without a session. Success deletes the account with 200. A missing account or an error gives 500 "Failed to delete user". A failed sign-out changes nothing. |
| UserRoute.DeleteForgetsUser | app/api/user/route.ts:34-36 | After deletion nothing references the user, and every other account is kept. |
| UserRoute.DeleteTwiceFails | app/api/user/route.ts:40-47 | A second deletion fails and changes nothing. |
| UserRoute.SetName | app/api/user/route.ts:72-75 | Only the user's name changes. |
| UserRoute.Patch | app/api/user/route.ts:50-87 | 401 without a session. 400 unless the name is a string of at least two characters once trimmed. Otherwise the trimmed name is stored and returned. |
| UserRoute.StoredNameValid | app/api/user/route.ts:63-75 | Whenever a rename succeeds, the stored name is trimmed and at least two characters long. |
| UserRoute.PatchIdempotent | app/api/user/route.ts:72-75 | After a successful rename, sending the stored name back leaves the tables unchanged. |

## Left out

- Rendering, styling and DOM events: React, JSX and Tailwind output are presentation. Only the decisions that choose what is shown are modelled.
- Prisma, fetch, better-auth, Redis, logging, `revalidatePath` and the router: these are abstract inputs and outputs. A database error is a `fault` flag and the session is an optional id. `router.push` is the returned address.
- The Prisma schema is not part of this model. `onDelete: Cascade` on reviews and comments and the column defaults are assumed in `UserRoute.WithoutUser`, `MediaRoute.NewEntry` and `ReviewRoute.NewReview`.
- lib/errors.ts as present declares classes only. The response helpers the routes import are not part of this model. Their status codes and messages are taken from the routes' calls in `Api`.
- i18n/routing and lib/constants are not part of this model. The configured locales and the default locale are parameters of `Middleware`, `Header`, `CommentRoute` and `Sitemap`.
- Timers: the 400 ms debounce of the search input, toast auto-dismiss, the 10 s carousel interval and the import modal's close delay. Each timer firing is an explicit call.
- Floating point: average ratings are tenths of a star, and the average itself is the pair (sum, count). Bar widths, swipe ratios and percentages are integer comparisons.
- Dates: `Date` parsing and formatting are left out. The blog sort takes an abstract `stamp` and the IGDB year an abstract `yearOf`. Timestamps are integers.
- Unicode: lower-casing and whitespace are ASCII only. JavaScript string length is the character count.
- Percent-encoding of query parameters: `QueryParams.ParseSerialize` holds for plain names and values without "&" or "=".
- Blog.ParseFrontmatter: the regex's `\s*` after the opening "---" may also swallow blank lines. The model takes inline whitespace and one line break. The two differ only when blank lines are followed by a second "---" line.
- Blog.AllBlogPosts: a listing that mixes dated and undated posts, or has a date `new Date` cannot parse (its `getTime()` is NaN, which the sort treats as a tie), makes the comparator inconsistent, so section 23.1.3.30 of ECMA-262 leaves the order to the engine. The model fixes the stable insertion-sort order, and `stamp` always gives an integer, so an unparsable date is not modelled as NaN. The order is proved only when every post is dated (`AllDatedSorted`) or none is (`UndatedKeepOrder`).
- Blog.AllBlogPosts: the sitemap treats the listing as never failing, because the listing catches its own errors and returns an empty list.
- Db.NewestFirst: rows created at the same instant keep their storage order, because the model sorts stably. Prisma's `orderBy: { createdAt: 'desc' }` promises no order among ties, so the model fixes one of the orders the database may return.
- Db.Window: a negative `skip` or `take` is assumed to make the query fail, and the actions catch that failure. Prisma documents a negative `take` as paging backwards from the end. That reading is not modelled, so a negative page size takes the error path.
- HomePage.FilteredMedia: the page's two filter passes are one predicate, which gives the same list.
- UserRoute.Delete: the sign-out attempt is an ignored input, since its failure is caught and logged only.
- StatsCarousel.Swipe: touch positions and widths are whole pixels and the drag percentage is kept as an exact fraction, so floating-point rounding and sub-pixel offsets are not modelled.
- Object key order: `ratingDistribution` is a map, so JavaScript's integer-key order of `Object.entries` is not stated. UserStats.GenreCounts lists genres in first-seen order, which is `Object.entries` order only for labels that are not integer-like; JavaScript lists integer-like keys (such as a decimal genre id) first, in ascending order, and that reordering is not modelled.
- app/api/search/utils/get-igdb-token.ts and api-tokens.ts: they coordinate concurrent token refreshes, which a sequential model cannot state.
- app/api/seed/route.ts and lib/mock-data.ts: the demo data are opaque inputs of `HomePage.LoadDemo`.
- lib/import-reviews-modal-store.ts: a single boolean flag with nothing to state.
- Hooks over the DOM (`useClickOutside`, `useBodyScrollLock`, `use-media-query`, `use-share`): event plumbing only.
- Older copies superseded by the modelled files: components/media-card.tsx, components/ui/rating.tsx, components/review-form.tsx, components/header.tsx, components/search-bar.tsx, components/media-type-filter.tsx, components/user-menu.tsx and utils/mediaUtils.ts.
- The browser script under tests/verifications/playwright only drives a browser.

## Findings

| source | as written | input that shows it | evidently intended | confidence | as-written member | corrected member |
|---|---|---|---|---|---|---|
| components/carousel/stats-carousel.tsx:80,91 | `onTouchMove` and `onTouchEnd` return early when `!touchStart`, a truthiness test | a touch that starts at clientX 0: the swipe is ignored, and `touchStart` stays 0 instead of null, so auto-play (line 119) stays paused | `touchStart === null` | not executed | StatsCarousel.TouchEndAsWritten, StatsCarousel.TouchMoveAsWritten, StatsCarousel.LeftEdgeTouchSticks | StatsCarousel.TouchEnd, StatsCarousel.TouchMove, StatsCarousel.SwipeFromAnyPosition |

=== FILE: api.dfy ===
/** What an API route answers: a status code and a message, error or success. */
module Api {

  datatype Reply = Reply(status: nat, message: string)

  function Ok(message: string): Reply { Reply(200, message) }
  function Created(message: string): Reply { Reply(201, message) }
  function Invalid(message: string): Reply { Reply(400, message) }
  function Unauthorized(message: string): Reply { Reply(401, message) }
  function NotFound(message: string): Reply { Reply(404, message) }
  function Conflict(message: string): Reply { Reply(409, message) }
  function ServerError(message: string): Reply { Reply(500, message) }

  const InternalError: string := "Internal server error"

  predicate Success(r: Reply) { 200 <= r.status < 300 }
}

=== FILE: app_store.dfy ===
/**
 The client-side application store: theme, signed-in user, media items,
 reviews and a few UI fields, with transition functions for its actions and
 the subset written to local storage. Dates are abstract integer stamps,
 average ratings are tenths of a star and review ratings half-units.
 */
module AppStore {
  import opened Optional

  datatype MediaType = Film | Series | Game | Book | Music

  /** The lower-case names the client uses. */
  function TypeName(t: MediaType): string {
    match t
    case Film => "film"
    case Series => "series"
    case Game => "game"
    case Book => "book"
    case Music => "music"
  }

  /** The upper-case names of the database enumeration. */
  function EnumName(t: MediaType): string {
    match t
    case Film => "FILM"
    case Series => "SERIES"
    case Game => "GAME"
    case Book => "BOOK"
    case Music => "MUSIC"
  }

  /** Reads a lower-case type name back. */
  function ParseType(s: string): (r: Option<MediaType>)
    ensures r.Some? ==> TypeName(r.value) == s
  {
    if s == "film" then Some(Film)
    else if s == "series" then Some(Series)
    else if s == "game" then Some(Game)
    else if s == "book" then Some(Book)
    else if s == "music" then Some(Music)
    else None
  }

  /** Every type name reads back as its type. */
  lemma ParseTypeName(t: MediaType)
    ensures ParseType(TypeName(t)) == Some(t)
  {
  }

  datatype MediaItem = MediaItem(
    id: string,
    title: string,
    mtype: MediaType,
    year: Option<int>,
    director: Option<string>,
    author: Option<string>,
    artist: Option<string>,
    genre: seq<string>,
    poster: Option<string>,
    cover: Option<string>,
    description: string,
    averageRating: int,
    totalReviews: int)

  datatype Review = Review(
    id: string,
    mediaId: string,
    userId: string,
    rating: int,
    review: Option<string>,
    createdAt: int,
    updatedAt: int)

  /** `Partial<Review>`: each field present or not. */
  datatype ReviewUpdate = ReviewUpdate(
    id: Option<string>,
    mediaId: Option<string>,
    userId: Option<string>,
    rating: Option<int>,
    review: Option<Option<string>>,
    createdAt: Option<int>,
    updatedAt: Option<int>)

  datatype User = User(
    id: string,
    name: string,
    email: string,
    image: Option<string>,
    bio: Option<string>,
    joinedAt: int)

  datatype Theme = Light | Dark | System

  /** A type filter: every type, or one. */
  datatype TypeFilter = AllTypes | OnlyType(t: MediaType)

  datatype AppState = AppState(
    theme: Theme,
    user: Option<User>,
    mediaItems: seq<MediaItem>,
    reviews: seq<Review>,
    selectedMediaType: TypeFilter,
    searchQuery: string,
    isAddReviewModalOpen: bool)

  const Initial: AppState :=
    AppState(System, None, [], [], AllTypes, "", false)

  // ---------------------------------------------------------------- setters

  function SetTheme(s: AppState, t: Theme): AppState { s.(theme := t) }
  function SetUser(s: AppState, u: Option<User>): AppState { s.(user := u) }
  function SetMediaItems(s: AppState, items: seq<MediaItem>): AppState { s.(mediaItems := items) }
  function SetReviews(s: AppState, rs: seq<Review>): AppState { s.(reviews := rs) }
  function SetSelectedMediaType(s: AppState, f: TypeFilter): AppState { s.(selectedMediaType := f) }
  function SetSearchQuery(s: AppState, q: string): AppState { s.(searchQuery := q) }
  function SetIsAddReviewModalOpen(s: AppState, b: bool): AppState { s.(isAddReviewModalOpen := b) }

  /** `addMediaItem`: the item goes last, nothing else changes. */
  function AddMediaItem(s: AppState, item: MediaItem): (r: AppState)
    ensures |r.mediaItems| == |s.mediaItems| + 1 && r.mediaItems[|s.mediaItems|] == item
    ensures r.mediaItems[..|s.mediaItems|] == s.mediaItems
    ensures r.(mediaItems := s.mediaItems) == s
  {
    s.(mediaItems := s.mediaItems + [item])
  }

  /** `addReview`: the review goes last, nothing else changes. */
  function AddReview(s: AppState, rv: Review): (r: AppState)
    ensures |r.reviews| == |s.reviews| + 1 && r.reviews[|s.reviews|] == rv
    ensures r.reviews[..|s.reviews|] == s.reviews
    ensures r.(reviews := s.reviews) == s
  {
    s.(reviews := s.reviews + [rv])
  }

  /** `{ ...review, ...updates }`: the fields present in the update win. */
  function Merge(rv: Review, u: ReviewUpdate): Review {
    Review(
      u.id.OrElse(rv.id),
      u.mediaId.OrElse(rv.mediaId),
      u.userId.OrElse(rv.userId),
      u.rating.OrElse(rv.rating),
      u.review.OrElse(rv.review),
      u.createdAt.OrElse(rv.createdAt),
      u.updatedAt.OrElse(rv.updatedAt))
  }

  /** `updateReview`: every review with the id takes the update; the others and the length stay. */
  function UpdateReview(s: AppState, reviewId: string, u: ReviewUpdate): (r: AppState)
    ensures |r.reviews| == |s.reviews|
    ensures forall k :: 0 <= k < |s.reviews| && s.reviews[k].id != reviewId ==> r.reviews[k] == s.reviews[k]
    ensures forall k :: 0 <= k < |s.reviews| && s.reviews[k].id == reviewId ==> r.reviews[k] == Merge(s.reviews[k], u)
    ensures r.(reviews := s.reviews) == s
  {
    s.(reviews := seq(|s.reviews|, k requires 0 <= k < |s.reviews| =>
      if s.reviews[k].id == reviewId then Merge(s.reviews[k], u) else s.reviews[k]))
  }

  /** Applying the same update twice is applying it once, when it does not rename the review. */
  lemma UpdateReviewIdempotent(s: AppState, reviewId: string, u: ReviewUpdate)
    requires u.id.None? || u.id == Some(reviewId)
    ensures UpdateReview(UpdateReview(s, reviewId, u), reviewId, u) == UpdateReview(s, reviewId, u)
  {
    var once := UpdateReview(s, reviewId, u);
    var twice := UpdateReview(once, reviewId, u);
    assert twice.reviews == once.reviews;
  }

  function WithoutId(rs: seq<Review>, reviewId: string): (r: seq<Review>)
    ensures forall k :: 0 <= k < |r| ==> r[k].id != reviewId
    ensures forall x :: x in r <==> x in rs && x.id != reviewId
    decreases |rs|
  {
    if rs == [] then []
    else (if rs[0].id != reviewId then [rs[0]] else []) + WithoutId(rs[1..], reviewId)
  }

  /** `deleteReview`: every review with the id goes, the rest keep their order. */
  function DeleteReview(s: AppState, reviewId: string): (r: AppState)
    ensures r.reviews == WithoutId(s.reviews, reviewId)
    ensures r.(reviews := s.reviews) == s
  {
    s.(reviews := WithoutId(s.reviews, reviewId))
  }

  lemma {:induction false} WithoutAbsentId(rs: seq<Review>, reviewId: string)
    requires forall k :: 0 <= k < |rs| ==> rs[k].id != reviewId
    ensures WithoutId(rs, reviewId) == rs
    decreases |rs|
  {
    if rs != [] {
      WithoutAbsentId(rs[1..], reviewId);
    }
  }

  lemma {:induction false} WithoutIdAppend(a: seq<Review>, b: seq<Review>, reviewId: string)
    ensures WithoutId(a + b, reviewId) == WithoutId(a, reviewId) + WithoutId(b, reviewId)
    decreases |a|
  {
    if a == [] {
      assert a + b == b;
    } else {
      var ab := a + b;
      assert ab[0] == a[0] && ab[1..] == a[1..] + b;
      WithoutIdAppend(a[1..], b, reviewId);
      calc {
        WithoutId(ab, reviewId);
        (if a[0].id != reviewId then [a[0]] else []) + WithoutId(a[1..] + b, reviewId);
        (if a[0].id != reviewId then [a[0]] else []) + (WithoutId(a[1..], reviewId) + WithoutId(b, reviewId));
      }
    }
  }

  /** Deleting a review just added under a fresh id restores the state. */
  lemma DeleteUndoesAdd(s: AppState, rv: Review)
    requires forall k :: 0 <= k < |s.reviews| ==> s.reviews[k].id != rv.id
    ensures DeleteReview(AddReview(s, rv), rv.id) == s
  {
    WithoutIdAppend(s.reviews, [rv], rv.id);
    WithoutAbsentId(s.reviews, rv.id);
  }

  /** Deleting twice is deleting once. */
  lemma {:induction false} DeleteReviewIdempotent(s: AppState, reviewId: string)
    ensures DeleteReview(DeleteReview(s, reviewId), reviewId) == DeleteReview(s, reviewId)
  {
    WithoutAbsentId(WithoutId(s.reviews, reviewId), reviewId);
  }

  // ---------------------------------------------------------------- persistence

  datatype Persisted = Persisted(theme: Theme, user: Option<User>, reviews: seq<Review>)

  /** What is written to local storage: theme, user and reviews. */
  function Persist(s: AppState): Persisted {
    Persisted(s.theme, s.user, s.reviews)
  }

  /** Restoring the stored subset over the initial state. */
  function Rehydrate(p: Persisted): AppState {
    Initial.(theme := p.theme, user := p.user, reviews := p.reviews)
  }

  /** Persisting a restored state gives back what was stored. */
  lemma PersistRehydrate(p: Persisted)
    ensures Persist(Rehydrate(p)) == p
  {
  }

  /**
   A restored state differs from the state it was saved from only in the
   fields that are not persisted: media items, type filter, query and modal flag.
   */
  lemma RehydrateKeepsPersisted(s: AppState)
    ensures var r := Rehydrate(Persist(s));
      r.theme == s.theme && r.user == s.user && r.reviews == s.reviews
      && r.mediaItems == [] && r.selectedMediaType == AllTypes && r.searchQuery == []
      && !r.isAddReviewModalOpen
  {
  }

  /** The UI-only actions never change what is persisted. */
  lemma UiActionsNotPersisted(s: AppState, items: seq<MediaItem>, item: MediaItem, f: TypeFilter, q: string, b: bool)
    ensures Persist(SetMediaItems(s, items)) == Persist(s)
    ensures Persist(AddMediaItem(s, item)) == Persist(s)
    ensures Persist(SetSelectedMediaType(s, f)) == Persist(s)
    ensures Persist(SetSearchQuery(s, q)) == Persist(s)
    ensures Persist(SetIsAddReviewModalOpen(s, b)) == Persist(s)
  {
  }
}

=== FILE: blog.dfy ===
/**
 The markdown blog: the front-matter reader, the defaults applied to a post's
 fields, the directory listing with its slugs, the newest-first order and the
 category filter. The file system is an input: a directory listing whose
 entries say whether they are directories and whether reading them fails.
 Dates are compared through an abstract `stamp` giving each date text its time.
 */
module Blog {
  import opened Text
  import opened Optional
  import opened Seqs
  import opened Sorting

  // ---------------------------------------------------------------- front matter

  /** Whitespace other than a line break. */
  predicate IsInlineSpace(c: char) {
    IsSpace(c) && c != '\n'
  }

  /** The first index at or after `i` that is not inline whitespace. */
  function SkipInline(s: string, i: nat): (j: nat)
    requires i <= |s|
    ensures i <= j <= |s|
    ensures forall k :: i <= k < j ==> IsInlineSpace(s[k])
    ensures j < |s| ==> !IsInlineSpace(s[j])
    decreases |s| - i
  {
    if i == |s| || !IsInlineSpace(s[i]) then i else SkipInline(s, i + 1)
  }

  /**
   A delimiter line starting at `i`: three dashes, inline whitespace and a
   line break. Gives the index just after the line break.
   */
  function DelimiterEnd(s: string, i: nat): (r: Option<nat>)
    requires i <= |s|
    ensures r.Some? ==> At(s, "---", i) && i + 3 < r.value <= |s| && s[r.value - 1] == '\n'
  {
    if At(s, "---", i) then
      var j := SkipInline(s, i + 3);
      if j < |s| && s[j] == '\n' then Some(j + 1) else None
    else None
  }

  /** A line break at `j` followed by a delimiter line. */
  predicate ClosesAt(s: string, j: nat) {
    j < |s| && s[j] == '\n' && DelimiterEnd(s, j + 1).Some?
  }

  /** The first closing delimiter at or after `from`: the index of its leading line break. */
  function FindClose(s: string, from: nat): (r: Option<nat>)
    requires from <= |s|
    ensures r.Some? ==> from <= r.value && ClosesAt(s, r.value)
    ensures forall j :: from <= j && (r.None? || j < r.value) ==> !ClosesAt(s, j)
    decreases |s| - from
  {
    if from == |s| then None
    else if ClosesAt(s, from) then Some(from)
    else FindClose(s, from + 1)
  }

  /**
   The opening delimiter, the front matter up to the first closing delimiter,
   and the text after it; nothing when either delimiter is missing.
   */
  function SplitBlock(s: string): (r: Option<(string, string)>)
    ensures !StartsWith(s, "---") ==> r.None?
  {
    match DelimiterEnd(s, 0)
    case None => None
    case Some(b) =>
      match FindClose(s, b)
      case None => None
      case Some(c) => Some((s[b..c], s[DelimiterEnd(s, c + 1).value..]))
  }

  predicate IsQuote(c: char) {
    c == '"' || c == '\''
  }

  /** Drops at most one quote character from the front and one from the back. */
  function StripQuotes(v: string): (r: string)
    ensures var d := if v != [] && IsQuote(v[0]) then 1 else 0;
      d + |r| <= |v| <= d + |r| + 1 && r == v[d..d + |r|]
    ensures (v == [] || (!IsQuote(v[0]) && !IsQuote(v[|v| - 1]))) ==> r == v
  {
    var a := if v != [] && IsQuote(v[0]) then v[1..] else v;
    if a != [] && IsQuote(a[|a| - 1]) then a[..|a| - 1] else a
  }

  /**
   A front-matter line: when its first colon is past the first character, the
   trimmed text before it is the key and the trimmed, unquoted text after it the value.
   */
  function ParseLine(line: string): (r: Option<(string, string)>)
    ensures r.Some? <==> ':' in line && line[0] != ':'
    ensures r.Some? ==> var i := IndexOfChar(line, ':');
      r.value.0 == Trim(line[..i]) && r.value.1 == StripQuotes(Trim(line[i + 1..]))
  {
    if ':' in line && IndexOfChar(line, ':') > 0 then
      var i := IndexOfChar(line, ':');
      Some((Trim(line[..i]), StripQuotes(Trim(line[i + 1..]))))
    else None
  }

  /** The pairs of the lines that carry one, in line order; the other lines are ignored. */
  function ParseLines(lines: seq<string>): (r: seq<(string, string)>)
    ensures |r| <= |lines|
    ensures forall kv :: kv in r <==> exists k :: 0 <= k < |lines| && ParseLine(lines[k]) == Some(kv)
  {
    Present(lines, ParseLine)
  }

  /**
   The value stored under a key after writing the pairs in order into one
   record: that of the last pair with the key.
   */
  function MetaGet(m: seq<(string, string)>, key: string): (r: Option<string>)
    ensures r.None? <==> forall i :: 0 <= i < |m| ==> m[i].0 != key
    ensures r.Some? ==>
      (exists i :: 0 <= i < |m| && m[i] == (key, r.value) && forall j :: i < j < |m| ==> m[j].0 != key)
  {
    var i := LastWithKey(m, key);
    if i < 0 then None
    else
      assert m[i] == (key, m[i].1);
      Some(m[i].1)
  }

  /** The index of the last pair with the key, or -1 when there is none. */
  function LastWithKey(m: seq<(string, string)>, key: string): (i: int)
    ensures -1 <= i < |m|
    ensures i >= 0 ==> m[i].0 == key
    ensures forall j :: i < j < |m| ==> m[j].0 != key
    decreases |m|
  {
    if m == [] then -1
    else if m[|m| - 1].0 == key then |m| - 1
    else LastWithKey(m[..|m| - 1], key)
  }

  /** A later pair overwrites an earlier one with the same key and leaves other keys alone. */
  lemma MetaGetAppend(m: seq<(string, string)>, k: string, v: string, key: string)
    ensures MetaGet(m + [(k, v)], key) == if k == key then Some(v) else MetaGet(m, key)
  {
    assert (m + [(k, v)])[..|m|] == m;
  }

  datatype Frontmatter = Frontmatter(metadata: seq<(string, string)>, content: string)

  /**
   `parseFrontmatter`: without a complete delimited block the metadata is empty
   and the text comes back as it was, untrimmed; otherwise the block's lines
   give the metadata and the text after the block comes back trimmed.
   */
  function ParseFrontmatter(text: string): (r: Frontmatter)
    ensures !StartsWith(text, "---") ==> r == Frontmatter([], text)
    ensures r.metadata != [] ==> SplitBlock(text).Some?
  {
    match SplitBlock(text)
    case None => Frontmatter([], text)
    case Some((front, rest)) => Frontmatter(ParseLines(Split(front, '\n')), Trim(rest))
  }

  /** No line of the front matter starts with a dash, so none of them is a delimiter. */
  predicate NoDashLine(front: string) {
    forall i :: 0 <= i < |front| && (i == 0 || front[i - 1] == '\n') ==> front[i] != '-'
  }

  /** A file with a front-matter block. */
  function Document(front: string, body: string): string {
    "---\n" + front + "\n---\n" + body
  }

  lemma BlockOfDocument(front: string, body: string)
    requires NoDashLine(front)
    ensures SplitBlock(Document(front, body)) == Some((front, body))
  {
    var s := Document(front, body);
    var n := |front|;
    DocumentDelimiters(front, body);
    forall j | 4 <= j < n + 4
      ensures !ClosesAt(s, j)
    {
      NoCloseInFront(front, body, j);
    }
    assert FindClose(s, 4) == Some(n + 4) by {
      FindCloseFirst(s, 4, n + 4);
    }
    assert s[4..n + 4] == front;
    assert s[n + 9..] == body;
  }

  /** The opening line ends at 4 and the closing line after the front matter ends five characters later. */
  lemma DocumentDelimiters(front: string, body: string)
    ensures var s := Document(front, body);
      DelimiterEnd(s, 0) == Some(4) && ClosesAt(s, |front| + 4) && DelimiterEnd(s, |front| + 5) == Some(|front| + 9)
  {
    var s := Document(front, body);
    var n := |front|;
    assert s[..3] == "---" && s[3] == '\n';
    assert SkipInline(s, 3) == 3;
    assert s[n + 4] == '\n' && s[n + 5..n + 8] == "---" && s[n + 8] == '\n';
    assert SkipInline(s, n + 8) == n + 8;
  }

  /** Inside the front matter no line break is followed by a delimiter. */
  lemma NoCloseInFront(front: string, body: string, j: int)
    requires NoDashLine(front) && 4 <= j < |front| + 4
    ensures !ClosesAt(Document(front, body), j)
  {
    var s := Document(front, body);
    var n := |front|;
    if s[j] == '\n' {
      assert front[j - 4] == '\n';
      if j - 3 < n {
        assert s[j + 1] == front[j - 3];
      } else {
        assert s[j + 1] == '\n';
      }
      assert !At(s, "---", j + 1);
    }
  }

  /** The search for a closing delimiter stops at the first one. */
  lemma {:induction false} FindCloseFirst(s: string, from: nat, c: nat)
    requires from <= c && ClosesAt(s, c)
    requires forall j :: from <= j < c ==> !ClosesAt(s, j)
    ensures FindClose(s, from) == Some(c)
    decreases c - from
  {
    if from < c {
      FindCloseFirst(s, from + 1, c);
    }
  }

  /**
   Reading a file made of a front-matter block and a body gives the pairs of
   the block's lines and the trimmed body.
   */
  lemma ParseDocument(front: string, body: string)
    requires NoDashLine(front)
    ensures ParseFrontmatter(Document(front, body))
         == Frontmatter(ParseLines(Split(front, '\n')), Trim(body))
  {
    BlockOfDocument(front, body);
  }

  /** A line `key: value` with a plain key and an unquoted, trimmed value reads back as the pair. */
  lemma ParseLineOfPair(key: string, value: string)
    requires key != [] && ':' !in key && Trimmed(key)
    requires Trimmed(value)
    requires value == [] || (!IsQuote(value[0]) && !IsQuote(value[|value| - 1]))
    ensures ParseLine(key + ": " + value) == Some((key, value))
  {
    var rest := " " + value;
    TrimmedFixed(key);
    ColonSpace(key, value);
    SplitAtColon(key, rest);
    TrimLeadingSpace(value);
    assert Trim(rest) == value;
    assert StripQuotes(value) == value;
  }

  lemma ColonSpace(key: string, value: string)
    ensures key + ": " + value == key + [':'] + (" " + value)
  {
    assert key + ": " == key + [':'] + " ";
  }

  lemma SplitAtColon(key: string, rest: string)
    requires key != [] && ':' !in key
    ensures ParseLine(key + [':'] + rest) == Some((Trim(key), StripQuotes(Trim(rest))))
  {
    var line := key + [':'] + rest;
    IndexOfCharAfter(key, ':', rest);
    assert line[..|key|] == key;
    assert line[|key| + 1..] == rest;
  }

  lemma TrimLeadingSpace(v: string)
    requires Trimmed(v)
    ensures Trim(" " + v) == v
  {
    TrimStartSpace(v);
    TrimmedFixed(v);
    assert TrimStart(v) == v by {
      if v != [] {
        assert !IsSpace(v[0]);
      }
    }
    TrimUnfold(" " + v);
    TrimUnfold(v);
  }

  lemma TrimStartSpace(v: string)
    ensures TrimStart(" " + v) == TrimStart(v)
  {
    var s := " " + v;
    assert IsSpace(s[0]) && s[1..] == v;
  }

  lemma TrimUnfold(s: string)
    ensures Trim(s) == TrimEnd(TrimStart(s))
  {
  }

  // ---------------------------------------------------------------- posts

  datatype Post = Post(slug: string, title: string, date: string, category: string, description: string, content: string)

  datatype PostMeta = PostMeta(slug: string, title: string, date: string, category: string, description: string)

  /** The fields every post takes from its metadata, with their defaults. */
  function MetaOf(slug: string, category: string, m: seq<(string, string)>): (r: PostMeta)
    ensures r.slug == slug
    ensures r.title != []
    ensures category != [] ==> r.category != []
    ensures Given(MetaGet(m, "title")) ==> r.title == MetaGet(m, "title").value
    ensures !Given(MetaGet(m, "title")) ==> r.title == "Untitled"
    ensures Given(MetaGet(m, "date")) ==> r.date == MetaGet(m, "date").value
    ensures !Given(MetaGet(m, "date")) ==> r.date == ""
    ensures Given(MetaGet(m, "category")) ==> r.category == MetaGet(m, "category").value
    ensures !Given(MetaGet(m, "category")) ==> r.category == category
    ensures Given(MetaGet(m, "description")) ==> r.description == MetaGet(m, "description").value
    ensures !Given(MetaGet(m, "description")) ==> r.description == ""
  {
    PostMeta(slug,
      TextOr(MetaGet(m, "title"), "Untitled"),
      TextOr(MetaGet(m, "date"), ""),
      TextOr(MetaGet(m, "category"), category),
      TextOr(MetaGet(m, "description"), ""))
  }

  /**
   `getBlogPost`: the file's text, or nothing when it cannot be read; the slug
   is kept and the fields default as in the listing.
   */
  function GetBlogPost(category: string, slug: string, file: Option<string>): (r: Option<Post>)
    ensures r.None? <==> file.None?
    ensures r.Some? ==> r.value.slug == slug && r.value.content == ParseFrontmatter(file.value).content
  {
    match file
    case None => None
    case Some(text) =>
      var f := ParseFrontmatter(text);
      var m := MetaOf(slug, category, f.metadata);
      Some(Post(slug, m.title, m.date, m.category, m.description, f.content))
  }

  /** A post file without front matter gets every default and its whole text as content. */
  lemma PostWithoutFrontmatter(category: string, slug: string, text: string)
    requires !StartsWith(text, "---")
    ensures GetBlogPost(category, slug, Some(text))
         == Some(Post(slug, "Untitled", "", category, "", text))
  {
  }

  // ---------------------------------------------------------------- listing

  /** A directory entry of a category: its name, and its text unless reading it fails. */
  datatype BlogFile = BlogFile(name: string, text: Option<string>)

  /**
   An entry of the locale directory: `stat` is nothing when it fails and else
   whether the entry is a directory; `files` is nothing when listing it fails.
   */
  datatype Entry = Entry(name: string, stat: Option<bool>, files: Option<seq<BlogFile>>)

  predicate IsMarkdown(f: BlogFile) {
    EndsWith(f.name, ".md")
  }

  /** `file.replace('.md', '')`: the first ".md" goes. */
  function SlugOf(name: string): string {
    ReplaceFirst(name, ".md", "")
  }

  /** The listed post of one file of a category. */
  function ListedPost(category: string, f: BlogFile): PostMeta
    requires f.text.Some?
  {
    MetaOf(category + "/" + SlugOf(f.name), category, ParseFrontmatter(f.text.value).metadata)
  }

  /** The readable markdown files of a category, as posts, in directory order. */
  function FilePosts(category: string, files: seq<BlogFile>): (r: seq<PostMeta>)
    ensures |r| <= |files|
    ensures forall p :: p in r <==>
      exists k :: 0 <= k < |files| && IsMarkdown(files[k]) && files[k].text.Some?
        && p == ListedPost(category, files[k])
  {
    Present(files, (f: BlogFile) => if IsMarkdown(f) && f.text.Some? then Some(ListedPost(category, f)) else None)
  }

  /**
   The listing keeps directory order: one file gives its post when it is a
   readable markdown file and nothing otherwise, and the posts of a split
   listing are those of each part, one after the other.
   */
  lemma FilePostsInOrder(category: string, f: BlogFile, a: seq<BlogFile>, b: seq<BlogFile>)
    ensures FilePosts(category, [f]) == if IsMarkdown(f) && f.text.Some? then [ListedPost(category, f)] else []
    ensures FilePosts(category, a + b) == FilePosts(category, a) + FilePosts(category, b)
  {
    PresentAppend(a, b, (f: BlogFile) => if IsMarkdown(f) && f.text.Some? then Some(ListedPost(category, f)) else None);
  }

  /** A category's posts: none when it is not a directory or cannot be read. */
  function CategoryPosts(e: Entry): seq<PostMeta> {
    if e.stat == Some(true) && e.files.Some? then FilePosts(e.name, e.files.value) else []
  }

  /** The comparator of the listing: newest first, and a tie when either date is empty. */
  function NewestFirst(stamp: string -> int): (PostMeta, PostMeta) -> bool {
    (a: PostMeta, b: PostMeta) => a.date == [] || b.date == [] || stamp(b.date) - stamp(a.date) <= 0
  }

  /**
   The comparator is not a consistent one in the sense of ECMA-262: an undated
   post ties with two dated posts that do not tie with each other, so for a
   listing that mixes dated and undated posts the engine may pick any order.
   The model fixes the order of the stable insertion sort.
   */
  lemma MixedDatesInconsistent(stamp: string -> int, a: PostMeta, u: PostMeta, c: PostMeta)
    requires a.date != [] && c.date != [] && u.date == []
    requires stamp(a.date) < stamp(c.date)
    ensures NewestFirst(stamp)(a, u) && NewestFirst(stamp)(u, a)
    ensures NewestFirst(stamp)(u, c) && NewestFirst(stamp)(c, u)
    ensures !NewestFirst(stamp)(a, c)
  {
  }

  /** The posts of every category, in directory order, before sorting. */
  function Unsorted(entries: seq<Entry>): seq<PostMeta> {
    Flatten(seq(|entries|, k requires 0 <= k < |entries| => CategoryPosts(entries[k])))
  }

  /**
   `getAllBlogPosts`: the posts of every category, sorted newest first; an
   unreadable locale directory gives no posts.
   */
  function AllBlogPosts(root: Option<seq<Entry>>, stamp: string -> int): (r: seq<PostMeta>)
    ensures root.None? ==> r == []
    ensures root.Some? ==> multiset(r) == multiset(Unsorted(root.value))
  {
    if root.None? then [] else SortBy(Unsorted(root.value), NewestFirst(stamp))
  }

  /**
   Every listed post comes from a readable markdown file of a category
   directory, and its slug is the category, a slash and the file name
   without its first ".md".
   */
  lemma ListedFromMarkdown(entries: seq<Entry>, stamp: string -> int, p: PostMeta)
    ensures p in AllBlogPosts(Some(entries), stamp) ==> exists k, i ::
      && 0 <= k < |entries| && entries[k].stat == Some(true) && entries[k].files.Some?
      && 0 <= i < |entries[k].files.value|
      && IsMarkdown(entries[k].files.value[i]) && entries[k].files.value[i].text.Some?
      && p.slug == entries[k].name + "/" + SlugOf(entries[k].files.value[i].name)
  {
    var all := AllBlogPosts(Some(entries), stamp);
    if p in all {
      assert p in multiset(all);
      assert p in Unsorted(entries);
      var parts := seq(|entries|, k requires 0 <= k < |entries| => CategoryPosts(entries[k]));
      var k :| 0 <= k < |parts| && p in parts[k];
      assert p in CategoryPosts(entries[k]);
      var e := entries[k];
      var i :| 0 <= i < |e.files.value| && IsMarkdown(e.files.value[i]) && e.files.value[i].text.Some?
        && p == ListedPost(e.name, e.files.value[i]);
    }
  }

  /** No ".md" starts inside the name when the name holds none. */
  lemma NoEarlierMd(base: string, j: int)
    requires !Contains(base, ".md") && 0 <= j < |base|
    ensures !At(base + ".md", ".md", j)
  {
    var s := base + ".md";
    var n := |base|;
    if j + 3 <= n {
      if At(s, ".md", j) {
        assert base[j..j + 3] == s[j..j + 3];
        ContainsAt(base, ".md", j);
      }
    } else {
      assert s[j..j + 3][n - j] == s[n] == '.';
      assert ".md"[n - j] != '.';
    }
  }

  /** A file name with one ".md", at its end, gives the name without it as slug. */
  lemma SlugOfPlainName(base: string)
    requires !Contains(base, ".md")
    ensures SlugOf(base + ".md") == base
  {
    var s := base + ".md";
    var n := |base|;
    assert At(s, ".md", n) by { assert s[n..n + 3] == ".md"; }
    forall j | 0 <= j < n
      ensures !At(s, ".md", j)
    {
      NoEarlierMd(base, j);
    }
    assert IndexOf(s, ".md") == n;
    assert s[..n] == base && s[n + 3..] == [];
  }

  /**
   When every post has a date, the listing holds the same posts with dates
   from newest to oldest.
   */
  lemma AllDatedSorted(entries: seq<Entry>, stamp: string -> int)
    requires forall p :: p in Unsorted(entries) ==> p.date != []
    ensures var r := AllBlogPosts(Some(entries), stamp);
      forall i, j :: 0 <= i < j < |r| ==> stamp(r[i].date) >= stamp(r[j].date)
  {
    var xs := Unsorted(entries);
    var key := (p: PostMeta) => stamp(p.date);
    SortByAgree(xs, NewestFirst(stamp), Desc(key));
    SortDescOrdered(xs, key);
  }

  /** When no post has a date, every comparison is a tie and the listing keeps directory order. */
  lemma UndatedKeepOrder(entries: seq<Entry>, stamp: string -> int)
    requires forall p :: p in Unsorted(entries) ==> p.date == []
    ensures AllBlogPosts(Some(entries), stamp) == Unsorted(entries)
  {
    SortByAllBefore(Unsorted(entries), NewestFirst(stamp));
  }

  /** `getBlogPostsByCategory`: "all" keeps the list, any other name keeps the posts of that category. */
  function ByCategory(posts: seq<PostMeta>, category: string): (r: seq<PostMeta>)
    ensures category == "all" ==> r == posts
    ensures category != "all" ==>
      (forall p :: p in r <==> p in posts && p.category == category)
      && forall p :: multiset(r)[p] == if p.category == category then multiset(posts)[p] else 0
  {
    if category == "all" then posts else Filter(posts, (p: PostMeta) => p.category == category)
  }

  /** The filtered posts keep their listing order. */
  lemma ByCategoryInOrder(posts: seq<PostMeta>, category: string)
    ensures Subseq(ByCategory(posts, category), posts)
  {
    if category == "all" {
      SubseqRefl(posts);
    } else {
      FilterSubseq(posts, (p: PostMeta) => p.category == category);
    }
  }

  /**
   `getBlogCategories`: the names of the directory entries; a failing `stat`
   on any entry, or an unreadable locale directory, gives none at all.
   */
  function Categories(root: Option<seq<Entry>>): (r: seq<string>)
    ensures root.None? ==> r == []
    ensures root.Some? && (exists k :: 0 <= k < |root.value| && root.value[k].stat.None?) ==> r == []
    ensures root.Some? && (forall k :: 0 <= k < |root.value| ==> root.value[k].stat.Some?) ==>
      forall c :: c in r <==> exists k :: 0 <= k < |root.value| && root.value[k].stat == Some(true) && root.value[k].name == c
  {
    if root.None? then [] else DirNames(root.value).OrElse([])
  }

  function DirNames(es: seq<Entry>): (r: Option<seq<string>>)
    ensures r.None? <==> exists k :: 0 <= k < |es| && es[k].stat.None?
    ensures r.Some? ==> forall c :: c in r.value <==> exists k :: 0 <= k < |es| && es[k].stat == Some(true) && es[k].name == c
    decreases |es|
  {
    if es == [] then Some([])
    else
      assert forall k :: 0 < k < |es| ==> es[k] == es[1..][k - 1];
      match es[0].stat
      case None => None
      case Some(isDir) =>
        match DirNames(es[1..])
        case None => None
        case Some(rest) => Some(if isDir then [es[0].name] + rest else rest)
  }
}

=== FILE: class_names.dfy ===
/**
 `cn`: joins class values into one `class` attribute and resolves basic
 Tailwind conflicts, so that of two classes in the same group only the later
 survives, at the place where the group first appeared.
 */
module ClassNames {
  import opened Text
  import opened Optional

  /** The argument types `cn` accepts; an object is given as its entries, each with the truthiness of its value. */
  datatype ClassValue =
    | Str(s: string)
    | Num(n: int)
    | Bool(b: bool)
    | Undef
    | Null
    | Arr(items: seq<ClassValue>)
    | Obj(entries: seq<(string, bool)>)

  /** JavaScript truthiness of an argument. */
  predicate Truthy(v: ClassValue) {
    match v
    case Str(s) => s != []
    case Num(n) => n != 0
    case Bool(b) => b
    case Undef => false
    case Null => false
    case Arr(_) => true
    case Obj(_) => true
  }

  // ---------------------------------------------------------------- groups

  /** The groups matched by a prefix, in the order they are tried. */
  const PrefixGroups: seq<string> :=
    ["p", "px", "py", "pt", "pr", "pb", "pl", "m", "mx", "my", "mt", "mr", "mb", "ml", "w", "h"]

  const TextSizes: seq<string> :=
    ["xs", "sm", "base", "lg", "xl", "2xl", "3xl", "4xl", "5xl", "6xl", "7xl", "8xl", "9xl"]

  const FontWeights: seq<string> :=
    ["thin", "extralight", "light", "normal", "medium", "semibold", "bold", "extrabold", "black"]

  const Displays: seq<string> :=
    ["block", "inline-block", "inline", "flex", "inline-flex", "table", "inline-table", "table-caption",
     "table-cell", "table-column", "table-column-group", "table-footer-group", "table-header-group",
     "table-row-group", "table-row", "flow-root", "grid", "inline-grid", "contents", "list-item", "hidden"]

  function FirstPrefixGroup(cls: string, groups: seq<string>): (r: Option<string>)
    ensures r.Some? ==> r.value in groups && StartsWith(cls, r.value + "-")
    ensures r.None? ==> forall g :: g in groups ==> !StartsWith(cls, g + "-")
  {
    if groups == [] then None
    else if StartsWith(cls, groups[0] + "-") then Some(groups[0])
    else FirstPrefixGroup(cls, groups[1..])
  }

  /** The first conflict group whose pattern the class matches. */
  function GroupOf(cls: string): (r: Option<string>)
    ensures r.Some? ==> r.value in PrefixGroups + ["text", "font", "block"]
    ensures r.None? ==> (forall g :: g in PrefixGroups ==> !StartsWith(cls, g + "-")) && cls !in Displays
  {
    match FirstPrefixGroup(cls, PrefixGroups)
    case Some(g) => Some(g)
    case None =>
      if exists k :: 0 <= k < |TextSizes| && cls == "text-" + TextSizes[k] then Some("text")
      else if exists k :: 0 <= k < |FontWeights| && cls == "font-" + FontWeights[k] then Some("font")
      else if cls in Displays then Some("block")
      else None
  }

  /** The key the class is stored under: its group, or the class itself when it has none. */
  function KeyOf(cls: string): string {
    GroupOf(cls).OrElse(cls)
  }

  // ---------------------------------------------------------------- insertion-ordered map

  /** A `Map<string, string>`: entries in insertion order, keys distinct. */
  type Entries = seq<(string, string)>

  predicate DistinctKeys(m: Entries) {
    forall i, j :: 0 <= i < j < |m| ==> m[i].0 != m[j].0
  }

  /** `map.set(k, v)`: an existing key keeps its place and takes the new value; a new key goes last. */
  function Put(m: Entries, k: string, v: string): (r: Entries)
    requires DistinctKeys(m)
    ensures DistinctKeys(r)
    ensures (exists i :: 0 <= i < |m| && m[i].0 == k) ==> |r| == |m|
    ensures (forall i :: 0 <= i < |m| ==> m[i].0 != k) ==> r == m + [(k, v)]
    ensures forall i :: 0 <= i < |m| ==> r[i] == (if m[i].0 == k then (k, v) else m[i])
    decreases |m|
  {
    if m == [] then [(k, v)]
    else if m[0].0 == k then [(k, v)] + m[1..]
    else [m[0]] + Put(m[1..], k, v)
  }

  function Values(m: Entries): (r: seq<string>)
    ensures |r| == |m| && forall i :: 0 <= i < |m| ==> r[i] == m[i].1
  {
    seq(|m|, i requires 0 <= i < |m| => m[i].1)
  }

  /**
   The map after storing every class in turn under its key. The map-building
   facts below hold for any key function; `cn` uses `KeyOf`.
   */
  function Build(classes: seq<string>, key: string -> string): (m: Entries)
    ensures DistinctKeys(m)
    decreases |classes|
  {
    if classes == [] then []
    else
      var c := classes[|classes| - 1];
      Put(Build(classes[..|classes| - 1], key), key(c), c)
  }

  /** `resolveTailwindConflicts`: the stored classes in insertion order of their keys. */
  function Resolve(classes: seq<string>): seq<string> {
    Values(Build(classes, KeyOf))
  }

  // ---------------------------------------------------------------- reference characterisation

  /** The keys of the classes, each once, in order of first appearance. */
  function FirstKeys(classes: seq<string>, key: string -> string): (ks: seq<string>)
    decreases |classes|
  {
    if classes == [] then []
    else
      var ks := FirstKeys(classes[..|classes| - 1], key);
      var k := key(classes[|classes| - 1]);
      if k in ks then ks else ks + [k]
  }

  /** The last class stored under key `k`. */
  function LastWithKey(classes: seq<string>, key: string -> string, k: string): Option<string>
    decreases |classes|
  {
    if classes == [] then None
    else if key(classes[|classes| - 1]) == k then Some(classes[|classes| - 1])
    else LastWithKey(classes[..|classes| - 1], key, k)
  }

  /**
   The map holds one entry per key, in order of the key's first appearance,
   and each entry's class is the last class given with that key.
   */
  lemma {:induction false} BuildCharacterised(classes: seq<string>, key: string -> string)
    ensures var m := Build(classes, key);
      && |m| == |FirstKeys(classes, key)|
      && forall i :: 0 <= i < |m| ==>
           m[i].0 == FirstKeys(classes, key)[i] && LastWithKey(classes, key, m[i].0) == Some(m[i].1)
    decreases |classes|
  {
    if classes != [] {
      var init := classes[..|classes| - 1];
      var c := classes[|classes| - 1];
      BuildCharacterised(init, key);
      var m0 := Build(init, key);
      var ks := FirstKeys(init, key);
      var m := Build(classes, key);
      assert m == Put(m0, key(c), c);
      if key(c) in ks {
        var j :| 0 <= j < |ks| && ks[j] == key(c);
        assert m0[j].0 == key(c);
        assert FirstKeys(classes, key) == ks;
      } else {
        assert forall i :: 0 <= i < |m0| ==> m0[i].0 != key(c);
        assert FirstKeys(classes, key) == ks + [key(c)];
      }
    }
  }

  /** Every class the resolution keeps was given, and no two kept classes share a key. */
  lemma ResolveKeepsOnePerKey(classes: seq<string>)
    ensures forall i :: 0 <= i < |Resolve(classes)| ==> Resolve(classes)[i] in classes
    ensures forall i, j :: 0 <= i < j < |Resolve(classes)| ==>
      KeyOf(Resolve(classes)[i]) != KeyOf(Resolve(classes)[j])
  {
    var m := Build(classes, KeyOf);
    BuildCharacterised(classes, KeyOf);
    forall i | 0 <= i < |m|
      ensures m[i].1 in classes && KeyOf(m[i].1) == m[i].0
    {
      LastWithKeyFound(classes, KeyOf, m[i].0);
    }
  }

  lemma {:induction false} LastWithKeyFound(classes: seq<string>, key: string -> string, k: string)
    ensures var r := LastWithKey(classes, key, k); r.Some? ==> r.value in classes && key(r.value) == k
    decreases |classes|
  {
    if classes != [] && key(classes[|classes| - 1]) != k {
      LastWithKeyFound(classes[..|classes| - 1], key, k);
    }
  }

  /** No two classes share a key. */
  predicate DistinctClassKeys(classes: seq<string>, key: string -> string) {
    forall i, j :: 0 <= i < j < |classes| ==> key(classes[i]) != key(classes[j])
  }

  /** Classes whose keys are already distinct come out unchanged. */
  lemma ResolveDistinct(classes: seq<string>)
    requires DistinctClassKeys(classes, KeyOf)
    ensures Resolve(classes) == classes
  {
    BuildDistinct(classes, KeyOf);
    var m := Build(classes, KeyOf);
    var r := Resolve(classes);
    forall i | 0 <= i < |r|
      ensures r[i] == classes[i]
    {
      assert r[i] == m[i].1;
    }
  }

  /** With distinct keys every class gets an entry of its own, in order. */
  lemma {:induction false} BuildDistinct(classes: seq<string>, key: string -> string)
    requires DistinctClassKeys(classes, key)
    ensures |Build(classes, key)| == |classes|
    ensures forall i :: 0 <= i < |classes| ==> Build(classes, key)[i] == (key(classes[i]), classes[i])
    decreases |classes|
  {
    if classes != [] {
      var init := classes[..|classes| - 1];
      var c := classes[|classes| - 1];
      DistinctPrefix(init, c, key);
      BuildDistinct(init, key);
      BuildFreshKey(init, c, key);
      var m := Build(classes, key);
      assert m == Build(init, key) + [(key(c), c)];
      forall i | 0 <= i < |classes|
        ensures m[i] == (key(classes[i]), classes[i])
      {
        if i < |init| {
          assert classes[i] == init[i];
        }
      }
    }
  }

  /** Dropping the last class keeps the keys distinct. */
  lemma DistinctPrefix(init: seq<string>, c: string, key: string -> string)
    requires DistinctClassKeys(init + [c], key)
    ensures DistinctClassKeys(init, key)
  {
    var all := init + [c];
    forall i, j | 0 <= i < j < |init|
      ensures key(init[i]) != key(init[j])
    {
      assert init[i] == all[i] && init[j] == all[j];
    }
  }

  /** A class whose key no earlier class has goes last in its own entry. */
  lemma BuildFreshKey(init: seq<string>, c: string, key: string -> string)
    requires DistinctClassKeys(init + [c], key)
    requires |Build(init, key)| == |init|
    requires forall i :: 0 <= i < |init| ==> Build(init, key)[i] == (key(init[i]), init[i])
    ensures Build(init + [c], key) == Build(init, key) + [(key(c), c)]
  {
    var all := init + [c];
    var m0 := Build(init, key);
    forall i | 0 <= i < |m0|
      ensures m0[i].0 != key(c)
    {
      assert all[i] == init[i] && all[|init|] == c;
    }
    assert all[..|all| - 1] == init;
  }

  // ---------------------------------------------------------------- cn

  /** The `classes` list: one string per truthy argument, arrays resolved recursively, object keys whose value is truthy. */
  function Collect(inputs: seq<ClassValue>): seq<string>
    decreases inputs, 0
  {
    if inputs == [] then []
    else
      var v := inputs[0];
      var here :=
        if !Truthy(v) then []
        else match v
          case Str(s) => [s]
          case Num(n) => [IntToString(n)]
          case Arr(xs) => var nested := Cn(xs); if nested != [] then [nested] else []
          case Obj(es) => TruthyKeys(es)
          case _ => [];
      here + Collect(inputs[1..])
  }

  function TruthyKeys(es: seq<(string, bool)>): seq<string>
    decreases |es|
  {
    if es == [] then [] else (if es[0].1 then [es[0].0] else []) + TruthyKeys(es[1..])
  }

  /** `cn(...inputs)`. */
  function Cn(inputs: seq<ClassValue>): string
    decreases inputs, 1
  {
    Join(Resolve(Words(Join(Collect(inputs), " "))), " ")
  }

  /** The resolved classes of a call, before the final join. */
  function CnClasses(inputs: seq<ClassValue>): seq<string> {
    Resolve(Words(Join(Collect(inputs), " ")))
  }

  /**
   The output is the space-joined list of its classes: each a whitespace-free
   token taken from the arguments' words, no two sharing a key, each the last
   one given for its key.
   */
  lemma CnShape(inputs: seq<ClassValue>)
    ensures Cn(inputs) == Join(CnClasses(inputs), " ")
    ensures forall i :: 0 <= i < |CnClasses(inputs)| ==>
      IsToken(CnClasses(inputs)[i]) && CnClasses(inputs)[i] in WordsOfEach(Collect(inputs))
    ensures forall i, j :: 0 <= i < j < |CnClasses(inputs)| ==>
      KeyOf(CnClasses(inputs)[i]) != KeyOf(CnClasses(inputs)[j])
    ensures forall i :: 0 <= i < |CnClasses(inputs)| ==>
      LastWithKey(WordsOfEach(Collect(inputs)), KeyOf, KeyOf(CnClasses(inputs)[i])) == Some(CnClasses(inputs)[i])
  {
    var ws := Words(Join(Collect(inputs), " "));
    WordsOfJoin(Collect(inputs));
    ResolveKeepsOnePerKey(ws);
    BuildCharacterised(ws, KeyOf);
    var m := Build(ws, KeyOf);
    forall i | 0 <= i < |m|
      ensures KeyOf(m[i].1) == m[i].0
    {
      LastWithKeyFound(ws, KeyOf, m[i].0);
    }
  }

  /** `cn` is idempotent: feeding its output back in returns it unchanged. */
  lemma CnIdempotent(inputs: seq<ClassValue>)
    ensures Cn([Str(Cn(inputs))]) == Cn(inputs)
  {
    var out := Cn(inputs);
    var rs := CnClasses(inputs);
    CnShape(inputs);
    if out == [] {
      assert Collect([Str(out)]) == [];
      assert Words([]) == [];
      if rs != [] {
        JoinHeadToken(rs);
      }
    } else {
      assert Collect([Str(out)]) == [out];
      WordsJoinTokens(rs);
      ResolveDistinct(rs);
    }
  }

  lemma JoinHeadToken(rs: seq<string>)
    requires rs != [] && IsToken(rs[0])
    ensures Join(rs, " ") != []
  {
  }

  /** Wrapping the arguments in an array changes nothing. */
  lemma CnNested(inputs: seq<ClassValue>)
    ensures Cn([Arr(inputs)]) == Cn(inputs)
  {
    var out := Cn(inputs);
    CnShape(inputs);
    var rs := CnClasses(inputs);
    if out == [] {
      assert Collect([Arr(inputs)]) == [];
      if rs != [] {
        JoinHeadToken(rs);
      }
    } else {
      assert Collect([Arr(inputs)]) == [out];
      WordsJoinTokens(rs);
      ResolveDistinct(rs);
    }
  }
}

=== FILE: comment_route.dfy ===
/**
 `/api/comment`: creating a comment on a review and deleting one's own
 comment, each together with the review's comment counter in one
 transaction. The session is the signed-in user's id, the request body is
 `None` when it is not JSON, and `fault` stands for a database error.
 */
module CommentRoute {
  import opened Text
  import opened Optional
  import opened Api
  import opened Db

  const MaxLength: nat := 2000

  /** The JSON body of a comment request: the review id and the comment, each possibly absent. */
  datatype CommentBody = CommentBody(reviewId: Option<string>, comment: Option<string>)

  /** The comments on a review. */
  function CommentsOn(cs: seq<CommentRow>, reviewId: string): nat
    decreases |cs|
  {
    if cs == [] then 0
    else CommentsOn(cs[..|cs| - 1], reviewId) + (if cs[|cs| - 1].reviewId == reviewId then 1 else 0)
  }

  /** Every review's counter equals its number of comments. */
  predicate Consistent(t: Tables) {
    forall k :: 0 <= k < |t.reviews| ==> t.reviews[k].totalComments == CommentsOn(t.comments, t.reviews[k].id)
  }

  /** `update({ where: { id }, data: { totalComments: { increment: delta } } })`. */
  function AddToCounter(rs: seq<ReviewRow>, reviewId: string, delta: int): (r: seq<ReviewRow>)
    ensures |r| == |rs|
    ensures forall k :: 0 <= k < |rs| ==> r[k] == if rs[k].id == reviewId then rs[k].(totalComments := rs[k].totalComments + delta) else rs[k]
  {
    seq(|rs|, k requires 0 <= k < |rs| =>
      if rs[k].id == reviewId then rs[k].(totalComments := rs[k].totalComments + delta) else rs[k])
  }

  /** The locale of the page the request came from: the first whose "/L/" occurs in the referer, else "en". */
  function RefererLocale(referer: Option<string>, locales: seq<string>): (l: string)
    ensures l == "en" || exists k :: 0 <= k < |locales| && locales[k] == l && Contains(referer.OrElse(""), "/" + l + "/")
  {
    var r := referer.OrElse("");
    var i := FirstLocaleIn(r, locales);
    if i < |locales| && locales[i] != "" then locales[i] else "en"
  }

  function FirstLocaleIn(r: string, locales: seq<string>): (i: nat)
    ensures i <= |locales|
    ensures i < |locales| ==> Contains(r, "/" + locales[i] + "/")
    ensures forall k :: 0 <= k < i ==> !Contains(r, "/" + locales[k] + "/")
    decreases |locales|
  {
    if locales == [] then 0
    else if Contains(r, "/" + locales[0] + "/") then 0
    else 1 + FirstLocaleIn(r, locales[1..])
  }

  /** A page under a configured locale is found, unless an earlier locale also occurs in the referer. */
  lemma RefererUnderLocale(locales: seq<string>, k: nat, before: string, after: string)
    requires k < |locales| && locales[k] != ""
    requires forall j :: 0 <= j < k ==> !Contains(before + "/" + locales[k] + "/" + after, "/" + locales[j] + "/")
    ensures RefererLocale(Some(before + "/" + locales[k] + "/" + after), locales) == locales[k]
  {
    var r := before + "/" + locales[k] + "/" + after;
    assert before + "/" + locales[k] + "/" + after == before + ("/" + locales[k] + "/") + after;
    ContainsWitness(before, "/" + locales[k] + "/", after);
    var i := FirstLocaleIn(r, locales);
    assert i == k;
  }

  /** What the POST handler answers and the tables it leaves; `path` is the review page it refreshes. */
  datatype Outcome = Outcome(reply: Reply, tables: Tables, path: Option<string>)

  /** A body that passes the handler's checks: a review id and a non-blank comment of at most 2000 characters. */
  predicate Valid(b: CommentBody) {
    Given(b.reviewId) && Given(b.comment) && Trim(b.comment.value) != [] && |b.comment.value| <= MaxLength
  }

  /**
   POST: 401 without a session; for a JSON body, 400 for a missing review id,
   then for a missing or blank comment, then for one over 2000 characters; 404
   for an unknown review; otherwise the comment is created and the review's
   counter rises by one, with 201. A database error or a body that is not
   JSON gives 500. Nothing is written unless the answer is 201.
   */
  function Post(session: Option<string>, body: Option<CommentBody>, t: Tables, fault: bool,
                freshId: string, now: int, referer: Option<string>, locales: seq<string>): (o: Outcome)
    ensures session.None? ==> o.reply.status == 401
    ensures o.reply.status != 201 ==> o.tables == t && o.path.None?
    ensures session.Some? && body.Some? && !Given(body.value.reviewId) ==> o.reply == Invalid("Review id is required")
    ensures session.Some? && body.Some? && Given(body.value.reviewId) ==>
      (!Given(body.value.comment) || Trim(body.value.comment.value) == [] ==> o.reply == Invalid("Comment text is required"))
    ensures session.Some? && body.Some? && Given(body.value.reviewId) && Given(body.value.comment) ==>
      (Trim(body.value.comment.value) != [] && |body.value.comment.value| > MaxLength ==> o.reply == Invalid("Comment text is too long"))
    ensures o.reply.status == 201 ==> session.Some? && body.Some? && Given(body.value.reviewId) && Given(body.value.comment)
    ensures o.reply.status == 201 ==> Trim(body.value.comment.value) != [] && |body.value.comment.value| <= MaxLength
    ensures o.reply.status == 201 ==> Find(t.reviews, ReviewKey, body.value.reviewId.value).Some? && !fault
    ensures o.reply.status == 404 ==> body.Some? && Given(body.value.reviewId)
    ensures o.reply.status == 404 ==> Find(t.reviews, ReviewKey, body.value.reviewId.value).None?
    ensures session.Some? && body.Some? && Valid(body.value) && !fault ==>
      && (Find(t.reviews, ReviewKey, body.value.reviewId.value).None? ==> o.reply == NotFound("Review not found"))
      && (Find(t.reviews, ReviewKey, body.value.reviewId.value).Some? ==> o.reply == Created("Comment created successfully"))
    ensures o.reply.status == 201 ==>
      o.tables == t.(comments := t.comments + [CommentRow(freshId, body.value.comment.value, body.value.reviewId.value, session.value, now, now)],
                     reviews := AddToCounter(t.reviews, body.value.reviewId.value, 1))
  {
    if session.None? then Outcome(Unauthorized("Unauthorized. Please log in to create a comment."), t, None)
    else if body.None? then Outcome(ServerError(InternalError), t, None)
    else
      var b := body.value;
      if !Given(b.reviewId) then Outcome(Invalid("Review id is required"), t, None)
      else if !Given(b.comment) || Trim(b.comment.value) == [] then Outcome(Invalid("Comment text is required"), t, None)
      else if |b.comment.value| > MaxLength then Outcome(Invalid("Comment text is too long"), t, None)
      else if fault then Outcome(ServerError(InternalError), t, None)
      else if Find(t.reviews, ReviewKey, b.reviewId.value).None? then Outcome(NotFound("Review not found"), t, None)
      else
        var reviewId := b.reviewId.value;
        var c := CommentRow(freshId, b.comment.value, reviewId, session.value, now, now);
        Outcome(Created("Comment created successfully"),
                t.(comments := t.comments + [c], reviews := AddToCounter(t.reviews, reviewId, 1)),
                Some("/" + RefererLocale(referer, locales) + "/review/" + reviewId))
  }

  lemma {:induction false} CommentsOnAppend(cs: seq<CommentRow>, c: CommentRow, reviewId: string)
    ensures CommentsOn(cs + [c], reviewId) == CommentsOn(cs, reviewId) + (if c.reviewId == reviewId then 1 else 0)
  {
    assert (cs + [c])[..|cs + [c]| - 1] == cs;
  }

  /** Adding a comment and raising its review's counter keeps every counter equal to its number of comments. */
  lemma CreateKeepsCounters(t: Tables, c: CommentRow)
    requires Consistent(t)
    ensures Consistent(t.(comments := t.comments + [c], reviews := AddToCounter(t.reviews, c.reviewId, 1)))
  {
    var u := t.(comments := t.comments + [c], reviews := AddToCounter(t.reviews, c.reviewId, 1));
    forall k | 0 <= k < |u.reviews|
      ensures u.reviews[k].totalComments == CommentsOn(u.comments, u.reviews[k].id)
    {
      CommentsOnAppend(t.comments, c, t.reviews[k].id);
    }
  }

  /** Whatever the request, POST keeps every review's counter equal to its number of comments. */
  lemma PostKeepsCounters(session: Option<string>, body: Option<CommentBody>, t: Tables, fault: bool,
                          freshId: string, now: int, referer: Option<string>, locales: seq<string>)
    requires Consistent(t)
    ensures Consistent(Post(session, body, t, fault, freshId, now, referer, locales).tables)
  {
    var o := Post(session, body, t, fault, freshId, now, referer, locales);
    if o.reply.status == 201 {
      CreateKeepsCounters(t, CommentRow(freshId, body.value.comment.value, body.value.reviewId.value, session.value, now, now));
    }
  }

  // ---------------------------------------------------------------- DELETE

  datatype DeleteBody = DeleteBody(commentId: Option<string>, reviewId: Option<string>)

  /** `comment.delete({ where: { id } })`. */
  function WithoutComment(cs: seq<CommentRow>, id: string): (r: seq<CommentRow>)
    ensures forall c :: c in r <==> c in cs && c.id != id
    decreases |cs|
  {
    if cs == [] then []
    else
      var rest := WithoutComment(cs[..|cs| - 1], id);
      assert forall c :: c in cs <==> c in cs[..|cs| - 1] || c == cs[|cs| - 1];
      if cs[|cs| - 1].id == id then rest else rest + [cs[|cs| - 1]]
  }

  /**
   DELETE: 401 without a session; 400 for a missing comment id, then for a
   missing review id; 404 for an unknown comment and 401 for someone else's,
   both deleting nothing; otherwise the comment is deleted and the counter of
   the review named in the request (not the comment's own) falls by one,
   answered with 200. An unknown review makes that update fail, which undoes
   the transaction and gives 500.
   */
  function Delete(session: Option<string>, body: Option<DeleteBody>, t: Tables, fault: bool): (o: Outcome)
    ensures session.None? ==> o.reply.status == 401
    ensures o.reply.status != 200 ==> o.tables == t
    ensures o.reply.status == 200 ==> session.Some? && body.Some? && !fault
    ensures o.reply.status == 200 ==> Given(body.value.commentId) && Given(body.value.reviewId)
    ensures o.reply.status == 200 ==> var c := Find(t.comments, CommentKey, body.value.commentId.value);
      c.Some? && c.value.userId == session.value
    ensures o.reply.status == 200 ==>
      o.tables == t.(comments := WithoutComment(t.comments, body.value.commentId.value),
                     reviews := AddToCounter(t.reviews, body.value.reviewId.value, -1))
    ensures session.Some? && body.Some? && Given(body.value.commentId) && Given(body.value.reviewId) && !fault ==>
      (Find(t.comments, CommentKey, body.value.commentId.value).None? <==> o.reply == NotFound("Comment not found"))
    ensures session.Some? && body.Some? && Given(body.value.commentId) && Given(body.value.reviewId) && !fault ==>
      var c := Find(t.comments, CommentKey, body.value.commentId.value);
      && (c.Some? && c.value.userId != session.value ==> o.reply == Unauthorized("You are not authorized to delete this comment."))
      && (c.Some? && c.value.userId == session.value ==>
            (o.reply.status == 200 <==> Find(t.reviews, ReviewKey, body.value.reviewId.value).Some?))
      && (c.Some? && c.value.userId == session.value && Find(t.reviews, ReviewKey, body.value.reviewId.value).None? ==>
            o.reply.status == 500)
  {
    if session.None? then Outcome(Unauthorized("Unauthorized. Please log in to delete a comment."), t, None)
    else if body.None? then Outcome(ServerError(InternalError), t, None)
    else
      var b := body.value;
      if !Given(b.commentId) then Outcome(Invalid("Comment id is required"), t, None)
      else if !Given(b.reviewId) then Outcome(Invalid("Review id is required"), t, None)
      else if fault then Outcome(ServerError(InternalError), t, None)
      else
        var c := Find(t.comments, CommentKey, b.commentId.value);
        if c.None? then Outcome(NotFound("Comment not found"), t, None)
        else if c.value.userId != session.value then Outcome(Unauthorized("You are not authorized to delete this comment."), t, None)
        else if Find(t.reviews, ReviewKey, b.reviewId.value).None? then Outcome(ServerError(InternalError), t, None)
        else
          Outcome(Ok("Comment deleted successfully"),
                  t.(comments := WithoutComment(t.comments, b.commentId.value),
                     reviews := AddToCounter(t.reviews, b.reviewId.value, -1)),
                  None)
  }

  /** Comment ids are unique. */
  predicate UniqueCommentIds(cs: seq<CommentRow>) {
    forall i, j :: 0 <= i < j < |cs| ==> cs[i].id != cs[j].id
  }

  lemma {:induction false} CommentsOnWithout(cs: seq<CommentRow>, k: nat, reviewId: string)
    requires UniqueCommentIds(cs) && k < |cs|
    ensures CommentsOn(WithoutComment(cs, cs[k].id), reviewId) + (if cs[k].reviewId == reviewId then 1 else 0)
      == CommentsOn(cs, reviewId)
    decreases |cs|
  {
    var last := cs[|cs| - 1];
    var init := cs[..|cs| - 1];
    assert UniqueCommentIds(init);
    if k == |cs| - 1 {
      WithoutAbsent(init, cs[k].id);
    } else {
      assert init[k] == cs[k];
      CommentsOnWithout(init, k, reviewId);
      CommentsOnAppend(WithoutComment(init, cs[k].id), last, reviewId);
    }
  }

  lemma {:induction false} WithoutAbsent(cs: seq<CommentRow>, id: string)
    requires forall k :: 0 <= k < |cs| ==> cs[k].id != id
    ensures WithoutComment(cs, id) == cs
    decreases |cs|
  {
    if cs != [] {
      var init := cs[..|cs| - 1];
      assert WithoutComment(init, id) == init by {
        assert forall k :: 0 <= k < |init| ==> init[k] == cs[k];
        WithoutAbsent(init, id);
      }
      assert init + [cs[|cs| - 1]] == cs;
    }
  }

  /**
   With unique comment ids, deleting a comment through its own review keeps
   every counter equal to its number of comments.
   */
  lemma DeleteKeepsCounters(session: Option<string>, body: Option<DeleteBody>, t: Tables, fault: bool)
    requires Consistent(t) && UniqueCommentIds(t.comments)
    requires body.Some? && body.value.commentId.Some? && body.value.reviewId.Some?
    requires var c := Find(t.comments, CommentKey, body.value.commentId.value);
      c.Some? ==> c.value.reviewId == body.value.reviewId.value
    ensures Consistent(Delete(session, body, t, fault).tables)
  {
    var o := Delete(session, body, t, fault);
    if o.reply.status == 200 {
      var cid := body.value.commentId.value;
      var rid := body.value.reviewId.value;
      var c := Find(t.comments, CommentKey, cid).value;
      var k :| 0 <= k < |t.comments| && t.comments[k] == c;
      var u := t.(comments := WithoutComment(t.comments, cid), reviews := AddToCounter(t.reviews, rid, -1));
      assert o.tables == u;
      forall j | 0 <= j < |u.reviews|
        ensures u.reviews[j].totalComments == CommentsOn(u.comments, u.reviews[j].id)
      {
        DeleteCounterAt(t, k, rid, j);
      }
    }
  }

  /** Review `j`'s counter after deleting comment `k` and lowering the counter of that comment's review. */
  lemma DeleteCounterAt(t: Tables, k: nat, rid: string, j: nat)
    requires Consistent(t) && UniqueCommentIds(t.comments)
    requires k < |t.comments| && t.comments[k].reviewId == rid && j < |t.reviews|
    ensures var rs := AddToCounter(t.reviews, rid, -1);
      rs[j].id == t.reviews[j].id
      && rs[j].totalComments == CommentsOn(WithoutComment(t.comments, t.comments[k].id), t.reviews[j].id)
  {
    CommentsOnWithout(t.comments, k, t.reviews[j].id);
  }

  /** Naming another review in the request moves the counts: the comment's review keeps its count, the named one loses one. */
  lemma MismatchedDeleteBreaksCounters(session: string, c: CommentRow, named: ReviewRow, own: ReviewRow)
    requires c.userId == session && c.id != "" && named.id != "" && named.id != own.id && c.reviewId == own.id
    requires named.totalComments == 0 && own.totalComments == 1
    ensures var t := Tables([], [], [named, own], [c]);
      Consistent(t) && !Consistent(Delete(Some(session), Some(DeleteBody(Some(c.id), Some(named.id))), t, false).tables)
  {
    var t := Tables([], [], [named, own], [c]);
    assert CommentsOn([c], own.id) == 1 by { assert [c][..0] == []; }
    assert CommentsOn([c], named.id) == 0 by { assert [c][..0] == []; }
    var o := Delete(Some(session), Some(DeleteBody(Some(c.id), Some(named.id))), t, false);
    assert o.tables.comments == [] by {
      assert WithoutComment([c], c.id) == [] by { assert [c][..0] == []; }
    }
    assert o.tables.reviews[1] == own;
  }
}

=== FILE: consumed_badge.dfy ===
/**
 The "consumed more than once" badge and the label key it shares with the
 review form's checkbox.
 */
module ConsumedBadge {
  import opened Text
  import opened Optional
  import opened AppStore

  /** The translation keys that exist; note "serie", not "series". */
  const LabelKeys: seq<string> := ["film", "serie", "book", "game", "music"]

  /** The lower-cased type when it names a key, else "default". */
  function LabelKey(mediaType: string): (k: string)
    ensures k == "default" || k in LabelKeys
    ensures k in LabelKeys ==> k == Lower(mediaType)
  {
    if Lower(mediaType) in LabelKeys then Lower(mediaType) else "default"
  }

  /** The key depends only on the lower-cased type. */
  lemma LabelKeyCaseInsensitive(mediaType: string)
    ensures LabelKey(Lower(mediaType)) == LabelKey(mediaType)
  {
    LowerIdempotent(mediaType);
  }

  /**
   Every media type but one finds its own key, by its lower-case or its
   enumeration name; the series type, spelt "series" or "SERIES", falls back
   to "default".
   */
  lemma LabelKeyOfType(t: MediaType)
    ensures LabelKey(TypeName(t)) == LabelKey(EnumName(t))
    ensures LabelKey(TypeName(t)) == if t == Series then "default" else TypeName(t)
  {
    var lower, upper := TypeName(t), EnumName(t);
    assert Lower(lower) == lower;
    assert Lower(upper) == lower by {
      assert |upper| == |lower|;
      assert forall i :: 0 <= i < |upper| ==> LowerChar(upper[i]) == lower[i];
    }
    if t == Series {
      assert lower !in LabelKeys by {
        assert |lower| == 6;
        assert forall k :: k in LabelKeys ==> |k| <= 5;
      }
    }
  }

  /** The badge renders the label key only for a present, non-empty type. */
  function Badge(mediaType: Option<string>): (r: Option<string>)
    ensures r.None? <==> mediaType.None? || mediaType.value == ""
    ensures r.Some? ==> r.value == LabelKey(mediaType.value)
  {
    if mediaType.None? || mediaType.value == "" then None else Some(LabelKey(mediaType.value))
  }
}

=== FILE: db.dfy ===
/**
 The database as the server code sees it: one sequence of rows per table, in
 storage order, plus the paging arithmetic and the row-to-client mappings the
 server actions share. A table unavailable to a query is `None`, and every
 query on it fails.
 */
module Db {
  import opened Optional
  import opened Text
  import opened AppStore
  import Sorting

  datatype UserRow = UserRow(
    id: string,
    name: Option<string>,
    email: string,
    image: Option<string>,
    bio: Option<string>,
    createdAt: int)

  datatype MediaRow = MediaRow(
    id: string,
    title: string,
    mtype: MediaType,
    year: Option<int>,
    director: Option<string>,
    author: Option<string>,
    artist: Option<string>,
    genre: seq<string>,
    poster: Option<string>,
    cover: Option<string>,
    description: string,
    averageRating: int,
    totalReviews: int,
    totalLikes: int,
    totalDislikes: int,
    createdAt: int)

  /** A stored review; ratings are in half-units. */
  datatype ReviewRow = ReviewRow(
    id: string,
    mediaId: string,
    userId: string,
    rating: Option<int>,
    liked: Option<bool>,
    review: Option<string>,
    createdAt: int,
    updatedAt: int,
    consumedMoreThanOnce: bool,
    totalComments: int)

  datatype CommentRow = CommentRow(
    id: string,
    comment: string,
    reviewId: string,
    userId: string,
    createdAt: int,
    updatedAt: int)

  datatype Tables = Tables(
    users: seq<UserRow>,
    media: seq<MediaRow>,
    reviews: seq<ReviewRow>,
    comments: seq<CommentRow>)

  /** The outcome of a server action: its value, or the error it throws. */
  datatype Fetch<T> = Fetched(value: T) | Failed(message: string)

  // ---------------------------------------------------------------- lookups

  /** `findUnique` by a key: the first row carrying it, or `None`. */
  function Find<T>(rows: seq<T>, key: T -> string, id: string): (r: Option<T>)
    ensures r.None? <==> forall k :: 0 <= k < |rows| ==> key(rows[k]) != id
    ensures r.Some? ==> key(r.value) == id && r.value in rows
    decreases |rows|
  {
    if rows == [] then None
    else if key(rows[0]) == id then Some(rows[0])
    else
      var r := Find(rows[1..], key, id);
      assert forall k :: 0 < k < |rows| ==> rows[k] == rows[1..][k - 1];
      r
  }

  function UserKey(u: UserRow): string { u.id }
  function MediaKey(m: MediaRow): string { m.id }
  function ReviewKey(r: ReviewRow): string { r.id }
  function CommentKey(c: CommentRow): string { c.id }

  /** The review a user wrote of a media item (the key `mediaId_userId`), the first in storage order. */
  function UserReview(reviews: seq<ReviewRow>, mediaId: string, userId: string): (r: Option<nat>)
    ensures r.None? <==> forall k :: 0 <= k < |reviews| ==> !(reviews[k].mediaId == mediaId && reviews[k].userId == userId)
    ensures r.Some? ==> r.value < |reviews| && reviews[r.value].mediaId == mediaId && reviews[r.value].userId == userId
    decreases |reviews|
  {
    if reviews == [] then None
    else if reviews[|reviews| - 1].mediaId == mediaId && reviews[|reviews| - 1].userId == userId
      && UserReview(reviews[..|reviews| - 1], mediaId, userId).None? then Some(|reviews| - 1)
    else UserReview(reviews[..|reviews| - 1], mediaId, userId)
  }

  // ---------------------------------------------------------------- paging

  /** `Math.ceil(a / b)` for a positive divisor. */
  function CeilDiv(a: int, b: int): (r: int)
    requires b > 0
    ensures (r - 1) * b < a <= r * b
  {
    (a + b - 1) / b
  }

  /** A page count: finite, or the `Infinity`/`NaN` of a division by zero. */
  datatype PageCount = Finite(n: int) | NotFinite

  /**
   `Math.ceil(total / pageSize)`: the least integer at or above the quotient
   for a positive or a negative page size, and not finite for size 0.
   */
  function TotalPages(total: int, pageSize: int): (r: PageCount)
    ensures pageSize > 0 ==> r.Finite? && (r.n - 1) * pageSize < total <= r.n * pageSize
    ensures pageSize < 0 ==> r.Finite? && (r.n - 1) * pageSize > total >= r.n * pageSize
    ensures pageSize == 0 <==> r.NotFinite?
  {
    if pageSize > 0 then Finite(CeilDiv(total, pageSize))
    else if pageSize < 0 then Finite(-(total / -pageSize))
    else NotFinite
  }

  /** The first page, the default of every paged action. */
  const FirstPage := 1

  /** How many of `n` rows a window from `skip` with room for `take` holds. */
  function PageLength(n: int, skip: int, take: int): int {
    if skip >= n then 0 else if n - skip < take then n - skip else take
  }

  /** The rows before page `page`: `(page - 1) * pageSize`. */
  function Skip(page: int, pageSize: int): int {
    (page - 1) * pageSize
  }

  /**
   `skip`/`take`: the rows from position `skip` on, at most `take` of them;
   a negative `skip` or `take` makes the query fail.
   */
  function Window<T>(xs: seq<T>, skip: int, take: int): (r: Option<seq<T>>)
    ensures r.None? <==> skip < 0 || take < 0
    ensures r.Some? ==> |r.value| <= take
    ensures r.Some? && skip + take <= |xs| ==> |r.value| == take
    ensures r.Some? && skip + take > |xs| ==> |r.value| == if skip < |xs| then |xs| - skip else 0
    ensures r.Some? ==> |r.value| == PageLength(|xs|, skip, take)
    ensures r.Some? ==> forall k :: 0 <= k < |r.value| ==> r.value[k] == xs[skip + k]
  {
    if skip < 0 || take < 0 then None
    else if skip >= |xs| then Some([])
    else if skip + take >= |xs| then Some(xs[skip..])
    else Some(xs[skip..skip + take])
  }

  /**
   With a positive page size every row is on exactly one page: row `i` is
   entry `i % pageSize` of page `i / pageSize + 1`, and that page is within
   the page count.
   */
  lemma RowOnPage<T>(xs: seq<T>, pageSize: int, i: int)
    requires pageSize > 0 && 0 <= i < |xs|
    ensures var page := i / pageSize + 1;
      var w := Window(xs, Skip(page, pageSize), pageSize);
      && 1 <= page <= TotalPages(|xs|, pageSize).n
      && w.Some? && i % pageSize < |w.value| && w.value[i % pageSize] == xs[i]
  {
    var page := i / pageSize + 1;
    var skip := (page - 1) * pageSize;
    assert skip + i % pageSize == i;
    var n := TotalPages(|xs|, pageSize).n;
    assert (page - 1) * pageSize <= i < n * pageSize;
    LessByFactor(page - 1, n, pageSize);
  }

  lemma LessByFactor(a: int, b: int, c: int)
    requires c > 0 && a * c < b * c
    ensures a < b
  {
    assert (b - a) * c == b * c - a * c;
  }

  // ---------------------------------------------------------------- mappings to client objects

  const UnknownUser := "Unknown User"

  /** A user as shown to clients; `email` is what the caller chooses to expose. */
  function SafeUser(u: UserRow, email: string): User {
    User(u.id, u.name.OrElse(UnknownUser), email, u.image, u.bio, u.createdAt)
  }

  /** A review or comment author: name and picture only, with the given stamp as join date. */
  function Author(u: UserRow, now: int): User {
    User(u.id, u.name.OrElse(UnknownUser), "", u.image, None, now)
  }

  /** `SafeMediaItem`: the row with its type written in lower case. */
  datatype SafeMedia = SafeMedia(
    id: string,
    title: string,
    mtype: string,
    year: Option<int>,
    director: Option<string>,
    author: Option<string>,
    artist: Option<string>,
    genre: seq<string>,
    poster: Option<string>,
    cover: Option<string>,
    description: string,
    averageRating: int,
    totalReviews: int,
    totalLikes: int,
    totalDislikes: int)

  /** The media row for a client; its type reads back as the row's type. */
  function SafeMediaOf(m: MediaRow): (r: SafeMedia)
    ensures r.mtype == TypeName(m.mtype) && ParseType(r.mtype) == Some(m.mtype)
    ensures r.id == m.id && r.title == m.title && r.genre == m.genre
  {
    LowerEnumName(m.mtype);
    ParseTypeName(m.mtype);
    SafeMedia(m.id, m.title, Lower(EnumName(m.mtype)), m.year, m.director, m.author, m.artist,
              m.genre, m.poster, m.cover, m.description, m.averageRating, m.totalReviews,
              m.totalLikes, m.totalDislikes)
  }

  /** Lower-casing a database type name gives the client's type name. */
  lemma LowerEnumName(t: MediaType)
    ensures Lower(EnumName(t)) == TypeName(t)
  {
    var e := EnumName(t);
    assert forall i :: 0 <= i < |e| ==> LowerChar(e[i]) == TypeName(t)[i];
  }

  /** `SafeReview`: a review with its author. */
  datatype SafeReview = SafeReview(
    id: string,
    mediaId: string,
    userId: string,
    rating: Option<int>,
    liked: Option<bool>,
    review: Option<string>,
    createdAt: int,
    updatedAt: int,
    consumedMoreThanOnce: bool,
    totalComments: int,
    user: User)

  function SafeReviewOf(r: ReviewRow, user: User): SafeReview {
    SafeReview(r.id, r.mediaId, r.userId, r.rating, r.liked, r.review, r.createdAt, r.updatedAt,
               r.consumedMoreThanOnce, r.totalComments, user)
  }

  /** The rows ordered newest first; rows created at the same instant keep their storage order (one order the database may use). */
  function NewestFirst<T>(rows: seq<T>, created: T -> int): seq<T>
  {
    Sorting.SortBy(rows, Sorting.Desc(created))
  }

  /** Ordering adds no row: a row of the newest-first order is one of the input's. */
  lemma InNewestFirst<T>(rows: seq<T>, created: T -> int, x: T)
    requires x in NewestFirst(rows, created)
    ensures x in rows
  {
    assert x in multiset(NewestFirst(rows, created));
  }
}

=== FILE: follows_modal.dfy ===
/**
 The followers / following modal: which list is shown, the optimistic follow
 toggle with its single pending slot and rollback, the per-row button and the
 guard on loading the lists. The request itself is split off: a toggle is
 started, then finished with the outcome of the request.
 */
module FollowsModal {
  import opened Optional
  import opened FollowsModalStore

  datatype Row = Row(id: string, name: string, isFollowing: bool)

  datatype Panel = Panel(followers: seq<Row>, following: seq<Row>, pending: Option<string>)

  /** The list on screen: the followers exactly when the behaviour says so. */
  function ShownList(p: Panel, behavior: Behavior): (r: seq<Row>)
    ensures behavior == Followers ==> r == p.followers
    ensures behavior != Followers ==> r == p.following
  {
    if behavior == Followers then p.followers else p.following
  }

  /** Flips `isFollowing` on the rows of the target user; every other row is kept. */
  function Flip(rows: seq<Row>, target: string): (r: seq<Row>)
    ensures |r| == |rows|
    ensures forall k :: 0 <= k < |rows| ==> r[k].id == rows[k].id && r[k].name == rows[k].name
    ensures forall k :: 0 <= k < |rows| ==> r[k].isFollowing == (rows[k].isFollowing != (rows[k].id == target))
  {
    seq(|rows|, k requires 0 <= k < |rows| =>
      if rows[k].id == target then rows[k].(isFollowing := !rows[k].isFollowing) else rows[k])
  }

  /** Flipping twice restores the list. */
  lemma FlipTwice(rows: seq<Row>, target: string)
    ensures Flip(Flip(rows, target), target) == rows
  {
    var r := Flip(Flip(rows, target), target);
    assert forall k :: 0 <= k < |rows| ==> r[k] == rows[k];
  }

  datatype Method = Post | Delete

  datatype Request = Request(verb: Method, url: string)

  /** What pressing a follow button does. */
  datatype Start =
    | ToLogin
    | Ignored
    | Started(panel: Panel, request: Request, prevFollowers: seq<Row>, prevFollowing: seq<Row>)

  /** JavaScript truthiness of the pending user id. */
  predicate Busy(p: Panel) { p.pending.Some? && p.pending.value != "" }

  /**
   `toggleFollowButton` up to the request: without a signed-in user it only
   navigates to the login page; while another toggle is pending it does
   nothing; otherwise it marks the target pending, flips the target's rows in
   both lists and sends DELETE to unfollow or POST to follow.
   */
  function StartToggle(p: Panel, signedIn: bool, target: string, isCurrentlyFollowing: bool): (r: Start)
    ensures !signedIn <==> r.ToLogin?
    ensures r.Ignored? <==> signedIn && Busy(p)
    ensures r.Started? ==> r.panel.pending == Some(target)
    ensures r.Started? ==> r.panel.followers == Flip(p.followers, target)
    ensures r.Started? ==> r.panel.following == Flip(p.following, target)
    ensures r.Started? ==> r.prevFollowers == p.followers && r.prevFollowing == p.following
    ensures r.Started? ==> r.request.url == "/api/user/" + target + "/follow"
    ensures r.Started? ==> (r.request.verb == Delete <==> isCurrentlyFollowing)
  {
    if !signedIn then ToLogin
    else if Busy(p) then Ignored
    else
      Started(Panel(Flip(p.followers, target), Flip(p.following, target), Some(target)),
              Request(if isCurrentlyFollowing then Delete else Post, "/api/user/" + target + "/follow"),
              p.followers, p.following)
  }

  /**
   The end of a toggle: the pending slot is always cleared; a failed request
   (an exception or a non-ok status) restores both lists as they were before
   the toggle and raises an error toast.
   */
  function FinishToggle(p: Panel, prevFollowers: seq<Row>, prevFollowing: seq<Row>, ok: bool): (r: (Panel, bool))
    ensures r.0.pending.None?
    ensures ok ==> r.0.followers == p.followers && r.0.following == p.following && !r.1
    ensures !ok ==> r.0.followers == prevFollowers && r.0.following == prevFollowing && r.1
  {
    if ok then (p.(pending := None), false)
    else (Panel(prevFollowers, prevFollowing, None), true)
  }

  /** A failed toggle leaves both lists exactly as they were. */
  lemma FailedToggleRollsBack(p: Panel, target: string, isCurrentlyFollowing: bool)
    requires !Busy(p)
    ensures var s := StartToggle(p, true, target, isCurrentlyFollowing);
      s.Started? &&
      var r := FinishToggle(s.panel, s.prevFollowers, s.prevFollowing, false);
      r.0 == p.(pending := None) && r.1
  {
  }

  /** A successful toggle flips the target in both lists and nothing else. */
  lemma SucceededToggleFlips(p: Panel, target: string, isCurrentlyFollowing: bool, k: int)
    requires !Busy(p) && 0 <= k < |p.followers|
    ensures var s := StartToggle(p, true, target, isCurrentlyFollowing);
      s.Started? &&
      var r := FinishToggle(s.panel, s.prevFollowers, s.prevFollowing, true).0;
      && |r.followers| == |p.followers|
      && (r.followers[k].isFollowing != p.followers[k].isFollowing <==> p.followers[k].id == target)
  {
  }

  /** The follow button of a row: absent on the signed-in user's own row, disabled while that row is pending. */
  datatype Button = Button(disabled: bool, following: bool)

  function RowButton(p: Panel, row: Row, currentUserId: Option<string>): (r: Option<Button>)
    ensures r.None? <==> currentUserId == Some(row.id)
    ensures r.Some? ==> (r.value.disabled <==> p.pending == Some(row.id)) && r.value.following == row.isFollowing
  {
    if currentUserId == Some(row.id) then None
    else Some(Button(p.pending == Some(row.id), row.isFollowing))
  }

  /** The lists are loaded only for an open modal with a user id while someone is signed in. */
  predicate ShouldFetch(m: FollowsModal, signedIn: bool) {
    m.isOpen && m.userId != "" && signedIn
  }

  /** A closed modal, in particular the initial and the hidden one, loads nothing. */
  lemma HiddenModalFetchesNothing(m: FollowsModal, signedIn: bool)
    ensures !ShouldFetch(HideModal(m), signedIn) && !ShouldFetch(Initial, signedIn)
  {
  }
}

=== FILE: genres.dfy ===
/**
 Genre label keys: fixed id tables for TMDB movies and series and for IGDB
 genres, game modes, perspectives and themes, an ordered substring classifier
 for Google Books categories, and the per-type label choice.
 */
module Genres {
  import opened Text
  import opened AppStore

  const Unknown: string := "unknown"

  const MovieGenres: seq<(int, string)> := [
    (28, "action"), (12, "adventure"), (16, "animation"), (35, "comedy"), (80, "crime"),
    (99, "documentary"), (18, "drama"), (10751, "family"), (14, "fantasy"), (36, "history"),
    (27, "horror"), (10402, "music"), (9648, "mystery"), (10749, "romance"), (878, "sciFi"),
    (10770, "tvMovie"), (53, "thriller"), (10752, "war"), (37, "western")]

  const SerieGenres: seq<(int, string)> := [
    (10759, "actionAndAdventure"), (16, "animation"), (35, "comedy"), (80, "crime"),
    (99, "documentary"), (18, "drama"), (10751, "family"), (10762, "kids"), (9648, "mystery"),
    (10763, "news"), (10764, "reality"), (10765, "sciFiAndFantasy"), (10766, "soap"),
    (10767, "talk"), (10768, "warAndPolitics"), (37, "western")]

  const GameGenres: seq<(int, string)> := [
    (2, "pointAndClick"), (4, "fighting"), (5, "shooter"), (7, "music"), (8, "platform"),
    (9, "puzzle"), (10, "racing"), (11, "rts"), (12, "rpg"), (13, "simulator"), (14, "sport"),
    (15, "strategy"), (16, "tbs"), (24, "tactical"), (25, "hackAndSlash"), (26, "quizTrivia"),
    (30, "pinball"), (31, "adventure"), (32, "indie"), (33, "arcade"), (34, "visualNovel"),
    (35, "cardBoardGame"), (36, "moba")]

  const GameModes: seq<(int, string)> := [
    (1, "singlePlayer"), (2, "multiplayer"), (3, "cooperative"), (4, "splitScreen"),
    (5, "mmo"), (6, "battleRoyale")]

  const GamePerspectives: seq<(int, string)> := [
    (1, "firstPerson"), (2, "thirdPerson"), (3, "isometric"), (4, "sideView"), (5, "text"),
    (6, "auditory"), (7, "virtualReality")]

  const GameThemes: seq<(int, string)> := [
    (1, "action"), (17, "fantasy"), (18, "sciFi"), (19, "horror"), (20, "thriller"),
    (21, "survival"), (22, "historical"), (23, "stealth"), (27, "comedy"), (28, "business"),
    (31, "drama"), (32, "nonFiction"), (33, "sandbox"), (34, "educational"), (35, "kids"),
    (38, "openWorld"), (39, "warfare"), (40, "party"), (41, "fourX"), (42, "erotic"),
    (43, "mystery"), (44, "romance")]

  /** A table whose labels are non-empty and never "unknown". */
  predicate GoodTable(t: seq<(int, string)>) {
    forall k :: 0 <= k < |t| ==> t[k].1 != [] && t[k].1 != Unknown
  }

  predicate Listed(t: seq<(int, string)>, id: int) {
    exists k :: 0 <= k < |t| && t[k].0 == id
  }

  /** `table[id] || 'unknown'`: the label of the id's entry, "unknown" for an id not listed. */
  function Lookup(t: seq<(int, string)>, id: int): (r: string)
    requires GoodTable(t)
    ensures Listed(t, id) ==> exists k :: 0 <= k < |t| && t[k] == (id, r)
    ensures r == Unknown <==> !Listed(t, id)
    ensures DistinctIds(t) ==> forall k :: 0 <= k < |t| && t[k].0 == id ==> r == t[k].1
    decreases |t|
  {
    if t == [] then Unknown
    else if t[0].0 == id && t[0].1 != [] then t[0].1
    else
      assert forall k :: 0 < k < |t| ==> t[k] == t[1..][k - 1];
      Lookup(t[1..], id)
  }

  /** No id is listed twice, so the entry an id finds is its only one. */
  predicate DistinctIds(t: seq<(int, string)>) {
    forall i, j :: 0 <= i < j < |t| ==> t[i].0 != t[j].0
  }

  predicate DistinctInts(xs: seq<int>) {
    forall i, j :: 0 <= i < j < |xs| ==> xs[i] != xs[j]
  }

  function Ids(t: seq<(int, string)>): (r: seq<int>)
    ensures |r| == |t| && forall k :: 0 <= k < |t| ==> r[k] == t[k].0
  {
    seq(|t|, k requires 0 <= k < |t| => t[k].0)
  }

  /** Distinct ids in the projection are distinct ids in the table. */
  lemma DistinctByIds(t: seq<(int, string)>, ids: seq<int>)
    requires Ids(t) == ids && DistinctInts(ids)
    ensures DistinctIds(t)
  {
  }

  /** Each id above the one before it. */
  predicate Ascending(xs: seq<int>) {
    forall k :: 0 <= k < |xs| - 1 ==> xs[k] < xs[k + 1]
  }

  lemma {:induction false} AscendingDistinct(xs: seq<int>)
    requires Ascending(xs)
    ensures DistinctInts(xs) && (xs != [] ==> forall j :: 0 < j < |xs| ==> xs[0] < xs[j])
    decreases |xs|
  {
    if |xs| > 1 {
      AscendingDistinct(xs[1..]);
      assert forall j :: 1 < j < |xs| ==> xs[1] < xs[j] by {
        forall j | 1 < j < |xs| ensures xs[1] < xs[j] {
          assert xs[1..][0] < xs[1..][j - 1];
        }
      }
      forall i, j | 0 <= i < j < |xs| ensures xs[i] != xs[j] {
        if i > 0 {
          assert xs[1..][i - 1] != xs[1..][j - 1];
        }
      }
    }
  }

  /** Every table lists each id once. */
  lemma TablesDistinct()
    ensures DistinctIds(MovieGenres) && DistinctIds(SerieGenres) && DistinctIds(GameGenres)
    ensures DistinctIds(GameModes) && DistinctIds(GamePerspectives) && DistinctIds(GameThemes)
  {
    MovieGenresDistinct(); SerieGenresDistinct(); GameGenresDistinct(); GameModesDistinct(); GamePerspectivesDistinct(); GameThemesDistinct();
  }

  lemma MovieGenresDistinct() ensures DistinctIds(MovieGenres) {
    assert DistinctInts([28, 12, 16, 35, 80, 99, 18, 10751, 14, 36, 27, 10402, 9648, 10749, 878, 10770, 53, 10752, 37]);
    DistinctByIds(MovieGenres, [28, 12, 16, 35, 80, 99, 18, 10751, 14, 36, 27, 10402, 9648, 10749, 878, 10770, 53, 10752, 37]);
  }

  lemma SerieGenresDistinct() ensures DistinctIds(SerieGenres) {
    assert DistinctInts([10759, 16, 35, 80, 99, 18, 10751, 10762, 9648, 10763, 10764, 10765, 10766, 10767, 10768, 37]);
    DistinctByIds(SerieGenres, [10759, 16, 35, 80, 99, 18, 10751, 10762, 9648, 10763, 10764, 10765, 10766, 10767, 10768, 37]);
  }

  lemma GameGenresDistinct() ensures DistinctIds(GameGenres) {
    assert Ascending([2, 4, 5, 7, 8, 9, 10, 11, 12, 13, 14, 15, 16, 24, 25, 26, 30, 31, 32, 33, 34, 35, 36]);
    AscendingDistinct([2, 4, 5, 7, 8, 9, 10, 11, 12, 13, 14, 15, 16, 24, 25, 26, 30, 31, 32, 33, 34, 35, 36]);
    DistinctByIds(GameGenres, [2, 4, 5, 7, 8, 9, 10, 11, 12, 13, 14, 15, 16, 24, 25, 26, 30, 31, 32, 33, 34, 35, 36]);
  }

  lemma GameModesDistinct() ensures DistinctIds(GameModes) {
    assert DistinctInts([1, 2, 3, 4, 5, 6]);
    DistinctByIds(GameModes, [1, 2, 3, 4, 5, 6]);
  }

  lemma GamePerspectivesDistinct() ensures DistinctIds(GamePerspectives) {
    assert DistinctInts([1, 2, 3, 4, 5, 6, 7]);
    DistinctByIds(GamePerspectives, [1, 2, 3, 4, 5, 6, 7]);
  }

  lemma GameThemesDistinct() ensures DistinctIds(GameThemes) {
    assert Ascending([1, 17, 18, 19, 20, 21, 22, 23, 27, 28, 31, 32, 33, 34, 35, 38, 39, 40, 41, 42, 43, 44]);
    AscendingDistinct([1, 17, 18, 19, 20, 21, 22, 23, 27, 28, 31, 32, 33, 34, 35, 38, 39, 40, 41, 42, 43, 44]);
    DistinctByIds(GameThemes, [1, 17, 18, 19, 20, 21, 22, 23, 27, 28, 31, 32, 33, 34, 35, 38, 39, 40, 41, 42, 43, 44]);
  }

  lemma TablesGood()
    ensures GoodTable(MovieGenres) && GoodTable(SerieGenres) && GoodTable(GameGenres)
    ensures GoodTable(GameModes) && GoodTable(GamePerspectives) && GoodTable(GameThemes)
  {
  }

  function MovieGenre(id: int): (r: string)
    ensures Listed(MovieGenres, id) ==> exists k :: 0 <= k < |MovieGenres| && MovieGenres[k] == (id, r)
    ensures r == Unknown <==> !Listed(MovieGenres, id)
    ensures forall k :: 0 <= k < |MovieGenres| && MovieGenres[k].0 == id ==> r == MovieGenres[k].1
  {
    TablesGood();
    MovieGenresDistinct();
    Lookup(MovieGenres, id)
  }

  function SerieGenre(id: int): (r: string)
    ensures Listed(SerieGenres, id) ==> exists k :: 0 <= k < |SerieGenres| && SerieGenres[k] == (id, r)
    ensures r == Unknown <==> !Listed(SerieGenres, id)
    ensures forall k :: 0 <= k < |SerieGenres| && SerieGenres[k].0 == id ==> r == SerieGenres[k].1
  {
    TablesGood();
    SerieGenresDistinct();
    Lookup(SerieGenres, id)
  }

  function GameGenre(id: int): (r: string)
    ensures Listed(GameGenres, id) ==> exists k :: 0 <= k < |GameGenres| && GameGenres[k] == (id, r)
    ensures r == Unknown <==> !Listed(GameGenres, id)
    ensures forall k :: 0 <= k < |GameGenres| && GameGenres[k].0 == id ==> r == GameGenres[k].1
  {
    TablesGood();
    GameGenresDistinct();
    Lookup(GameGenres, id)
  }

  function GameMode(id: int): (r: string)
    ensures Listed(GameModes, id) ==> exists k :: 0 <= k < |GameModes| && GameModes[k] == (id, r)
    ensures r == Unknown <==> !Listed(GameModes, id)
    ensures forall k :: 0 <= k < |GameModes| && GameModes[k].0 == id ==> r == GameModes[k].1
  {
    TablesGood();
    GameModesDistinct();
    Lookup(GameModes, id)
  }

  function GamePerspective(id: int): (r: string)
    ensures Listed(GamePerspectives, id) ==> exists k :: 0 <= k < |GamePerspectives| && GamePerspectives[k] == (id, r)
    ensures r == Unknown <==> !Listed(GamePerspectives, id)
    ensures forall k :: 0 <= k < |GamePerspectives| && GamePerspectives[k].0 == id ==> r == GamePerspectives[k].1
  {
    TablesGood();
    GamePerspectivesDistinct();
    Lookup(GamePerspectives, id)
  }

  function GameTheme(id: int): (r: string)
    ensures Listed(GameThemes, id) ==> exists k :: 0 <= k < |GameThemes| && GameThemes[k] == (id, r)
    ensures r == Unknown <==> !Listed(GameThemes, id)
    ensures forall k :: 0 <= k < |GameThemes| && GameThemes[k].0 == id ==> r == GameThemes[k].1
  {
    TablesGood();
    GameThemesDistinct();
    Lookup(GameThemes, id)
  }

  // ---------------------------------------------------------------- Google Books categories

  /** A classifier rule: some keyword present, and "fiction" absent when the rule excludes it. */
  datatype Rule = Rule(any: seq<string>, exceptFiction: bool, genre: string)

  /** The rules tried before the science rule. */
  const RulesBeforeScience: seq<Rule> := [
    Rule(["science fiction", "sci-fi"], false, "sciFi"),
    Rule(["action"], false, "action"),
    Rule(["adventure"], false, "adventure"),
    Rule(["fantasy"], false, "fantasy"),
    Rule(["mystery", "detective"], false, "mystery"),
    Rule(["horror"], false, "horror"),
    Rule(["thriller", "suspense"], false, "thriller"),
    Rule(["romance"], false, "romance"),
    Rule(["biography", "autobiography"], false, "biography"),
    Rule(["history", "historical"], false, "history"),
    Rule(["business", "economics"], false, "business"),
    Rule(["comics", "graphic novels"], false, "comics"),
    Rule(["cooking", "cookbooks"], false, "cooking"),
    Rule(["art", "photography"], false, "art"),
    Rule(["poetry"], false, "poetry"),
    Rule(["psychology"], false, "psychology"),
    Rule(["philosophy"], false, "philosophy"),
    Rule(["religion", "spirituality"], false, "religion"),
    Rule(["technology", "computers"], false, "technology")
  ]

  /** The only rule that excludes "fiction". */
  const ScienceRule: Rule := Rule(["science"], true, "science")

  /** The rules tried after the science rule; the last two tell non-fiction from fiction. */
  const RulesAfterScience: seq<Rule> := [
    Rule(["self-help", "self help"], false, "selfHelp"),
    Rule(["travel"], false, "travel"),
    Rule(["juvenile", "children"], false, "kids"),
    Rule(["education"], false, "educational"),
    Rule(["humor", "comedy"], false, "comedy"),
    Rule(["drama"], false, "drama"),
    Rule(["crime"], false, "crime"),
    Rule(["sports"], false, "sport"),
    Rule(["war"], false, "war"),
    Rule(["music"], false, "music"),
    Rule(["western"], false, "western"),
    Rule(["non-fiction", "non fiction"], false, "nonFiction"),
    Rule(["fiction"], false, "fiction")
  ]

  /** The rules in the order they are tried. */
  const BookRules: seq<Rule> := RulesBeforeScience + [ScienceRule] + RulesAfterScience

  predicate AnyIn(s: string, words: seq<string>) {
    exists k :: 0 <= k < |words| && Contains(s, words[k])
  }

  predicate Matches(s: string, r: Rule) {
    AnyIn(s, r.any) && !(r.exceptFiction && Contains(s, "fiction"))
  }

  /** The index of the first rule that matches, or `|rules|` when none does. */
  function FirstMatch(s: string, rules: seq<Rule>): (i: nat)
    ensures i <= |rules|
    ensures i < |rules| ==> Matches(s, rules[i])
    ensures forall j :: 0 <= j < i ==> !Matches(s, rules[j])
    decreases |rules|
  {
    if rules == [] then 0
    else if Matches(s, rules[0]) then 0
    else FirstMatch(s, rules[1..]) + 1
  }

  /** `getBookGenreByIdGoogle`: the label of the first rule the lower-cased category matches, else "unknown". */
  function BookGenre(category: string): string {
    var lower := Lower(category);
    var i := FirstMatch(lower, BookRules);
    if i < |BookRules| then BookRules[i].genre else Unknown
  }

  /** Only the lower-cased text counts: categories differing in case classify alike. */
  lemma BookGenreCaseInsensitive(category: string)
    ensures BookGenre(Lower(category)) == BookGenre(category)
  {
    LowerIdempotent(category);
  }

  /** Some rule lists `w` among its keywords. */
  predicate IsKeyword(w: string) {
    exists i, k :: 0 <= i < |BookRules| && 0 <= k < |BookRules[i].any| && BookRules[i].any[k] == w
  }

  /** A keyword of any rule makes some rule match: an excluded "science" is caught by the last rule. */
  lemma KeywordMatches(lower: string, w: string)
    requires IsKeyword(w) && Contains(lower, w)
    ensures FirstMatch(lower, BookRules) < |BookRules|
  {
    var j, k :| 0 <= j < |BookRules| && 0 <= k < |BookRules[j].any| && BookRules[j].any[k] == w;
    if !Matches(lower, BookRules[j]) {
      assert BookRules[|BookRules| - 1].any[0] == "fiction";
      assert Matches(lower, BookRules[|BookRules| - 1]);
    }
  }

  /** No rule's genre is "unknown". */
  lemma RuleGenreKnown(i: int)
    requires 0 <= i < |BookRules|
    ensures BookRules[i].genre != Unknown
  {
  }

  /** Only the rule at index 19 gives "science". */
  lemma RuleGenreScience(i: int)
    requires 0 <= i < |BookRules| && BookRules[i].genre == "science"
    ensures i == 19
  {
  }

  /** The classification of an already lower-cased category. */
  function BookGenreOfLower(lower: string): string {
    var i := FirstMatch(lower, BookRules);
    if i < |BookRules| then BookRules[i].genre else Unknown
  }

  lemma BookGenreIsOfLower(category: string)
    ensures BookGenre(category) == BookGenreOfLower(Lower(category))
  {
  }

  lemma UnknownHasNoKeyword(lower: string, w: string)
    ensures BookGenreOfLower(lower) == Unknown && IsKeyword(w) ==> !Contains(lower, w)
  {
    if BookGenreOfLower(lower) == Unknown && IsKeyword(w) {
      var i := FirstMatch(lower, BookRules);
      if i < |BookRules| {
        RuleGenreKnown(i);
      }
      if Contains(lower, w) {
        KeywordMatches(lower, w);
      }
    }
  }

  lemma NoKeywordIsUnknown(lower: string)
    requires forall w :: IsKeyword(w) ==> !Contains(lower, w)
    ensures BookGenreOfLower(lower) == Unknown
  {
    MatchHasKeyword(lower);
  }

  /** A rule matches only through one of its keywords. */
  lemma MatchHasKeyword(lower: string)
    ensures FirstMatch(lower, BookRules) < |BookRules| ==> exists w :: IsKeyword(w) && Contains(lower, w)
  {
    var i := FirstMatch(lower, BookRules);
    if i < |BookRules| {
      var k :| 0 <= k < |BookRules[i].any| && Contains(lower, BookRules[i].any[k]);
      assert IsKeyword(BookRules[i].any[k]);
    }
  }

  /**
   A category is "unknown" exactly when its lower-cased text holds none of
   the keywords.
   */
  lemma BookGenreUnknownIff(category: string)
    ensures BookGenre(category) == Unknown <==>
      forall w :: IsKeyword(w) ==> !Contains(Lower(category), w)
  {
    var lower := Lower(category);
    BookGenreIsOfLower(category);
    if BookGenreOfLower(lower) == Unknown {
      forall w | IsKeyword(w)
        ensures !Contains(lower, w)
      {
        UnknownHasNoKeyword(lower, w);
      }
    }
    if forall w :: IsKeyword(w) ==> !Contains(lower, w) {
      NoKeywordIsUnknown(lower);
    }
  }

  /** The first rule wins: a category holding "science fiction" or "sci-fi" is science fiction whatever else it holds. */
  lemma BookSciFiFirst(category: string)
    requires Contains(Lower(category), "science fiction") || Contains(Lower(category), "sci-fi")
    ensures BookGenre(category) == "sciFi"
  {
    var lower := Lower(category);
    if Contains(lower, "science fiction") {
      assert BookRules[0].any[0] == "science fiction";
    } else {
      assert BookRules[0].any[1] == "sci-fi";
    }
    assert Matches(lower, BookRules[0]);
  }

  lemma ScienceWithoutFiction(lower: string)
    requires forall j :: 0 <= j < 19 ==> !Matches(lower, BookRules[j])
    requires Contains(lower, "science") && !Contains(lower, "fiction")
    ensures FirstMatch(lower, BookRules) == 19
  {
    ScienceRuleAt();
    assert ScienceRule.any[0] == "science";
    assert AnyIn(lower, ScienceRule.any);
    FirstMatchAt(lower, BookRules, 19);
  }

  /** The science rule is tried twentieth, of 33 rules. */
  lemma ScienceRuleAt()
    ensures |BookRules| == 33 && BookRules[19] == ScienceRule
  {
    assert |RulesBeforeScience| == 19;
  }

  /** The first match is the rule that matches after none before it does. */
  lemma FirstMatchAt(s: string, rules: seq<Rule>, i: nat)
    requires i < |rules| && Matches(s, rules[i])
    requires forall j :: 0 <= j < i ==> !Matches(s, rules[j])
    ensures FirstMatch(s, rules) == i
  {
  }

  /** When every rule giving `g` excludes fiction, a text holding "fiction" never gets `g` from its first match. */
  lemma ExceptFictionNotFirst(s: string, rules: seq<Rule>, g: string)
    requires Contains(s, "fiction")
    requires forall i :: 0 <= i < |rules| && rules[i].genre == g ==> rules[i].exceptFiction
    ensures var i := FirstMatch(s, rules); i < |rules| ==> rules[i].genre != g
  {
  }

  /** The science rule excludes fiction. */
  lemma ScienceExceptsFiction()
    ensures forall i :: 0 <= i < |BookRules| && BookRules[i].genre == "science" ==> BookRules[i].exceptFiction
  {
    forall i | 0 <= i < |BookRules| && BookRules[i].genre == "science"
      ensures BookRules[i].exceptFiction
    {
      RuleGenreScience(i);
    }
  }

  lemma NotScienceWithFiction(lower: string)
    requires Contains(lower, "fiction")
    ensures BookGenreOfLower(lower) != "science"
  {
    ScienceExceptsFiction();
    ExceptFictionNotFirst(lower, BookRules, "science");
  }

  lemma ScienceOfLower(lower: string)
    requires forall j :: 0 <= j < 19 ==> !Matches(lower, BookRules[j])
    requires Contains(lower, "science")
    ensures BookGenreOfLower(lower) == "science" <==> !Contains(lower, "fiction")
  {
    ScienceRuleAt();
    if Contains(lower, "fiction") {
      NotScienceWithFiction(lower);
    } else {
      ScienceWithoutFiction(lower);
    }
  }

  /** "science" gives science exactly when no earlier rule matches and "fiction" is absent. */
  lemma BookScience(category: string)
    requires forall j :: 0 <= j < 19 ==> !Matches(Lower(category), BookRules[j])
    requires Contains(Lower(category), "science")
    ensures BookGenre(category) == "science" <==> !Contains(Lower(category), "fiction")
  {
    BookGenreIsOfLower(category);
    ScienceOfLower(Lower(category));
  }

  /** "non-fiction" is tried before plain "fiction": with no earlier rule matching it wins. */
  lemma BookNonFictionBeforeFiction(category: string)
    requires forall j :: 0 <= j < 31 ==> !Matches(Lower(category), BookRules[j])
    requires Contains(Lower(category), "non-fiction")
    ensures BookGenre(category) == "nonFiction"
  {
    assert BookRules[31].any[0] == "non-fiction";
    assert Matches(Lower(category), BookRules[31]);
  }

  // ---------------------------------------------------------------- per-type label

  /** `getMediaGenreLabel`: films use the movie table; other types show the id as text, or "" for id 0. */
  function MediaGenreLabel(t: MediaType, genreId: int): (r: string)
    ensures t == Film ==> r == MovieGenre(genreId)
    ensures t != Film && genreId == 0 ==> r == []
    ensures t != Film && genreId != 0 ==> r == IntToString(genreId)
  {
    match t
    case Film => MovieGenre(genreId)
    case _ => if genreId != 0 then IntToString(genreId) else ""
  }

  /** For a type other than film, the label of a positive id reads back as the id. */
  lemma MediaGenreLabelReadsBack(t: MediaType, genreId: int)
    requires t != Film && genreId > 0
    ensures var r := MediaGenreLabel(t, genreId);
      (forall k :: 0 <= k < |r| ==> IsDigit(r[k])) && DigitsValue(r) == genreId
  {
    NatToStringRoundTrip(genreId);
  }
}

=== FILE: header.dfy ===
/** The site header: the home-route test and the collapsible type filter. */
module Header {

  /** The path is the root, or `/L` or `/L/` for a configured locale `L`. */
  predicate IsHomePage(path: string, locales: seq<string>) {
    path == "/" || exists k :: 0 <= k < |locales| && (path == "/" + locales[k] || path == "/" + locales[k] + "/")
  }

  /** The search bar and the type filter are shown only on the home route. */
  datatype Shown = Shown(searchBar: bool, filter: bool)

  function Visible(path: string, locales: seq<string>): (s: Shown)
    ensures s.searchBar <==> IsHomePage(path, locales)
    ensures s.filter <==> IsHomePage(path, locales)
  {
    Shown(IsHomePage(path, locales), IsHomePage(path, locales))
  }

  /** A locale's root is home, with or without the trailing slash, and a deeper page is not. */
  lemma LocaleRootIsHome(l: string, locales: seq<string>, rest: string)
    requires l in locales
    requires forall k :: 0 <= k < |locales| ==> '/' !in locales[k]
    requires rest != [] && rest != "/" && rest[0] == '/'
    ensures IsHomePage("/" + l, locales) && IsHomePage("/" + l + "/", locales)
    ensures !IsHomePage("/" + l + rest, locales)
  {
    var i :| 0 <= i < |locales| && locales[i] == l;
    var p := "/" + l + rest;
    assert p != "/";
    forall k | 0 <= k < |locales|
      ensures p != "/" + locales[k] && p != "/" + locales[k] + "/"
    {
      NotLocaleRoot(l, rest, locales[k]);
    }
  }

  lemma NotLocaleRoot(l: string, rest: string, m: string)
    requires '/' !in l && '/' !in m
    requires rest != [] && rest != "/" && rest[0] == '/'
    ensures "/" + l + rest != "/" + m && "/" + l + rest != "/" + m + "/"
  {
    var p := "/" + l + rest;
    if |m| > |l| && |p| == |"/" + m| {
      assert p[|l| + 1] != ("/" + m)[|l| + 1];
    }
    if |m| > |l| && |p| == |"/" + m + "/"| {
      assert p[|l| + 1] != ("/" + m + "/")[|l| + 1];
    }
  }

  /** The filter panel: collapsed at first, each press flips it. */
  datatype Filter = Filter(expanded: bool)

  const InitialFilter := Filter(false)

  function Toggle(f: Filter): (r: Filter)
    ensures r.expanded != f.expanded
  {
    Filter(!f.expanded)
  }

  /** The toggle's label: "Collapse filter" exactly when the panel is open. */
  function ToggleLabel(f: Filter): (s: string)
    ensures s == "Collapse filter" <==> f.expanded
  {
    if f.expanded then "Collapse filter" else "Expand filter"
  }

  /** Pressing twice restores the panel. */
  lemma ToggleTwice(f: Filter)
    ensures Toggle(Toggle(f)) == f
  {
  }
}

=== FILE: home_page.dfy ===
/**
 The legacy home page over the client store: the type and text filter, the
 rating order, the "recently added" count, the demo-data load and the
 section titles. Average ratings are tenths of a star.
 */
module HomePage {
  import opened Text
  import opened Optional
  import opened AppStore
  import opened Seqs
  import opened Sorting

  // ---------------------------------------------------------------- demo data

  /** On an empty item list the demo items, reviews and first demo user are loaded; otherwise nothing changes. */
  function LoadDemo(s: AppState, items: seq<MediaItem>, reviews: seq<Review>, user: User): (r: AppState)
    ensures s.mediaItems != [] ==> r == s
    ensures s.mediaItems == [] ==> r.mediaItems == items && r.reviews == reviews && r.user == Some(user)
    ensures r.(mediaItems := s.mediaItems, reviews := s.reviews, user := s.user) == s
  {
    if s.mediaItems == [] then SetUser(SetReviews(SetMediaItems(s, items), reviews), Some(user)) else s
  }

  /** Demo data is loaded at most once: loading again after a non-empty load changes nothing. */
  lemma LoadDemoOnce(s: AppState, items: seq<MediaItem>, reviews: seq<Review>, user: User)
    requires items != []
    ensures LoadDemo(LoadDemo(s, items, reviews, user), items, reviews, user) == LoadDemo(s, items, reviews, user)
  {
  }

  // ---------------------------------------------------------------- filtering

  /** An optional field contains the query once lower-cased; an absent field contains nothing. */
  predicate FieldHas(f: Option<string>, q: string) {
    f.Some? && Contains(Lower(f.value), q)
  }

  /** The item's title, description, a genre, director, author or artist contains the query, ignoring case in the item. */
  predicate MatchesQuery(item: MediaItem, q: string) {
    || Contains(Lower(item.title), q)
    || Contains(Lower(item.description), q)
    || (exists g :: g in item.genre && Contains(Lower(g), q))
    || FieldHas(item.director, q) || FieldHas(item.author, q) || FieldHas(item.artist, q)
  }

  predicate TypeAllowed(f: TypeFilter, item: MediaItem) {
    f.AllTypes? || item.mtype == f.t
  }

  /**
   An item is listed when its type passes the filter and, if the query is not
   blank, it matches the query lower-cased but not trimmed.
   */
  predicate Listed(item: MediaItem, f: TypeFilter, query: string) {
    TypeAllowed(f, item) && (Trim(query) == "" || MatchesQuery(item, Lower(query)))
  }

  /** `filteredMedia`: the listed items, in their stored order. */
  function FilteredMedia(items: seq<MediaItem>, f: TypeFilter, query: string): (r: seq<MediaItem>)
    ensures Subseq(r, items)
    ensures forall x :: x in r <==> x in items && Listed(x, f, query)
  {
    var keep := (x: MediaItem) => Listed(x, f, query);
    FilterSubseq(items, keep);
    Filter(items, keep)
  }

  /** Without a type and with a blank query every item is listed, in order. */
  lemma BlankSearchListsAll(items: seq<MediaItem>, query: string)
    requires Trim(query) == ""
    ensures FilteredMedia(items, AllTypes, query) == items
  {
    FilterAll(items, (x: MediaItem) => Listed(x, AllTypes, query));
  }

  // ---------------------------------------------------------------- sorting

  /** The comparator lets `a` stay ahead of `b`: a higher average, or an equal average and at least as many reviews. */
  predicate RankedAhead(a: MediaItem, b: MediaItem) {
    if a.averageRating != b.averageRating then b.averageRating - a.averageRating <= 0
    else b.totalReviews - a.totalReviews <= 0
  }

  function Rank(): (MediaItem, MediaItem) -> bool {
    (a: MediaItem, b: MediaItem) => RankedAhead(a, b)
  }

  lemma RankIsOrder()
    ensures Total(Rank()) && Transitive(Rank())
  {
  }

  /** `sortedMedia`: the same items, highest average first, then most reviewed first. */
  function SortedMedia(xs: seq<MediaItem>): (r: seq<MediaItem>)
    ensures multiset(r) == multiset(xs)
    ensures forall i, j :: 0 <= i < j < |r| ==>
      r[i].averageRating > r[j].averageRating || (r[i].averageRating == r[j].averageRating && r[i].totalReviews >= r[j].totalReviews)
  {
    var r := SortBy(xs, Rank());
    RankIsOrder();
    SortAdjacentSorted(xs, Rank());
    AdjacentToPairwise(r, Rank());
    r
  }

  // ---------------------------------------------------------------- counters

  /** `m.year && m.year >= 2023`. */
  predicate Recent(m: MediaItem) {
    m.year.Some? && m.year.value != 0 && m.year.value >= 2023
  }

  /** The "recently added" figure: the listed items from 2023 on. */
  function RecentlyAdded(xs: seq<MediaItem>): (n: nat)
    ensures n <= |xs|
    ensures n == 0 <==> forall k :: 0 <= k < |xs| ==> !Recent(xs[k])
  {
    var r := Filter(xs, Recent);
    assert r != [] ==> Recent(r[0]) && r[0] in xs;
    |r|
  }

  /** The count does not depend on the order, so it is the same before and after sorting. */
  lemma RecentCountIgnoresOrder(xs: seq<MediaItem>)
    ensures RecentlyAdded(SortedMedia(xs)) == RecentlyAdded(xs)
  {
    var ys := SortedMedia(xs);
    var a := Filter(xs, Recent);
    var b := Filter(ys, Recent);
    assert multiset(a) == multiset(b);
    assert |a| == |multiset(a)| && |b| == |multiset(b)|;
  }

  // ---------------------------------------------------------------- titles

  /** `getTypeDisplayName`: the plural title of a type, "All Media" for anything else. */
  function TypeDisplayName(t: string): (s: string)
    ensures ParseType(t).None? <==> s == "All Media"
  {
    if t == "film" then "Films"
    else if t == "series" then "Series"
    else if t == "game" then "Games"
    else if t == "book" then "Books"
    else if t == "music" then "Music"
    else "All Media"
  }
}

=== FILE: import_modal.dfy ===
/**
 The "import reviews" modal: the remaining-time text, closing, choosing a
 file, the tabs, and the sequential import of parsed CSV rows with its
 progress counter. CSV parsing and the requests are inputs; the reset that
 runs after the closing animation is applied at once.
 */
module ImportModal {
  import opened Text
  import opened Optional

  datatype Tab = Letterboxd | Steam | Goodreads

  /** `F` stands for a chosen file. */
  datatype Import<F> = Import(
    open: bool,
    tab: Tab,
    dragging: bool,
    file: Option<F>,
    parsing: bool,
    importing: bool,
    current: nat,
    total: nat,
    error: Option<string>,
    success: bool)

  function Reset<F>(s: Import<F>): (r: Import<F>)
    ensures r.open == s.open && r.dragging == s.dragging
  {
    Import(s.open, Letterboxd, s.dragging, None, false, false, 0, 0, None, false)
  }

  /** Remaining time text: "Mm Ss" from a minute on, else "Rs", with one second per remaining row. */
  function RemainingText(total: nat, current: nat): (r: string)
    ensures var rem := total - current;
      rem >= 60 ==> exists m: nat, sec: nat {:trigger NatToString(m), NatToString(sec)} ::
        m >= 1 && sec < 60 && 60 * m + sec == rem && r == NatToString(m) + "m " + NatToString(sec) + "s"
    ensures total - current < 60 ==> r == IntToString(total - current) + "s"
  {
    var rem := total - current;
    var minutes := rem / 60;
    if minutes > 0 then
      var m: nat, sec: nat := minutes, rem % 60;
      assert 60 * m + sec == rem;
      NatToString(m) + "m " + NatToString(sec) + "s"
    else IntToString(rem) + "s"
  }

  /** Closing is refused while importing; otherwise the modal closes and everything is reset. */
  function Close<F>(s: Import<F>): (r: Import<F>)
    ensures s.importing ==> r == s
    ensures !s.importing ==> !r.open && r == Reset(s).(open := false)
  {
    if s.importing then s else Reset(s).(open := false)
  }

  /** A file input or a drop: a non-empty list gives its first file and clears the error. */
  function TakeFile<F>(s: Import<F>, files: seq<F>): (r: Import<F>)
    ensures files == [] ==> r == s
    ensures files != [] ==> r == s.(file := Some(files[0]), error := None)
  {
    if files == [] then s else s.(file := Some(files[0]), error := None)
  }

  function Drop<F>(s: Import<F>, files: seq<F>): (r: Import<F>)
    ensures r == TakeFile(s.(dragging := false), files)
  {
    TakeFile(s.(dragging := false), files)
  }

  /** Tabs cannot be switched while importing. */
  function SelectTab<F>(s: Import<F>, t: Tab): (r: Import<F>)
    ensures s.importing ==> r == s
    ensures !s.importing ==> r == s.(tab := t)
  {
    if s.importing then s else s.(tab := t)
  }

  /** Processing starts only with a file. */
  function StartParsing<F>(s: Import<F>): (r: Option<Import<F>>)
    ensures r.None? <==> s.file.None?
    ensures r.Some? ==> r.value == s.(parsing := true, error := None)
  {
    if s.file.None? then None else Some(s.(parsing := true, error := None))
  }

  const NoValidRows: string := "letterboxd.noValidRows"

  /** The CSV parser failed. */
  function ParseFailed<F>(s: Import<F>, message: string): (r: Import<F>)
    ensures !r.parsing && r.error == Some("Failed to parse CSV: " + message)
    ensures r.importing == s.importing && r.current == s.current && r.total == s.total
  {
    s.(parsing := false, error := Some("Failed to parse CSV: " + message))
  }

  /** The state once the CSV is parsed into some rows: an error for none, the import running otherwise. */
  function Parsed<F>(s: Import<F>, rowCount: nat): (r: Import<F>)
    ensures !r.parsing
    ensures rowCount == 0 ==> r == s.(parsing := false, error := Some(NoValidRows))
    ensures rowCount > 0 ==> r == s.(parsing := false, importing := true, current := 0, total := rowCount)
  {
    if rowCount == 0 then s.(parsing := false, error := Some(NoValidRows))
    else s.(parsing := false, importing := true, current := 0, total := rowCount)
  }

  /** How one row's request ended; none of these changes what the import does next. */
  datatype RowOutcome = Imported | Rejected | NetworkError

  /** The state after the loop: not importing, successful, with every row counted. */
  function Finished<F>(s: Import<F>, rowCount: nat): (r: Import<F>)
    ensures !r.importing && r.success && r.current == r.total == rowCount
  {
    s.(parsing := false, importing := false, current := rowCount, total := rowCount, success := true)
  }

  /**
   `processCSV` once parsed: no rows give an error and send nothing; otherwise
   the rows are posted one at a time in order, the counter rising by one per
   row whatever each request's outcome, and the import ends successful.
   `outcomes[i]` is how the request for row `i` ended.
   */
  method ImportRows<F, R>(s: Import<F>, rows: seq<R>, outcomes: seq<RowOutcome>)
    returns (r: Import<F>, sent: seq<R>, progress: seq<nat>)
    requires |outcomes| == |rows|
    ensures rows == [] ==> r == Parsed(s, 0) && sent == [] && progress == []
    ensures rows != [] ==> r == Finished(s, |rows|)
    ensures sent == rows
    ensures |progress| == |rows| && forall k :: 0 <= k < |progress| ==> progress[k] == k + 1
  {
    r := Parsed(s, |rows|);
    sent, progress := [], [];
    if rows == [] {
      return;
    }
    var i := 0;
    while i < |rows|
      invariant 0 <= i <= |rows|
      invariant r == s.(parsing := false, importing := true, current := i, total := |rows|)
      invariant sent == rows[..i]
      invariant |progress| == i && forall k :: 0 <= k < i ==> progress[k] == k + 1
    {
      sent := sent + [rows[i]];
      r := r.(current := i + 1);
      progress := progress + [i + 1];
      i := i + 1;
    }
    r := r.(importing := false, success := true);
  }
}

=== FILE: letterboxd_route.dfy ===
/**
 `/api/reviews/import/letterboxd`: one row of a Letterboxd export becomes a
 review of a film. The film is found by title (ignoring ASCII case), type and
 year, or created from the first TMDB search result, or created bare. An
 existing review by the user only gains the rewatch flag. The TMDB search is
 an input (`None` when it fails), `parseFloat` of the rating is left to the
 caller, and `Faults` says which database calls fail.
 */
module LetterboxdRoute {
  import opened Text
  import opened Optional
  import opened AppStore
  import opened ParseInt
  import opened Api
  import opened Db
  import Search

  /** The `Rewatch` column: a text, a JSON boolean, or missing. */
  datatype Rewatch = RewatchText(text: string) | RewatchFlag(flag: bool) | NoRewatch

  /** One CSV row; `rating` is what `parseFloat(Rating)` gives, `None` for NaN. */
  datatype Row = Row(name: Option<string>, year: Option<string>, rating: Option<int>, rewatch: Rewatch, review: Option<string>)

  predicate IsRewatch(w: Rewatch) {
    w == RewatchText("Yes") || w == RewatchText("true") || w == RewatchFlag(true)
  }

  /** The existing film of that title (in any ASCII case) and year, the first in storage order. */
  function MatchFilm(media: seq<MediaRow>, name: string, year: int): (r: Option<MediaRow>)
    ensures r.None? <==> forall k :: 0 <= k < |media| ==> !SameFilm(media[k], name, year)
    ensures r.Some? ==> r.value in media && SameFilm(r.value, name, year)
    decreases |media|
  {
    if media == [] then None
    else if SameFilm(media[0], name, year) then Some(media[0])
    else
      assert forall k :: 0 < k < |media| ==> media[k] == media[1..][k - 1];
      MatchFilm(media[1..], name, year)
  }

  predicate SameFilm(m: MediaRow, name: string, year: int) {
    Lower(m.title) == Lower(name) && m.mtype == Film && m.year == Some(year)
  }

  /** A film created from TMDB's first result: its title, year, poster, description and genres, falling back to the row. */
  function FromTmdb(p: Search.Parsed, name: string, year: int, id: string, now: int): (m: MediaRow)
    ensures m.id == id && m.mtype == Film
    ensures m.title == if p.title != "" then p.title else name
    ensures m.year == Some(if p.year.Some? && p.year.value.Num? && p.year.value.n != 0 then p.year.value.n else year)
  {
    MediaRow(id, if p.title != "" then p.title else name, Film,
      Some(if p.year.Some? && p.year.value.Num? && p.year.value.n != 0 then p.year.value.n else year),
      None, None, None, p.genre, p.poster, None, p.description, 0, 0, 0, 0, now)
  }

  /** A bare film: the row's title and year, no description and no genres. */
  function Bare(name: string, year: int, id: string, now: int): (m: MediaRow)
    ensures m.id == id && m.title == name && m.mtype == Film && m.year == Some(year)
    ensures m.description == "" && m.genre == [] && m.poster.None?
  {
    MediaRow(id, name, Film, Some(year), None, None, None, [], None, None, "", 0, 0, 0, 0, now)
  }

  /** The film the review is for, and the media table afterwards. */
  function ResolveFilm(t: Tables, name: string, year: int, tmdb: Option<seq<Search.TmdbMovie>>,
                       mediaId: string, now: int): (r: (MediaRow, seq<MediaRow>))
    ensures MatchFilm(t.media, name, year).Some? ==> r == (MatchFilm(t.media, name, year).value, t.media)
    ensures MatchFilm(t.media, name, year).None? ==> r.1 == t.media + [r.0] && r.0.id == mediaId
    ensures MatchFilm(t.media, name, year).None? && (tmdb.None? || tmdb.value == []) ==> r.0 == Bare(name, year, mediaId, now)
  {
    var found := MatchFilm(t.media, name, year);
    if found.Some? then (found.value, t.media)
    else
      var m := if tmdb.Some? && tmdb.value != [] then FromTmdb(Search.ParseMovie(tmdb.value[0]), name, year, mediaId, now)
               else Bare(name, year, mediaId, now);
      (m, t.media + [m])
  }

  /** A bare film created for a row is the one the same row finds next time. */
  lemma BareFilmFoundAgain(media: seq<MediaRow>, name: string, year: int, id: string, now: int)
    ensures MatchFilm(media + [Bare(name, year, id, now)], name, year).Some?
  {
    var m := Bare(name, year, id, now);
    assert (media + [m])[|media|] == m;
  }

  datatype Outcome = Outcome(reply: Reply, tables: Tables)

  const MissingFields: string := "Name and Year are required to import a review from Letterboxd."

  /**
   The database calls that fail, if any: the film lookup, the create from the
   TMDB result, the bare create, and the review read or write. The calls are
   not in a transaction, so a film created before a failing review step stays.
   */
  datatype Faults = Faults(lookup: bool, tmdbCreate: bool, bareCreate: bool, reviewStep: bool)

  const NoFaults := Faults(false, false, false, false)

  /** A row with a name and a year whose base-10 `parseInt` is a number. */
  predicate Accepted(row: Row) {
    TextOr(row.name, "") != "" && TextOr(row.year, "") != "" && Parse(row.year.value, 10).Num?
  }

  /**
   What the film creation sees of the TMDB search: a failing create from the
   first result is caught and falls back to the bare create, exactly as if the
   search had found nothing.
   */
  function Searched(tmdb: Option<seq<Search.TmdbMovie>>, f: Faults): (r: Option<seq<Search.TmdbMovie>>)
    ensures f.tmdbCreate ==> r.None?
    ensures !f.tmdbCreate ==> r == tmdb
  {
    if f.tmdbCreate then None else tmdb
  }

  /** No stored film matches and no TMDB result is used: the bare create runs. */
  predicate CreatesBare(t: Tables, name: string, year: int, tmdb: Option<seq<Search.TmdbMovie>>) {
    MatchFilm(t.media, name, year).None? && (tmdb.None? || tmdb.value == [])
  }

  /**
   POST: 401 without a session; 400 when the name or the year is missing or
   empty, then when the year does not parse as a base-10 integer; otherwise
   the film is resolved and either the user's review of it gains the rewatch
   flag (200) or a new review is created (201). A body that is not JSON or a
   failing database call gives 500; a film created before the failure stays.
   */
  function Post(session: Option<string>, body: Option<Row>, t: Tables, faults: Faults,
                tmdb: Option<seq<Search.TmdbMovie>>, mediaId: string, reviewId: string, now: int): (o: Outcome)
    ensures session.None? ==> o.reply == Unauthorized("Unauthorized. Please log in to import reviews.") && o.tables == t
    ensures session.Some? && body.None? ==> o.reply == ServerError(InternalError) && o.tables == t
    ensures session.Some? && body.Some? ==>
      (TextOr(body.value.name, "") == "" || TextOr(body.value.year, "") == "" ==> o.reply == Invalid(MissingFields))
    ensures session.Some? && body.Some? && TextOr(body.value.name, "") != "" && TextOr(body.value.year, "") != "" ==>
      (Parse(body.value.year.value, 10).NaN? ==> o.reply == Invalid("Invalid year format") && o.tables == t)
    ensures session.Some? && body.Some? && Accepted(body.value) && faults == NoFaults ==>
      o == Save(session.value, body.value, Parse(body.value.year.value, 10).n, t, tmdb, mediaId, reviewId, now)
    ensures session.Some? && body.Some? && Accepted(body.value) && faults == NoFaults.(tmdbCreate := true) ==>
      o == Save(session.value, body.value, Parse(body.value.year.value, 10).n, t, None, mediaId, reviewId, now)
    ensures o.reply.status == 200 || o.reply.status == 201 ==>
      session.Some? && body.Some? && Accepted(body.value) && !faults.lookup && !faults.reviewStep
    ensures o.reply.status != 200 && o.reply.status != 201 ==>
      o.tables.reviews == t.reviews && o.tables.users == t.users && o.tables.comments == t.comments
    ensures o.reply.status != 200 && o.reply.status != 201 && o.tables != t ==>
      && o.reply.status == 500 && |o.tables.media| == |t.media| + 1
      && o.tables.media[..|t.media|] == t.media && o.tables.media[|t.media|].id == mediaId
    ensures session.Some? && body.Some? && Accepted(body.value) && !faults.lookup && faults.reviewStep
            && MatchFilm(t.media, body.value.name.value, Parse(body.value.year.value, 10).n).None?
            && !(faults.bareCreate && CreatesBare(t, body.value.name.value, Parse(body.value.year.value, 10).n, Searched(tmdb, faults))) ==>
      o.reply.status == 500 && |o.tables.media| == |t.media| + 1
    ensures session.Some? && body.Some? && Accepted(body.value)
            && (faults.lookup || (faults.bareCreate && CreatesBare(t, body.value.name.value, Parse(body.value.year.value, 10).n, Searched(tmdb, faults)))) ==>
      o.reply == ServerError(InternalError) && o.tables == t
    ensures session.Some? && body.Some? && Accepted(body.value) && !faults.lookup && faults.reviewStep
            && !(faults.bareCreate && CreatesBare(t, body.value.name.value, Parse(body.value.year.value, 10).n, Searched(tmdb, faults))) ==>
      && o.reply == ServerError(InternalError)
      && o.tables == t.(media := ResolveFilm(t, body.value.name.value, Parse(body.value.year.value, 10).n, Searched(tmdb, faults), mediaId, now).1)
    ensures session.Some? && body.Some? && Accepted(body.value) && !faults.lookup && !faults.reviewStep
            && !(faults.bareCreate && CreatesBare(t, body.value.name.value, Parse(body.value.year.value, 10).n, Searched(tmdb, faults))) ==>
      o == Save(session.value, body.value, Parse(body.value.year.value, 10).n, t, Searched(tmdb, faults), mediaId, reviewId, now)
  {
    if session.None? then Outcome(Unauthorized("Unauthorized. Please log in to import reviews."), t)
    else if body.None? then Outcome(ServerError(InternalError), t)
    else
      var row := body.value;
      if TextOr(row.name, "") == "" || TextOr(row.year, "") == "" then Outcome(Invalid(MissingFields), t)
      else
        var parsed := Parse(row.year.value, 10);
        if parsed.NaN? then Outcome(Invalid("Invalid year format"), t)
        else if faults.lookup then Outcome(ServerError(InternalError), t)
        else
          var tm := Searched(tmdb, faults);
          if faults.bareCreate && CreatesBare(t, row.name.value, parsed.n, tm) then Outcome(ServerError(InternalError), t)
          else if faults.reviewStep then
            Outcome(ServerError(InternalError), t.(media := ResolveFilm(t, row.name.value, parsed.n, tm, mediaId, now).1))
          else Save(session.value, row, parsed.n, t, tm, mediaId, reviewId, now)
  }

  /** The writes of an accepted row. */
  function Save(userId: string, row: Row, year: int, t: Tables,
                tmdb: Option<seq<Search.TmdbMovie>>, mediaId: string, reviewId: string, now: int): (o: Outcome)
    requires row.name.Some?
    ensures o.reply.status == 200 || o.reply.status == 201
    ensures var film := ResolveFilm(t, row.name.value, year, tmdb, mediaId, now);
      o.tables.media == film.1 && o.tables.users == t.users && o.tables.comments == t.comments
    ensures var film := ResolveFilm(t, row.name.value, year, tmdb, mediaId, now).0;
      UserReview(t.reviews, film.id, userId).Some? <==> o.reply.status == 200
    ensures var film := ResolveFilm(t, row.name.value, year, tmdb, mediaId, now).0;
      var prior := UserReview(t.reviews, film.id, userId);
      prior.Some? ==> |o.tables.reviews| == |t.reviews| && o.tables.reviews == t.reviews[prior.value := t.reviews[prior.value].(
        consumedMoreThanOnce := t.reviews[prior.value].consumedMoreThanOnce || IsRewatch(row.rewatch))]
    ensures var film := ResolveFilm(t, row.name.value, year, tmdb, mediaId, now).0;
      UserReview(t.reviews, film.id, userId).None? ==> o.tables.reviews == t.reviews + [NewReview(reviewId, film.id, userId, row, now)]
  {
    var film := ResolveFilm(t, row.name.value, year, tmdb, mediaId, now);
    var t1 := t.(media := film.1);
    var prior := UserReview(t.reviews, film.0.id, userId);
    if prior.Some? then
      var r := t.reviews[prior.value];
      Outcome(Ok("Review already existed, updated rewatch status"),
              t1.(reviews := t.reviews[prior.value := r.(consumedMoreThanOnce := r.consumedMoreThanOnce || IsRewatch(row.rewatch))]))
    else
      Outcome(Created("Review imported successfully"), t1.(reviews := t.reviews + [NewReview(reviewId, film.0.id, userId, row, now)]))
  }

  /** A new review: the parsed rating or none, the text or none when empty, and the rewatch flag. */
  function NewReview(id: string, mediaId: string, userId: string, row: Row, now: int): (r: ReviewRow)
    ensures r.rating == row.rating && r.liked.None? && r.consumedMoreThanOnce == IsRewatch(row.rewatch)
    ensures r.review.None? <==> row.review.None? || row.review.value == ""
    ensures r.totalComments == 0 && r.mediaId == mediaId && r.userId == userId
  {
    ReviewRow(id, mediaId, userId, row.rating,
      None, if row.review.Some? && row.review.value != "" then row.review else None, now, now, IsRewatch(row.rewatch), 0)
  }

  /**
   Importing the same row twice leaves one review for the user and the film,
   whenever the film the first import used has the row's title and year: a
   stored match, or a film created bare or with TMDB's title and year agreeing
   with the row. The second import creates no film either.
   */
  lemma ReimportKeepsOneReview(userId: string, row: Row, year: int, t: Tables,
                               tmdb: Option<seq<Search.TmdbMovie>>, mediaId: string, reviewId: string, now: int)
    requires row.name.Some?
    requires SameFilm(ResolveFilm(t, row.name.value, year, tmdb, mediaId, now).0, row.name.value, year)
    ensures var o1 := Save(userId, row, year, t, tmdb, mediaId, reviewId, now);
      var o2 := Save(userId, row, year, o1.tables, tmdb, mediaId, reviewId, now);
      o2.reply.status == 200 && |o2.tables.reviews| == |o1.tables.reviews| && o2.tables.media == o1.tables.media
  {
    var name := row.name.value;
    var film := ResolveFilm(t, name, year, tmdb, mediaId, now).0;
    var o1 := Save(userId, row, year, t, tmdb, mediaId, reviewId, now);
    if MatchFilm(t.media, name, year).None? {
      MatchAppended(t.media, film, name, year);
    }
    assert MatchFilm(o1.tables.media, name, year) == Some(film);
    var prior := UserReview(t.reviews, film.id, userId);
    if prior.Some? {
      assert o1.tables.reviews[prior.value].mediaId == film.id && o1.tables.reviews[prior.value].userId == userId;
    } else {
      var k := |t.reviews|;
      assert o1.tables.reviews[k].mediaId == film.id && o1.tables.reviews[k].userId == userId;
    }
  }

  /** After a table with no match, an appended film is the match exactly when it has the title and year. */
  lemma MatchAppended(media: seq<MediaRow>, m: MediaRow, name: string, year: int)
    requires MatchFilm(media, name, year).None?
    ensures SameFilm(m, name, year) ==> MatchFilm(media + [m], name, year) == Some(m)
    ensures !SameFilm(m, name, year) ==> MatchFilm(media + [m], name, year).None?
  {
    var all := media + [m];
    assert forall k :: 0 <= k < |media| ==> all[k] == media[k];
    assert all[|media|] == m;
    if SameFilm(m, name, year) {
      var r := MatchFilm(all, name, year);
      var k :| 0 <= k < |all| && all[k] == r.value;
      if k < |media| {
        assert !SameFilm(media[k], name, year);
      }
    }
  }

  /**
   When TMDB's first result has another title (ignoring case) or another year
   than the row, the created film does not match the row, and importing the
   row again creates a second film and a second review.
   */
  lemma TmdbMismatchDuplicates(userId: string, row: Row, year: int, t: Tables, tmdb: Option<seq<Search.TmdbMovie>>,
                               id1: string, id2: string, r1: string, r2: string, now: int)
    requires row.name.Some? && MatchFilm(t.media, row.name.value, year).None?
    requires tmdb.Some? && tmdb.value != []
    requires !SameFilm(FromTmdb(Search.ParseMovie(tmdb.value[0]), row.name.value, year, id1, now), row.name.value, year)
    requires id1 != id2 && forall k :: 0 <= k < |t.reviews| ==> t.reviews[k].mediaId != id2
    ensures var o1 := Save(userId, row, year, t, tmdb, id1, r1, now);
      var o2 := Save(userId, row, year, o1.tables, tmdb, id2, r2, now);
      o2.reply.status == 201 && |o2.tables.reviews| == |o1.tables.reviews| + 1 && |o2.tables.media| == |t.media| + 2
  {
    var name := row.name.value;
    var film := FromTmdb(Search.ParseMovie(tmdb.value[0]), name, year, id1, now);
    var o1 := Save(userId, row, year, t, tmdb, id1, r1, now);
    MatchAppended(t.media, film, name, year);
    assert MatchFilm(o1.tables.media, name, year).None?;
    var film2 := ResolveFilm(o1.tables, name, year, tmdb, id2, now).0;
    assert film2.id == id2;
    assert forall k :: 0 <= k < |o1.tables.reviews| ==> o1.tables.reviews[k].mediaId != id2;
  }

  /** The rewatch flag of an existing review never goes from set to unset. */
  lemma RewatchNeverCleared(userId: string, row: Row, year: int, t: Tables,
                            tmdb: Option<seq<Search.TmdbMovie>>, mediaId: string, reviewId: string, now: int, k: nat)
    requires row.name.Some? && k < |t.reviews| && t.reviews[k].consumedMoreThanOnce
    ensures var o := Save(userId, row, year, t, tmdb, mediaId, reviewId, now);
      k < |o.tables.reviews| && o.tables.reviews[k].consumedMoreThanOnce
  {
  }
}

=== FILE: media_actions.dfy ===
/**
 The media server actions: the disabled catalogue listing and global
 statistics, the title lookup for page metadata, and one media item with a
 page of its reviews.
 */
module MediaActions {
  import opened Optional
  import opened Seqs
  import opened AppStore
  import opened Db

  const MediaError := "Could not fetch media item."

  datatype MediaList = MediaList(items: seq<SafeMedia>, total: int)

  /**
   `getMedias` returns before its query: whatever the page, type or search
   text, the list is empty with total 0.
   */
  function GetMedias(page: int, pageSize: int, mediaType: Option<string>, searchQuery: Option<string>): (r: MediaList)
    ensures r.items == [] && r.total == 0
  {
    MediaList([], 0)
  }

  /** The listing does not depend on its arguments. */
  lemma GetMediasConstant(p1: int, s1: int, t1: Option<string>, q1: Option<string>,
                          p2: int, s2: int, t2: Option<string>, q2: Option<string>)
    ensures GetMedias(p1, s1, t1, q1) == GetMedias(p2, s2, t2, q2)
  {
  }

  datatype GlobalStats = GlobalStats(topRated: int, recentlyAdded: int)

  /** `getGlobalMediaStats` also returns before its cache and database reads. */
  function GetGlobalMediaStats(db: Option<Tables>): (r: GlobalStats)
    ensures r.topRated == 0 && r.recentlyAdded == 0
  {
    GlobalStats(0, 0)
  }

  /** `getMediaMetadata`: the title of an existing item; a missing item and a failing query both give `None`. */
  function GetMediaMetadata(db: Option<Tables>, id: string): (r: Option<string>)
    ensures db.None? ==> r.None?
    ensures db.Some? ==> (r.Some? <==> exists k :: 0 <= k < |db.value.media| && db.value.media[k].id == id)
    ensures r.Some? ==> exists k :: 0 <= k < |db.value.media| && db.value.media[k].id == id && db.value.media[k].title == r.value
  {
    if db.None? then None
    else
      match Find(db.value.media, MediaKey, id)
      case None => None
      case Some(m) => Some(m.title)
  }

  /** `SafeMediaItemWithReviews`. */
  datatype MediaWithReviews = MediaWithReviews(
    media: SafeMedia,
    reviews: seq<SafeReview>,
    totalPages: PageCount,
    currentPage: int)

  /** Each review with its author, whose e-mail address is included; a dangling author fails the query. */
  function WithUsers(t: Tables, rows: seq<ReviewRow>): (r: Option<seq<SafeReview>>)
    ensures r.Some? <==> forall k :: 0 <= k < |rows| ==> Find(t.users, UserKey, rows[k].userId).Some?
    ensures r.Some? ==> |r.value| == |rows|
    ensures r.Some? ==> forall k :: 0 <= k < |rows| ==> r.value[k].id == rows[k].id && r.value[k].mediaId == rows[k].mediaId
    ensures r.Some? ==> forall k :: 0 <= k < |rows| ==>
      r.value[k].user.id == rows[k].userId && r.value[k].user.email == Find(t.users, UserKey, rows[k].userId).value.email
  {
    MapAll(rows, (x: ReviewRow) =>
      match Find(t.users, UserKey, x.userId)
      case None => None
      case Some(u) => Some(SafeReviewOf(x, SafeUser(u, u.email))))
  }

  function MediaReviews(t: Tables, id: string): (r: seq<ReviewRow>)
    ensures forall k :: 0 <= k < |r| ==> r[k].mediaId == id
  {
    Filter(t.reviews, (x: ReviewRow) => x.mediaId == id)
  }

  function Created(x: ReviewRow): int { x.createdAt }

  /**
   `getMediaById`: `None` for an unknown id, whatever the page; otherwise the
   item with page `page` of its reviews newest first, and a page count from
   the item's stored review total.
   */
  function GetMediaById(db: Option<Tables>, id: string, page: int, pageSize: int): (r: Fetch<Option<MediaWithReviews>>)
    ensures db.None? ==> r == Failed(MediaError)
    ensures r.Failed? ==> r.message == MediaError
    ensures db.Some? && Find(db.value.media, MediaKey, id).None? ==> r == Fetched(None)
    ensures db.Some? && Find(db.value.media, MediaKey, id).Some? && (Skip(page, pageSize) < 0 || pageSize < 0) ==> r.Failed?
    ensures r.Fetched? && r.value.Some? ==>
      var m := Find(db.value.media, MediaKey, id).value;
      && r.value.value.media.id == id
      && r.value.value.media.mtype == TypeName(m.mtype)
      && r.value.value.totalPages == TotalPages(m.totalReviews, pageSize)
      && r.value.value.currentPage == page
      && |r.value.value.reviews| <= pageSize
  {
    if db.None? then Failed(MediaError)
    else
      match Find(db.value.media, MediaKey, id)
      case None => Fetched(None)
      case Some(m) =>
        var sorted := NewestFirst(MediaReviews(db.value, id), Created);
        match Window(sorted, Skip(page, pageSize), pageSize)
        case None => Failed(MediaError)
        case Some(rows) =>
          match WithUsers(db.value, rows)
          case None => Failed(MediaError)
          case Some(reviews) =>
            Fetched(Some(MediaWithReviews(SafeMediaOf(m), reviews, TotalPages(m.totalReviews, pageSize), page)))
  }

  /**
   Entry `k` of the page is the item's review at position `skip + k` in
   newest-first order; every review shown belongs to the item.
   */
  lemma MediaReviewsPage(db: Tables, id: string, page: int, pageSize: int)
    ensures var r := GetMediaById(Some(db), id, page, pageSize);
      var sorted := NewestFirst(MediaReviews(db, id), Created);
      r.Fetched? && r.value.Some? ==>
        && |r.value.value.reviews| == PageLength(|sorted|, Skip(page, pageSize), pageSize)
        && forall k :: 0 <= k < |r.value.value.reviews| ==>
        && Skip(page, pageSize) + k < |sorted|
        && r.value.value.reviews[k].id == sorted[Skip(page, pageSize) + k].id
        && r.value.value.reviews[k].mediaId == id
  {
    var r := GetMediaById(Some(db), id, page, pageSize);
    if r.Fetched? && r.value.Some? {
      var own := MediaReviews(db, id);
      var sorted := NewestFirst(own, Created);
      var rows := Window(sorted, Skip(page, pageSize), pageSize).value;
      var rs := WithUsers(db, rows).value;
      assert r.value.value.reviews == rs;
      forall k | 0 <= k < |rs|
        ensures Skip(page, pageSize) + k < |sorted| && rs[k].id == sorted[Skip(page, pageSize) + k].id && rs[k].mediaId == id
      {
        assert rows[k] == sorted[Skip(page, pageSize) + k];
        InNewestFirst(own, Created, rows[k]);
      }
    }
  }

  /** The default page size of `getMediaById`. */
  const MediaReviewsPageSize := 5

  /** With its default arguments, `getMediaById` shows the item's five newest reviews, or all of them when fewer. */
  lemma DefaultMediaReviewsPage(db: Tables, id: string)
    ensures var r := GetMediaById(Some(db), id, FirstPage, MediaReviewsPageSize);
      var sorted := NewestFirst(MediaReviews(db, id), Created);
      r.Fetched? && r.value.Some? ==>
        && r.value.value.currentPage == 1
        && |r.value.value.reviews| == (if |sorted| < 5 then |sorted| else 5)
        && forall k :: 0 <= k < |r.value.value.reviews| ==> r.value.value.reviews[k].id == sorted[k].id
  {
    MediaReviewsPage(db, id, FirstPage, MediaReviewsPageSize);
  }
}

=== FILE: media_card.dfy ===
/**
 What a media card shows: the creator line, the image, the type label, the
 genres and the rating area with its stars. Average ratings are in tenths of
 a star; translations are left as keys.
 */
module MediaCard {
  import opened Optional
  import opened AppStore
  import Rating
  import SearchInput
  import Db

  /** A text counts only when present and non-empty, as JavaScript truthiness has it. */
  predicate Truthy(s: Option<string>) {
    s.Some? && s.value != ""
  }

  datatype Creator = Director(name: string) | By(name: string) | Artist(name: string) | NoCreator

  /** `getCreatorLabel`: the director, else the author, else the artist, else nothing. */
  function CreatorLabel(m: Db.SafeMedia): (r: Creator)
    ensures r.NoCreator? <==> !Truthy(m.director) && !Truthy(m.author) && !Truthy(m.artist)
    ensures r.Director? <==> Truthy(m.director)
    ensures r.By? <==> !Truthy(m.director) && Truthy(m.author)
    ensures r.Director? ==> r.name == m.director.value
    ensures r.By? ==> r.name == m.author.value
    ensures r.Artist? ==> r.name == m.artist.value
  {
    if Truthy(m.director) then Director(m.director.value)
    else if Truthy(m.author) then By(m.author.value)
    else if Truthy(m.artist) then Artist(m.artist.value)
    else NoCreator
  }

  /** `poster || cover`: the image shown, when there is one. */
  function CardImage(m: Db.SafeMedia): (r: Option<string>)
    ensures Truthy(m.poster) ==> r == m.poster
    ensures !Truthy(m.poster) && Truthy(m.cover) ==> r == m.cover
    ensures r.None? <==> !Truthy(m.poster) && !Truthy(m.cover)
  {
    if Truthy(m.poster) then m.poster else if Truthy(m.cover) then m.cover else None
  }

  /** The type badge's translation key: the singular "musicSingle" for music, the type itself otherwise. */
  function TypeLabelKey(mtype: string): (k: string)
    ensures mtype == "music" ==> k == "musicSingle"
    ensures mtype != "music" ==> k == mtype
  {
    if mtype == "music" then "musicSingle" else mtype
  }

  /** The icon of a lower-case type name, a note for anything else. */
  function IconOfName(mtype: string): (i: SearchInput.Icon)
    ensures i == SearchInput.StickyNote <==> ParseType(mtype).None?
  {
    if mtype == "film" then SearchInput.Clapperboard
    else if mtype == "series" then SearchInput.Tv
    else if mtype == "game" then SearchInput.Gamepad
    else if mtype == "book" then SearchInput.BookIcon
    else if mtype == "music" then SearchInput.MusicIcon
    else SearchInput.StickyNote
  }

  /** A type gets the same icon here as the search suggestions give its enumeration name. */
  lemma IconAgreesWithSuggestions(t: MediaType)
    ensures IconOfName(TypeName(t)) == SearchInput.IconOf(EnumName(t))
  {
  }

  /** Every genre is listed, none left out and none added. */
  function CardGenres(m: Db.SafeMedia): (r: seq<string>)
    ensures |r| == |m.genre|
    ensures forall k :: 0 <= k < |r| ==> r[k] == m.genre[k]
  {
    m.genre
  }

  datatype RatingArea = Stars(tenths: nat) | Thumbs(likes: int, dislikes: int) | NoRating

  /** Stars for a positive average, else thumbs when there is any like or dislike, else nothing. */
  function RatingAreaOf(m: Db.SafeMedia): (r: RatingArea)
    ensures r.Stars? <==> m.averageRating > 0
    ensures r.Thumbs? <==> m.averageRating <= 0 && (m.totalLikes > 0 || m.totalDislikes > 0)
    ensures r.Stars? ==> r.tenths == m.averageRating
    ensures r.Thumbs? ==> r.likes == m.totalLikes && r.dislikes == m.totalDislikes
  {
    if m.averageRating > 0 then Stars(m.averageRating)
    else if m.totalLikes > 0 || m.totalDislikes > 0 then Thumbs(m.totalLikes, m.totalDislikes)
    else NoRating
  }

  /** The card's own star row: star `i` is filled below the whole part, half filled at it when the fraction reaches a half. */
  predicate StarFilled(tenths: nat, i: nat) {
    i < tenths / 10
  }

  predicate StarHalfFilled(tenths: nat, i: nat) {
    i == tenths / 10 && tenths % 10 >= 5
  }

  /** The card draws stars exactly as the rating input does. */
  lemma StarsAgreeWithInput(tenths: nat, i: nat)
    ensures StarFilled(tenths, i) <==> Rating.Filled(tenths, i)
    ensures StarHalfFilled(tenths, i) <==> Rating.HalfFilled(tenths, i)
  {
    Rating.StarsDrawn(tenths, i);
  }
}

/**
 The compact media panel beside a review: icon by type, at most two genres
 with a "+n" badge, the poster only, and the same rating area as the card.
 */
module MediaContext {
  import opened Optional
  import opened MediaCard
  import SearchInput
  import Db

  /** The icon: the first listed type equal to the media's type, else the note. */
  const TypeIcons: seq<(string, SearchInput.Icon)> := [
    ("film", SearchInput.Clapperboard), ("series", SearchInput.Tv), ("game", SearchInput.Gamepad),
    ("book", SearchInput.BookIcon), ("music", SearchInput.MusicIcon)]

  function FindIcon(table: seq<(string, SearchInput.Icon)>, mtype: string): (i: SearchInput.Icon)
    ensures (forall k :: 0 <= k < |table| ==> table[k].0 != mtype) ==> i == SearchInput.StickyNote
    decreases |table|
  {
    if table == [] then SearchInput.StickyNote
    else if table[0].0 == mtype then table[0].1
    else FindIcon(table[1..], mtype)
  }

  /** The lookup table gives the card's icon for every type name and for anything else. */
  lemma IconMatchesCard(mtype: string)
    ensures FindIcon(TypeIcons, mtype) == IconOfName(mtype)
  {
  }

  datatype Genres = Genres(shown: seq<string>, more: Option<nat>)

  /** The first two genres, and "+n" for the n genres beyond them. */
  function ContextGenres(genre: seq<string>): (r: Genres)
    ensures |r.shown| == if |genre| < 2 then |genre| else 2
    ensures r.shown == genre[..|r.shown|]
    ensures r.more.Some? <==> |genre| > 2
    ensures |r.shown| + r.more.OrElse(0) == |genre|
  {
    if |genre| <= 2 then Genres(genre, None) else Genres(genre[..2], Some(|genre| - 2))
  }

  /** The card shows the genres the panel shows, then the ones the panel only counts. */
  lemma CardShowsPanelGenres(m: Db.SafeMedia)
    ensures ContextGenres(m.genre).shown <= MediaCard.CardGenres(m)
    ensures |MediaCard.CardGenres(m)| == |ContextGenres(m.genre).shown| + ContextGenres(m.genre).more.OrElse(0)
  {
  }

  /** Only the poster is used; the cover never is. */
  function ContextImage(m: Db.SafeMedia): (r: Option<string>)
    ensures r.Some? <==> Truthy(m.poster)
    ensures r.Some? ==> r == m.poster
  {
    if Truthy(m.poster) then m.poster else None
  }

  /** A media item with a cover but no poster shows an image on the card and none in the panel. */
  lemma CoverOnlyOnCard(m: Db.SafeMedia)
    requires !Truthy(m.poster) && Truthy(m.cover)
    ensures CardImage(m) == m.cover && ContextImage(m).None?
  {
  }
}

=== FILE: media_route.dfy ===
/**
 `/api/media` POST: adding a search suggestion to the catalogue unless an
 entry of the same title, type and year exists. The body is `None` when it
 is not JSON, and `fault` stands for a database error. The route needs no
 session.
 */
module MediaRoute {
  import opened Optional
  import opened AppStore
  import opened Api
  import opened Db
  import opened SearchInput
  import ReviewForm
  import ReviewModal

  /** Reads an upper-case database type name back; anything else is not a value of the enumeration. */
  function EnumType(s: string): (r: Option<MediaType>)
    ensures r.Some? ==> EnumName(r.value) == s
  {
    if s == "FILM" then Some(Film)
    else if s == "SERIES" then Some(Series)
    else if s == "GAME" then Some(Game)
    else if s == "BOOK" then Some(Book)
    else if s == "MUSIC" then Some(Music)
    else None
  }

  lemma EnumTypeName(t: MediaType)
    ensures EnumType(EnumName(t)) == Some(t)
  {
  }

  /** A catalogue row with this exact title, type and year; a missing year matches only a missing year. */
  predicate SameEntry(m: MediaRow, title: string, t: MediaType, year: Option<int>) {
    m.title == title && m.mtype == t && m.year == year
  }

  /** `findFirst` on title, type and year: the position of the first match. */
  function FindEntry(media: seq<MediaRow>, title: string, t: MediaType, year: Option<int>): (r: Option<nat>)
    ensures r.None? <==> forall k :: 0 <= k < |media| ==> !SameEntry(media[k], title, t, year)
    ensures r.Some? ==> r.value < |media| && SameEntry(media[r.value], title, t, year)
    ensures r.Some? ==> forall k :: 0 <= k < r.value ==> !SameEntry(media[k], title, t, year)
    decreases |media|
  {
    if media == [] then None
    else if SameEntry(media[0], title, t, year) then Some(0)
    else
      var r := FindEntry(media[1..], title, t, year);
      assert forall k :: 0 < k < |media| ==> media[k] == media[1..][k - 1];
      if r.None? then None else Some(r.value + 1)
  }

  /** The row `create` writes: title, type, year, poster and description; genres and counters at their defaults. */
  function NewEntry(id: string, s: Suggestion, t: MediaType, now: int): (m: MediaRow)
    ensures m.id == id && SameEntry(m, s.title, t, s.year)
    ensures m.poster == s.poster && m.description == s.description
    ensures m.genre == [] && m.totalReviews == 0 && m.averageRating == 0
  {
    MediaRow(id, s.title, t, s.year, None, None, None, [], s.poster, None, s.description, 0, 0, 0, 0, now)
  }

  /** The answer, the tables after the request, and the row created, if any. */
  datatype Outcome = Outcome(reply: Reply, tables: Tables, created: Option<MediaRow>)

  /**
   POST: for a JSON body, 400 without a `selectedMedia` object; 409 when an
   entry of the same title, type and year exists; otherwise the entry is
   created with 201. A type outside the enumeration, a database error, or a
   body that is not JSON gives 500. Nothing is written unless the answer is 201.
   */
  function Post(body: Option<Option<Suggestion>>, t: Tables, fault: bool, freshId: string, now: int): (o: Outcome)
    ensures o.reply.status != 201 ==> o.tables == t && o.created.None?
    ensures body == Some(None) <==> o.reply == Invalid("Media object is required")
    ensures o.reply.status == 409 <==> (body.Some? && body.value.Some? && !fault && EnumType(body.value.value.stype).Some?
                                        && FindEntry(t.media, body.value.value.title, EnumType(body.value.value.stype).value, body.value.value.year).Some?)
    ensures o.reply.status == 201 ==> body.Some? && body.value.Some? && !fault && EnumType(body.value.value.stype).Some?
    ensures o.reply.status == 201 ==> var s := body.value.value;
      o.created == Some(NewEntry(freshId, s, EnumType(s.stype).value, now)) && o.tables == t.(media := t.media + [o.created.value])
    ensures o.reply.status == 409 ==> o.reply.message == "You have already added this media item"
    ensures o.reply.status in {201, 400, 409, 500}
  {
    if body.None? then Outcome(ServerError(InternalError), t, None)
    else if body.value.None? then Outcome(Invalid("Media object is required"), t, None)
    else
      var s := body.value.value;
      var ty := EnumType(s.stype);
      if ty.None? || fault then Outcome(ServerError(InternalError), t, None)
      else if FindEntry(t.media, s.title, ty.value, s.year).Some? then
        Outcome(Conflict("You have already added this media item"), t, None)
      else
        var m := NewEntry(freshId, s, ty.value, now);
        Outcome(Created("Media created successfully"), t.(media := t.media + [m]), Some(m))
  }

  /** No two catalogue entries share title, type and year. */
  predicate NoDuplicateEntries(media: seq<MediaRow>) {
    forall i, j :: 0 <= i < j < |media| ==> !SameEntry(media[i], media[j].title, media[j].mtype, media[j].year)
  }

  /** Whatever the request, POST never creates a second entry of the same title, type and year. */
  lemma PostKeepsEntriesDistinct(body: Option<Option<Suggestion>>, t: Tables, fault: bool, freshId: string, now: int)
    requires NoDuplicateEntries(t.media)
    ensures NoDuplicateEntries(Post(body, t, fault, freshId, now).tables.media)
  {
    var o := Post(body, t, fault, freshId, now);
    if o.reply.status == 201 {
      var ms := o.tables.media;
      var n := ms[|t.media|];
      assert FindEntry(t.media, n.title, n.mtype, n.year).None?;
      forall i, j | 0 <= i < j < |ms|
        ensures !SameEntry(ms[i], ms[j].title, ms[j].mtype, ms[j].year)
      {
        if j == |t.media| {
          assert ms[i] == t.media[i];
        }
      }
    }
  }

  /** Adding the same suggestion twice: the second request is refused with 409 and writes nothing. */
  lemma RepeatIsConflict(s: Suggestion, t: Tables, freshId: string, now: int, freshId2: string, now2: int)
    requires Post(Some(Some(s)), t, false, freshId, now).reply.status == 201
    ensures var t2 := Post(Some(Some(s)), t, false, freshId, now).tables;
      var o := Post(Some(Some(s)), t2, false, freshId2, now2);
      o.reply == Conflict("You have already added this media item") && o.tables == t2
  {
    var t2 := Post(Some(Some(s)), t, false, freshId, now).tables;
    assert SameEntry(t2.media[|t.media|], s.title, EnumType(s.stype).value, s.year);
  }

  // ---------------------------------------------------------------- as the review modal reads the answer

  /**
   What the review modal's "next" step makes of this route's answer: a 2xx
   answer gives the created row's id, and, since the answer carries no
   `hasReviewed` field, "not reviewed"; any other answer is a failure
   carrying the route's message.
   */
  function CheckOf(o: Outcome): (c: ReviewModal.Check)
    ensures c.Checked? <==> o.reply.status == 201 && o.created.Some?
    ensures c.Checked? ==> c.id == o.created.value.id && !c.reviewed
    ensures c.CheckFailed? ==> c.res == ReviewForm.NotOk(Some(o.reply.message))
  {
    if o.reply.status == 201 && o.created.Some? then ReviewModal.Checked(o.created.value.id, false)
    else ReviewModal.CheckFailed(ReviewForm.NotOk(Some(o.reply.message)))
  }

  /**
   A suggestion already in the catalogue never gets the modal past step 1:
   the check fails with the conflict message and no media id is stored.
   */
  lemma CatalogedSuggestionStaysOnStepOne(m: ReviewModal.Modal, s: Suggestion, t: Tables, freshId: string, now: int)
    requires m.step == 1 && m.mediaId.None?
    requires EnumType(s.stype).Some? && FindEntry(t.media, s.title, EnumType(s.stype).value, s.year).Some?
    ensures var r := ReviewModal.FinishNext(m, CheckOf(Post(Some(Some(s)), t, false, freshId, now)));
      r.step == 1 && r.mediaId.None? && r.error == Some("You have already added this media item")
  {
  }

  /** A new suggestion takes the modal to step 2 with the new entry's id and the checkbox cleared. */
  lemma NewSuggestionOpensStepTwo(m: ReviewModal.Modal, s: Suggestion, t: Tables, freshId: string, now: int)
    requires EnumType(s.stype).Some? && FindEntry(t.media, s.title, EnumType(s.stype).value, s.year).None?
    ensures var r := ReviewModal.FinishNext(m, CheckOf(Post(Some(Some(s)), t, false, freshId, now)));
      r.step == 2 && r.mediaId == Some(freshId) && !r.hasReviewed && !r.consumed
  {
  }
}

=== FILE: media_type_filter.dfy ===
/**
 The media-type filter under the header: the type it shows as selected and
 the address it navigates to when another type is picked.
 */
module MediaTypeFilter {
  import opened Optional
  import opened QueryParams

  /** The values the filter offers, "all" first. */
  const Choices: seq<string> := ["all", "film", "series", "game", "book", "music"]

  /** The selected type: the `type` parameter, or "all" when it is absent or empty. */
  function SelectedType(search: Params): (t: string)
    ensures Get(search, "type").Some? && Get(search, "type").value != "" ==> t == Get(search, "type").value
    ensures Get(search, "type").None? || Get(search, "type").value == "" ==> t == "all"
  {
    TextOr(Get(search, "type"), "all")
  }

  /** The query after picking `choice`: "all" removes `type`, any other value sets it, and `page` always goes. */
  function TypeQuery(search: Params, choice: string): Params {
    Delete(if choice == "all" then Delete(search, "type") else Set(search, "type", choice), "page")
  }

  /** `handleTypeChange`: the address pushed, the bare path when no parameter is left. */
  function HandleTypeChange(path: string, search: Params, choice: string): (url: string)
    ensures TypeQuery(search, choice) == [] ==> url == path
    ensures TypeQuery(search, choice) != [] ==> url == path + "?" + Serialize(TypeQuery(search, choice))
  {
    Href(path, TypeQuery(search, choice))
  }

  /**
   Picking a type resets paging, records the type (or no type for "all"),
   and keeps every other parameter, in order.
   */
  lemma TypeQuerySpec(search: Params, choice: string)
    ensures !HasName(TypeQuery(search, choice), "page")
    ensures choice == "all" ==> !HasName(TypeQuery(search, choice), "type")
    ensures choice != "all" ==> Get(TypeQuery(search, choice), "type") == Some(choice)
    ensures Delete(TypeQuery(search, choice), "type") == Delete(Delete(search, "type"), "page")
  {
    var x := if choice == "all" then Delete(search, "type") else Set(search, "type", choice);
    DeleteCommutes(x, "page", "type");
    if choice == "all" {
      DeleteIdempotent(search, "type");
    } else {
      SetOthersUnchanged(search, "type", choice);
      GetAfterSet(search, "type", choice);
      GetAfterDeleteOther(x, "page", "type");
    }
  }

  /** The filter on the new address shows the type that was picked. */
  lemma PickedTypeShown(search: Params, choice: string)
    requires choice in Choices
    ensures SelectedType(TypeQuery(search, choice)) == choice
  {
    TypeQuerySpec(search, choice);
  }
}

=== FILE: middleware.dfy ===
/**
 The request middleware: paths it lets through untouched, the locale prefix
 it recognises and strips, and the redirect it chooses from the session
 cookie. The configured locales and the default locale are parameters.
 */
module Middleware {
  import opened Text
  import opened Optional

  const ProtectedRoutes: seq<string> := ["/dashboard", "/settings"]
  const AuthRoutes: seq<string> := ["/login", "/signup"]

  /** API routes, framework assets and any path with a dot skip the middleware. */
  predicate Skipped(path: string) {
    StartsWith(path, "/api/") || StartsWith(path, "/_next/") || StartsWith(path, "/_vercel/") || '.' in path
  }

  /** The path is `/L` or starts with `/L/` for the locale `l`. */
  predicate UnderLocale(path: string, l: string) {
    StartsWith(path, "/" + l + "/") || path == "/" + l
  }

  predicate HasLocale(path: string, locales: seq<string>) {
    exists k :: 0 <= k < |locales| && UnderLocale(path, locales[k])
  }

  /** The locale of the path: its first segment when it carries a configured locale, else the default. */
  function LocaleOf(path: string, locales: seq<string>, default: string): string {
    if HasLocale(path, locales) then
      var parts := Split(path, '/');
      if |parts| > 1 then parts[1] else ""
    else default
  }

  /** The path without its locale prefix, "/" when nothing is left; a path without a locale is unchanged. */
  function Strip(path: string, locales: seq<string>, default: string): (r: string)
    ensures !HasLocale(path, locales) ==> r == path
    ensures HasLocale(path, locales) ==> r != []
  {
    if HasLocale(path, locales) then
      var n := |"/" + LocaleOf(path, locales, default)|;
      var rest := if n <= |path| then path[n..] else [];
      if rest == [] then "/" else rest
    else path
  }

  lemma {:induction false} SplitSlashLocale(l: string, rest: string)
    requires '/' !in l
    ensures |Split("/" + l + rest, '/')| > 1
    ensures rest == [] || rest[0] == '/' ==> Split("/" + l + rest, '/')[1] == l
  {
    var s := "/" + l + rest;
    assert s[0] == '/';
    assert IndexOfChar(s, '/') == 0;
    var t := s[1..];
    assert t == l + rest;
    if rest == [] {
      assert '/' !in t;
    } else if rest[0] == '/' {
      assert t[|l|] == '/';
      IndexOfCharAfter(l, '/', rest[1..]);
      assert t == l + ['/'] + rest[1..];
    }
  }

  /**
   For a configured locale without a slash, a path under it has that locale,
   and stripping leaves the rest of the path, or "/" when there is none.
   */
  lemma LocaleOfPrefixed(l: string, rest: string, locales: seq<string>, default: string)
    requires l in locales && '/' !in l
    requires rest == [] || rest[0] == '/'
    ensures LocaleOf("/" + l + rest, locales, default) == l
    ensures Strip("/" + l + rest, locales, default) == if rest == [] then "/" else rest
  {
    var path := "/" + l + rest;
    var k :| 0 <= k < |locales| && locales[k] == l;
    if rest == [] {
      assert path == "/" + l;
    } else {
      assert StartsWith(path, "/" + l + "/") by {
        assert path[..|l| + 2] == "/" + l + "/";
      }
    }
    assert UnderLocale(path, locales[k]);
    SplitSlashLocale(l, rest);
    assert path[|"/" + l|..] == rest;
  }

  /** `!!cookie`: a present, non-empty session token. */
  predicate Authenticated(sessionToken: Option<string>) {
    sessionToken.Some? && sessionToken.value != []
  }

  predicate IsProtected(p: string) {
    exists k :: 0 <= k < |ProtectedRoutes| && StartsWith(p, ProtectedRoutes[k])
  }

  predicate IsAuthRoute(p: string) {
    exists k :: 0 <= k < |AuthRoutes| && StartsWith(p, AuthRoutes[k])
  }

  /** A path never starts with both a protected prefix and a login/sign-up prefix. */
  lemma ProtectedNotAuth(p: string)
    ensures IsProtected(p) ==> !IsAuthRoute(p)
  {
    if IsProtected(p) {
      var i :| 0 <= i < |ProtectedRoutes| && StartsWith(p, ProtectedRoutes[i]);
      assert p[..|ProtectedRoutes[i]|] == ProtectedRoutes[i];
      assert p[1] == ProtectedRoutes[i][1] && p[2] == ProtectedRoutes[i][2];
      forall j | 0 <= j < |AuthRoutes|
        ensures !StartsWith(p, AuthRoutes[j])
      {
        var a := AuthRoutes[j];
        if |a| <= |p| {
          if i == 0 {
            assert p[..|a|][1] != a[1];
          } else {
            assert p[..|a|][2] != a[2];
          }
        }
      }
    }
  }

  /** What the middleware answers. */
  datatype Decision =
    | PassThrough
    | ToLogin(path: string, callbackUrl: string)
    | ToHome(path: string)
    | Intl

  /**
   `middleware`: skipped paths pass through; a protected route without a
   session goes to the locale's login page with the request address as
   callback; a login or sign-up route with a session goes to the locale's
   home; everything else gets the internationalisation response.
   */
  function Decide(path: string, requestUrl: string, sessionToken: Option<string>, locales: seq<string>, default: string): (d: Decision)
    ensures Skipped(path) <==> d.PassThrough?
    ensures d.ToLogin? <==> !Skipped(path) && IsProtected(Strip(path, locales, default)) && !Authenticated(sessionToken)
    ensures d.ToHome? <==> !Skipped(path) && IsAuthRoute(Strip(path, locales, default)) && Authenticated(sessionToken)
    ensures d.ToLogin? ==> d.path == "/" + LocaleOf(path, locales, default) + "/login" && d.callbackUrl == requestUrl
    ensures d.ToHome? ==> d.path == "/" + LocaleOf(path, locales, default)
  {
    if Skipped(path) then PassThrough
    else
      var locale := LocaleOf(path, locales, default);
      var p := Strip(path, locales, default);
      if IsProtected(p) && !Authenticated(sessionToken) then ToLogin("/" + locale + "/login", requestUrl)
      else if IsAuthRoute(p) && Authenticated(sessionToken) then ToHome("/" + locale)
      else
        ProtectedNotAuth(p);
        Intl
  }

  /** Without a session a protected page of a locale sends to that locale's login page. */
  lemma ProtectedNeedsSession(l: string, rest: string, requestUrl: string, locales: seq<string>, default: string)
    requires l in locales && '/' !in l && '.' !in l && '.' !in rest
    requires StartsWith(rest, "/dashboard") || StartsWith(rest, "/settings")
    requires l != "api" && l != "_next" && l != "_vercel"
    ensures Decide("/" + l + rest, requestUrl, None, locales, default) == ToLogin("/" + l + "/login", requestUrl)
  {
    LocaleOfPrefixed(l, rest, locales, default);
    NotSkipped(l, rest);
    if StartsWith(rest, "/dashboard") {
      assert StartsWith(rest, ProtectedRoutes[0]);
    } else {
      assert StartsWith(rest, ProtectedRoutes[1]);
    }
  }

  /** A path under a locale that is no framework segment and has no dot is handled by the middleware. */
  lemma NotSkipped(l: string, rest: string)
    requires '/' !in l && '.' !in l && '.' !in rest
    requires rest == [] || rest[0] == '/'
    requires l != "api" && l != "_next" && l != "_vercel"
    ensures !Skipped("/" + l + rest)
  {
    var path := "/" + l + rest;
    assert '.' !in path;
    NotUnderSegment(l, rest, "api");
    NotUnderSegment(l, rest, "_next");
    NotUnderSegment(l, rest, "_vercel");
  }

  /** A path `/l` + rest, for a slash-free `l` other than `seg`, does not start with `/seg/`. */
  lemma NotUnderSegment(l: string, rest: string, seg: string)
    requires '/' !in l && '/' !in seg && l != seg
    requires rest == [] || rest[0] == '/'
    ensures !StartsWith("/" + l + rest, "/" + seg + "/")
  {
    var path := "/" + l + rest;
    var q := "/" + seg + "/";
    if |q| <= |path| {
      var i: nat;
      if |l| < |seg| {
        i := |l| + 1;
        assert path[i] == rest[0];
      } else if |l| > |seg| {
        i := |seg| + 1;
        assert path[i] == l[|seg|];
      } else {
        var k :| 0 <= k < |l| && l[k] != seg[k];
        i := k + 1;
        assert path[i] == l[k];
      }
      assert path[..|q|][i] != q[i];
    }
  }
}

=== FILE: modal_stores.dfy ===
/** The confirmation ("options") modal store. */
module OptionsModalStore {
  import opened Optional

  /** The confirm callback, which the model does not run. */
  datatype Callback = Noop | Callback(id: nat)

  datatype OptionsModal = OptionsModal(
    title: string,
    description: string,
    ctaText: string,
    ctaAction: Callback,
    isCTALoading: bool,
    isOpen: bool)

  const Initial := OptionsModal("", "", "", Noop, false, false)

  /** `showModal`: every field is replaced, loading defaults to false, and the modal opens. */
  function ShowModal(m: OptionsModal, title: string, description: string, ctaText: string,
                     ctaAction: Callback, isCTALoading: Option<bool>): (r: OptionsModal)
    ensures r.isOpen
    ensures r.isCTALoading == (isCTALoading == Some(true))
    ensures r.title == title && r.description == description && r.ctaText == ctaText && r.ctaAction == ctaAction
  {
    OptionsModal(title, description, ctaText, ctaAction, isCTALoading.OrElse(false), true)
  }

  /** `hideModal`: only `isOpen` changes. */
  function HideModal(m: OptionsModal): (r: OptionsModal)
    ensures !r.isOpen && r.(isOpen := m.isOpen) == m
  {
    m.(isOpen := false)
  }

  /** `setIsCTALoading`: only the loading flag changes. */
  function SetIsCTALoading(m: OptionsModal, loading: bool): (r: OptionsModal)
    ensures r.isCTALoading == loading && r.(isCTALoading := m.isCTALoading) == m
  {
    m.(isCTALoading := loading)
  }

  /** Showing after hiding gives the same modal as showing directly: nothing of the old state leaks. */
  lemma ShowReplacesAll(m1: OptionsModal, m2: OptionsModal, title: string, description: string,
                        ctaText: string, ctaAction: Callback, loading: Option<bool>)
    ensures ShowModal(HideModal(m1), title, description, ctaText, ctaAction, loading)
         == ShowModal(m2, title, description, ctaText, ctaAction, loading)
  {
  }
}

/** The followers / following modal store. */
module FollowsModalStore {

  datatype Behavior = Followers | Following

  datatype FollowsModal = FollowsModal(userId: string, userName: string, behavior: Behavior, isOpen: bool)

  const Initial := FollowsModal("", "", Followers, false)

  /** `showModal`: sets the user and the list to show, and opens. */
  function ShowModal(m: FollowsModal, userId: string, userName: string, behavior: Behavior): (r: FollowsModal)
    ensures r.isOpen && r.userId == userId && r.userName == userName && r.behavior == behavior
  {
    m.(userId := userId, userName := userName, behavior := behavior, isOpen := true)
  }

  /** `hideModal`: back to the initial state, whatever was open. */
  function HideModal(m: FollowsModal): (r: FollowsModal)
    ensures r == Initial
  {
    m.(userId := "", userName := "", behavior := Followers, isOpen := false)
  }

  /** `setBehavior`: only the list choice changes. */
  function SetBehavior(m: FollowsModal, behavior: Behavior): (r: FollowsModal)
    ensures r.behavior == behavior && r.(behavior := m.behavior) == m
  {
    m.(behavior := behavior)
  }

  /** Opening and then closing leaves no trace. */
  lemma ShowThenHide(m: FollowsModal, userId: string, userName: string, behavior: Behavior)
    ensures HideModal(ShowModal(m, userId, userName, behavior)) == Initial
  {
  }
}

=== FILE: optional.dfy ===
/** A value that may be absent: JavaScript's `null` / `undefined`. */
module Optional {

  datatype Option<T> = None | Some(value: T) {

    /** `x ?? d`. */
    function OrElse(d: T): (r: T)
      ensures Some? ==> r == value
      ensures None? ==> r == d
    {
      if Some? then value else d
    }
  }

  /** A text JavaScript treats as true: present and not empty. */
  predicate Given(s: Option<string>) { s.Some? && s.value != "" }

  /** `s || d` on an optional text: a missing or empty text gives the default. */
  function TextOr(v: Option<string>, d: string): (r: string)
    ensures Given(v) ==> r == v.value
    ensures !Given(v) ==> r == d
  {
    if v.Some? && v.value != [] then v.value else d
  }

  /**
   Every element mapped, in order, or nothing as soon as one element has no
   image: a query whose joined rows must all exist.
   */
  function MapAll<A, B>(xs: seq<A>, f: A -> Option<B>): (r: Option<seq<B>>)
    ensures r.Some? <==> forall k :: 0 <= k < |xs| ==> f(xs[k]).Some?
    ensures r.Some? ==> |r.value| == |xs| && forall k :: 0 <= k < |xs| ==> f(xs[k]) == Some(r.value[k])
    decreases |xs|
  {
    if xs == [] then Some([])
    else
      var rest := MapAll(xs[1..], f);
      assert forall k :: 0 < k < |xs| ==> xs[k] == xs[1..][k - 1];
      if f(xs[0]).None? || rest.None? then None
      else Some([f(xs[0]).value] + rest.value)
  }

  /** The images of the elements that have one, in order; the others are skipped. */
  function Present<A, B(!new)>(xs: seq<A>, f: A -> Option<B>): (r: seq<B>)
    ensures |r| <= |xs|
    ensures forall y :: y in r <==> exists k :: 0 <= k < |xs| && f(xs[k]) == Some(y)
    decreases |xs|
  {
    if xs == [] then []
    else
      var rest := Present(xs[1..], f);
      assert forall k :: 0 < k < |xs| ==> xs[k] == xs[1..][k - 1];
      assert forall y :: (exists k :: 0 <= k < |xs| && f(xs[k]) == Some(y))
                     <==> f(xs[0]) == Some(y) || exists k :: 0 <= k < |xs[1..]| && f(xs[1..][k]) == Some(y);
      if f(xs[0]).None? then rest else [f(xs[0]).value] + rest
  }

  /** `Present` distributes over concatenation: it keeps the input's order. */
  lemma {:induction false} PresentAppend<A, B(!new)>(a: seq<A>, b: seq<A>, f: A -> Option<B>)
    ensures Present(a + b, f) == Present(a, f) + Present(b, f)
    decreases |a|
  {
    if a == [] {
      assert a + b == b;
    } else {
      assert (a + b)[0] == a[0] && (a + b)[1..] == a[1..] + b;
      PresentAppend(a[1..], b, f);
    }
  }
}

=== FILE: pagination.dfy ===
/**
 The pagination bar: which page buttons and ellipses it shows, which buttons
 are disabled or hidden on small screens, and the address a page change pushes.
 */
module Pagination {
  import opened Text
  import opened Optional
  import opened QueryParams

  /** Most buttons shown on a wide screen. */
  const MaxVisible: int := 7

  datatype PageItem = Page(n: int) | Ellipsis

  /** The consecutive pages `lo..hi`, empty when `lo > hi`. */
  function Pages(lo: int, hi: int): (r: seq<PageItem>)
    ensures |r| == if lo <= hi then hi - lo + 1 else 0
    ensures forall k :: 0 <= k < |r| ==> r[k] == Page(lo + k)
    decreases hi - lo
  {
    if lo > hi then [] else [Page(lo)] + Pages(lo + 1, hi)
  }

  function Max(a: int, b: int): int { if a >= b then a else b }
  function Min(a: int, b: int): int { if a <= b then a else b }

  /** The buttons in order: every page up to seven pages, otherwise first, neighbours of the current page and last, with ellipses. */
  function PageNumbers(current: int, total: int): seq<PageItem> {
    if total <= 3 then Pages(1, total)
    else if total <= MaxVisible then Pages(1, total)
    else
      var start := Max(2, current - 1);
      var end := Min(total - 1, current + 1);
      [Page(1)]
      + (if current > 3 then [Ellipsis] else [])
      + Pages(start, end)
      + (if current < total - 2 then [Ellipsis] else [])
      + [Page(total)]
  }

  /** Whether the list shows a button for page `p`. */
  predicate Shows(items: seq<PageItem>, p: int) {
    Page(p) in items
  }

  /** The page numbers shown rise strictly from left to right. */
  predicate Increasing(items: seq<PageItem>) {
    forall i, j :: 0 <= i < j < |items| && items[i].Page? && items[j].Page? ==> items[i].n < items[j].n
  }

  /**
   Ellipses stand exactly for gaps: the list starts and ends with a page, never
   holds two ellipses in a row, two neighbouring pages are consecutive numbers,
   and the pages around an ellipsis are more than one apart.
   */
  predicate GapsMarked(items: seq<PageItem>) {
    && (items != [] ==> items[0].Page? && items[|items| - 1].Page?)
    && (forall i :: 0 < i < |items| && items[i - 1].Page? && items[i].Page? ==> items[i].n == items[i - 1].n + 1)
    && (forall i :: 0 < i < |items| - 1 && items[i].Ellipsis? ==>
          items[i - 1].Page? && items[i + 1].Page? && items[i + 1].n > items[i - 1].n + 1)
  }

  /** Up to seven pages, every page is listed, in order, without ellipses. */
  lemma FewPagesAllShown(current: int, total: int)
    requires total <= MaxVisible
    ensures PageNumbers(current, total) == Pages(1, total)
    ensures forall p :: Shows(PageNumbers(current, total), p) <==> 1 <= p <= total
  {
    var r := PageNumbers(current, total);
    forall p | 1 <= p <= total
      ensures Shows(r, p)
    {
      assert r[p - 1] == Page(p);
    }
  }

  /**
   Beyond seven pages, the buttons shown are exactly the first page, the last
   page and the inner pages next to the current one.
   */
  lemma ManyPagesShown(current: int, total: int, p: int)
    requires total > MaxVisible
    ensures Shows(PageNumbers(current, total), p) <==>
      p == 1 || p == total || (1 < p < total && current - 1 <= p <= current + 1)
  {
    var start := Max(2, current - 1);
    var end := Min(total - 1, current + 1);
    var pre := [Page(1)] + (if current > 3 then [Ellipsis] else []);
    var mid := Pages(start, end);
    var post := (if current < total - 2 then [Ellipsis] else []) + [Page(total)];
    var r := PageNumbers(current, total);
    assert r == pre + mid + post;
    if start <= p <= end {
      assert mid[p - start] == Page(p);
      assert r[|pre| + p - start] == Page(p);
    }
    if p == total {
      assert r[|r| - 1] == Page(total);
    }
    if Shows(r, p) {
      var i :| 0 <= i < |r| && r[i] == Page(p);
      if i >= |pre| && i < |pre| + |mid| {
        assert mid[i - |pre|] == Page(p);
      }
    }
  }

  /** Beyond seven pages the list never holds more than seven buttons, and shows the current page when it exists. */
  lemma ManyPagesBounded(current: int, total: int)
    requires total > MaxVisible
    ensures |PageNumbers(current, total)| <= MaxVisible
    ensures 1 <= current <= total ==> Shows(PageNumbers(current, total), current)
  {
    if 1 <= current <= total {
      ManyPagesShown(current, total, current);
    }
  }

  /**
   The shape of the list beyond seven pages: page 1 at index 0, an ellipsis at
   index 1 when `a == 2`, the run `start..` at indices `a..b-1`, possibly an
   ellipsis at `b`, and the last page at the end.
   */
  predicate Layout(r: seq<PageItem>, total: int, start: int, a: int, b: int) {
    && 2 <= start && total > MaxVisible
    && (a == 1 || a == 2) && a <= b
    && (|r| == b + 1 || |r| == b + 2)
    && r[0] == Page(1) && r[|r| - 1] == Page(total)
    && (a == 2 ==> r[1] == Ellipsis && start >= 3)
    && (a == 1 ==> start == 2)
    && (forall k :: a <= k < b ==> r[k] == Page(start + k - a) && start + k - a <= total - 1)
    && (|r| == b + 2 ==> r[b] == Ellipsis && start + (b - a) <= total - 1 && (a == 2 ==> b > a))
    && (|r| == b + 1 ==> (b > a ==> start + (b - a) == total) && (b == a ==> a == 2))
  }

  lemma ManyPagesLayout(current: int, total: int) returns (start: int, a: int, b: int)
    requires total > MaxVisible
    ensures Layout(PageNumbers(current, total), total, start, a, b)
  {
    start := Max(2, current - 1);
    var end := Min(total - 1, current + 1);
    var e1 := if current > 3 then [Ellipsis] else [];
    var e2 := if current < total - 2 then [Ellipsis] else [];
    var mid := Pages(start, end);
    var r := PageNumbers(current, total);
    assert r == [Page(1)] + e1 + mid + e2 + [Page(total)];
    a := 1 + |e1|;
    b := a + |mid|;
    forall k | a <= k < b
      ensures r[k] == Page(start + k - a)
    {
      assert r[k] == mid[k - a];
    }
    assert |e2| == 1 ==> r[b] == Ellipsis;
  }

  lemma LayoutIncreasing(r: seq<PageItem>, total: int, start: int, a: int, b: int)
    requires Layout(r, total, start, a, b)
    ensures Increasing(r)
  {
  }

  lemma LayoutNeighbours(r: seq<PageItem>, total: int, start: int, a: int, b: int)
    requires Layout(r, total, start, a, b)
    ensures forall i :: 0 < i < |r| && r[i - 1].Page? && r[i].Page? ==> r[i].n == r[i - 1].n + 1
  {
    forall i | 0 < i < |r| && r[i - 1].Page? && r[i].Page?
      ensures r[i].n == r[i - 1].n + 1
    {
      if i >= b {
        assert i == b;
      }
    }
  }

  lemma LayoutEllipses(r: seq<PageItem>, total: int, start: int, a: int, b: int)
    requires Layout(r, total, start, a, b)
    ensures forall i :: 0 < i < |r| - 1 && r[i].Ellipsis? ==>
      r[i - 1].Page? && r[i + 1].Page? && r[i + 1].n > r[i - 1].n + 1
  {
    forall i | 0 < i < |r| - 1 && r[i].Ellipsis?
      ensures r[i - 1].Page? && r[i + 1].Page? && r[i + 1].n > r[i - 1].n + 1
    {
      if i != b {
        assert i == 1;
      }
    }
  }

  /** The page numbers shown rise from left to right, for any current page. */
  lemma PageNumbersIncreasing(current: int, total: int)
    ensures Increasing(PageNumbers(current, total))
  {
    if total > MaxVisible {
      var start, a, b := ManyPagesLayout(current, total);
      LayoutIncreasing(PageNumbers(current, total), total, start, a, b);
    }
  }

  /** Ellipses mark exactly the gaps between the pages shown, for any current page. */
  lemma PageNumbersGapsMarked(current: int, total: int)
    ensures GapsMarked(PageNumbers(current, total))
  {
    var r := PageNumbers(current, total);
    if total > MaxVisible {
      var start, a, b := ManyPagesLayout(current, total);
      LayoutNeighbours(r, total, start, a, b);
      LayoutEllipses(r, total, start, a, b);
    } else {
      assert r == Pages(1, total);
      PagesGapsMarked(1, total);
    }
  }

  /** A run of consecutive pages has no ellipsis and no gap. */
  lemma PagesGapsMarked(lo: int, hi: int)
    ensures GapsMarked(Pages(lo, hi))
  {
    var r := Pages(lo, hi);
    forall i | 0 < i < |r| ensures r[i].n == r[i - 1].n + 1 && r[i].Page? {
      assert r[i] == Page(lo + i) && r[i - 1] == Page(lo + i - 1);
    }
  }

  // ---------------------------------------------------------------- buttons

  /** Small screens show only the first, the last and the pages next to the current one. */
  predicate ShowOnMobile(p: int, current: int, total: int) {
    p == 1 || p == total || (current - 1 <= p <= current + 1)
  }

  /** Beyond seven pages every button shown on a wide screen is also shown on a small one. */
  lemma ManyPagesAllOnMobile(current: int, total: int, p: int)
    requires total > MaxVisible
    requires Shows(PageNumbers(current, total), p)
    ensures ShowOnMobile(p, current, total)
  {
    ManyPagesShown(current, total, p);
  }

  datatype PageButton = PageButton(page: int, active: bool, mobile: bool)

  datatype Bar = Bar(prevDisabled: bool, items: seq<Option<PageButton>>, nextDisabled: bool)

  /** The rendered bar; nothing at all for one page or fewer. */
  function Render(current: int, total: int): (r: Option<Bar>)
    ensures r.None? <==> total <= 1
    ensures r.Some? ==> (r.value.prevDisabled <==> current == 1) && (r.value.nextDisabled <==> current == total)
    ensures r.Some? ==> |r.value.items| == |PageNumbers(current, total)|
    ensures r.Some? ==> forall k :: 0 <= k < |r.value.items| ==>
      (r.value.items[k].None? <==> PageNumbers(current, total)[k].Ellipsis?)
    ensures r.Some? ==> forall k :: 0 <= k < |r.value.items| && r.value.items[k].Some? ==>
      var b := r.value.items[k].value;
      b.page == PageNumbers(current, total)[k].n && (b.active <==> b.page == current)
  {
    if total <= 1 then None
    else
      var ps := PageNumbers(current, total);
      Some(Bar(current == 1,
               seq(|ps|, k requires 0 <= k < |ps| =>
                 if ps[k].Ellipsis? then None
                 else Some(PageButton(ps[k].n, ps[k].n == current, ShowOnMobile(ps[k].n, current, total)))),
               current == total))
  }

  // ---------------------------------------------------------------- navigation

  datatype PageChange = PageChange(url: string, page: int)

  /**
   A click on page `page`: nothing outside `1..total`; otherwise the address
   with `page` removed for the first page and set for any other, and the
   callback's argument.
   */
  function HandlePageChange(page: int, total: int, path: string, search: Params): (r: Option<PageChange>)
    ensures r.None? <==> page < 1 || page > total
    ensures r.Some? ==> r.value.page == page
  {
    if page < 1 || page > total then None
    else
      var ps := if page == 1 then Delete(search, "page") else Set(search, "page", IntToString(page));
      Some(PageChange(Href(path, ps), page))
  }

  /** The query a page change leaves, read back from its address. */
  function QueryAfter(page: int, search: Params): Params {
    if page == 1 then Delete(search, "page") else Set(search, "page", IntToString(page))
  }

  /**
   A page change keeps every other query parameter, drops `page` for the
   first page and leaves exactly one `page` holding the number otherwise.
   */
  lemma PageChangeQuery(page: int, total: int, path: string, search: Params)
    requires 1 <= page <= total
    ensures HandlePageChange(page, total, path, search) == Some(PageChange(Href(path, QueryAfter(page, search)), page))
    ensures Delete(QueryAfter(page, search), "page") == Delete(search, "page")
    ensures page == 1 ==> Get(QueryAfter(page, search), "page") == None
    ensures page > 1 ==>
      Get(QueryAfter(page, search), "page") == Some(IntToString(page)) && CountName(QueryAfter(page, search), "page") == 1
  {
    if page == 1 {
      DeleteIdempotent(search, "page");
    } else {
      SetOthersUnchanged(search, "page", IntToString(page));
      GetAfterSet(search, "page", IntToString(page));
      SetLeavesOne(search, "page", IntToString(page));
    }
  }

  /** The pushed address carries the page number in a form that reads back as that number. */
  lemma PageChangeReadsBack(page: int, total: int, path: string, search: Params)
    requires 1 < page <= total
    ensures var v := Get(QueryAfter(page, search), "page");
      v.Some? && (forall k :: 0 <= k < |v.value| ==> IsDigit(v.value[k])) && DigitsValue(v.value) == page
  {
    PageChangeQuery(page, total, path, search);
    NatToStringRoundTrip(page);
  }
}

=== FILE: parse_int.dfy ===
/**
 `parseInt(string, radix)` of section 19.2.5 of ECMA-262 over unbounded
 integers. Leading whitespace is the ASCII whitespace of `Text`; a radix of 0
 stands for an absent radix. Negative zero is not distinguished from zero.
 */
module ParseInt {
  import opened Text

  datatype IntParse = NaN | Num(n: int)

  /** The value of a letter or decimal digit in bases up to 36. */
  function CharValue(c: char): (v: int)
    ensures -1 <= v < 36
  {
    if '0' <= c <= '9' then c as int - '0' as int
    else if 'a' <= c <= 'z' then c as int - 'a' as int + 10
    else if 'A' <= c <= 'Z' then c as int - 'A' as int + 10
    else -1
  }

  predicate IsRadixDigit(c: char, radix: int) {
    0 <= CharValue(c) < radix
  }

  /** The length of the longest prefix of digits of the radix. */
  function DigitRun(s: string, radix: int): (n: nat)
    ensures n <= |s|
    ensures forall k :: 0 <= k < n ==> IsRadixDigit(s[k], radix)
    ensures n < |s| ==> !IsRadixDigit(s[n], radix)
    decreases |s|
  {
    if s == [] || !IsRadixDigit(s[0], radix) then 0 else 1 + DigitRun(s[1..], radix)
  }

  /** The number written by digits of a radix, most significant first. */
  function RadixValue(s: string, radix: int): nat
    requires radix >= 2
    requires forall k :: 0 <= k < |s| ==> IsRadixDigit(s[k], radix)
    decreases |s|
  {
    if s == [] then 0
    else
      assert IsRadixDigit(s[|s| - 1], radix);
      radix * RadixValue(s[..|s| - 1], radix) + CharValue(s[|s| - 1])
  }

  /** The longest digit prefix is made of digits of the radix. */
  lemma PrefixDigits(w: string, radix: int)
    ensures forall k :: 0 <= k < |w[..DigitRun(w, radix)]| ==> IsRadixDigit(w[..DigitRun(w, radix)][k], radix)
  {
  }

  /**
   `parseInt(s, radix)`: after leading whitespace and one sign, a "0x" or "0X"
   prefix switches an absent radix (or 16) to hexadecimal; the longest run of
   digits of the radix is read, and no digit at all gives NaN.
   */
  function Parse(s: string, radix: int): (r: IntParse)
    ensures radix != 0 && (radix < 2 || radix > 36) ==> r == NaN
  {
    var t := TrimStart(s);
    var negative := t != [] && t[0] == '-';
    var u := if t != [] && (t[0] == '-' || t[0] == '+') then t[1..] else t;
    if radix != 0 && (radix < 2 || radix > 36) then NaN
    else
      var hex := (radix == 0 || radix == 16) && (StartsWith(u, "0x") || StartsWith(u, "0X"));
      var base := if hex then 16 else if radix == 0 then 10 else radix;
      var w := if hex then u[2..] else u;
      var n := DigitRun(w, base);
      if n == 0 then NaN
      else
        PrefixDigits(w, base);
        var v: int := RadixValue(w[..n], base);
        Num(if negative then -v else v)
  }

  lemma {:induction false} DecimalValue(s: string)
    requires forall k :: 0 <= k < |s| ==> IsDigit(s[k])
    ensures forall k :: 0 <= k < |s| ==> IsRadixDigit(s[k], 10)
    ensures RadixValue(s, 10) == DigitsValue(s)
    decreases |s|
  {
    if s != [] {
      DecimalValue(s[..|s| - 1]);
    }
  }

  /** Text starting with a decimal digit and no hexadecimal prefix reads its leading digits. */
  lemma ParseDecimalStart(s: string, radix: int)
    requires radix == 0 || radix == 10
    requires s != [] && IsDigit(s[0])
    requires !StartsWith(s, "0x") && !StartsWith(s, "0X")
    ensures DigitRun(s, 10) > 0
    ensures Parse(s, radix) == Num(RadixValue(s[..DigitRun(s, 10)], 10))
  {
    assert !IsSpace(s[0]);
    assert TrimStart(s) == s;
  }

  /** A decimal numeral followed by a non-digit reads as its number, with an absent radix or radix 10. */
  lemma ParseNumeral(n: nat, rest: string, radix: int)
    requires radix == 0 || radix == 10
    requires rest == [] || (!IsRadixDigit(rest[0], 10) && (n != 0 || (rest[0] != 'x' && rest[0] != 'X')))
    ensures Parse(NatToString(n) + rest, radix) == Num(n)
  {
    var d := NatToString(n);
    var s := d + rest;
    assert s[0] == d[0];
    ParseDecimalStart(s, radix);
    DecimalValue(d);
    DigitRunOf(d, rest);
    assert s[..|d|] == d;
    NatToStringRoundTrip(n);
  }

  lemma {:induction false} DigitRunOf(d: string, rest: string)
    requires forall k :: 0 <= k < |d| ==> IsRadixDigit(d[k], 10)
    requires rest == [] || !IsRadixDigit(rest[0], 10)
    ensures DigitRun(d + rest, 10) == |d|
    decreases |d|
  {
    if d == [] {
      assert d + rest == rest;
    } else {
      assert (d + rest)[1..] == d[1..] + rest;
      DigitRunOf(d[1..], rest);
    }
  }

  /** Text that starts, after whitespace and a sign, with no digit is NaN in base 10. */
  lemma NoDigitIsNaN(s: string)
    requires var t := TrimStart(s);
      var u := if t != [] && (t[0] == '-' || t[0] == '+') then t[1..] else t;
      u == [] || !IsRadixDigit(u[0], 10)
    ensures Parse(s, 10) == NaN
  {
  }
}

=== FILE: query_params.dfy ===
/**
 `URLSearchParams` as an ordered list of name/value pairs (section 6.2 of the
 WHATWG URL Standard): `get` reads the first pair with a name, `set` replaces
 the first pair and drops the others with that name (or appends), `delete`
 drops them all, and `toString` joins `name=value` with `&`.
 Percent-encoding is not modelled: names and values are kept as raw text.
 */
module QueryParams {
  import opened Text
  import opened Optional

  datatype Param = Param(name: string, value: string)

  type Params = seq<Param>

  predicate HasName(ps: Params, name: string) {
    exists k :: 0 <= k < |ps| && ps[k].name == name
  }

  /** `params.get(name)`: the value of the first pair with that name. */
  function Get(ps: Params, name: string): (r: Option<string>)
    ensures r.None? <==> !HasName(ps, name)
    ensures r.Some? ==> Param(name, r.value) in ps
    decreases |ps|
  {
    if ps == [] then None
    else if ps[0].name == name then Some(ps[0].value)
    else
      assert forall k :: 0 < k < |ps| ==> ps[k] == ps[1..][k - 1];
      Get(ps[1..], name)
  }

  /** `params.delete(name)`: every pair with that name goes, the rest keep their order. */
  function Delete(ps: Params, name: string): (r: Params)
    ensures !HasName(r, name)
    ensures forall p :: p in r <==> p in ps && p.name != name
    ensures |r| <= |ps|
    decreases |ps|
  {
    if ps == [] then []
    else if ps[0].name == name then Delete(ps[1..], name)
    else [ps[0]] + Delete(ps[1..], name)
  }

  /**
   `params.set(name, value)`: the first pair with that name takes the new value
   and the later ones go; without such a pair, one is appended.
   */
  function Set(ps: Params, name: string, value: string): (r: Params)
    decreases |ps|
  {
    if ps == [] then [Param(name, value)]
    else if ps[0].name == name then [Param(name, value)] + Delete(ps[1..], name)
    else [ps[0]] + Set(ps[1..], name, value)
  }

  /** After `set`, reading the name gives the new value. */
  lemma {:induction false} GetAfterSet(ps: Params, name: string, value: string)
    ensures Get(Set(ps, name, value), name) == Some(value)
    decreases |ps|
  {
    if ps != [] && ps[0].name != name {
      GetAfterSet(ps[1..], name, value);
    }
  }

  /** `set` touches no other name: removing the name afterwards gives what removing it before gives. */
  lemma {:induction false} SetOthersUnchanged(ps: Params, name: string, value: string)
    ensures Delete(Set(ps, name, value), name) == Delete(ps, name)
    decreases |ps|
  {
    if ps == [] {
    } else if ps[0].name == name {
      DeleteIdempotent(ps[1..], name);
    } else {
      SetOthersUnchanged(ps[1..], name, value);
    }
  }

  lemma {:induction false} DeleteIdempotent(ps: Params, name: string)
    ensures Delete(Delete(ps, name), name) == Delete(ps, name)
    decreases |ps|
  {
    if ps != [] {
      DeleteIdempotent(ps[1..], name);
    }
  }

  /** Removing one name does not change what another name reads. */
  lemma {:induction false} GetAfterDeleteOther(ps: Params, name: string, other: string)
    requires name != other
    ensures Get(Delete(ps, name), other) == Get(ps, other)
    decreases |ps|
  {
    if ps != [] {
      GetAfterDeleteOther(ps[1..], name, other);
    }
  }

  /** Removing two names in either order leaves the same pairs. */
  lemma {:induction false} DeleteCommutes(ps: Params, a: string, b: string)
    ensures Delete(Delete(ps, a), b) == Delete(Delete(ps, b), a)
    decreases |ps|
  {
    if ps != [] {
      DeleteCommutes(ps[1..], a, b);
    }
  }

  /** The number of pairs with a name. */
  function CountName(ps: Params, name: string): nat
    decreases |ps|
  {
    if ps == [] then 0 else (if ps[0].name == name then 1 else 0) + CountName(ps[1..], name)
  }

  lemma {:induction false} CountAfterDelete(ps: Params, name: string)
    ensures CountName(Delete(ps, name), name) == 0
    decreases |ps|
  {
    if ps != [] {
      CountAfterDelete(ps[1..], name);
    }
  }

  /** After `set`, exactly one pair carries the name. */
  lemma {:induction false} SetLeavesOne(ps: Params, name: string, value: string)
    ensures CountName(Set(ps, name, value), name) == 1
    decreases |ps|
  {
    if ps == [] {
    } else if ps[0].name == name {
      CountAfterDelete(ps[1..], name);
    } else {
      SetLeavesOne(ps[1..], name, value);
    }
  }

  // ---------------------------------------------------------------- text form

  function PairText(p: Param): string {
    p.name + "=" + p.value
  }

  function PairTexts(ps: Params): (r: seq<string>)
    ensures |r| == |ps|
    ensures forall k :: 0 <= k < |ps| ==> r[k] == PairText(ps[k])
  {
    seq(|ps|, k requires 0 <= k < |ps| => PairText(ps[k]))
  }

  /** `params.toString()`: empty exactly when there are no pairs. */
  function Serialize(ps: Params): (r: string)
    ensures r == [] <==> ps == []
  {
    var texts := PairTexts(ps);
    JoinNonEmpty(texts, "&");
    Join(texts, "&")
  }

  lemma {:induction false} JoinNonEmpty(xs: seq<string>, sep: string)
    requires forall k :: 0 <= k < |xs| ==> xs[k] != []
    ensures Join(xs, sep) == [] <==> xs == []
    decreases |xs|
  {
    if |xs| > 1 {
      JoinNonEmpty(xs[1..], sep);
    }
  }

  /** One `name=value` piece; a piece without `=` is a name with an empty value. */
  function ParsePair(piece: string): (p: Param)
    ensures p.name == BeforeFirst(piece, '=')
  {
    var name := BeforeFirst(piece, '=');
    Param(name, if |name| < |piece| then piece[|name| + 1..] else [])
  }

  function ParsePieces(pieces: seq<string>): Params
    decreases |pieces|
  {
    if pieces == [] then []
    else if pieces[0] == [] then ParsePieces(pieces[1..])
    else [ParsePair(pieces[0])] + ParsePieces(pieces[1..])
  }

  /** `new URLSearchParams(search)`: drops one leading `?`, splits on `&`, skips empty pieces. */
  function Parse(search: string): Params {
    var q := if StartsWith(search, "?") then search[1..] else search;
    ParsePieces(Split(q, '&'))
  }

  /** Pairs whose text form can be read back: no `&` anywhere, no `=` in a name, no leading `?`. */
  predicate Plain(ps: Params) {
    (forall k :: 0 <= k < |ps| ==> '&' !in ps[k].name && '&' !in ps[k].value && '=' !in ps[k].name)
    && (ps != [] ==> ps[0].name == [] || ps[0].name[0] != '?')
  }

  lemma {:induction false} SplitJoin(xs: seq<string>, c: char)
    requires xs != []
    requires forall k :: 0 <= k < |xs| ==> c !in xs[k]
    ensures Split(Join(xs, [c]), c) == xs
    decreases |xs|
  {
    if |xs| > 1 {
      SplitJoin(xs[1..], c);
      JoinCons(xs[0], xs[1..], [c]);
      assert xs == [xs[0]] + xs[1..];
      SplitCons(xs[0], c, Join(xs[1..], [c]));
    } else {
      assert Join(xs, [c]) == xs[0];
    }
  }

  /** Splitting text whose first separator follows `a` gives `a` and the pieces after it. */
  lemma SplitCons(a: string, c: char, b: string)
    requires c !in a
    ensures Split(a + [c] + b, c) == [a] + Split(b, c)
  {
    var s := a + [c] + b;
    IndexOfCharAfter(a, c, b);
    assert s[..|a|] == a;
    assert s[|a| + 1..] == b;
  }

  lemma ParsePairText(p: Param)
    requires '=' !in p.name
    ensures ParsePair(PairText(p)) == p
  {
    var t := PairText(p);
    IndexOfCharAfter(p.name, '=', p.value);
    assert t == p.name + ['='] + p.value;
    assert t[..|p.name|] == p.name;
    assert t[|p.name| + 1..] == p.value;
  }

  lemma {:induction false} ParsePiecesTexts(ps: Params)
    requires forall k :: 0 <= k < |ps| ==> '=' !in ps[k].name
    ensures ParsePieces(PairTexts(ps)) == ps
    decreases |ps|
  {
    if ps != [] {
      ParsePiecesTexts(ps[1..]);
      ParsePairText(ps[0]);
      assert PairTexts(ps)[1..] == PairTexts(ps[1..]);
      assert PairTexts(ps)[0] != [];
    }
  }

  /** Reading back the text form of plain pairs gives the same pairs, in order. */
  lemma ParseSerialize(ps: Params)
    requires Plain(ps)
    ensures Parse(Serialize(ps)) == ps
  {
    var texts := PairTexts(ps);
    var s := Serialize(ps);
    if ps == [] {
      assert s == [];
      assert !StartsWith(s, "?");
      assert Split(s, '&') == [[]];
      assert ParsePieces([[]]) == ParsePieces([]);
    } else {
      forall k | 0 <= k < |texts|
        ensures '&' !in texts[k]
      {
        assert texts[k] == ps[k].name + "=" + ps[k].value;
      }
      SplitJoin(texts, '&');
      assert Join(texts, "&")[0] == texts[0][0] by {
        JoinHead(texts, "&");
      }
      assert !StartsWith(s, "?");
      ParsePiecesTexts(ps);
    }
  }

  lemma {:induction false} JoinHead(xs: seq<string>, sep: string)
    requires xs != [] && xs[0] != []
    ensures Join(xs, sep) != [] && Join(xs, sep)[0] == xs[0][0]
  {
  }

  /** The address pushed after changing the query: the bare path when no pairs are left. */
  function Href(path: string, ps: Params): (r: string)
    ensures ps == [] ==> r == path
    ensures ps != [] ==> r == path + "?" + Serialize(ps)
  {
    var q := Serialize(ps);
    if q != [] then path + "?" + q else path
  }
}

=== FILE: rating.dfy ===
/**
 The half-star rating input and the read-only display built on it. The input
 emits ratings in half-stars (1..10 for 0.5..5 stars); the shown value may be
 any average, so the star predicates and the label take tenths of a star.
 */
module Rating {
  import opened Text
  import opened Optional

  /** The rating a pointer on star `index` (0..4) stands for: a half star on the left half, a whole one on the right. */
  function PointerValue(index: nat, leftHalf: bool): (h: nat)
    requires index < 5
    ensures 1 <= h <= 10
    ensures h == 2 * index + 1 <==> leftHalf
    ensures h == 2 * index + 2 <==> !leftHalf
  {
    2 * index + (if leftHalf then 1 else 2)
  }

  /** Every half-star rating from 0.5 to 5 can be picked. */
  lemma EveryHalfStarReachable(h: nat)
    requires 1 <= h <= 10
    ensures PointerValue((h - 1) / 2, h % 2 == 1) == h
  {
  }

  /** Hover state of the input. */
  datatype Hover = Hover(hovering: bool, hoverValue: nat)

  const NotHovering: Hover := Hover(false, 0)

  /** The rating drawn: the hovered one while hovering, else the value (both in half-stars). */
  function Current(st: Hover, value: nat): (r: nat)
    ensures st.hovering ==> r == st.hoverValue
    ensures !st.hovering ==> r == value
  {
    if st.hovering then st.hoverValue else value
  }

  /** Moving over a star previews its value, unless the input is read-only. */
  function MouseMove(st: Hover, readonly: bool, index: nat, leftHalf: bool): (r: Hover)
    requires index < 5
    ensures readonly ==> r == st
    ensures !readonly ==> r.hovering && r.hoverValue == PointerValue(index, leftHalf)
  {
    if readonly then st else Hover(true, PointerValue(index, leftHalf))
  }

  /** Leaving the stars drops the preview, so the value is drawn again. */
  function MouseLeave(st: Hover): (r: Hover)
    ensures forall value :: Current(r, value) == value
  {
    NotHovering
  }

  /** A click reports a value only to an editable input with a listener. */
  function Click(readonly: bool, hasOnChange: bool, index: nat, leftHalf: bool): (r: Option<nat>)
    requires index < 5
    ensures r.None? <==> readonly || !hasOnChange
    ensures r.Some? ==> 1 <= r.value <= 10 && r.value == PointerValue(index, leftHalf)
  {
    if readonly || !hasOnChange then None else Some(PointerValue(index, leftHalf))
  }

  // ---------------------------------------------------------------- drawing, in tenths of a star

  /** Star `i` is filled when the rating reaches `i + 1`. */
  predicate Filled(tenths: nat, i: nat) {
    10 * (i + 1) <= tenths
  }

  /** Star `i` is half filled when it is the star of the whole part and the fraction is at least a half. */
  predicate HalfFilled(tenths: nat, i: nat) {
    i == tenths / 10 && tenths % 10 >= 5
  }

  /** Exactly the stars below the whole part are filled, and no star is both filled and half filled. */
  lemma StarsDrawn(tenths: nat, i: nat)
    ensures Filled(tenths, i) <==> i < tenths / 10
    ensures !(Filled(tenths, i) && HalfFilled(tenths, i))
  {
  }

  /** A half-star rating of `h` fills `h / 2` stars and half fills one more exactly when `h` is odd. */
  lemma HalfStarsDrawn(h: nat, i: nat)
    ensures Filled(5 * h, i) <==> 2 * (i + 1) <= h
    ensures HalfFilled(5 * h, i) <==> h % 2 == 1 && i == h / 2
  {
  }

  /** `${r}` for a rating with at most one decimal. */
  function NumberText(tenths: nat): (s: string)
    ensures tenths % 10 == 0 ==> s == NatToString(tenths / 10)
  {
    NatToString(tenths / 10) + (if tenths % 10 == 0 then "" else "." + [DigitChar(tenths % 10)])
  }

  /** The value label: "r/5" for a positive rating, "No rating" otherwise. */
  function ValueLabel(tenths: nat): (s: string)
    ensures tenths == 0 <==> s == "No rating"
    ensures tenths > 0 ==> s == NumberText(tenths) + "/5"
  {
    if tenths > 0 then
      var s := NumberText(tenths) + "/5";
      assert s[|s| - 1] == '5';
      s
    else "No rating"
  }

  /** Whole star ratings are labelled with their integer. */
  lemma WholeStarLabel(n: nat)
    requires 1 <= n
    ensures ValueLabel(10 * n) == NatToString(n) + "/5"
  {
    var t := 10 * n;
    assert t / 10 == n && t % 10 == 0;
    assert NumberText(t) == NatToString(n);
  }

  /**
   `RatingDisplay`: nothing for a missing or zero rating, otherwise a read-only
   input showing it, whose clicks report nothing.
   */
  function Display(rating: Option<nat>): (r: Option<nat>)
    ensures r.None? <==> rating.None? || rating.value == 0
    ensures r.Some? ==> r.value == rating.value
  {
    if rating.None? || rating.value == 0 then None else rating
  }

  lemma DisplayIsReadOnly(hasOnChange: bool, index: nat, leftHalf: bool, st: Hover)
    requires index < 5
    ensures Click(true, hasOnChange, index, leftHalf).None?
    ensures MouseMove(st, true, index, leftHalf) == st
  {
  }
}

=== FILE: rating_distribution.dfy ===
/**
 The profile's rating-distribution panel: one bar per whole star from 5 down
 to 1, each as long as its count relative to the largest count. Stored
 ratings are half-units, so the bar for `r` stars reads the count of rating
 `2 * r`; half-star ratings count towards the largest count but have no bar.
 A bar's length `count / maxCount` is kept as the pair of its two numbers.
 */
module RatingDistribution {
  import opened Optional
  import UserStats

  /** `Math.max(...Object.values(distribution), 0)`. */
  function MaxCount(d: map<int, nat>): (m: nat)
    ensures forall k :: k in d ==> d[k] <= m
    ensures m == 0 || exists k :: k in d && d[k] == m
  {
    var vs := (set k | k in d :: d[k]) + {0};
    MaxExists(vs);
    var m :| m in vs && forall v :: v in vs ==> v <= m;
    assert forall k :: k in d ==> d[k] in vs;
    assert m != 0 ==> exists k :: k in d && d[k] == m;
    m
  }

  lemma {:induction false} MaxExists(s: set<nat>)
    requires s != {}
    ensures exists m :: m in s && forall v :: v in s ==> v <= m
    decreases |s|
  {
    var x :| x in s;
    assert forall v :: v in s ==> v == x || v in s - {x};
    if s - {x} != {} {
      MaxExists(s - {x});
      var m :| m in s - {x} && forall v :: v in s - {x} ==> v <= m;
      if x > m {
        assert forall v :: v in s ==> v <= x;
      }
    }
  }

  /** One bar: the star value it stands for, its count, and the count a full bar stands for. */
  datatype Bar = Bar(stars: nat, count: nat, full: nat)

  /** `distribution[rating] || 0` for a whole-star rating. */
  function CountOf(d: map<int, nat>, stars: nat): (c: nat)
    ensures 2 * stars in d ==> c == d[2 * stars]
    ensures 2 * stars !in d ==> c == 0
  {
    if 2 * stars in d then d[2 * stars] else 0
  }

  /** The bars, top to bottom, or nothing when the largest count is 0. */
  function Bars(d: map<int, nat>): (r: Option<seq<Bar>>)
    ensures r.None? <==> MaxCount(d) == 0
    ensures r.Some? ==> |r.value| == 5
    ensures r.Some? ==> forall i :: 0 <= i < 5 ==> r.value[i].stars == 5 - i
    ensures r.Some? ==> forall i :: 0 <= i < 5 ==> r.value[i].count == CountOf(d, 5 - i) && r.value[i].full == MaxCount(d)
  {
    var m := MaxCount(d);
    if m == 0 then None
    else Some(seq(5, i requires 0 <= i < 5 => Bar(5 - i, CountOf(d, 5 - i), m)))
  }

  /** Every bar is at most full, and the bar of a most frequent whole-star rating is exactly full. */
  lemma BarsWithinPanel(d: map<int, nat>, i: nat)
    requires Bars(d).Some? && i < 5
    ensures 0 < Bars(d).value[i].full
    ensures Bars(d).value[i].count <= Bars(d).value[i].full
    ensures 2 * (5 - i) in d && d[2 * (5 - i)] == MaxCount(d) ==> Bars(d).value[i].count == Bars(d).value[i].full
  {
  }

  /** The panel appears exactly when the user has a rated review. */
  lemma PanelShownIffRated(ratings: seq<int>)
    ensures Bars(UserStats.Distribution(ratings)).Some? <==> ratings != []
  {
    var d := UserStats.Distribution(ratings);
    if ratings != [] {
      var x := ratings[0];
      assert x in d && d[x] == multiset(ratings)[x] >= 1;
    }
  }

  /** Half-star ratings alone show a panel whose bars are all empty. */
  lemma HalfStarsOnlyShowEmptyBars(ratings: seq<int>)
    requires ratings != []
    requires forall k :: 0 <= k < |ratings| ==> ratings[k] % 2 == 1
    ensures Bars(UserStats.Distribution(ratings)).Some?
    ensures forall i :: 0 <= i < 5 ==> Bars(UserStats.Distribution(ratings)).value[i].count == 0
  {
    PanelShownIffRated(ratings);
    NoWholeStar(ratings, 5);
    NoWholeStar(ratings, 4);
    NoWholeStar(ratings, 3);
    NoWholeStar(ratings, 2);
    NoWholeStar(ratings, 1);
  }

  lemma NoWholeStar(ratings: seq<int>, stars: int)
    requires forall k :: 0 <= k < |ratings| ==> ratings[k] % 2 == 1
    ensures 2 * stars !in UserStats.Distribution(ratings)
  {
    assert forall k :: 0 <= k < |ratings| ==> ratings[k] != 2 * stars;
  }
}

=== FILE: review_actions.dfy ===
/**
 The review server action: one review with its author, its media and a page
 of its comments. Authors are shown by name and picture only; their join
 date is the time of the request, passed in as `now`.
 */
module ReviewActions {
  import opened Optional
  import opened Seqs
  import opened AppStore
  import opened Db

  const ReviewError := "Could not fetch review."

  /** `SafeComment`. */
  datatype SafeComment = SafeComment(
    id: string,
    comment: string,
    reviewId: string,
    userId: string,
    createdAt: int,
    updatedAt: int,
    user: User)

  /** `SafeReviewWithMediaAndComments`. */
  datatype ReviewDetail = ReviewDetail(
    review: SafeReview,
    media: SafeMedia,
    comments: seq<SafeComment>,
    totalPages: PageCount,
    currentPage: int)

  /** Each comment with its author; a dangling author fails the query. */
  function WithAuthors(t: Tables, rows: seq<CommentRow>, now: int): (r: Option<seq<SafeComment>>)
    ensures r.Some? <==> forall k :: 0 <= k < |rows| ==> Find(t.users, UserKey, rows[k].userId).Some?
    ensures r.Some? ==> |r.value| == |rows|
    ensures r.Some? ==> forall k :: 0 <= k < |rows| ==>
      && r.value[k].id == rows[k].id && r.value[k].reviewId == rows[k].reviewId
      && r.value[k].user == Author(Find(t.users, UserKey, rows[k].userId).value, now)
  {
    MapAll(rows, (c: CommentRow) =>
      match Find(t.users, UserKey, c.userId)
      case None => None
      case Some(u) => Some(SafeComment(c.id, c.comment, c.reviewId, c.userId, c.createdAt, c.updatedAt, Author(u, now))))
  }

  function ReviewComments(t: Tables, id: string): (r: seq<CommentRow>)
    ensures forall k :: 0 <= k < |r| ==> r[k].reviewId == id
  {
    Filter(t.comments, (c: CommentRow) => c.reviewId == id)
  }

  function CommentCreated(c: CommentRow): int { c.createdAt }

  /**
   `getReviewById`. The comment window is part of the single query, so a
   negative `skip` or `take` fails it even for an unknown review; otherwise an
   unknown id gives `None`, and a review comes with its author (no e-mail, no
   biography), its media and page `page` of its comments newest first, with a
   page count from the stored comment total.
   */
  function GetReviewById(db: Option<Tables>, id: string, page: int, pageSize: int, now: int): (r: Fetch<Option<ReviewDetail>>)
    ensures db.None? || Skip(page, pageSize) < 0 || pageSize < 0 ==> r == Failed(ReviewError)
    ensures r.Failed? ==> r.message == ReviewError
    ensures db.Some? && Skip(page, pageSize) >= 0 && pageSize >= 0 ==>
      (Find(db.value.reviews, ReviewKey, id).None? <==> r == Fetched(None))
    ensures r.Fetched? && r.value.Some? ==>
      var rv := Find(db.value.reviews, ReviewKey, id).value;
      var d := r.value.value;
      && d.review.id == id
      && d.review.user.email == "" && d.review.user.bio.None? && d.review.user.joinedAt == now
      && d.media.id == rv.mediaId
      && d.totalPages == TotalPages(rv.totalComments, pageSize)
      && d.currentPage == page
      && |d.comments| <= pageSize
  {
    if db.None? then Failed(ReviewError)
    else
      var t := db.value;
      var sorted := NewestFirst(ReviewComments(t, id), CommentCreated);
      match Window(sorted, Skip(page, pageSize), pageSize)
      case None => Failed(ReviewError)
      case Some(rows) =>
        match Find(t.reviews, ReviewKey, id)
        case None => Fetched(None)
        case Some(rv) =>
          var u := Find(t.users, UserKey, rv.userId);
          var m := Find(t.media, MediaKey, rv.mediaId);
          var cs := WithAuthors(t, rows, now);
          if u.None? || m.None? || cs.None? then Failed(ReviewError)
          else
            Fetched(Some(ReviewDetail(
              SafeReviewOf(rv, Author(u.value, now)),
              SafeMediaOf(m.value),
              cs.value,
              TotalPages(rv.totalComments, pageSize),
              page)))
  }

  /** The comments of a fetched review are the comment window joined with their authors. */
  lemma CommentsOfDetail(db: Tables, id: string, page: int, pageSize: int, now: int)
    requires GetReviewById(Some(db), id, page, pageSize, now).Fetched?
    requires GetReviewById(Some(db), id, page, pageSize, now).value.Some?
    ensures var w := Window(NewestFirst(ReviewComments(db, id), CommentCreated), Skip(page, pageSize), pageSize);
      && w.Some? && WithAuthors(db, w.value, now).Some?
      && GetReviewById(Some(db), id, page, pageSize, now).value.value.comments == WithAuthors(db, w.value, now).value
  {
  }

  /**
   Entry `k` of the comment page is the review's comment at position
   `skip + k` in newest-first order; every comment shown belongs to the review.
   */
  lemma ReviewCommentsPage(db: Tables, id: string, page: int, pageSize: int, now: int)
    ensures var r := GetReviewById(Some(db), id, page, pageSize, now);
      var sorted := NewestFirst(ReviewComments(db, id), CommentCreated);
      r.Fetched? && r.value.Some? ==>
        && |r.value.value.comments| == PageLength(|sorted|, Skip(page, pageSize), pageSize)
        && forall k :: 0 <= k < |r.value.value.comments| ==>
        && Skip(page, pageSize) + k < |sorted|
        && r.value.value.comments[k].id == sorted[Skip(page, pageSize) + k].id
        && r.value.value.comments[k].reviewId == id
  {
    var r := GetReviewById(Some(db), id, page, pageSize, now);
    if r.Fetched? && r.value.Some? {
      var own := ReviewComments(db, id);
      var sorted := NewestFirst(own, CommentCreated);
      CommentsOfDetail(db, id, page, pageSize, now);
      var rows := Window(sorted, Skip(page, pageSize), pageSize).value;
      var cs := r.value.value.comments;
      forall k | 0 <= k < |cs|
        ensures Skip(page, pageSize) + k < |sorted| && cs[k].id == sorted[Skip(page, pageSize) + k].id && cs[k].reviewId == id
      {
        assert rows[k] == sorted[Skip(page, pageSize) + k];
        InNewestFirst(own, CommentCreated, rows[k]);
      }
    }
  }

  /** The default page size of `getReviewById`. */
  const CommentsPageSize := 12

  /** With its default arguments, `getReviewById` shows the review's twelve newest comments, or all of them when fewer. */
  lemma DefaultCommentsPage(db: Tables, id: string, now: int)
    ensures var r := GetReviewById(Some(db), id, FirstPage, CommentsPageSize, now);
      var sorted := NewestFirst(ReviewComments(db, id), CommentCreated);
      r.Fetched? && r.value.Some? ==>
        && r.value.value.currentPage == 1
        && |r.value.value.comments| == (if |sorted| < 12 then |sorted| else 12)
        && forall k :: 0 <= k < |r.value.value.comments| ==> r.value.value.comments[k].id == sorted[k].id
  {
    ReviewCommentsPage(db, id, FirstPage, CommentsPageSize, now);
  }
}

=== FILE: review_form.dfy ===
/**
 The review form on a media page, for a new review or for editing one: the
 mutual exclusion of stars and like/dislike, the "nothing edited" test, the
 submit button, the bodies sent by POST and PATCH, and what each response
 does to the form. Ratings are in half-stars; the network is an input.
 */
module ReviewForm {
  import opened Text
  import opened Optional
  import opened ConsumedBadge
  import Toast

  /** The rating part of a review: stars (0 = none) or a like / dislike. */
  datatype Choice = Choice(stars: nat, liked: Option<bool>)

  const NoChoice: Choice := Choice(0, None)

  /** Never both stars and a like choice. */
  predicate Exclusive(c: Choice) {
    c.stars == 0 || c.liked.None?
  }

  /** The rating input's `onChange`: a positive rating clears the like choice. */
  function OnStars(c: Choice, h: nat): (r: Choice)
    ensures r.stars == h
    ensures h > 0 ==> r.liked.None?
    ensures h == 0 ==> r.liked == c.liked
    ensures Exclusive(r)
  {
    if h > 0 then Choice(h, None) else c.(stars := h)
  }

  /** The like and dislike buttons: the choice is set and the stars go back to 0. */
  function OnLike(c: Choice, liked: bool): (r: Choice)
    ensures r.liked == Some(liked) && r.stars == 0
    ensures Exclusive(r)
  {
    Choice(0, Some(liked))
  }

  datatype Pick = PickStars(h: nat) | PickLike(liked: bool)

  function Apply(c: Choice, p: Pick): Choice {
    match p
    case PickStars(h) => OnStars(c, h)
    case PickLike(b) => OnLike(c, b)
  }

  /** The picks in order. */
  function ApplyAll(c: Choice, ps: seq<Pick>): Choice
    decreases |ps|
  {
    if ps == [] then c else ApplyAll(Apply(c, ps[0]), ps[1..])
  }

  /** Whatever the sequence of picks, stars and a like choice are never both set. */
  lemma {:induction false} ExclusiveAlways(c: Choice, ps: seq<Pick>)
    requires Exclusive(c) || ps != []
    ensures Exclusive(ApplyAll(c, ps))
    decreases |ps|
  {
    if ps != [] {
      ExclusiveAlways(Apply(c, ps[0]), ps[1..]);
    }
  }

  /** The last pick decides: a like pick leaves that like choice and no stars. */
  lemma {:induction false} LastLikeWins(c: Choice, ps: seq<Pick>, liked: bool)
    ensures ApplyAll(c, ps + [PickLike(liked)]) == Choice(0, Some(liked))
    decreases |ps|
  {
    if ps == [] {
      assert ps + [PickLike(liked)] == [PickLike(liked)];
    } else {
      assert (ps + [PickLike(liked)])[1..] == ps[1..] + [PickLike(liked)];
      LastLikeWins(Apply(c, ps[0]), ps[1..], liked);
    }
  }

  // ---------------------------------------------------------------- the form

  /** The review being edited, as stored. */
  datatype Original = Original(id: string, rating: Option<nat>, liked: Option<bool>, review: Option<string>)

  datatype Form = Form(choice: Choice, text: string, consumed: bool, submitting: bool, error: Option<string>)

  /** A new form starts empty, an edit form with the stored review; the checkbox starts as `hasReviewed`. */
  function Open(edit: Option<Original>, hasReviewed: bool): (f: Form)
    ensures edit.None? ==> f.choice == NoChoice && f.text == ""
    ensures edit.Some? ==> f.choice == Choice(edit.value.rating.OrElse(0), edit.value.liked)
    ensures edit.Some? ==> f.text == edit.value.review.OrElse("")
    ensures f.consumed == hasReviewed && !f.submitting && f.error.None?
  {
    if edit.None? then Form(NoChoice, "", hasReviewed, false, None)
    else
      var o := edit.value;
      Form(Choice(o.rating.OrElse(0), o.liked), o.review.OrElse(""), hasReviewed, false, None)
  }

  /** Only an edit form can be unedited: stars, like choice and trimmed text all equal the stored ones. */
  predicate HasNotBeenEdited(f: Form, edit: Option<Original>) {
    edit.Some?
    && f.choice.stars == edit.value.rating.OrElse(0)
    && f.choice.liked == edit.value.liked
    && Trim(f.text) == Trim(edit.value.review.OrElse(""))
  }

  /** Submitting is blocked while a request runs, with neither stars nor a like choice, or when nothing was edited. */
  predicate SubmitDisabled(f: Form, edit: Option<Original>) {
    f.submitting || (f.choice.stars == 0 && f.choice.liked.None?) || HasNotBeenEdited(f, edit)
  }

  /** An edit form cannot be submitted until something changes. */
  lemma FreshEditDisabled(o: Original, hasReviewed: bool)
    ensures HasNotBeenEdited(Open(Some(o), hasReviewed), Some(o))
    ensures SubmitDisabled(Open(Some(o), hasReviewed), Some(o))
  {
  }

  /** Changing only surrounding whitespace of the text does not count as an edit. */
  lemma WhitespaceIsNoEdit(f: Form, o: Original, pad: string)
    requires HasNotBeenEdited(f, Some(o))
    requires AllSpace(pad)
    ensures HasNotBeenEdited(f.(text := pad + f.text + pad), Some(o))
  {
    TrimPadded(f.text, pad);
  }

  lemma TrimPadded(s: string, pad: string)
    requires AllSpace(pad)
    ensures Trim(pad + s + pad) == Trim(s)
  {
    assert pad + s + pad == pad + (s + pad);
    TrimStartPadded(s + pad, pad);
    TrimStartAppend(s, pad);
    if TrimStart(s + pad) == TrimStart(s) + pad {
      TrimEndPadded(TrimStart(s), pad);
    }
  }

  lemma {:induction false} TrimStartPadded(s: string, pad: string)
    requires AllSpace(pad)
    ensures TrimStart(pad + s) == TrimStart(s)
    decreases |pad|
  {
    if pad != [] {
      assert (pad + s)[0] == pad[0] && IsSpace(pad[0]);
      assert (pad + s)[1..] == pad[1..] + s;
      assert AllSpace(pad[1..]) by {
        assert forall i :: 0 <= i < |pad[1..]| ==> pad[1..][i] == pad[i + 1];
      }
      TrimStartPadded(s, pad[1..]);
    } else {
      assert pad + s == s;
    }
  }

  lemma {:induction false} TrimEndPadded(s: string, pad: string)
    requires AllSpace(pad)
    ensures TrimEnd(s + pad) == TrimEnd(s)
    decreases |pad|
  {
    if pad != [] {
      var n := |s + pad|;
      assert (s + pad)[n - 1] == pad[|pad| - 1] && IsSpace(pad[|pad| - 1]);
      assert (s + pad)[..n - 1] == s + pad[..|pad| - 1];
      assert AllSpace(pad[..|pad| - 1]) by {
        assert forall i :: 0 <= i < |pad| - 1 ==> pad[..|pad| - 1][i] == pad[i];
      }
      TrimEndPadded(s, pad[..|pad| - 1]);
    } else {
      assert s + pad == s;
    }
  }

  /** Trailing whitespace survives `TrimStart` unless the whole text is whitespace. */
  lemma {:induction false} TrimStartAppend(s: string, pad: string)
    requires AllSpace(pad)
    ensures TrimStart(s + pad) == TrimStart(s) + pad || (AllSpace(s) && TrimStart(s + pad) == [])
    decreases |s|
  {
    if s == [] {
      assert s + pad == pad;
      if pad != [] {
        assert TrimStart(pad) == [] by { assert AllSpace(pad); }
      }
    } else if IsSpace(s[0]) {
      assert (s + pad)[1..] == s[1..] + pad;
      TrimStartAppend(s[1..], pad);
    }
  }

  /** The review fields of a request body. `None` stands for a field left out. */
  datatype Body = Body(stars: Option<nat>, liked: Option<bool>, text: string, consumed: Option<bool>)

  function StarsField(c: Choice): (r: Option<nat>)
    ensures r.None? <==> c.stars == 0
    ensures r.Some? ==> r.value == c.stars
  {
    if c.stars > 0 then Some(c.stars) else None
  }

  /** The POST body: stars only when positive, the like choice when made, the trimmed text and the checkbox. */
  function PostBody(f: Form): (b: Body)
    ensures b.stars == StarsField(f.choice) && b.liked == f.choice.liked
    ensures b.text == Trim(f.text) && b.consumed == Some(f.consumed)
  {
    Body(StarsField(f.choice), f.choice.liked, Trim(f.text), Some(f.consumed))
  }

  /** The PATCH body: the same fields without the checkbox, which an edit cannot change. */
  function PatchBody(f: Form): (b: Body)
    ensures b.consumed.None?
    ensures b.stars == StarsField(f.choice) && b.liked == f.choice.liked && b.text == Trim(f.text)
  {
    Body(StarsField(f.choice), f.choice.liked, Trim(f.text), None)
  }

  lemma PatchIsPostWithoutCheckbox(f: Form)
    ensures PatchBody(f) == PostBody(f).(consumed := None)
  {
  }

  /** An enabled form always sends stars or a like choice, never both once the picks went through the buttons. */
  lemma EnabledSendsAChoice(f: Form, edit: Option<Original>)
    requires !SubmitDisabled(f, edit)
    requires Exclusive(f.choice)
    ensures PostBody(f).stars.Some? != PostBody(f).liked.Some?
    ensures PatchBody(f).stars.Some? != PatchBody(f).liked.Some?
  {
  }

  // ---------------------------------------------------------------- submitting

  datatype Post = ToLogin(form: Form) | SendPost(form: Form, body: Body)

  /** `handleSubmitPost`: the error is cleared; without a user only the login page is opened, otherwise the body is sent. */
  function SubmitPost(f: Form, signedIn: bool): (r: Post)
    ensures r.ToLogin? <==> !signedIn
    ensures r.ToLogin? ==> r.form == f.(error := None)
    ensures r.SendPost? ==> r.form == f.(error := None, submitting := true) && r.body == PostBody(f)
  {
    if !signedIn then ToLogin(f.(error := None))
    else SendPost(f.(error := None, submitting := true), PostBody(f))
  }

  /** How a request ended: ok, a response that is not ok (with the `error` of its JSON), or an exception (with its message when it is an `Error`). */
  datatype Response = Ok | NotOk(error: Option<string>) | Thrown(message: Option<string>)

  /**
   The end of a POST: success empties the form (stars, like choice, text and
   checkbox) with a success toast; a failure keeps the fields, records the
   error and shows an error toast. Submitting ends in every case.
   */
  function FinishPost(f: Form, res: Response): (r: (Form, Toast.ToastType))
    ensures !r.0.submitting
    ensures res.Ok? ==> r.0 == Form(NoChoice, "", false, false, f.error) && r.1 == Toast.Success
    ensures !res.Ok? ==> r.0.choice == f.choice && r.0.text == f.text && r.0.consumed == f.consumed
    ensures !res.Ok? ==> r.1 == Toast.Error && r.0.error.Some?
    ensures res.NotOk? ==> r.0.error == Some(TextOr(res.error, "Failed to submit review"))
    ensures res.Thrown? ==> r.0.error == Some(res.message.OrElse("An error occurred"))
  {
    match res
    case Ok => (Form(NoChoice, "", false, false, f.error), Toast.Success)
    case NotOk(e) => (f.(submitting := false, error := Some(TextOr(e, "Failed to submit review"))), Toast.Error)
    case Thrown(m) => (f.(submitting := false, error := Some(m.OrElse("An error occurred"))), Toast.Error)
  }

  /** `handleSubmitPatch`: only an edit form sends, addressed to the stored review's id. */
  function SubmitPatch(f: Form, edit: Option<Original>): (r: Option<(Form, Body, string)>)
    ensures r.None? <==> edit.None?
    ensures r.Some? ==> r.value == (f.(error := None, submitting := true), PatchBody(f), edit.value.id)
  {
    if edit.None? then None else Some((f.(error := None, submitting := true), PatchBody(f), edit.value.id))
  }

  /**
   The end of a PATCH: success leaves edit mode with a success toast; a response
   that is not ok shows an error toast and stays in edit mode without an error
   text; an exception also records its message.
   */
  function FinishPatch(f: Form, res: Response): (r: (Form, Toast.ToastType, bool))
    ensures !r.0.submitting && r.0.choice == f.choice && r.0.text == f.text
    ensures r.2 <==> !res.Ok?
    ensures r.1 == Toast.Success <==> res.Ok?
    ensures !res.Thrown? ==> r.0.error == f.error
    ensures res.Thrown? ==> r.0.error == Some(res.message.OrElse("An error occurred"))
  {
    match res
    case Ok => (f.(submitting := false), Toast.Success, false)
    case NotOk(_) => (f.(submitting := false), Toast.Error, true)
    case Thrown(m) => (f.(submitting := false, error := Some(m.OrElse("An error occurred"))), Toast.Error, true)
  }

  /** The "consumed more than once" checkbox: only on a new review, locked while submitting or once reviewed. */
  datatype Checkbox = Checkbox(checked: bool, disabled: bool, labelKey: string)

  function ConsumedCheckbox(f: Form, edit: Option<Original>, hasReviewed: bool, mediaType: string): (r: Option<Checkbox>)
    ensures r.None? <==> edit.Some?
    ensures r.Some? ==> r.value.checked == f.consumed
    ensures r.Some? ==> (r.value.disabled <==> f.submitting || hasReviewed)
    ensures r.Some? ==> r.value.labelKey == LabelKey(mediaType)
  {
    if edit.Some? then None else Some(Checkbox(f.consumed, f.submitting || hasReviewed, LabelKey(mediaType)))
  }
}

=== FILE: review_modal.dfy ===
/**
 The two-step "add a review" modal: step 1 picks a type and a media item and
 asks the server for its id; step 2 takes stars or a like choice, a text and
 the "consumed more than once" checkbox and posts the review. Requests are
 split into a start and a finish that takes the response as an input.
 */
module ReviewModal {
  import opened Optional
  import opened ReviewForm
  import opened ConsumedBadge
  import SearchInput

  datatype Modal = Modal(
    open: bool,
    step: nat,
    mediaType: string,
    selected: Option<SearchInput.Suggestion>,
    title: string,
    choice: Choice,
    text: string,
    consumed: bool,
    hasReviewed: bool,
    loadingSubmit: bool,
    mediaId: Option<string>,
    loadingNext: bool,
    error: Option<string>)

  const Initial: Modal := Modal(false, 1, "", None, "", NoChoice, "", false, false, false, None, false, None)

  /** The type options; music is listed but cannot be chosen. */
  const TypeOptions: seq<(string, bool)> :=
    [("film", false), ("serie", false), ("game", false), ("book", false), ("music", true)]

  lemma OnlyMusicDisabled()
    ensures forall k :: 0 <= k < |TypeOptions| ==> (TypeOptions[k].1 <==> TypeOptions[k].0 == "music")
  {
  }

  /** `clearModalState`: every field back to its initial value except the open flag and the two loading flags. */
  function Cleared(m: Modal): (r: Modal)
    ensures r == Initial.(open := m.open, loadingSubmit := m.loadingSubmit, loadingNext := m.loadingNext)
  {
    Modal(m.open, 1, "", None, "", NoChoice, "", false, false, m.loadingSubmit, None, m.loadingNext, None)
  }

  /** `closeModal`: cleared and closed. */
  function Close(m: Modal): (r: Modal)
    ensures !r.open && r.step == 1 && r.selected.None? && r.mediaId.None? && r.choice == NoChoice
  {
    Cleared(m).(open := false)
  }

  /** With no request running, closing gives exactly the initial state. */
  lemma CloseIsInitial(m: Modal)
    requires !m.loadingSubmit && !m.loadingNext
    ensures Close(m) == Initial
  {
  }

  /**
   `handleBack`: back to step 1 with the review fields, the reviewed flag, the
   checkbox and the error cleared; the type, title, selection and media id stay.
   */
  function Back(m: Modal): (r: Modal)
    ensures r.step == 1 && r.choice == NoChoice && r.text == "" && r.error.None?
    ensures !r.hasReviewed && !r.consumed
    ensures r.mediaType == m.mediaType && r.title == m.title && r.selected == m.selected && r.mediaId == m.mediaId
    ensures r.open == m.open && r.loadingSubmit == m.loadingSubmit && r.loadingNext == m.loadingNext
  {
    m.(error := None, step := 1, choice := NoChoice, text := "", hasReviewed := false, consumed := false)
  }

  /** Stars and like choices behave as in the review form. */
  function PickStars(m: Modal, h: nat): (r: Modal)
    ensures r == m.(choice := OnStars(m.choice, h)) && Exclusive(r.choice)
  {
    m.(choice := OnStars(m.choice, h))
  }

  function PickLike(m: Modal, liked: bool): (r: Modal)
    ensures r == m.(choice := OnLike(m.choice, liked)) && Exclusive(r.choice)
  {
    m.(choice := OnLike(m.choice, liked))
  }

  /** `handleNext` up to the request: nothing happens without a selection; otherwise loading starts and the error is cleared. */
  function StartNext(m: Modal): (r: Option<Modal>)
    ensures r.None? <==> m.selected.None?
    ensures r.Some? ==> r.value == m.(loadingNext := true, error := None)
  {
    if m.selected.None? then None else Some(m.(loadingNext := true, error := None))
  }

  /** How the media check ended: the item's id and whether the user already reviewed it, or a failure as in the form. */
  datatype Check = Checked(id: string, reviewed: bool) | CheckFailed(res: Response)

  /**
   The end of the media check: on success the id is stored, the reviewed flag
   and the checkbox both take the server's answer and step 2 opens; a failure
   stays on the current step with an error. Loading ends in every case.
   */
  function FinishNext(m: Modal, c: Check): (r: Modal)
    ensures !r.loadingNext
    ensures c.Checked? ==> r.step == 2 && r.mediaId == Some(c.id)
    ensures c.Checked? ==> r.hasReviewed == c.reviewed && r.consumed == c.reviewed
    ensures c.CheckFailed? ==> r.step == m.step && r.mediaId == m.mediaId && r.error.Some?
    ensures c.CheckFailed? && c.res.NotOk? ==> r.error == Some(TextOr(c.res.error, "Failed to check media"))
  {
    match c
    case Checked(id, reviewed) =>
      m.(mediaId := Some(id), hasReviewed := reviewed, consumed := reviewed, step := 2, loadingNext := false)
    case CheckFailed(res) =>
      var e := match res
        case NotOk(err) => TextOr(err, "Failed to check media")
        case Thrown(msg) => msg.OrElse("An unexpected error occurred")
        case Ok => "An unexpected error occurred";
      m.(error := Some(e), loadingNext := false)
  }

  /** The body of the review request: like the form's POST, but the text is sent untrimmed. */
  function ReviewBody(m: Modal): (b: Body)
    ensures b.stars == StarsField(m.choice) && b.liked == m.choice.liked
    ensures b.text == m.text && b.consumed == Some(m.consumed)
  {
    Body(StarsField(m.choice), m.choice.liked, m.text, Some(m.consumed))
  }

  /** `submitReview` up to the request: without a media id only an error is set and nothing is sent. */
  function StartSubmit(m: Modal): (r: (Modal, Option<(Body, string)>))
    ensures m.mediaId.None? ==> r.0 == m.(error := Some("Media ID is missing")) && r.1.None?
    ensures m.mediaId.Some? ==> r.0 == m.(loadingSubmit := true, error := None)
    ensures m.mediaId.Some? ==> r.1 == Some((ReviewBody(m), m.mediaId.value))
  {
    if m.mediaId.None? then (m.(error := Some("Media ID is missing")), None)
    else (m.(loadingSubmit := true, error := None), Some((ReviewBody(m), m.mediaId.value)))
  }

  /**
   The end of the review request: success closes and clears the modal and
   opens the media page; a failure keeps everything and records the error
   (the server's, which may be absent). Loading ends in every case.
   */
  function FinishSubmit(m: Modal, mediaId: string, res: Response): (r: (Modal, Option<string>))
    ensures !r.0.loadingSubmit
    ensures res.Ok? ==> r.0 == Close(m).(loadingSubmit := false) && r.1 == Some("/media/" + mediaId)
    ensures !res.Ok? ==> r.0 == m.(loadingSubmit := false, error := r.0.error) && r.1.None?
    ensures res.NotOk? ==> r.0.error == res.error
  {
    match res
    case Ok => (Close(m).(loadingSubmit := false), Some("/media/" + mediaId))
    case NotOk(e) => (m.(error := e, loadingSubmit := false), None)
    case Thrown(msg) => (m.(error := Some(msg.OrElse("An unexpected error occurred")), loadingSubmit := false), None)
  }

  /** A successful review with no media check running leaves the modal exactly as at the start. */
  lemma SubmittedIsInitial(m: Modal, mediaId: string)
    requires !m.loadingNext
    ensures FinishSubmit(m, mediaId, Ok).0 == Initial
  {
  }

  /** Next needs a selection and no check running. */
  predicate NextEnabled(m: Modal) {
    m.selected.Some? && !m.loadingNext
  }

  /** Submit needs a selection, at least half a star or a like choice, and no request running. */
  predicate SubmitEnabled(m: Modal) {
    m.selected.Some? && (m.choice.stars >= 1 || m.choice.liked.Some?) && !m.loadingSubmit
  }

  /** The checkbox is locked while submitting and once a reviewed item's box is checked. */
  predicate CheckboxLocked(m: Modal) {
    m.loadingSubmit || (m.hasReviewed && m.consumed)
  }

  function CheckboxKey(m: Modal): string {
    LabelKey(m.mediaType)
  }

  /** An item the user already reviewed arrives on step 2 with the box checked and locked. */
  lemma ReviewedLocksCheckbox(m: Modal, id: string)
    ensures FinishNext(m, Checked(id, true)).consumed
    ensures CheckboxLocked(FinishNext(m, Checked(id, true)))
  {
  }

  /** A started check blocks a second one until it finishes. */
  lemma NextBlockedWhileLoading(m: Modal)
    requires StartNext(m).Some?
    ensures !NextEnabled(StartNext(m).value)
  {
  }

  /** Going back and forth through the steps never leaves stars and a like choice together. */
  lemma PicksStayExclusive(m: Modal, h: nat, liked: bool)
    ensures Exclusive(PickLike(PickStars(m, h), liked).choice)
    ensures Exclusive(PickStars(PickLike(m, liked), h).choice)
    ensures Exclusive(Back(m).choice)
  {
  }
}

=== FILE: review_route.dfy ===
/**
 `/api/review` POST: a signed-in user's first review of a catalogued media
 item. The session is the user's id, the body is `None` when it is not JSON,
 and `fault` stands for a database error. The route stores only the star
 rating and the text of the review object it receives.
 */
module ReviewRoute {
  import opened Optional
  import opened Api
  import opened Db
  import ReviewForm
  import ReviewModal

  /** The review object as the route reads it: any JSON number for the stars. */
  datatype ReviewObject = ReviewObject(stars: Option<int>, text: Option<string>, liked: Option<bool>, consumed: Option<bool>)

  /** The request body: `{ review, mediaId }`; a missing field is `None`. */
  datatype Payload = Payload(review: Option<ReviewObject>, mediaId: Option<string>)

  /** The JSON a client review body becomes on the wire; absent stars and like choice are left out. */
  function FromBody(b: ReviewForm.Body): (r: ReviewObject)
    ensures r.stars.None? <==> b.stars.None?
    ensures r.stars.Some? ==> r.stars.value == b.stars.value
    ensures r.text == Some(b.text) && r.liked == b.liked && r.consumed == b.consumed
  {
    ReviewObject(if b.stars.Some? then Some(b.stars.value as int) else None, Some(b.text), b.liked, b.consumed)
  }

  /** The row `create` writes: rating and text from the request, every other column at its default. */
  function NewReview(id: string, mediaId: string, userId: string, r: ReviewObject, now: int): (row: ReviewRow)
    ensures row.id == id && row.mediaId == mediaId && row.userId == userId
    ensures row.rating == r.stars && row.review == r.text
    ensures row.liked.None? && !row.consumedMoreThanOnce && row.totalComments == 0
  {
    ReviewRow(id, mediaId, userId, r.stars, None, r.text, now, now, false, 0)
  }

  datatype Outcome = Outcome(reply: Reply, tables: Tables)

  /** A signed-in request with a review object and a media id, reaching the database without error. */
  predicate Validated(session: Option<string>, body: Option<Payload>, fault: bool) {
    session.Some? && body.Some? && body.value.review.Some? && Given(body.value.mediaId) && !fault
  }

  /**
   POST: 401 without a session; for a JSON body, 400 without a review object,
   then without a media id; 404 for an unknown media item; 409 when the user
   already reviewed it; otherwise one review is appended, with 201. The star
   value is stored as sent, without a range check. A database error or a
   body that is not JSON gives 500. Nothing is written unless the answer is 201.
   */
  function Post(session: Option<string>, body: Option<Payload>, t: Tables, fault: bool,
                freshId: string, now: int): (o: Outcome)
    ensures session.None? <==> o.reply == Unauthorized("Unauthorized. Please log in to create a review.")
    ensures o.reply.status != 201 ==> o.tables == t
    ensures session.Some? && body.Some? && body.value.review.None? ==> o.reply == Invalid("Review object is required")
    ensures session.Some? && body.Some? && body.value.review.Some? && !Given(body.value.mediaId) ==>
      o.reply == Invalid("Media ID is required")
    ensures o.reply.status == 404 <==> Validated(session, body, fault) && Find(t.media, MediaKey, body.value.mediaId.value).None?
    ensures o.reply.status == 409 <==> (Validated(session, body, fault) && Find(t.media, MediaKey, body.value.mediaId.value).Some?
                                        && UserReview(t.reviews, body.value.mediaId.value, session.value).Some?)
    ensures o.reply.status == 201 ==> Validated(session, body, fault) && Find(t.media, MediaKey, body.value.mediaId.value).Some?
    ensures o.reply.status == 201 ==>
      o.tables == t.(reviews := t.reviews + [NewReview(freshId, body.value.mediaId.value, session.value, body.value.review.value, now)])
    ensures o.reply.status in {201, 400, 401, 404, 409, 500}
  {
    if session.None? then Outcome(Unauthorized("Unauthorized. Please log in to create a review."), t)
    else if body.None? then Outcome(ServerError(InternalError), t)
    else
      var b := body.value;
      if b.review.None? then Outcome(Invalid("Review object is required"), t)
      else if !Given(b.mediaId) then Outcome(Invalid("Media ID is required"), t)
      else if fault then Outcome(ServerError(InternalError), t)
      else
        var mediaId := b.mediaId.value;
        if Find(t.media, MediaKey, mediaId).None? then Outcome(NotFound("Media item not found"), t)
        else if UserReview(t.reviews, mediaId, session.value).Some? then
          Outcome(Conflict("You have already reviewed this media item"), t)
        else
          Outcome(Created("Review created successfully"),
                  t.(reviews := t.reviews + [NewReview(freshId, mediaId, session.value, b.review.value, now)]))
  }

  /** No user has two reviews of the same media item (the `mediaId_userId` key). */
  predicate OneReviewPerPair(rs: seq<ReviewRow>) {
    forall i, j :: 0 <= i < j < |rs| ==> !(rs[i].mediaId == rs[j].mediaId && rs[i].userId == rs[j].userId)
  }

  /** Whatever the request, POST keeps at most one review per user and media item. */
  lemma PostKeepsOneReviewPerPair(session: Option<string>, body: Option<Payload>, t: Tables, fault: bool,
                                  freshId: string, now: int)
    requires OneReviewPerPair(t.reviews)
    ensures OneReviewPerPair(Post(session, body, t, fault, freshId, now).tables.reviews)
  {
    var o := Post(session, body, t, fault, freshId, now);
    if o.reply.status == 201 {
      var rs := o.tables.reviews;
      var n := rs[|t.reviews|];
      assert UserReview(t.reviews, n.mediaId, n.userId).None?;
      forall i, j | 0 <= i < j < |rs|
        ensures !(rs[i].mediaId == rs[j].mediaId && rs[i].userId == rs[j].userId)
      {
        if j == |t.reviews| {
          assert rs[i] == t.reviews[i];
        }
      }
    }
  }

  /** Sending the same review again after it was created is refused with 409 and writes nothing. */
  lemma RepeatIsConflict(userId: string, body: Payload, t: Tables, freshId: string, now: int,
                         fault2: bool, freshId2: string, now2: int)
    requires Post(Some(userId), Some(body), t, false, freshId, now).reply.status == 201
    ensures var t2 := Post(Some(userId), Some(body), t, false, freshId, now).tables;
      var o := Post(Some(userId), Some(body), t2, fault2, freshId2, now2);
      o.tables == t2 && (fault2 || o.reply == Conflict("You have already reviewed this media item"))
  {
    var t2 := Post(Some(userId), Some(body), t, false, freshId, now).tables;
    var k := |t.reviews|;
    assert t2.reviews[k].mediaId == body.mediaId.value && t2.reviews[k].userId == userId;
  }

  /**
   A review sent from the review modal is stored with its stars and text
   only: the like choice and the "consumed more than once" box are dropped.
   */
  lemma ModalLikeNotStored(userId: string, m: ReviewModal.Modal, t: Tables, freshId: string, now: int)
    requires m.mediaId.Some? && m.mediaId.value != ""
    requires var o := Post(Some(userId), Some(Payload(Some(FromBody(ReviewModal.ReviewBody(m))), m.mediaId)), t, false, freshId, now);
      o.reply.status == 201
    ensures var o := Post(Some(userId), Some(Payload(Some(FromBody(ReviewModal.ReviewBody(m))), m.mediaId)), t, false, freshId, now);
      var row := o.tables.reviews[|t.reviews|];
      && row.liked.None? && !row.consumedMoreThanOnce
      && row.review == Some(m.text)
      && (row.rating.None? <==> m.choice.stars == 0)
  {
  }
}

=== FILE: scroll_direction.dfy ===
/**
 `useScrollDirection`: whether the header is collapsed, updated on every
 scroll event from the new vertical offset and the previous one.
 */
module ScrollDirection {

  datatype Scroll = Scroll(collapsed: bool, lastY: int)

  const Initial := Scroll(false, 0)

  /**
   `handleScroll`: near the top (below 50) the header expands; scrolling
   down past 100 collapses it; any other upward scroll expands it; otherwise
   it stays as it was. The offset is always remembered.
   */
  function HandleScroll(s: Scroll, y: int): (r: Scroll)
    ensures r.lastY == y
    ensures y < 50 ==> !r.collapsed
    ensures y >= 50 && y > s.lastY && y > 100 ==> r.collapsed
    ensures y >= 50 && y < s.lastY ==> !r.collapsed
    ensures y >= 50 && !(y > s.lastY && y > 100) && y >= s.lastY ==> r.collapsed == s.collapsed
  {
    var collapsed :=
      if y < 50 then false
      else if y > s.lastY && y > 100 then true
      else if y < s.lastY then false
      else s.collapsed;
    Scroll(collapsed, y)
  }

  /** The state after a series of scroll events. */
  function Run(s: Scroll, ys: seq<int>): Scroll
    decreases |ys|
  {
    if ys == [] then s else Run(HandleScroll(s, ys[0]), ys[1..])
  }

  /** A collapsed header was last scrolled beyond 100. */
  predicate Settled(s: Scroll) {
    s.collapsed ==> s.lastY > 100
  }

  /** Every scroll event keeps the header settled, and the first state is settled. */
  lemma {:induction false} RunSettled(s: Scroll, ys: seq<int>)
    requires Settled(s)
    ensures Settled(Run(s, ys))
    ensures ys != [] ==> Run(s, ys).lastY == ys[|ys| - 1]
    decreases |ys|
  {
    if ys != [] {
      RunSettled(HandleScroll(s, ys[0]), ys[1..]);
    }
  }

  /** From the start, the header is collapsed only when the last offset is beyond 100. */
  lemma CollapsedOnlyFarDown(ys: seq<int>)
    requires Run(Initial, ys).collapsed
    ensures ys != [] && ys[|ys| - 1] > 100
  {
    RunSettled(Initial, ys);
  }
}

=== FILE: search.dfy ===
/**
 The search back end: the mappers from TMDB movie and series results and IGDB
 game results to the app's media shape, and the `GET` handler of the search
 route with its validation and status codes. The upstream call is an input.
 The IGDB release year comes from a timestamp through the local time zone; it
 is the parameter `yearOf`.
 */
module Search {
  import opened Text
  import opened Optional
  import opened ParseInt
  import opened Genres
  import opened AppStore

  const TmdbImageBase := "https://image.tmdb.org/t/p/w500"

  /** A mapped search result; `year` is nothing for `null` and may be NaN. */
  datatype Parsed = Parsed(
    title: string,
    mtype: MediaType,
    year: Option<IntParse>,
    poster: Option<string>,
    description: string,
    genre: seq<string>)

  /** The year of a TMDB date: the integer before the first dash, or nothing for a missing or empty date. */
  function TmdbYear(date: Option<string>): (r: Option<IntParse>)
    ensures r.None? <==> date.None? || date.value == []
  {
    if date.Some? && date.value != [] then Some(Parse(BeforeFirst(date.value, '-'), 0)) else None
  }

  /** An ISO date reads as its year. */
  lemma TmdbYearOfDate(y: nat, rest: string)
    ensures TmdbYear(Some(NatToString(y) + "-" + rest)) == Some(Num(y))
  {
    var d := NatToString(y);
    var s := d + "-" + rest;
    assert s == d + ['-'] + rest;
    assert '-' !in d by {
      forall k | 0 <= k < |d| ensures d[k] != '-' { assert IsDigit(d[k]); }
    }
    assert BeforeFirst(s, '-') == d by {
      assert s[|d|] == '-';
      assert s[..|d|] == d;
      assert '-' in s;
      IndexOfCharAfter(d, '-', rest);
    }
    ParseNumeral(y, [], 0);
    assert d + [] == d;
  }

  /** A poster path is prefixed with the image base; a missing or empty one gives nothing. */
  function TmdbPoster(path: Option<string>): (r: Option<string>)
    ensures r.None? <==> path.None? || path.value == []
    ensures r.Some? ==> StartsWith(r.value, TmdbImageBase) && r.value[|TmdbImageBase|..] == path.value
  {
    if path.Some? && path.value != [] then Some(TmdbImageBase + path.value) else None
  }

  /** `ids?.map(f) || []`: each id mapped in place; missing ids give no genre. */
  function MapIds(ids: Option<seq<int>>, f: int -> string): (r: seq<string>)
    ensures ids.None? ==> r == []
    ensures ids.Some? ==> |r| == |ids.value| && forall k :: 0 <= k < |r| ==> r[k] == f(ids.value[k])
  {
    if ids.None? then [] else seq(|ids.value|, k requires 0 <= k < |ids.value| => f(ids.value[k]))
  }

  datatype TmdbMovie = TmdbMovie(
    title: string,
    posterPath: Option<string>,
    releaseDate: Option<string>,
    overview: Option<string>,
    genreIds: Option<seq<int>>)

  datatype TmdbSerie = TmdbSerie(
    name: string,
    posterPath: Option<string>,
    firstAirDate: Option<string>,
    overview: Option<string>,
    genreIds: Option<seq<int>>)

  /** `parseTMDBMovie`. */
  function ParseMovie(m: TmdbMovie): (r: Parsed)
    ensures r.title == m.title && r.mtype == Film
    ensures r.year == TmdbYear(m.releaseDate) && r.poster == TmdbPoster(m.posterPath)
    ensures m.overview.None? ==> r.description == ""
    ensures |r.genre| == (if m.genreIds.Some? then |m.genreIds.value| else 0)
    ensures forall k :: 0 <= k < |r.genre| ==> r.genre[k] == MovieGenre(m.genreIds.value[k])
  {
    Parsed(m.title, Film, TmdbYear(m.releaseDate), TmdbPoster(m.posterPath),
      TextOr(m.overview, ""), MapIds(m.genreIds, MovieGenre))
  }

  /** `parseTMDBSerie`: the movie rules on the series fields, with the series genre table. */
  function ParseSerie(m: TmdbSerie): (r: Parsed)
    ensures r.title == m.name && r.mtype == Series
    ensures r.year == TmdbYear(m.firstAirDate) && r.poster == TmdbPoster(m.posterPath)
    ensures m.overview.None? ==> r.description == ""
    ensures |r.genre| == (if m.genreIds.Some? then |m.genreIds.value| else 0)
    ensures forall k :: 0 <= k < |r.genre| ==> r.genre[k] == SerieGenre(m.genreIds.value[k])
  {
    Parsed(m.name, Series, TmdbYear(m.firstAirDate), TmdbPoster(m.posterPath),
      TextOr(m.overview, ""), MapIds(m.genreIds, SerieGenre))
  }

  /** A series parses as the movie with the same fields would, apart from its type and genre table. */
  lemma SerieLikeMovie(m: TmdbSerie)
    ensures var p := ParseMovie(TmdbMovie(m.name, m.posterPath, m.firstAirDate, m.overview, m.genreIds));
      var q := ParseSerie(m);
      q.(mtype := Film, genre := p.genre) == p
  {
  }

  // ---------------------------------------------------------------- IGDB

  /** A character of the size-token class `[a-z0-9_]`. */
  predicate IsTokenChar(c: char) {
    'a' <= c <= 'z' || '0' <= c <= '9' || c == '_'
  }

  /** A size token `t_` followed by at least one token character starts at `i`. */
  predicate TokenAt(s: string, i: int) {
    0 <= i && i + 2 < |s| && s[i] == 't' && s[i + 1] == '_' && IsTokenChar(s[i + 2])
  }

  /** The first index at or after `i` where a size token starts, or `|s|`. */
  function FirstToken(s: string, i: nat): (j: nat)
    requires i <= |s|
    ensures i <= j <= |s|
    ensures j < |s| ==> TokenAt(s, j)
    ensures forall k :: i <= k < j ==> !TokenAt(s, k)
    decreases |s| - i
  {
    if i == |s| || TokenAt(s, i) then i else FirstToken(s, i + 1)
  }

  /** The end of the run of token characters starting at `i`. */
  function TokenRunEnd(s: string, i: nat): (j: nat)
    requires i <= |s|
    ensures i <= j <= |s|
    ensures forall k :: i <= k < j ==> IsTokenChar(s[k])
    ensures j < |s| ==> !IsTokenChar(s[j])
    decreases |s| - i
  {
    if i == |s| || !IsTokenChar(s[i]) then i else TokenRunEnd(s, i + 1)
  }

  /** `url.replace(/t_[a-z0-9_]+/, 't_1080p')`: the first, longest size token becomes `t_1080p`. */
  function ReplaceSize(url: string): string {
    var i := FirstToken(url, 0);
    if i == |url| then url
    else url[..i] + "t_1080p" + url[TokenRunEnd(url, i + 2)..]
  }

  /** A cover address with its size token: the token is swapped and the rest kept. */
  lemma ReplaceSizeOf(pre: string, w: string, rest: string)
    requires '_' !in pre
    requires w != [] && forall k :: 0 <= k < |w| ==> IsTokenChar(w[k])
    requires rest == [] || !IsTokenChar(rest[0])
    ensures ReplaceSize(pre + "t_" + w + rest) == pre + "t_1080p" + rest
  {
    var s := pre + "t_" + w + rest;
    var n := |pre|;
    assert TokenAt(s, n) by { assert s[n] == 't' && s[n + 1] == '_' && s[n + 2] == w[0]; }
    forall k | 0 <= k < n
      ensures !TokenAt(s, k)
    {
      if k + 1 < n {
        assert s[k + 1] == pre[k + 1];
      } else {
        assert s[k + 1] == 't';
      }
    }
    FirstTokenIs(s, 0, n);
    forall k | n + 2 <= k < n + 2 + |w|
      ensures IsTokenChar(s[k])
    {
      assert s[k] == w[k - n - 2];
    }
    if n + 2 + |w| < |s| {
      assert s[n + 2 + |w|] == rest[0];
    }
    TokenRunEndIs(s, n + 2, n + 2 + |w|);
    assert s[..n] == pre;
    assert s[n + 2 + |w|..] == rest;
  }

  /** An address without a size token is kept as it is. */
  lemma ReplaceSizeNoToken(url: string)
    requires forall i :: 0 <= i < |url| ==> !TokenAt(url, i)
    ensures ReplaceSize(url) == url
  {
  }

  lemma {:induction false} FirstTokenIs(s: string, i: nat, j: nat)
    requires i <= j < |s| && TokenAt(s, j)
    requires forall k :: i <= k < j ==> !TokenAt(s, k)
    ensures FirstToken(s, i) == j
    decreases j - i
  {
    if i < j {
      FirstTokenIs(s, i + 1, j);
    }
  }

  lemma {:induction false} TokenRunEndIs(s: string, i: nat, j: nat)
    requires i <= j <= |s|
    requires forall k :: i <= k < j ==> IsTokenChar(s[k])
    requires j < |s| ==> !IsTokenChar(s[j])
    ensures TokenRunEnd(s, i) == j
    decreases j - i
  {
    if i < j {
      TokenRunEndIs(s, i + 1, j);
    }
  }

  datatype IgdbGame = IgdbGame(
    name: string,
    coverUrl: Option<string>,
    firstReleaseDate: Option<int>,
    genres: Option<seq<int>>,
    gameModes: Option<seq<int>>,
    playerPerspectives: Option<seq<int>>,
    themes: Option<seq<int>>,
    summary: Option<string>)

  /** `parseIGDBGame`; `yearOf` gives the local year of a Unix time in seconds. */
  function ParseGame(g: IgdbGame, yearOf: int -> int): (r: Parsed)
    ensures r.title == g.name && r.mtype == Game
    ensures r.year.None? <==> g.firstReleaseDate.None? || g.firstReleaseDate.value == 0
    ensures r.year.Some? ==> r.year.value == Num(yearOf(g.firstReleaseDate.value))
    ensures r.poster.None? <==> g.coverUrl.None?
    ensures r.poster.Some? ==> r.poster.value == "https:" + ReplaceSize(g.coverUrl.value)
    ensures g.summary.None? ==> r.description == ""
    ensures r.genre == MapIds(g.genres, GameGenre) + MapIds(g.gameModes, GameMode)
      + MapIds(g.playerPerspectives, GamePerspective) + MapIds(g.themes, GameTheme)
  {
    Parsed(
      g.name,
      Game,
      if g.firstReleaseDate.Some? && g.firstReleaseDate.value != 0 then Some(Num(yearOf(g.firstReleaseDate.value))) else None,
      if g.coverUrl.Some? then Some("https:" + ReplaceSize(g.coverUrl.value)) else None,
      TextOr(g.summary, ""),
      MapIds(g.genres, GameGenre) + MapIds(g.gameModes, GameMode)
        + MapIds(g.playerPerspectives, GamePerspective) + MapIds(g.themes, GameTheme))
  }

  /** The game genre list has one entry per id of the four lists, missing lists adding none. */
  lemma GameGenreCount(g: IgdbGame, yearOf: int -> int)
    ensures |ParseGame(g, yearOf).genre| == Len(g.genres) + Len(g.gameModes) + Len(g.playerPerspectives) + Len(g.themes)
  {
  }

  function Len(ids: Option<seq<int>>): nat {
    if ids.Some? then |ids.value| else 0
  }

  // ---------------------------------------------------------------- GET /api/search

  /** A search result item: the movie fields without genres. */
  datatype Item = Item(title: string, mtype: MediaType, year: Option<IntParse>, poster: Option<string>, description: string)

  /** What the upstream call gave: an exception, or a response whose body may not be JSON. */
  datatype Upstream =
    | Thrown
    | Response(ok: bool, json: Option<Option<seq<TmdbMovie>>>)

  datatype Body = Items(items: seq<Item>) | Failure(error: string)

  datatype Reply = Reply(status: int, body: Body)

  /** An error raised by the handler: an `ApiError` with its status, or anything else. */
  datatype Error = ApiError(status: int, message: string) | OtherError

  /** The item of one TMDB result. */
  function ItemOf(m: TmdbMovie): Item {
    Item(m.title, Film, TmdbYear(m.releaseDate), TmdbPoster(m.posterPath), TextOr(m.overview, ""))
  }

  /** Items carry the same title, year, poster and description as the movie parser gives. */
  lemma ItemLikeParsed(m: TmdbMovie)
    ensures var p := ParseMovie(m);
      ItemOf(m) == Item(p.title, p.mtype, p.year, p.poster, p.description)
  {
  }

  /** The handler's outcome before the error mapping: the items, or the error thrown. */
  function Handle(mediatype: Option<string>, mediatitle: Option<string>, upstream: Upstream): (r: Result)
    ensures mediatype.None? || mediatype.value == [] ==> r == Raised(ApiError(400, "Mediatype is required"))
    ensures mediatype.Some? && mediatype.value != [] && (mediatitle.None? || mediatitle.value == []) ==>
      r == Raised(ApiError(400, "Mediatitle is required"))
  {
    if mediatype.None? || mediatype.value == [] then Raised(ApiError(400, "Mediatype is required"))
    else if mediatitle.None? || mediatitle.value == [] then Raised(ApiError(400, "Mediatitle is required"))
    else if mediatype.value != "film" then Raised(ApiError(400, "Invalid media type: " + mediatype.value))
    else match upstream
      case Thrown => Raised(OtherError)
      case Response(ok, json) =>
        if !ok then Raised(ApiError(502, "Could not fetch data from TMDB API"))
        else if json.None? then Raised(OtherError)
        else
          var results := json.value;
          Done(if results.None? then [] else seq(|results.value|, k requires 0 <= k < |results.value| => ItemOf(results.value[k])))
  }

  datatype Result = Done(items: seq<Item>) | Raised(error: Error)

  /** The `catch` of the route: an `ApiError` keeps its status and message, anything else is a 500. */
  function ToReply(r: Result): (reply: Reply)
    ensures r.Done? ==> reply == Reply(200, Items(r.items))
    ensures r.Raised? && r.error.ApiError? ==> reply == Reply(r.error.status, Failure(r.error.message))
    ensures r.Raised? && r.error.OtherError? ==> reply == Reply(500, Failure("Internal server error"))
  {
    match r
    case Done(items) => Reply(200, Items(items))
    case Raised(ApiError(status, message)) => Reply(status, Failure(message))
    case Raised(OtherError) => Reply(500, Failure("Internal server error"))
  }

  /** `GET /api/search`. */
  function Respond(mediatype: Option<string>, mediatitle: Option<string>, upstream: Upstream): Reply {
    ToReply(Handle(mediatype, mediatitle, upstream))
  }

  /**
   The status of the search route: 400 for a missing type (before the title
   is looked at), a missing title or a type other than "film"; then 500 for
   a failed call or a body that is not JSON, 502 for a response that is not
   ok, and 200 otherwise.
   */
  lemma GetStatus(mediatype: Option<string>, mediatitle: Option<string>, upstream: Upstream)
    ensures var s := Respond(mediatype, mediatitle, upstream).status;
      && (mediatype.None? || mediatype.value == [] ==> s == 400)
      && (mediatitle.None? || mediatitle.value == [] ==> s == 400)
      && (mediatype.Some? && mediatype.value != [] && mediatype.value != "film" ==> s == 400)
      && (mediatype == Some("film") && mediatitle.Some? && mediatitle.value != [] ==>
            s == (if upstream.Thrown? then 500
                  else if !upstream.ok then 502
                  else if upstream.json.None? then 500
                  else 200))
  {
  }

  /** Any type other than "film" is refused with its name in the message. */
  lemma InvalidTypeMessage(mediatype: string, mediatitle: string, upstream: Upstream)
    requires mediatype != [] && mediatype != "film" && mediatitle != []
    ensures Respond(Some(mediatype), Some(mediatitle), upstream)
         == Reply(400, Failure("Invalid media type: " + mediatype))
  {
  }

  /** A successful search returns one item per result, in order, and none when results are missing. */
  lemma GetItems(mediatitle: string, results: Option<seq<TmdbMovie>>)
    requires mediatitle != []
    ensures var r := Respond(Some("film"), Some(mediatitle), Response(true, Some(results)));
      && r.status == 200 && r.body.Items?
      && |r.body.items| == (if results.Some? then |results.value| else 0)
      && forall k :: 0 <= k < |r.body.items| ==> r.body.items[k] == ItemOf(results.value[k])
  {
  }
}

=== FILE: search_bar.dfy ===
/** The header's search bar: its initial text and the address a search navigates to. */
module SearchBar {
  import opened Text
  import opened Optional
  import opened QueryParams

  /** The initial text: the `search` parameter, or "" when it is absent. */
  function InitialValue(search: Params): (v: string)
    ensures Get(search, "search").Some? ==> v == Get(search, "search").value
    ensures Get(search, "search").None? ==> v == ""
  {
    TextOr(Get(search, "search"), "")
  }

  /** The query after a search: a non-blank text sets `search` to the trimmed text, a blank one removes it, and `page` always goes. */
  function SearchQuery(search: Params, value: string): Params {
    Delete(if Trim(value) != "" then Set(search, "search", Trim(value)) else Delete(search, "search"), "page")
  }

  /** `handleSearch`: the address pushed, the bare path when no parameter is left. */
  function HandleSearch(path: string, search: Params, value: string): (url: string)
    ensures SearchQuery(search, value) == [] ==> url == path
    ensures SearchQuery(search, value) != [] ==> url == path + "?" + Serialize(SearchQuery(search, value))
  {
    Href(path, SearchQuery(search, value))
  }

  /** What the user does in the bar. */
  datatype Event = KeyDown(key: string) | ButtonClick | Typed(text: string)

  /** A search runs on the Enter key or the button, and on nothing else. */
  predicate Searches(e: Event) {
    e == KeyDown("Enter") || e == ButtonClick
  }

  /** The bar's text and the address pushed, if any, after an event. */
  function OnEvent(value: string, path: string, search: Params, e: Event): (r: (string, Option<string>))
    ensures r.1.Some? <==> Searches(e)
    ensures r.1.Some? ==> r.1.value == HandleSearch(path, search, value) && r.0 == value
    ensures e.Typed? ==> r.0 == e.text
    ensures e.KeyDown? ==> r.0 == value
  {
    match e
    case Typed(text) => (text, None)
    case _ => (value, if Searches(e) then Some(HandleSearch(path, search, value)) else None)
  }

  /**
   A search resets paging, records the trimmed text (or no text when blank),
   and keeps every other parameter, in order.
   */
  lemma SearchQuerySpec(search: Params, value: string)
    ensures !HasName(SearchQuery(search, value), "page")
    ensures Trim(value) == "" ==> !HasName(SearchQuery(search, value), "search")
    ensures Trim(value) != "" ==> Get(SearchQuery(search, value), "search") == Some(Trim(value))
    ensures Delete(SearchQuery(search, value), "search") == Delete(Delete(search, "search"), "page")
  {
    var x := if Trim(value) != "" then Set(search, "search", Trim(value)) else Delete(search, "search");
    DeleteCommutes(x, "page", "search");
    if Trim(value) == "" {
      DeleteIdempotent(search, "search");
    } else {
      SetOthersUnchanged(search, "search", Trim(value));
      GetAfterSet(search, "search", Trim(value));
      GetAfterDeleteOther(x, "page", "search");
    }
  }

  /** The bar reopened on the new address shows the trimmed text. */
  lemma SearchRoundTrip(search: Params, value: string)
    ensures InitialValue(SearchQuery(search, value)) == Trim(value)
  {
    SearchQuerySpec(search, value);
  }
}

=== FILE: search_input.dfy ===
/**
 The media search box: the request it sends for the typed value, the
 de-duplication of the suggestions it receives, the automatic selection of an
 exact title match, the choice of a suggestion, and the icon of a suggestion
 without a poster. The debounce timer and the network are left to the caller:
 the response arrives as an input.
 */
module SearchInput {
  import opened Text
  import opened Optional
  import opened Seqs
  import opened QueryParams
  import opened AppStore
  import ParseInt
  import Search

  /** A suggestion as received in JSON: the type is the enumeration name. */
  datatype Suggestion = Suggestion(
    title: string,
    stype: string,
    year: Option<int>,
    poster: Option<string>,
    description: string,
    genre: seq<string>)

  /** The JSON form of a search item: NaN years become `null`, items carry no genres. */
  function FromItem(i: Search.Item): (s: Suggestion)
    ensures s.title == i.title && s.stype == EnumName(i.mtype) && s.genre == []
    ensures s.year.Some? <==> i.year.Some? && i.year.value.Num?
  {
    Suggestion(i.title, EnumName(i.mtype),
      if i.year.Some? && i.year.value.Num? then Some(i.year.value.n) else None,
      i.poster, i.description, [])
  }

  /** Two suggestions are the same entry when title, year and type agree. */
  function Key(s: Suggestion): (string, Option<int>, string) {
    (s.title, s.year, s.stype)
  }

  /** `self.findIndex(t => same key as x)`: the first index with that key. */
  function FirstWithKey<T, K(==)>(xs: seq<T>, key: T -> K, k: K): (i: nat)
    ensures i <= |xs|
    ensures i < |xs| ==> key(xs[i]) == k
    ensures forall j :: 0 <= j < i ==> key(xs[j]) != k
    decreases |xs|
  {
    if xs == [] then 0
    else if key(xs[0]) == k then 0
    else 1 + FirstWithKey(xs[1..], key, k)
  }

  /** The items from index `i` on that are the first of their key. */
  function FirstsFrom<T, K(==)>(xs: seq<T>, key: T -> K, i: nat): (r: seq<T>)
    requires i <= |xs|
    ensures forall k :: 0 <= k < |r| ==> i <= FirstWithKey(xs, key, key(r[k])) < |xs|
    ensures forall k :: 0 <= k < |r| ==> xs[FirstWithKey(xs, key, key(r[k]))] == r[k]
    decreases |xs| - i
  {
    if i == |xs| then []
    else if FirstWithKey(xs, key, key(xs[i])) == i then [xs[i]] + FirstsFrom(xs, key, i + 1)
    else FirstsFrom(xs, key, i + 1)
  }

  /** `data.filter((item, index, self) => index === self.findIndex(...))`. */
  function Dedup(xs: seq<Suggestion>): seq<Suggestion> {
    FirstsFrom(xs, Key, 0)
  }

  lemma {:induction false} FirstsFromSubseq<T, K>(xs: seq<T>, key: T -> K, i: nat)
    requires i <= |xs|
    ensures Subseq(FirstsFrom(xs, key, i), xs[i..])
    decreases |xs| - i
  {
    if i < |xs| {
      FirstsFromSubseq(xs, key, i + 1);
      assert xs[i..][0] == xs[i] && xs[i..][1..] == xs[i + 1..];
    }
  }

  /**
   De-duplication keeps, in order, exactly the first suggestion of every
   key: the result is a subsequence, its keys are distinct, and every key of
   the input is represented by its first suggestion.
   */
  lemma DedupSpec(xs: seq<Suggestion>)
    ensures Subseq(Dedup(xs), xs)
    ensures forall p, q :: 0 <= p < q < |Dedup(xs)| ==> Key(Dedup(xs)[p]) != Key(Dedup(xs)[q])
    ensures forall k :: 0 <= k < |xs| ==> xs[FirstWithKey(xs, Key, Key(xs[k]))] in Dedup(xs)
    ensures forall k :: 0 <= k < |Dedup(xs)| ==> Dedup(xs)[k] == xs[FirstWithKey(xs, Key, Key(Dedup(xs)[k]))]
  {
    FirstsFromSubseq(xs, Key, 0);
    assert xs[0..] == xs;
    var r := Dedup(xs);
    forall p, q | 0 <= p < q < |r|
      ensures Key(r[p]) != Key(r[q])
    {
      DistinctFirsts(xs, Key, 0, p, q);
    }
    forall k | 0 <= k < |xs|
      ensures xs[FirstWithKey(xs, Key, Key(xs[k]))] in r
    {
      FirstOfKeyKept(xs, Key, k);
    }
  }

  /** The first item of the key of any item is kept. */
  lemma FirstOfKeyKept<T, K>(xs: seq<T>, key: T -> K, k: nat)
    requires k < |xs|
    ensures FirstWithKey(xs, key, key(xs[k])) < |xs|
    ensures xs[FirstWithKey(xs, key, key(xs[k]))] in FirstsFrom(xs, key, 0)
  {
    var f := FirstWithKey(xs, key, key(xs[k]));
    assert key(xs[f]) == key(xs[k]);
    assert FirstWithKey(xs, key, key(xs[f])) == f;
    FirstsFromHas(xs, key, 0, f);
  }

  lemma {:induction false} FirstsFromHas<T, K>(xs: seq<T>, key: T -> K, i: nat, k: nat)
    requires i <= k < |xs| && FirstWithKey(xs, key, key(xs[k])) == k
    ensures xs[k] in FirstsFrom(xs, key, i)
    decreases k - i
  {
    if i < k {
      FirstsFromHas(xs, key, i + 1, k);
    }
  }

  lemma {:induction false} DistinctFirsts<T, K>(xs: seq<T>, key: T -> K, i: nat, p: nat, q: nat)
    requires i <= |xs| && p < q < |FirstsFrom(xs, key, i)|
    ensures key(FirstsFrom(xs, key, i)[p]) != key(FirstsFrom(xs, key, i)[q])
    decreases |xs| - i
  {
    var r := FirstsFrom(xs, key, i);
    if FirstWithKey(xs, key, key(xs[i])) == i {
      var rest := FirstsFrom(xs, key, i + 1);
      if p == 0 {
        assert r[q] == rest[q - 1];
      } else {
        DistinctFirsts(xs, key, i + 1, p - 1, q - 1);
      }
    } else {
      DistinctFirsts(xs, key, i + 1, p, q);
    }
  }

  /** `data.find(r => r.title === value.trim()) || null`: the first suggestion with that exact title. */
  function FindTitle(xs: seq<Suggestion>, title: string): (r: Option<Suggestion>)
    ensures r.None? <==> forall k :: 0 <= k < |xs| ==> xs[k].title != title
    ensures r.Some? ==>
      (exists k :: 0 <= k < |xs| && xs[k] == r.value && r.value.title == title
        && forall j :: 0 <= j < k ==> xs[j].title != title)
    decreases |xs|
  {
    if xs == [] then None
    else if xs[0].title == title then Some(xs[0])
    else
      var r := FindTitle(xs[1..], title);
      assert forall k :: 0 < k < |xs| ==> xs[k] == xs[1..][k - 1];
      if r.Some? then
        var k :| 0 <= k < |xs[1..]| && xs[1..][k] == r.value && r.value.title == title
          && forall j :: 0 <= j < k ==> xs[1..][j].title != title;
        assert xs[k + 1] == r.value;
        r
      else r
  }

  // ---------------------------------------------------------------- the search box

  datatype Box = Box(
    suggestions: seq<Suggestion>,
    selected: Option<Suggestion>,
    title: string,
    isOpen: bool,
    loading: bool)

  /** What an edit of the value does at once: clear, and ask for suggestions when the value is not blank. */
  datatype Effect = Effect(box: Box, request: Option<Params>)

  /**
   The effect on the value: the list and the selection are cleared; a value
   that is not blank also schedules a request for the selected type and the
   trimmed value.
   */
  function OnValue(b: Box, value: Option<string>, selectedType: string): (e: Effect)
    ensures e.box == b.(suggestions := [], selected := None)
    ensures e.request.None? <==> value.None? || AllSpace(value.value)
    ensures e.request.Some? ==>
      Get(e.request.value, "mediatype") == Some(selectedType)
      && Get(e.request.value, "mediatitle") == Some(Trim(value.value))
  {
    var cleared := b.(suggestions := [], selected := None);
    if value.Some? && Trim(value.value) != [] then
      Effect(cleared, Some([Param("mediatype", selectedType), Param("mediatitle", Trim(value.value))]))
    else Effect(cleared, None)
  }

  /** The debounced request fires: the box shows that it is loading and nothing else changes yet. */
  function Fire(b: Box): (r: Box)
    ensures r.loading
    ensures r.suggestions == b.suggestions && r.selected == b.selected && r.title == b.title && r.isOpen == b.isOpen
  {
    b.(loading := true)
  }

  /** How the request ended: an exception, a response that is not ok, or a JSON body that may not be an array. */
  datatype Outcome = Thrown | NotOk | Json(payload: Option<seq<Suggestion>>)

  /**
   The response: an array gives the de-duplicated suggestions and selects the
   first with exactly the trimmed title; anything else clears both. Loading
   ends in every case.
   */
  function OnResponse(b: Box, value: string, o: Outcome): (r: Box)
    ensures !r.loading && r.title == b.title && r.isOpen == b.isOpen
    ensures !(o.Json? && o.payload.Some?) ==> r.suggestions == [] && r.selected.None?
    ensures o.Json? && o.payload.Some? ==> r.suggestions == Dedup(o.payload.value)
    ensures r.selected.Some? ==> r.selected.value in r.suggestions && r.selected.value.title == Trim(value)
    ensures r.selected.None? ==> forall k :: 0 <= k < |r.suggestions| ==> r.suggestions[k].title != Trim(value)
  {
    if o.Json? && o.payload.Some? then
      var unique := Dedup(o.payload.value);
      b.(suggestions := unique, selected := FindTitle(unique, Trim(value)), loading := false)
    else b.(suggestions := [], selected := None, loading := false)
  }

  /** A request shows loading from the moment it fires until its response, whatever the outcome. */
  lemma LoadingSpansRequest(b: Box, value: string, o: Outcome)
    ensures Fire(b).loading && !OnResponse(Fire(b), value, o).loading
    ensures OnResponse(Fire(b), value, o).title == b.title && OnResponse(Fire(b), value, o).isOpen == b.isOpen
  {
  }

  /** `handleSelect`: the title becomes the suggestion's, it is selected and the list closes. */
  function Select(b: Box, s: Suggestion): (r: Box)
    ensures r.title == s.title && r.selected == Some(s) && !r.isOpen
    ensures r.suggestions == b.suggestions && r.loading == b.loading
  {
    b.(title := s.title, selected := Some(s), isOpen := false)
  }

  /** Choosing a suggestion whose title is the typed value selects what the exact match would. */
  lemma SelectFirstExact(b: Box, value: string, xs: seq<Suggestion>)
    requires exists k :: 0 <= k < |Dedup(xs)| && Dedup(xs)[k].title == Trim(value)
    ensures OnResponse(b, value, Json(Some(xs))).selected.Some?
  {
  }

  datatype Icon = Clapperboard | Tv | Gamepad | BookIcon | MusicIcon | StickyNote

  /** `getMediaTypeIcon`: one icon per enumeration name, and a note for anything else. */
  function IconOf(stype: string): (i: Icon)
    ensures (i == StickyNote) <==> forall t: MediaType :: stype != EnumName(t)
  {
    if stype == "FILM" then assert EnumName(Film) == stype; Clapperboard
    else if stype == "SERIES" then assert EnumName(Series) == stype; Tv
    else if stype == "GAME" then assert EnumName(Game) == stype; Gamepad
    else if stype == "BOOK" then assert EnumName(Book) == stype; BookIcon
    else if stype == "MUSIC" then assert EnumName(Music) == stype; MusicIcon
    else
      assert forall t: MediaType :: stype != EnumName(t) by {
        forall t: MediaType ensures stype != EnumName(t) { }
      }
      StickyNote
  }

  /** Different types get different icons. */
  lemma IconsDistinct(s: MediaType, t: MediaType)
    requires s != t
    ensures IconOf(EnumName(s)) != IconOf(EnumName(t))
  {
  }
}

=== FILE: seqs.dfy ===
/**
 Sequence helpers shared by the model: order-preserving subsequences and
 `Array.prototype.filter`.
 */
module Seqs {

  /** `a` is `b` with some elements left out, the rest in their order. */
  predicate Subseq<T(==)>(a: seq<T>, b: seq<T>)
    decreases |b|
  {
    a == [] || (b != [] && if a[0] == b[0] then Subseq(a[1..], b[1..]) else Subseq(a, b[1..]))
  }

  lemma {:induction false} SubseqRefl<T>(a: seq<T>)
    ensures Subseq(a, a)
    decreases |a|
  {
    if a != [] {
      SubseqRefl(a[1..]);
    }
  }

  /** The elements of a subsequence come from the sequence. */
  lemma {:induction false} SubseqMembers<T>(a: seq<T>, b: seq<T>)
    requires Subseq(a, b)
    ensures forall x :: x in a ==> x in b
    decreases |b|
  {
    if a != [] {
      if a[0] == b[0] {
        SubseqMembers(a[1..], b[1..]);
        assert forall x :: x in a ==> x == a[0] || x in a[1..];
      } else {
        SubseqMembers(a, b[1..]);
      }
    }
  }

  /** `xs.filter(keep)`. */
  function Filter<T(!new)>(xs: seq<T>, keep: T -> bool): (r: seq<T>)
    ensures |r| <= |xs|
    ensures forall k :: 0 <= k < |r| ==> keep(r[k])
    ensures forall x :: x in r <==> x in xs && keep(x)
    ensures forall x :: multiset(r)[x] == if keep(x) then multiset(xs)[x] else 0
    decreases |xs|
  {
    if xs == [] then []
    else
      assert xs == [xs[0]] + xs[1..];
      if keep(xs[0]) then [xs[0]] + Filter(xs[1..], keep) else Filter(xs[1..], keep)
  }

  /** What `filter` keeps is an order-preserving subsequence of its input. */
  lemma {:induction false} FilterSubseq<T(!new)>(xs: seq<T>, keep: T -> bool)
    ensures Subseq(Filter(xs, keep), xs)
    decreases |xs|
  {
    if xs != [] {
      FilterSubseq(xs[1..], keep);
      var r := Filter(xs, keep);
      if !keep(xs[0]) && r != [] {
        assert keep(r[0]);
      }
    }
  }

  /** Filtering with a test every element passes changes nothing. */
  lemma {:induction false} FilterAll<T(!new)>(xs: seq<T>, keep: T -> bool)
    requires forall k :: 0 <= k < |xs| ==> keep(xs[k])
    ensures Filter(xs, keep) == xs
    decreases |xs|
  {
    if xs != [] {
      FilterAll(xs[1..], keep);
    }
  }

  /** Filtering distributes over concatenation. */
  lemma {:induction false} FilterAppend<T(!new)>(a: seq<T>, b: seq<T>, keep: T -> bool)
    ensures Filter(a + b, keep) == Filter(a, keep) + Filter(b, keep)
    decreases |a|
  {
    if a == [] {
      assert a + b == b;
    } else {
      assert (a + b)[0] == a[0] && (a + b)[1..] == a[1..] + b;
      FilterAppend(a[1..], b, keep);
    }
  }

  /** `xs.flat()` for one level of nesting. */
  function Flatten<T(!new)>(xss: seq<seq<T>>): (r: seq<T>)
    ensures forall x :: x in r <==> exists k :: 0 <= k < |xss| && x in xss[k]
    decreases |xss|
  {
    if xss == [] then []
    else
      var rest := Flatten(xss[1..]);
      assert forall k :: 0 < k < |xss| ==> xss[k] == xss[1..][k - 1];
      assert forall x :: (exists k :: 0 < k < |xss| && x in xss[k]) ==> x in rest by {
        forall x | exists k :: 0 < k < |xss| && x in xss[k] ensures x in rest {
          var k :| 0 < k < |xss| && x in xss[k];
          assert x in xss[1..][k - 1];
        }
      }
      xss[0] + rest
  }
}

=== FILE: sitemap.dfy ===
/**
 The sitemap: six static pages per locale, then a page per media item,
 review and user for every locale, then every locale's blog posts. A
 database section that fails to load adds no entries and leaves the others
 in place. Priorities are in tenths; the configured locales are a
 parameter.
 */
module Sitemap {
  import Blog

  const BaseUrl: string := "http://foslog.vercel.app"

  const StaticRoutes: seq<string> := ["", "/blog", "/login", "/signup", "/privacy-policy", "/terms-of-service"]

  datatype Frequency = Weekly | Monthly

  /** The address of a page under a locale. */
  function LocaleUrl(locale: string, path: string): string {
    BaseUrl + "/" + locale + path
  }

  /** When an entry last changed: the build time, a row's update stamp, or a post's date text. */
  datatype Modified = Now | At(stamp: int) | PostDate(date: string)

  datatype Entry = Entry(url: string, lastModified: Modified, changeFrequency: Frequency, priority: nat)

  /** A row as the sitemap selects it. */
  datatype Row = Row(id: string, updatedAt: int)

  /** A database section: its rows, or `None` when the query failed. */
  datatype Section = Loaded(rows: seq<Row>) | Unavailable

  /** A static page: the root has priority 1.0 and the rest 0.8; the blog is weekly and the rest monthly. */
  function StaticEntry(locale: string, route: string): (e: Entry)
    ensures e.url == LocaleUrl(locale, route) && e.lastModified == Now
    ensures route == "" ==> e.priority == 10
    ensures route != "" ==> e.priority == 8
    ensures e.changeFrequency == Weekly <==> route == "/blog"
  {
    Entry(LocaleUrl(locale, route), Now, if route == "/blog" then Weekly else Monthly, if route == "" then 10 else 8)
  }

  /** Which kind of row a dynamic entry points to. */
  datatype Kind = MediaPage | ReviewPage | ProfilePage

  function KindPath(k: Kind): string {
    match k
    case MediaPage => "/media/"
    case ReviewPage => "/review/"
    case ProfilePage => "/profile/"
  }

  /** The entry of one row: media pages are weekly at 0.7, reviews monthly at 0.6, profiles weekly at 0.5. */
  function RowEntry(k: Kind, locale: string, r: Row): (e: Entry)
    ensures e.url == LocaleUrl(locale, KindPath(k) + r.id) && e.lastModified == At(r.updatedAt)
    ensures k == MediaPage ==> e.changeFrequency == Weekly && e.priority == 7
    ensures k == ReviewPage ==> e.changeFrequency == Monthly && e.priority == 6
    ensures k == ProfilePage ==> e.changeFrequency == Weekly && e.priority == 5
  {
    match k
    case MediaPage => Entry(LocaleUrl(locale, KindPath(k) + r.id), At(r.updatedAt), Weekly, 7)
    case ReviewPage => Entry(LocaleUrl(locale, KindPath(k) + r.id), At(r.updatedAt), Monthly, 6)
    case ProfilePage => Entry(LocaleUrl(locale, KindPath(k) + r.id), At(r.updatedAt), Weekly, 5)
  }

  /** The entry of a blog post: monthly at 0.7, dated by the post, or by the build time when undated. */
  function PostEntry(locale: string, p: Blog.PostMeta): (e: Entry)
    ensures e.url == LocaleUrl(locale, "/blog/" + p.slug)
    ensures p.date == "" ==> e.lastModified == Now
    ensures p.date != "" ==> e.lastModified == PostDate(p.date)
    ensures e.changeFrequency == Monthly && e.priority == 7
  {
    Entry(LocaleUrl(locale, "/blog/" + p.slug), if p.date != "" then PostDate(p.date) else Now, Monthly, 7)
  }

  /** Locale-major order: locale `i`'s static route `j` sits at `6 * i + j`. */
  lemma {:induction false} StaticEntriesAt(locales: seq<string>, i: int, j: int)
    requires 0 <= i < |locales| && 0 <= j < 6
    ensures 6 * i + j < |StaticEntries(locales)|
    ensures StaticEntries(locales)[6 * i + j] == StaticEntry(locales[i], StaticRoutes[j])
    decreases i
  {
    if i > 0 {
      StaticEntriesAt(locales[1..], i - 1, j);
    }
  }

  function StaticEntries(locales: seq<string>): (r: seq<Entry>)
    ensures |r| == 6 * |locales|
    ensures forall e :: e in r <==> exists l, route :: l in locales && route in StaticRoutes && e == StaticEntry(l, route)
    decreases |locales|
  {
    if locales == [] then []
    else
      var here := seq(6, j requires 0 <= j < 6 => StaticEntry(locales[0], StaticRoutes[j]));
      var rest := StaticEntries(locales[1..]);
      assert forall e :: e in here <==> exists route :: route in StaticRoutes && e == StaticEntry(locales[0], route) by {
        forall e | e in here ensures exists route :: route in StaticRoutes && e == StaticEntry(locales[0], route) {
          var j :| 0 <= j < 6 && here[j] == e;
          assert StaticRoutes[j] in StaticRoutes;
        }
        forall route | route in StaticRoutes ensures StaticEntry(locales[0], route) in here {
          var j :| 0 <= j < 6 && StaticRoutes[j] == route;
          assert here[j] == StaticEntry(locales[0], route);
        }
      }
      assert forall l :: l in locales <==> l == locales[0] || l in locales[1..];
      here + rest
  }

  /** One section's entries, every locale in turn and the rows in their order within it. */
  function RowEntries(k: Kind, locales: seq<string>, rows: seq<Row>): (r: seq<Entry>)
    ensures |r| == |locales| * |rows|
    ensures forall e :: e in r <==> exists l, row :: l in locales && row in rows && e == RowEntry(k, l, row)
    decreases |locales|
  {
    if locales == [] then []
    else
      var here := seq(|rows|, j requires 0 <= j < |rows| => RowEntry(k, locales[0], rows[j]));
      assert forall e :: e in here <==> exists row :: row in rows && e == RowEntry(k, locales[0], row) by {
        forall e | e in here ensures exists row :: row in rows && e == RowEntry(k, locales[0], row) {
          var j :| 0 <= j < |rows| && here[j] == e;
          assert rows[j] in rows;
        }
        forall row | row in rows ensures RowEntry(k, locales[0], row) in here {
          var j :| 0 <= j < |rows| && rows[j] == row;
          assert here[j] == RowEntry(k, locales[0], row);
        }
      }
      assert forall l :: l in locales <==> l == locales[0] || l in locales[1..];
      assert |locales| * |rows| == |rows| + (|locales| - 1) * |rows|;
      here + RowEntries(k, locales[1..], rows)
  }

  /** Locale-major order: the entry of locale `i` and row `j` sits at `i * |rows| + j`. */
  lemma {:induction false} RowEntriesAt(k: Kind, locales: seq<string>, rows: seq<Row>, i: int, j: int)
    requires 0 <= i < |locales| && 0 <= j < |rows|
    ensures i * |rows| + j < |RowEntries(k, locales, rows)|
    ensures RowEntries(k, locales, rows)[i * |rows| + j] == RowEntry(k, locales[i], rows[j])
    decreases i
  {
    if i > 0 {
      RowEntriesAt(k, locales[1..], rows, i - 1, j);
      assert i * |rows| + j == |rows| + ((i - 1) * |rows| + j);
    }
  }

  function SectionEntries(k: Kind, locales: seq<string>, s: Section): (r: seq<Entry>)
    ensures s.Unavailable? ==> r == []
    ensures s.Loaded? ==> r == RowEntries(k, locales, s.rows)
  {
    if s.Unavailable? then [] else RowEntries(k, locales, s.rows)
  }

  /** Every locale's blog posts, as `getAllBlogPosts` lists them for it. */
  function PostEntries(locales: seq<string>, postsOf: string -> seq<Blog.PostMeta>): (r: seq<Entry>)
    ensures forall e :: e in r <==> exists l, p :: l in locales && p in postsOf(l) && e == PostEntry(l, p)
    decreases |locales|
  {
    if locales == [] then []
    else
      var ps := postsOf(locales[0]);
      var here := seq(|ps|, j requires 0 <= j < |ps| => PostEntry(locales[0], ps[j]));
      assert forall e :: e in here <==> exists p :: p in ps && e == PostEntry(locales[0], p) by {
        forall e | e in here ensures exists p :: p in ps && e == PostEntry(locales[0], p) {
          var j :| 0 <= j < |ps| && here[j] == e;
          assert ps[j] in ps;
        }
        forall p | p in ps ensures PostEntry(locales[0], p) in here {
          var j :| 0 <= j < |ps| && ps[j] == p;
          assert here[j] == PostEntry(locales[0], p);
        }
      }
      assert forall l :: l in locales <==> l == locales[0] || l in locales[1..];
      here + PostEntries(locales[1..], postsOf)
  }

  /**
   Locale-major order: one locale lists its posts in the order the listing
   gives them, and the entries of a split locale list are those of each part,
   one after the other.
   */
  lemma {:induction false} PostEntriesInOrder(l: string, a: seq<string>, b: seq<string>,
                                              postsOf: string -> seq<Blog.PostMeta>)
    ensures PostEntries([l], postsOf) == seq(|postsOf(l)|, j requires 0 <= j < |postsOf(l)| => PostEntry(l, postsOf(l)[j]))
    ensures PostEntries(a + b, postsOf) == PostEntries(a, postsOf) + PostEntries(b, postsOf)
    decreases |a|
  {
    if a == [] {
      assert a + b == b;
    } else {
      assert (a + b)[0] == a[0] && (a + b)[1..] == a[1..] + b;
      PostEntriesInOrder(l, a[1..], b, postsOf);
    }
  }

  /** The whole sitemap, section by section. */
  function Build(locales: seq<string>, media: Section, reviews: Section, users: Section,
                 postsOf: string -> seq<Blog.PostMeta>): seq<Entry>
  {
    StaticEntries(locales)
      + SectionEntries(MediaPage, locales, media)
      + SectionEntries(ReviewPage, locales, reviews)
      + SectionEntries(ProfilePage, locales, users)
      + PostEntries(locales, postsOf)
  }

  /**
   Every static page of every locale is listed, and every row of a loaded
   section is listed for every locale, whichever other sections failed.
   */
  lemma EverythingListed(locales: seq<string>, media: Section, reviews: Section, users: Section,
                         postsOf: string -> seq<Blog.PostMeta>, l: string)
    requires l in locales
    ensures forall route :: route in StaticRoutes ==> StaticEntry(l, route) in Build(locales, media, reviews, users, postsOf)
    ensures forall r :: media.Loaded? && r in media.rows ==> RowEntry(MediaPage, l, r) in Build(locales, media, reviews, users, postsOf)
    ensures forall r :: reviews.Loaded? && r in reviews.rows ==> RowEntry(ReviewPage, l, r) in Build(locales, media, reviews, users, postsOf)
    ensures forall r :: users.Loaded? && r in users.rows ==> RowEntry(ProfilePage, l, r) in Build(locales, media, reviews, users, postsOf)
    ensures forall p :: p in postsOf(l) ==> PostEntry(l, p) in Build(locales, media, reviews, users, postsOf)
  {
  }

  /** A section that fails adds exactly what an empty one adds: nothing. */
  lemma {:induction false} FailureIsEmpty(k: Kind, locales: seq<string>)
    ensures SectionEntries(k, locales, Unavailable) == SectionEntries(k, locales, Loaded([]))
    decreases |locales|
  {
    if locales != [] {
      FailureIsEmpty(k, locales[1..]);
    }
  }

  /** Every entry points into the site: its address is the base, a configured locale, and a path. */
  lemma EntriesUnderLocales(locales: seq<string>, media: Section, reviews: Section, users: Section,
                            postsOf: string -> seq<Blog.PostMeta>, e: Entry)
    requires e in Build(locales, media, reviews, users, postsOf)
    ensures exists l, path :: l in locales && e.url == LocaleUrl(l, path)
  {
    if e in StaticEntries(locales) {
      var l, route :| l in locales && route in StaticRoutes && e == StaticEntry(l, route);
      assert e.url == LocaleUrl(l, route);
    } else if e in SectionEntries(MediaPage, locales, media) {
      RowUnderLocale(MediaPage, locales, media, e);
    } else if e in SectionEntries(ReviewPage, locales, reviews) {
      RowUnderLocale(ReviewPage, locales, reviews, e);
    } else if e in SectionEntries(ProfilePage, locales, users) {
      RowUnderLocale(ProfilePage, locales, users, e);
    } else {
      var l, p :| l in locales && p in postsOf(l) && e == PostEntry(l, p);
      assert e.url == LocaleUrl(l, "/blog/" + p.slug);
    }
  }

  lemma RowUnderLocale(k: Kind, locales: seq<string>, s: Section, e: Entry)
    requires e in SectionEntries(k, locales, s)
    ensures exists l, path :: l in locales && e.url == LocaleUrl(l, path)
  {
    var l, r :| l in locales && r in s.rows && e == RowEntry(k, l, r);
    assert e.url == LocaleUrl(l, KindPath(k) + r.id);
  }
}

=== FILE: sorting.dfy ===
/**
 `Array.prototype.sort` with a comparator, as a stable insertion sort.
 `before(a, b)` holds when the comparator put to `(a, b)` returns a value
 that is not positive, i.e. `a` may stay ahead of `b`. For a consistent
 comparator (section 23.1.3.30 of ECMA-262) every stable sort gives this
 order; for an inconsistent one the engine's order is implementation-defined
 and this is one admissible choice.
 */
module Sorting {

  /** Inserts `x` ahead of the first element it may precede. */
  function InsertBy<T>(x: T, s: seq<T>, before: (T, T) -> bool): (r: seq<T>)
    ensures |r| == |s| + 1
    ensures multiset(r) == multiset{x} + multiset(s)
    decreases |s|
  {
    if s == [] || before(x, s[0]) then [x] + s
    else
      assert s == [s[0]] + s[1..];
      [s[0]] + InsertBy(x, s[1..], before)
  }

  /**
   Stable sort: an element that came first is inserted ahead of every later
   one it may precede, so ties keep their input order.
   */
  function SortBy<T>(xs: seq<T>, before: (T, T) -> bool): (r: seq<T>)
    ensures |r| == |xs|
    ensures multiset(r) == multiset(xs)
    decreases |xs|
  {
    if xs == [] then []
    else
      assert xs == [xs[0]] + xs[1..];
      InsertBy(xs[0], SortBy(xs[1..], before), before)
  }

  /** Every neighbouring pair is in comparator order. */
  predicate AdjacentSorted<T>(s: seq<T>, before: (T, T) -> bool) {
    forall i :: 0 < i < |s| ==> before(s[i - 1], s[i])
  }

  ghost predicate Total<T(!new)>(before: (T, T) -> bool) {
    forall a: T, b: T :: before(a, b) || before(b, a)
  }

  ghost predicate Transitive<T(!new)>(before: (T, T) -> bool) {
    forall a: T, b: T, c: T :: before(a, b) && before(b, c) ==> before(a, c)
  }

  lemma {:induction false} InsertAdjacentSorted<T(!new)>(x: T, s: seq<T>, before: (T, T) -> bool)
    requires Total(before)
    requires AdjacentSorted(s, before)
    ensures AdjacentSorted(InsertBy(x, s, before), before)
    decreases |s|
  {
    if s == [] || before(x, s[0]) {
    } else {
      var t := s[1..];
      InsertAdjacentSorted(x, t, before);
      var r := InsertBy(x, t, before);
      assert before(s[0], x);
      if t != [] && !before(x, t[0]) {
        assert r[0] == t[0] && t[0] == s[1];
      }
      assert before(s[0], r[0]);
    }
  }

  /** With a comparator that always answers, every neighbouring pair of the output is in order. */
  lemma {:induction false} SortAdjacentSorted<T(!new)>(xs: seq<T>, before: (T, T) -> bool)
    requires Total(before)
    ensures AdjacentSorted(SortBy(xs, before), before)
    decreases |xs|
  {
    if xs != [] {
      SortAdjacentSorted(xs[1..], before);
      InsertAdjacentSorted(xs[0], SortBy(xs[1..], before), before);
    }
  }

  /** For a transitive order, neighbouring order is full order. */
  lemma {:induction false} AdjacentToPairwise<T(!new)>(s: seq<T>, before: (T, T) -> bool)
    requires Transitive(before)
    requires AdjacentSorted(s, before)
    ensures forall i, j :: 0 <= i < j < |s| ==> before(s[i], s[j])
    decreases |s|
  {
    if |s| > 1 {
      AdjacentToPairwise(s[1..], before);
      forall i, j | 0 <= i < j < |s|
        ensures before(s[i], s[j])
      {
        if i > 0 {
          assert s[i] == s[1..][i - 1] && s[j] == s[1..][j - 1];
        } else if j > 1 {
          assert s[1] == s[1..][0] && s[j] == s[1..][j - 1];
        }
      }
    }
  }

  /** When the comparator lets every element stay ahead of every other, sorting keeps the input order. */
  lemma {:induction false} SortByAllBefore<T>(xs: seq<T>, before: (T, T) -> bool)
    requires forall i, j :: 0 <= i < |xs| && 0 <= j < |xs| ==> before(xs[i], xs[j])
    ensures SortBy(xs, before) == xs
    decreases |xs|
  {
    if xs != [] {
      assert forall i, j :: 0 <= i < |xs[1..]| && 0 <= j < |xs[1..]| ==>
        xs[1..][i] == xs[i + 1] && xs[1..][j] == xs[j + 1];
      SortByAllBefore(xs[1..], before);
      if |xs| > 1 {
        assert before(xs[0], xs[1..][0]);
      }
    }
  }

  lemma {:induction false} InsertByAgree<T>(x: T, s: seq<T>, b1: (T, T) -> bool, b2: (T, T) -> bool)
    requires forall y :: y in s ==> b1(x, y) == b2(x, y)
    ensures InsertBy(x, s, b1) == InsertBy(x, s, b2)
    decreases |s|
  {
    if s != [] {
      InsertByAgree(x, s[1..], b1, b2);
    }
  }

  /** Two comparators that answer alike on the elements sort them alike. */
  lemma {:induction false} SortByAgree<T>(xs: seq<T>, b1: (T, T) -> bool, b2: (T, T) -> bool)
    requires forall i, j :: 0 <= i < |xs| && 0 <= j < |xs| ==> b1(xs[i], xs[j]) == b2(xs[i], xs[j])
    ensures SortBy(xs, b1) == SortBy(xs, b2)
    decreases |xs|
  {
    if xs != [] {
      assert forall i, j :: 0 <= i < |xs[1..]| && 0 <= j < |xs[1..]| ==>
        xs[1..][i] == xs[i + 1] && xs[1..][j] == xs[j + 1];
      SortByAgree(xs[1..], b1, b2);
      var s := SortBy(xs[1..], b1);
      forall y | y in s
        ensures b1(xs[0], y) == b2(xs[0], y)
      {
        assert y in multiset(s);
        assert y in xs[1..];
      }
      InsertByAgree(xs[0], s, b1, b2);
    }
  }

  // ---------------------------------------------------------------- key-based descending order

  /** The comparator `(a, b) => key(b) - key(a)`. */
  function Desc<T>(key: T -> int): (T, T) -> bool {
    (a: T, b: T) => key(a) >= key(b)
  }

  /** The elements whose key is `k`, in order. */
  function WithKey<T>(s: seq<T>, key: T -> int, k: int): seq<T>
    decreases |s|
  {
    if s == [] then []
    else (if key(s[0]) == k then [s[0]] else []) + WithKey(s[1..], key, k)
  }

  lemma WithKeyCons<T>(y: T, s: seq<T>, key: T -> int, k: int)
    ensures WithKey([y] + s, key, k) == (if key(y) == k then [y] else []) + WithKey(s, key, k)
  {
    assert ([y] + s)[0] == y && ([y] + s)[1..] == s;
  }

  /** Two heads of which at least one is empty commute. */
  lemma SwapHeads<T>(a: seq<T>, b: seq<T>, w: seq<T>)
    requires a == [] || b == []
    ensures a + (b + w) == b + (a + w)
  {
  }

  /** One step of `InsertWithKey`: `x` goes past a head of greater key. */
  lemma InsertPastHead<T>(x: T, s: seq<T>, key: T -> int, k: int)
    requires s != [] && key(x) < key(s[0])
    requires WithKey(InsertBy(x, s[1..], Desc(key)), key, k)
          == (if key(x) == k then [x] else []) + WithKey(s[1..], key, k)
    ensures WithKey(InsertBy(x, s, Desc(key)), key, k)
         == (if key(x) == k then [x] else []) + WithKey(s, key, k)
  {
    var rest := InsertBy(x, s[1..], Desc(key));
    assert InsertBy(x, s, Desc(key)) == [s[0]] + rest;
    WithKeyCons(s[0], rest, key, k);
    assert s == [s[0]] + s[1..];
    WithKeyCons(s[0], s[1..], key, k);
    SwapHeads(if key(s[0]) == k then [s[0]] else [], if key(x) == k then [x] else [], WithKey(s[1..], key, k));
  }

  lemma {:induction false} InsertWithKey<T>(x: T, s: seq<T>, key: T -> int, k: int)
    ensures WithKey(InsertBy(x, s, Desc(key)), key, k)
         == (if key(x) == k then [x] else []) + WithKey(s, key, k)
    decreases |s|
  {
    if s == [] || key(x) >= key(s[0]) {
      assert InsertBy(x, s, Desc(key)) == [x] + s;
      WithKeyCons(x, s, key, k);
    } else {
      InsertWithKey(x, s[1..], key, k);
      InsertPastHead(x, s, key, k);
    }
  }

  /** Sorting by a key is stable: the elements sharing a key keep their input order. */
  lemma {:induction false} SortDescStable<T>(xs: seq<T>, key: T -> int, k: int)
    ensures WithKey(SortBy(xs, Desc(key)), key, k) == WithKey(xs, key, k)
    decreases |xs|
  {
    if xs != [] {
      SortDescStable(xs[1..], key, k);
      InsertWithKey(xs[0], SortBy(xs[1..], Desc(key)), key, k);
    }
  }

  /** Sorting by a key leaves the keys in non-increasing order. */
  lemma SortDescOrdered<T(!new)>(xs: seq<T>, key: T -> int)
    ensures forall i, j :: 0 <= i < j < |SortBy(xs, Desc(key))| ==>
      key(SortBy(xs, Desc(key))[i]) >= key(SortBy(xs, Desc(key))[j])
  {
    var s := SortBy(xs, Desc(key));
    SortAdjacentSorted(xs, Desc(key));
    AdjacentToPairwise(s, Desc(key));
  }
}

=== FILE: stats_carousel.dfy ===
/**
 The three-card statistics carousel: the previous / next buttons, the
 indicator dots, the auto-play tick and touch swiping. Positions and the
 container width are whole pixels; the width is an input, absent when the
 container is not mounted. The drag offset is the JavaScript number the
 handlers compute, kept exactly: a fraction, an infinity or NaN.
 */
module StatsCarousel {
  import opened Optional

  const CardCount: nat := 3
  const LastCard: nat := CardCount - 1

  /**
   A JavaScript number as the touch handlers produce it: the fraction
   `num / den` (with `den > 0`), an infinity, or NaN. Floating-point
   rounding is not modelled.
   */
  datatype Number = Frac(num: int, den: nat) | PosInf | NegInf | NaN

  const NoDrag: Number := Frac(0, 1)

  datatype Carousel = Carousel(index: nat, transitioning: bool, touchStart: Option<int>, drag: Number)

  const Initial: Carousel := Carousel(0, true, None, NoDrag)

  predicate Valid(c: Carousel) {
    c.index <= LastCard
  }

  /** `nextSlide`: one card on, staying on the last card. */
  function Next(c: Carousel): (r: Carousel)
    ensures r.index == if c.index < LastCard then c.index + 1 else LastCard
    ensures r.transitioning && r.touchStart == c.touchStart && r.drag == c.drag
  {
    c.(transitioning := true, index := if c.index + 1 < LastCard then c.index + 1 else LastCard)
  }

  /** `prevSlide`: one card back, staying on the first card. */
  function Prev(c: Carousel): (r: Carousel)
    ensures r.index == if c.index > 0 then c.index - 1 else 0
    ensures r.transitioning && r.touchStart == c.touchStart && r.drag == c.drag
  {
    c.(transitioning := true, index := if c.index > 0 then c.index - 1 else 0)
  }

  /** The buttons do not wrap: next on the last card and previous on the first change nothing but the transition flag. */
  lemma ButtonsClamp(c: Carousel)
    ensures c.index >= LastCard ==> Next(c).index == LastCard
    ensures c.index == 0 ==> Prev(c).index == 0
    ensures Valid(c) && c.index < LastCard ==> Prev(Next(c)).index == c.index
    ensures Valid(c) && c.index > 0 ==> Next(Prev(c)).index == c.index
  {
  }

  predicate PrevDisabled(c: Carousel) { c.index == 0 }

  predicate NextDisabled(c: Carousel) { c.index == LastCard }

  /** A disabled button would not move the carousel anyway. */
  lemma DisabledButtonsAreNoOps(c: Carousel)
    ensures PrevDisabled(c) ==> Prev(c).index == c.index
    ensures NextDisabled(c) ==> Next(c).index == c.index
  {
  }

  /** An indicator dot jumps to its card. */
  function Dot(c: Carousel, k: nat): (r: Carousel)
    requires k < CardCount
    ensures r.index == k && r.transitioning && Valid(r)
  {
    c.(transitioning := true, index := k)
  }

  /** Auto-play runs only while no touch is in progress. */
  predicate AutoPlaying(c: Carousel) {
    c.touchStart.None?
  }

  /** The auto-play tick: one card on, from the last card back to the first. */
  function Tick(c: Carousel): (r: Carousel)
    ensures !AutoPlaying(c) ==> r == c
    ensures AutoPlaying(c) ==> r.index == (if c.index >= LastCard then 0 else c.index + 1) && r.transitioning
    ensures Valid(c) ==> Valid(r)
  {
    if !AutoPlaying(c) then c
    else c.(index := if c.index >= LastCard then 0 else c.index + 1, transitioning := true)
  }

  /** Three ticks bring every card back. */
  lemma TickCycles(c: Carousel)
    requires Valid(c) && AutoPlaying(c)
    ensures Tick(Tick(Tick(c))).index == c.index
  {
  }

  /** A touch begins: no transition, the start position recorded, no drag yet. */
  function TouchStart(c: Carousel, x: int): (r: Carousel)
    ensures r == Carousel(c.index, false, Some(x), NoDrag)
  {
    Carousel(c.index, false, Some(x), NoDrag)
  }

  /**
   `(diff / containerWidth) * 100` at a move: the drag as a percentage of the
   width then; a zero width gives an infinity, or NaN when nothing moved.
   */
  function DragPercent(diff: int, width: nat): (r: Number)
    ensures r.Frac? ==> r.den > 0
  {
    if width > 0 then Frac(100 * diff, width)
    else if diff > 0 then PosInf
    else if diff < 0 then NegInf
    else NaN
  }

  /** `(dragOffset / 100) * containerWidth` at the end; an infinity times 0 is NaN. */
  function DragDistance(o: Number, width: nat): (r: Number)
    ensures o.Frac? && o.den > 0 ==> r.Frac? && r.den > 0
  {
    match o
    case Frac(n, d) => Frac(n * width, 100 * d)
    case PosInf => if width == 0 then NaN else PosInf
    case NegInf => if width == 0 then NaN else NegInf
    case NaN => NaN
  }

  /** `Math.abs(d) > containerWidth * 0.1`: NaN compares false and an infinity true. */
  predicate BeyondThreshold(d: Number, width: nat) {
    match d
    case Frac(n, den) => 10 * (if n < 0 then -n else n) > width * den
    case NaN => false
    case _ => true
  }

  /** `d > 0` and `d < 0`: both false for NaN. */
  predicate Positive(d: Number) { d.PosInf? || (d.Frac? && d.num > 0) }

  predicate Negative(d: Number) { d.NegInf? || (d.Frac? && d.num < 0) }

  /**
   The swipe decision at the end of a touch: beyond a tenth of the width,
   rightwards goes back and leftwards on, within the cards. A zero width never
   moves a card: the distance is 0 or NaN.
   */
  function Swipe(c: Carousel, width: nat): (r: Carousel)
    ensures r.touchStart == c.touchStart && r.drag == c.drag && r.transitioning
    ensures width == 0 ==> r.index == c.index
    ensures r.index != c.index ==> BeyondThreshold(DragDistance(c.drag, width), width)
    ensures r.index < c.index ==> Positive(DragDistance(c.drag, width))
    ensures r.index > c.index ==> Negative(DragDistance(c.drag, width))
  {
    var d := DragDistance(c.drag, width);
    if BeyondThreshold(d, width) then
      if Positive(d) && c.index > 0 then Prev(c)
      else if Negative(d) && c.index < LastCard then Next(c)
      else c.(transitioning := true)
    else c.(transitioning := true)
  }

  // ---------------------------------------------------------------- touch moves and ends, as written

  /** The source tests the start position for truthiness, so a touch at x = 0 counts as none. */
  predicate StartFalsy(c: Carousel) {
    c.touchStart.None? || c.touchStart.value == 0
  }

  function TouchMoveAsWritten(c: Carousel, x: int, width: Option<nat>): (r: Carousel)
    ensures StartFalsy(c) || width.None? ==> r == c
  {
    if StartFalsy(c) || width.None? then c else c.(drag := DragPercent(x - c.touchStart.value, width.value))
  }

  function TouchEndAsWritten(c: Carousel, width: Option<nat>): (r: Carousel)
    ensures StartFalsy(c) || width.None? ==> r == c
    ensures !StartFalsy(c) && width.Some? ==> AutoPlaying(r) && r.drag == NoDrag && r.transitioning
    ensures width == Some(0) ==> r.index == c.index
  {
    if StartFalsy(c) || width.None? then c else Swipe(c, width.value).(touchStart := None, drag := NoDrag)
  }

  /**
   A touch that starts at the left edge is never finished: the move and the end
   are ignored, the start stays recorded, and auto-play stays paused.
   */
  lemma LeftEdgeTouchSticks(c: Carousel, moveX: int, width: Option<nat>)
    ensures var s := TouchEndAsWritten(TouchMoveAsWritten(TouchStart(c, 0), moveX, width), width);
      s.touchStart == Some(0) && !AutoPlaying(s) && Tick(s) == s && s.index == c.index
  {
  }

  // ---------------------------------------------------------------- touch moves and ends, corrected

  /** A move records the drag, as a percentage of the current width, while a touch is in progress. */
  function TouchMove(c: Carousel, x: int, width: Option<nat>): (r: Carousel)
    ensures c.touchStart.None? || width.None? ==> r == c
    ensures c.touchStart.Some? && width.Some? ==> r == c.(drag := DragPercent(x - c.touchStart.value, width.value))
  {
    if c.touchStart.None? || width.None? then c else c.(drag := DragPercent(x - c.touchStart.value, width.value))
  }

  /** The end of a touch: the swipe decision, then the start and the drag are cleared, so auto-play resumes. */
  function TouchEnd(c: Carousel, width: Option<nat>): (r: Carousel)
    ensures c.touchStart.None? || width.None? ==> r == c
    ensures c.touchStart.Some? && width.Some? ==> r == Swipe(c, width.value).(touchStart := None, drag := NoDrag)
    ensures width.Some? ==> AutoPlaying(r) && r.drag == (if c.touchStart.None? then c.drag else NoDrag)
    ensures width == Some(0) ==> r.index == c.index
  {
    if c.touchStart.None? || width.None? then c else Swipe(c, width.value).(touchStart := None, drag := NoDrag)
  }

  /** The card a finished swipe shows, for a drag of `diff` pixels against a tenth of `width`. */
  function SwipeTarget(index: nat, diff: int, width: nat): nat {
    if 10 * diff > width && index > 0 then index - 1
    else if 10 * diff + width < 0 && index < LastCard then index + 1
    else index
  }

  /**
   A touch dragged `diff` pixels while the container was `moveWidth` wide goes
   back or on exactly when the drag exceeds a tenth of `moveWidth`. The width at
   the end of the touch cancels out, so a resize after the move changes nothing.
   */
  lemma SwipeByPixels(c: Carousel, startX: int, x: int, moveWidth: nat, endWidth: nat)
    requires moveWidth > 0 && endWidth > 0
    ensures var s := TouchEnd(TouchMove(TouchStart(c, startX), x, Some(moveWidth)), Some(endWidth));
      s.index == SwipeTarget(c.index, x - startX, moveWidth) && AutoPlaying(s) && s.drag == NoDrag
  {
    DistanceByPixels(x - startX, moveWidth, endWidth);
  }

  /** The end-time distance of a drag of `diff` pixels has the drag's sign and passes the threshold iff `10·|diff| > moveWidth`. */
  lemma DistanceByPixels(diff: int, moveWidth: nat, endWidth: nat)
    requires moveWidth > 0 && endWidth > 0
    ensures var d := DragDistance(DragPercent(diff, moveWidth), endWidth);
      (BeyondThreshold(d, endWidth) <==> 10 * diff > moveWidth || 10 * diff + moveWidth < 0)
      && (Positive(d) <==> diff > 0) && (Negative(d) <==> diff < 0)
  {
    var d := DragDistance(DragPercent(diff, moveWidth), endWidth);
    assert d == Frac(100 * diff * endWidth, 100 * moveWidth);
    var a := if diff < 0 then -diff else diff;
    var k := 100 * endWidth;
    assert (if 100 * diff * endWidth < 0 then -(100 * diff * endWidth) else 100 * diff * endWidth) == k * a by {
      MulSign(100 * diff, endWidth);
    }
    assert 10 * (k * a) == k * (10 * a);
    assert endWidth * (100 * moveWidth) == k * moveWidth;
    MulLess(k, 10 * a, moveWidth);
    MulSign(100 * diff, endWidth);
  }

  lemma MulLess(k: int, a: int, b: int)
    requires k > 0
    ensures k * a > k * b <==> a > b
  {
    if a > b {
      assert k * a - k * b == k * (a - b);
    } else {
      assert k * b - k * a == k * (b - a);
    }
  }

  lemma MulSign(a: int, w: int)
    requires w > 0
    ensures a * w > 0 <==> a > 0
    ensures a * w < 0 <==> a < 0
  {
    MulLess(w, a, 0);
    MulLess(w, 0, a);
    assert a * w == w * a;
  }

  /**
   With a zero width at the move and a positive one at the end, the source's
   infinite offset swipes on any non-zero drag, and a drag of 0 gives NaN,
   which never swipes.
   */
  lemma ZeroMoveWidthSwipesAnyDrag(c: Carousel, startX: int, x: int, endWidth: nat)
    requires endWidth > 0
    ensures var s := TouchEnd(TouchMove(TouchStart(c, startX), x, Some(0)), Some(endWidth));
      s.index == SwipeTarget(c.index, x - startX, 0) && AutoPlaying(s)
  {
  }

  /** With the start tested for presence, a touch from any position swipes and lets auto-play resume. */
  lemma SwipeFromAnyPosition(c: Carousel, startX: int, moveX: int, width: nat)
    requires Valid(c) && c.index < LastCard
    requires width > 0 && 10 * (moveX - startX) + width < 0
    ensures var s := TouchEnd(TouchMove(TouchStart(c, startX), moveX, Some(width)), Some(width));
      s.index == c.index + 1 && AutoPlaying(s) && s.drag == NoDrag
  {
    SwipeByPixels(c, startX, moveX, width, width);
  }

  /** The two readings differ only for a touch starting at x = 0. */
  lemma CorrectedAgreesAwayFromEdge(c: Carousel, x: int, width: Option<nat>)
    requires c.touchStart != Some(0)
    ensures TouchMoveAsWritten(c, x, width) == TouchMove(c, x, width)
    ensures TouchEndAsWritten(c, width) == TouchEnd(c, width)
  {
  }

  // ---------------------------------------------------------------- all events

  datatype Event =
    | NextButton | PrevButton | DotButton(k: nat) | AutoTick
    | TouchBegin(x: int) | TouchDrag(x: int, width: Option<nat>) | TouchFinish(width: Option<nat>)

  function Step(c: Carousel, e: Event): Carousel {
    match e
    case NextButton => Next(c)
    case PrevButton => Prev(c)
    case DotButton(k) => if k < CardCount then Dot(c, k) else c
    case AutoTick => Tick(c)
    case TouchBegin(x) => TouchStart(c, x)
    case TouchDrag(x, w) => TouchMove(c, x, w)
    case TouchFinish(w) => TouchEnd(c, w)
  }

  function Run(c: Carousel, es: seq<Event>): Carousel
    decreases |es|
  {
    if es == [] then c else Run(Step(c, es[0]), es[1..])
  }

  /** Every sequence of events keeps the carousel on one of its three cards. */
  lemma {:induction false} RunStaysValid(c: Carousel, es: seq<Event>)
    requires Valid(c)
    ensures Valid(Run(c, es))
    decreases |es|
  {
    if es != [] {
      StepValid(c, es[0]);
      RunStaysValid(Step(c, es[0]), es[1..]);
    }
  }

  lemma StepValid(c: Carousel, e: Event)
    requires Valid(c)
    ensures Valid(Step(c, e))
  {
  }

  /** The total-items card is described as "all media types" exactly for the type "all". */
  datatype Description = AllMediaTypes | TypeName(name: string)

  function TotalDescription(selectedType: string, displayName: string -> string): (r: Description)
    ensures r.AllMediaTypes? <==> selectedType == "all"
    ensures r.TypeName? ==> r.name == displayName(selectedType)
  {
    if selectedType == "all" then AllMediaTypes else TypeName(displayName(selectedType))
  }
}

=== FILE: text.dfy ===
/**
 String helpers shared by the model. JavaScript's `trim`, `\s`, `toLowerCase`,
 `includes`, `startsWith`, `split` and decimal `String(n)` are restricted here to
 ASCII: whitespace is space, tab, line feed, carriage return, vertical tab and
 form feed, and only 'A'..'Z' change case.
 */
module Text {

  /** One character of ASCII whitespace. */
  predicate IsSpace(c: char) {
    c == ' ' || c == '\t' || c == '\n' || c == '\r' || c == '\U{000B}' || c == '\U{000C}'
  }

  predicate AllSpace(s: string) {
    forall i :: 0 <= i < |s| ==> IsSpace(s[i])
  }

  predicate NoSpace(s: string) {
    forall i :: 0 <= i < |s| ==> !IsSpace(s[i])
  }

  // ---------------------------------------------------------------- trimming

  function TrimStart(s: string): (r: string)
    ensures |r| <= |s| && r == s[|s| - |r|..]
    ensures r == [] || !IsSpace(r[0])
    ensures r == [] <==> AllSpace(s)
    decreases |s|
  {
    if s == [] || !IsSpace(s[0]) then s
    else
      assert forall i :: 0 < i < |s| ==> s[i] == s[1..][i - 1];
      TrimStart(s[1..])
  }

  function TrimEnd(s: string): (r: string)
    ensures |r| <= |s| && r == s[..|r|]
    ensures r == [] || !IsSpace(r[|r| - 1])
    ensures r == [] <==> AllSpace(s)
    decreases |s|
  {
    if s == [] || !IsSpace(s[|s| - 1]) then s
    else
      assert forall i :: 0 <= i < |s| - 1 ==> s[i] == s[..|s| - 1][i];
      TrimEnd(s[..|s| - 1])
  }

  /** `String.prototype.trim`: drops leading and trailing whitespace; nothing is left exactly when the input was all whitespace. */
  function Trim(s: string): (r: string)
    ensures |r| <= |s|
    ensures r == [] || (!IsSpace(r[0]) && !IsSpace(r[|r| - 1]))
    ensures r == [] <==> AllSpace(s)
  {
    var t := TrimStart(s);
    var r := TrimEnd(t);
    assert r != [] ==> r[0] == t[0];
    r
  }

  /** No whitespace at either end. */
  predicate Trimmed(s: string) {
    s == [] || (!IsSpace(s[0]) && !IsSpace(s[|s| - 1]))
  }

  /** Text with no whitespace at either end is its own trim. */
  lemma TrimmedFixed(s: string)
    requires Trimmed(s)
    ensures Trim(s) == s
  {
    if s != [] {
      assert TrimStart(s) == s;
      assert TrimEnd(s) == s;
    }
  }

  /** Leading and trailing whitespace are gone, so trimming again changes nothing. */
  lemma TrimIdempotent(s: string)
    ensures Trim(Trim(s)) == Trim(s)
  {
    var r := Trim(s);
    if r != [] {
      assert TrimStart(r) == r;
      assert TrimEnd(r) == r;
    }
  }

  // ---------------------------------------------------------------- case

  function LowerChar(c: char): char {
    if 'A' <= c <= 'Z' then (c as int + 32) as char else c
  }

  /** ASCII `toLowerCase`. */
  function Lower(s: string): (r: string)
    ensures |r| == |s|
    ensures forall i :: 0 <= i < |s| ==> r[i] == LowerChar(s[i])
  {
    seq(|s|, i requires 0 <= i < |s| => LowerChar(s[i]))
  }

  lemma LowerIdempotent(s: string)
    ensures Lower(Lower(s)) == Lower(s)
  {
  }

  // ---------------------------------------------------------------- search

  predicate StartsWith(s: string, p: string) {
    |p| <= |s| && s[..|p|] == p
  }

  predicate EndsWith(s: string, p: string) {
    |p| <= |s| && s[|s| - |p|..] == p
  }

  /** `s.includes(p)`: `p` occurs at some position of `s`. */
  predicate Contains(s: string, p: string)
    decreases |s|
  {
    StartsWith(s, p) || (s != [] && Contains(s[1..], p))
  }

  /** Every string placed between two others is found in the result. */
  lemma {:induction false} ContainsWitness(x: string, p: string, y: string)
    ensures Contains(x + p + y, p)
    decreases |x|
  {
    if x == [] {
      assert x + p + y == p + y;
      assert (p + y)[..|p|] == p;
    } else {
      assert (x + p + y)[1..] == x[1..] + p + y;
      ContainsWitness(x[1..], p, y);
    }
  }

  /** A string that does not hold the first character of `p` does not contain `p`. */
  lemma {:induction false} NotContainsChar(s: string, c: char)
    requires c !in s
    ensures !Contains(s, [c])
    decreases |s|
  {
    if s != [] {
      assert s[0] != c;
      NotContainsChar(s[1..], c);
    }
  }

  /** `p` occurs in `s` starting at index `j`. */
  predicate At(s: string, p: string, j: int) {
    0 <= j && j + |p| <= |s| && s[j..j + |p|] == p
  }

  /** An occurrence at any index is found by `includes`. */
  lemma {:induction false} ContainsAt(s: string, p: string, j: int)
    requires At(s, p, j)
    ensures Contains(s, p)
    decreases j
  {
    if j > 0 {
      assert s[1..][j - 1..j - 1 + |p|] == s[j..j + |p|];
      ContainsAt(s[1..], p, j - 1);
    }
  }

  /** `s.indexOf(p)`: the first index where `p` occurs, or nothing. */
  function IndexOf(s: string, p: string): (r: int)
    ensures -1 <= r <= |s|
    ensures r >= 0 ==> At(s, p, r)
    ensures forall j :: 0 <= j && (r < 0 || j < r) ==> !At(s, p, j)
    decreases |s|
  {
    if StartsWith(s, p) then 0
    else if s == [] then -1
    else
      var r := IndexOf(s[1..], p);
      AtShifted(s, p);
      if r < 0 then -1 else r + 1
  }

  /** An occurrence past the first character is one in the tail, one index earlier. */
  lemma AtShifted(s: string, p: string)
    requires s != []
    ensures forall j :: 0 < j ==> (At(s, p, j) <==> At(s[1..], p, j - 1))
  {
    forall j | 0 < j
      ensures At(s, p, j) <==> At(s[1..], p, j - 1)
    {
      if j + |p| <= |s| {
        assert s[1..][j - 1..j - 1 + |p|] == s[j..j + |p|];
      }
    }
  }

  /** `s.replace(p, q)` with a string pattern: only the first occurrence is replaced. */
  function ReplaceFirst(s: string, p: string, q: string): (r: string)
    ensures IndexOf(s, p) < 0 ==> r == s
    ensures IndexOf(s, p) >= 0 ==>
      var i := IndexOf(s, p); r == s[..i] + q + s[i + |p|..]
  {
    var i := IndexOf(s, p);
    if i < 0 then s else s[..i] + q + s[i + |p|..]
  }

  // ---------------------------------------------------------------- split / join

  function IndexOfChar(s: string, c: char): (i: nat)
    requires c in s
    ensures i < |s| && s[i] == c && c !in s[..i]
  {
    if s[0] == c then 0 else IndexOfChar(s[1..], c) + 1
  }

  /** The first occurrence of `c` in `a + [c] + b`, when `a` has none, is right after `a`. */
  lemma {:induction false} IndexOfCharAfter(a: string, c: char, b: string)
    requires c !in a
    ensures c in a + [c] + b && IndexOfChar(a + [c] + b, c) == |a|
    decreases |a|
  {
    assert (a + [c] + b)[|a|] == c;
    if a != [] {
      IndexOfCharAfter(a[1..], c, b);
      assert (a + [c] + b)[1..] == a[1..] + [c] + b;
    }
  }

  /** `s.split(c)` for a one-character separator: always at least one piece. */
  function Split(s: string, c: char): (r: seq<string>)
    ensures |r| >= 1
    ensures forall k :: 0 <= k < |r| ==> c !in r[k]
    decreases |s|
  {
    if c !in s then [s]
    else
      var i := IndexOfChar(s, c);
      [s[..i]] + Split(s[i + 1..], c)
  }

  /** `pieces.join(sep)`. */
  function Join(pieces: seq<string>, sep: string): string
    decreases |pieces|
  {
    if pieces == [] then []
    else if |pieces| == 1 then pieces[0]
    else pieces[0] + sep + Join(pieces[1..], sep)
  }

  lemma JoinCons(p: string, ps: seq<string>, sep: string)
    requires ps != []
    ensures Join([p] + ps, sep) == p + sep + Join(ps, sep)
  {
    assert ([p] + ps)[0] == p && ([p] + ps)[1..] == ps;
  }

  /** Splitting on a character and joining back with it restores the string. */
  lemma {:induction false} JoinSplit(s: string, c: char)
    ensures Join(Split(s, c), [c]) == s
    decreases |s|
  {
    if c in s {
      var i := IndexOfChar(s, c);
      var rest := s[i + 1..];
      assert Split(s, c) == [s[..i]] + Split(rest, c);
      JoinCons(s[..i], Split(rest, c), [c]);
      JoinSplit(rest, c);
      assert s == s[..i] + [c] + rest;
    }
  }

  /** The first piece of a split is the text before the first separator. */
  function BeforeFirst(s: string, c: char): (r: string)
    ensures r == Split(s, c)[0]
    ensures StartsWith(s, r) && c !in r
    ensures |r| < |s| ==> s[|r|] == c
  {
    if c in s then s[..IndexOfChar(s, c)] else s
  }

  // ---------------------------------------------------------------- whitespace tokens

  /** The longest prefix of `s` without whitespace. */
  function TakeWord(s: string): (w: string)
    ensures StartsWith(s, w) && NoSpace(w)
    ensures |w| < |s| ==> IsSpace(s[|w|])
    decreases |s|
  {
    if s == [] || IsSpace(s[0]) then [] else [s[0]] + TakeWord(s[1..])
  }

  predicate IsToken(w: string) {
    w != [] && NoSpace(w)
  }

  /** `s.split(/\s+/).filter(Boolean)`: the maximal runs of non-whitespace, each a token. */
  function Words(s: string): (ws: seq<string>)
    ensures forall k :: 0 <= k < |ws| ==> IsToken(ws[k])
    decreases |s|
  {
    if s == [] then []
    else if IsSpace(s[0]) then Words(s[1..])
    else
      var w := TakeWord(s);
      [w] + Words(s[|w|..])
  }

  /** The tokens of every piece, in order. */
  function WordsOfEach(pieces: seq<string>): seq<string>
    decreases |pieces|
  {
    if pieces == [] then [] else Words(pieces[0]) + WordsOfEach(pieces[1..])
  }

  /** A word stops at the first whitespace, so text after whitespace does not change it. */
  lemma {:induction false} TakeWordBeforeSpace(a: string, rest: string)
    requires rest == [] || IsSpace(rest[0])
    ensures TakeWord(a + rest) == TakeWord(a)
    decreases |a|
  {
    if a == [] {
      assert a + rest == rest;
    } else if IsSpace(a[0]) {
      assert (a + rest)[0] == a[0];
    } else {
      assert (a + rest)[0] == a[0];
      assert (a + rest)[1..] == a[1..] + rest;
      TakeWordBeforeSpace(a[1..], rest);
    }
  }

  lemma {:induction false} TakeWordOfToken(w: string)
    requires NoSpace(w)
    ensures TakeWord(w) == w
    decreases |w|
  {
    if w != [] {
      TakeWordOfToken(w[1..]);
      assert w == [w[0]] + w[1..];
    }
  }

  /** Tokenising `a + " " + b` tokenises the two sides separately. */
  lemma {:induction false} WordsSpaceJoin(a: string, b: string)
    ensures Words(a + [' '] + b) == Words(a) + Words(b)
    decreases |a|
  {
    var s := a + [' '] + b;
    if a == [] {
      assert s[0] == ' ';
      assert s[1..] == b;
    } else if IsSpace(a[0]) {
      assert s[0] == a[0];
      assert s[1..] == a[1..] + [' '] + b;
      WordsSpaceJoin(a[1..], b);
    } else {
      assert s[0] == a[0];
      assert s == a + ([' '] + b);
      TakeWordBeforeSpace(a, [' '] + b);
      var w := TakeWord(a);
      assert w != [];
      assert s[|w|..] == a[|w|..] + [' '] + b;
      WordsSpaceJoin(a[|w|..], b);
    }
  }

  lemma WordsOfToken(w: string)
    requires IsToken(w)
    ensures Words(w) == [w]
  {
    TakeWordOfToken(w);
    assert w[|w|..] == [];
  }

  /** Joining pieces with single spaces and tokenising gives the tokens of each piece in order. */
  lemma {:induction false} WordsOfJoin(pieces: seq<string>)
    ensures Words(Join(pieces, " ")) == WordsOfEach(pieces)
    decreases |pieces|
  {
    if |pieces| == 1 {
      assert WordsOfEach(pieces[1..]) == [];
    } else if |pieces| > 1 {
      WordsOfJoin(pieces[1..]);
      WordsSpaceJoin(pieces[0], Join(pieces[1..], " "));
    }
  }

  /** Space-joined tokens split back into the same tokens. */
  lemma {:induction false} WordsJoinTokens(ws: seq<string>)
    requires forall k :: 0 <= k < |ws| ==> IsToken(ws[k])
    ensures Words(Join(ws, " ")) == ws
    decreases |ws|
  {
    if |ws| == 1 {
      WordsOfToken(ws[0]);
    } else if |ws| > 1 {
      WordsSpaceJoin(ws[0], Join(ws[1..], " "));
      WordsOfToken(ws[0]);
      WordsJoinTokens(ws[1..]);
      assert ws == [ws[0]] + ws[1..];
    }
  }

  // ---------------------------------------------------------------- decimal numbers

  predicate IsDigit(c: char) {
    '0' <= c <= '9'
  }

  function DigitChar(d: nat): char
    requires d < 10
  {
    ('0' as int + d) as char
  }

  /** `String(n)` for a non-negative integer. */
  function NatToString(n: nat): (r: string)
    ensures r != [] && forall k :: 0 <= k < |r| ==> IsDigit(r[k])
    ensures r[0] != '0' || n == 0
  {
    if n < 10 then [DigitChar(n)] else NatToString(n / 10) + [DigitChar(n % 10)]
  }

  function DigitValue(c: char): nat
    requires IsDigit(c)
  {
    c as int - '0' as int
  }

  /** The value of a string of decimal digits. */
  function DigitsValue(s: string): nat
    requires forall k :: 0 <= k < |s| ==> IsDigit(s[k])
  {
    if s == [] then 0 else 10 * DigitsValue(s[..|s| - 1]) + DigitValue(s[|s| - 1])
  }

  /** Reading back the decimal text of `n` gives `n`. */
  lemma {:induction false} NatToStringRoundTrip(n: nat)
    ensures DigitsValue(NatToString(n)) == n
  {
    if n >= 10 {
      NatToStringRoundTrip(n / 10);
      var r := NatToString(n);
      assert r[..|r| - 1] == NatToString(n / 10);
    }
  }

  /** `String(i)` for any integer. */
  function IntToString(i: int): (r: string)
    ensures r != []
    ensures i < 0 <==> r[0] == '-'
  {
    if i < 0 then "-" + NatToString(-i) else NatToString(i)
  }

  /** Different numbers have different decimal texts. */
  lemma NatToStringInjective(m: nat, n: nat)
    requires NatToString(m) == NatToString(n)
    ensures m == n
  {
    NatToStringRoundTrip(m);
    NatToStringRoundTrip(n);
  }
}

=== FILE: toast.dfy ===
/**
 The toast notification state, shared by the global toast store and the
 component-local toast hook, which implement the same transitions.
 */
module Toast {
  import opened Optional

  datatype ToastType = Success | Error | Info

  datatype ToastState = ToastState(message: string, ttype: ToastType, isVisible: bool)

  const Initial := ToastState("", Success, false)

  /** `showToast(message, type = 'success')`: replaces the whole state. */
  function Show(s: ToastState, message: string, ttype: Option<ToastType>): (r: ToastState)
    ensures r.isVisible && r.message == message
    ensures r.ttype == if ttype.Some? then ttype.value else Success
  {
    ToastState(message, ttype.OrElse(Success), true)
  }

  /** `hideToast`: only the visibility changes. */
  function Hide(s: ToastState): (r: ToastState)
    ensures !r.isVisible && r.message == s.message && r.ttype == s.ttype
  {
    s.(isVisible := false)
  }

  /** What is shown after `showToast` does not depend on what was shown before. */
  lemma ShowForgetsPast(s1: ToastState, s2: ToastState, message: string, ttype: Option<ToastType>)
    ensures Show(s1, message, ttype) == Show(s2, message, ttype)
  {
  }

  lemma HideIdempotent(s: ToastState)
    ensures Hide(Hide(s)) == Hide(s)
  {
  }

  datatype Call = ShowCall(message: string, ttype: Option<ToastType>) | HideCall

  /** The state after a sequence of calls. */
  function Run(s: ToastState, calls: seq<Call>): ToastState
    decreases |calls|
  {
    if calls == [] then s
    else
      var c := calls[|calls| - 1];
      var before := Run(s, calls[..|calls| - 1]);
      match c
      case ShowCall(m, t) => Show(before, m, t)
      case HideCall => Hide(before)
  }

  /**
   After any sequence of calls that contains a show, the message and type are
   those of the last show, and the toast is visible exactly when no hide came
   after it.
   */
  lemma {:induction false} RunLastShow(s: ToastState, calls: seq<Call>, k: nat)
    requires k < |calls| && calls[k].ShowCall?
    requires forall j :: k < j < |calls| ==> calls[j].HideCall?
    ensures Run(s, calls).message == calls[k].message
    ensures Run(s, calls).ttype == calls[k].ttype.OrElse(Success)
    ensures Run(s, calls).isVisible <==> k == |calls| - 1
    decreases |calls|
  {
    if k < |calls| - 1 {
      RunLastShow(s, calls[..|calls| - 1], k);
    }
  }

  /** Without any show, the initial message and type stay, and the toast is hidden. */
  lemma {:induction false} RunOnlyHides(calls: seq<Call>)
    requires forall j :: 0 <= j < |calls| ==> calls[j].HideCall?
    ensures Run(Initial, calls) == Initial
    decreases |calls|
  {
    if calls != [] {
      RunOnlyHides(calls[..|calls| - 1]);
    }
  }
}

=== FILE: user_actions.dfy ===
/**
 The profile server actions: a user's public profile, one page of the
 user's reviews with their media, and the profile statistics.
 */
module UserActions {
  import opened Optional
  import opened Seqs
  import opened AppStore
  import opened Db
  import opened UserStats

  const ProfileError := "Could not fetch user profile."
  const ReviewsError := "Could not fetch user reviews."
  const StatsError := "Could not fetch user stats."

  /** `getUserProfile`: the user's row with the e-mail address hidden, `None` for an unknown id. */
  function GetUserProfile(db: Option<Tables>, userId: string): (r: Fetch<Option<User>>)
    ensures db.None? <==> r == Failed(ProfileError)
    ensures r.Fetched? ==> (r.value.None? <==> forall k :: 0 <= k < |db.value.users| ==> db.value.users[k].id != userId)
    ensures r.Fetched? && r.value.Some? ==>
      exists k :: 0 <= k < |db.value.users| && db.value.users[k].id == userId
        && r.value.value == User(userId, db.value.users[k].name.OrElse(UnknownUser), "",
                                 db.value.users[k].image, db.value.users[k].bio, db.value.users[k].createdAt)
  {
    if db.None? then Failed(ProfileError)
    else
      match Find(db.value.users, UserKey, userId)
      case None => Fetched(None)
      case Some(u) => Fetched(Some(SafeUser(u, "")))
  }

  /** The reviews written by the user, in storage order. */
  function OwnReviews(t: Tables, userId: string): (r: seq<ReviewRow>)
    ensures forall k :: 0 <= k < |r| ==> r[k].userId == userId && r[k] in t.reviews
    ensures forall x :: x in t.reviews && x.userId == userId ==> x in r
  {
    Filter(t.reviews, (x: ReviewRow) => x.userId == userId)
  }

  /** `SafeReviewWithMedia`. */
  datatype ReviewWithMedia = ReviewWithMedia(review: SafeReview, media: SafeMedia)

  predicate Joinable(t: Tables, x: ReviewRow) {
    Find(t.users, UserKey, x.userId).Some? && Find(t.media, MediaKey, x.mediaId).Some?
  }

  /** One review with its author, e-mail hidden, and its media, type in lower case. */
  function Joined(t: Tables, x: ReviewRow): (j: ReviewWithMedia)
    requires Joinable(t, x)
    ensures j.review.id == x.id && j.review.userId == x.userId && j.review.mediaId == x.mediaId
    ensures j.review.user.id == x.userId && j.review.user.email == ""
    ensures j.media.id == x.mediaId && ParseType(j.media.mtype).Some?
  {
    var u := Find(t.users, UserKey, x.userId).value;
    var m := Find(t.media, MediaKey, x.mediaId).value;
    ReviewWithMedia(SafeReviewOf(x, SafeUser(u, "")), SafeMediaOf(m))
  }

  /** Each review with its author (e-mail hidden) and media; a dangling reference fails the query. */
  function WithMedia(t: Tables, rows: seq<ReviewRow>): (r: Option<seq<ReviewWithMedia>>)
    ensures r.Some? <==> forall k :: 0 <= k < |rows| ==> Joinable(t, rows[k])
    ensures r.Some? ==> |r.value| == |rows|
    ensures r.Some? ==> forall k :: 0 <= k < |rows| ==> Joinable(t, rows[k]) && r.value[k] == Joined(t, rows[k])
  {
    MapAll(rows, (x: ReviewRow) => if Joinable(t, x) then Some(Joined(t, x)) else None)
  }

  function Created(x: ReviewRow): int { x.createdAt }

  /**
   Entry `k` of a page is the user's review at position `skip + k` in
   newest-first order, so every review shown was written by that user.
   */
  lemma UserReviewsPage(db: Tables, userId: string, page: int, pageSize: int)
    ensures var r := GetUserReviews(Some(db), userId, page, pageSize);
      var sorted := NewestFirst(OwnReviews(db, userId), Created);
      r.Fetched? ==>
        && |r.value.reviews| == PageLength(|sorted|, Skip(page, pageSize), pageSize)
        && forall k :: 0 <= k < |r.value.reviews| ==>
        && Skip(page, pageSize) + k < |sorted|
        && r.value.reviews[k].review.id == sorted[Skip(page, pageSize) + k].id
        && r.value.reviews[k].review.userId == userId
  {
    if GetUserReviews(Some(db), userId, page, pageSize).Fetched? {
      var own := OwnReviews(db, userId);
      var sorted := NewestFirst(own, Created);
      var rows := Window(sorted, Skip(page, pageSize), pageSize).value;
      var rs := GetUserReviews(Some(db), userId, page, pageSize).value.reviews;
      assert rs == WithMedia(db, rows).value;
      forall k | 0 <= k < |rs|
        ensures Skip(page, pageSize) + k < |sorted| && rs[k].review.id == sorted[Skip(page, pageSize) + k].id && rs[k].review.userId == userId
      {
        assert rows[k] == sorted[Skip(page, pageSize) + k];
        InNewestFirst(own, Created, rows[k]);
      }
    }
  }

  /** The default page size of `getUserReviews`. */
  const ReviewsPageSize := 12

  /** With its default arguments, `getUserReviews` shows the user's twelve newest reviews, or all of them when fewer. */
  lemma DefaultReviewsPage(db: Tables, userId: string)
    ensures var r := GetUserReviews(Some(db), userId, FirstPage, ReviewsPageSize);
      var sorted := NewestFirst(OwnReviews(db, userId), Created);
      r.Fetched? ==>
        && r.value.currentPage == 1
        && |r.value.reviews| == (if |sorted| < 12 then |sorted| else 12)
        && forall k :: 0 <= k < |r.value.reviews| ==> r.value.reviews[k].review.id == sorted[k].id
  {
    UserReviewsPage(db, userId, FirstPage, ReviewsPageSize);
  }

  datatype ReviewsPage = ReviewsPage(reviews: seq<ReviewWithMedia>, total: int, totalPages: PageCount, currentPage: int)

  /**
   `getUserReviews`: page `page` of the user's reviews, newest first, with
   `skip = (page - 1) * pageSize` and `take = pageSize`; `total` counts all of
   the user's reviews and the page count is its ceiling quotient.
   */
  function GetUserReviews(db: Option<Tables>, userId: string, page: int, pageSize: int): (r: Fetch<ReviewsPage>)
    ensures db.None? || Skip(page, pageSize) < 0 || pageSize < 0 ==> r == Failed(ReviewsError)
    ensures r.Failed? ==> r.message == ReviewsError
    ensures r.Fetched? ==>
      && r.value.total == |OwnReviews(db.value, userId)|
      && r.value.currentPage == page
      && r.value.totalPages == TotalPages(r.value.total, pageSize)
      && |r.value.reviews| <= pageSize
  {
    if db.None? then Failed(ReviewsError)
    else
      var own := OwnReviews(db.value, userId);
      var sorted := NewestFirst(own, Created);
      var skip := Skip(page, pageSize);
      match Window(sorted, skip, pageSize)
      case None => Failed(ReviewsError)
      case Some(rows) =>
        match WithMedia(db.value, rows)
        case None => Failed(ReviewsError)
        case Some(items) => Fetched(ReviewsPage(items, |own|, TotalPages(|own|, pageSize), page))
  }

  /** The genres of each review's media; a dangling media reference fails the query. */
  function MediaGenres(t: Tables, rows: seq<ReviewRow>): (r: Option<seq<seq<string>>>)
    ensures r.Some? <==> forall k :: 0 <= k < |rows| ==> Find(t.media, MediaKey, rows[k].mediaId).Some?
    ensures r.Some? ==> |r.value| == |rows|
    ensures r.Some? ==> forall k :: 0 <= k < |rows| ==> r.value[k] == Find(t.media, MediaKey, rows[k].mediaId).value.genre
  {
    MapAll(rows, (x: ReviewRow) =>
      match Find(t.media, MediaKey, x.mediaId)
      case None => None
      case Some(m) => Some(m.genre))
  }

  /** `getUserStats` over all of the user's reviews. */
  function GetUserStats(db: Option<Tables>, userId: string): (r: Fetch<Stats>)
    ensures db.None? ==> r == Failed(StatsError)
    ensures r.Failed? ==> r.message == StatsError
    ensures r.Fetched? ==>
      && r.value.totalReviews == |OwnReviews(db.value, userId)|
      && r.value.totalLikesReceived <= r.value.totalReviews
      && r.value.totalLikesReceived == |Filter(OwnReviews(db.value, userId), IsLiked)|
      && r.value.averageRating == Mean(RatingSum(OwnReviews(db.value, userId)), |Filter(OwnReviews(db.value, userId), IsRated)|)
      && |r.value.favoriteGenres| <= 5
  {
    if db.None? then Failed(StatsError)
    else
      var own := OwnReviews(db.value, userId);
      match MediaGenres(db.value, own)
      case None => Failed(StatsError)
      case Some(genres) => Fetched(StatsOf(own, genres))
  }

  /**
   Every genre of the user's reviewed media is counted once per review, and
   the rating distribution accounts for every rated review.
   */
  lemma StatsCounts(db: Tables, userId: string, g: string)
    ensures var r := GetUserStats(Some(db), userId);
      r.Fetched? ==>
        && MapSum(r.value.ratingDistribution) == r.value.averageRating.count
        && r.value.averageRating.count == |Filter(OwnReviews(db, userId), IsRated)|
    ensures var r := GetUserStats(Some(db), userId);
      var genres := MediaGenres(db, OwnReviews(db, userId));
      r.Fetched? ==> (genres.Some? &&
        var counts := GenreCounts(Flatten(genres.value));
        forall k :: 0 <= k < |counts| ==> counts[k].count == multiset(Flatten(genres.value))[counts[k].genre])
  {
    if GetUserStats(Some(db), userId).Fetched? {
      var own := OwnReviews(db, userId);
      var genres := MediaGenres(db, own).value;
      StatsDistributionTotal(own, genres);
    }
  }
}

=== FILE: user_route.dfy ===
/**
 `/api/user`: deleting one's own account and renaming oneself. The session
 is the signed-in user's id, a body that is not JSON is `None`, and `fault`
 stands for a database error.
 */
module UserRoute {
  import opened Text
  import opened Optional
  import opened Api
  import opened Db
  import opened Seqs

  datatype Outcome = Outcome(reply: Reply, tables: Tables, user: Option<UserRow>)

  // ---------------------------------------------------------------- DELETE

  /** Nothing in the tables belongs to the user: no account, review or comment of theirs, and no comment on a review of theirs. */
  predicate Forgotten(t: Tables, userId: string) {
    && (forall u :: u in t.users ==> u.id != userId)
    && (forall r :: r in t.reviews ==> r.userId != userId)
    && (forall c :: c in t.comments ==> c.userId != userId)
    && (forall c, r :: c in t.comments && r in t.reviews ==> c.reviewId != r.id || r.userId != userId)
  }

  /** The ids of the user's reviews. */
  function ReviewIdsOf(rs: seq<ReviewRow>, userId: string): (ids: set<string>)
    ensures forall id :: id in ids <==> exists r :: r in rs && r.userId == userId && r.id == id
  {
    set r | r in rs && r.userId == userId :: r.id
  }

  /**
   The account removed with the rows that reference it: the user's reviews,
   the user's comments, and the comments on the user's reviews.
   */
  function WithoutUser(t: Tables, userId: string): (r: Tables)
    ensures forall u :: u in r.users <==> u in t.users && u.id != userId
    ensures forall v :: v in r.reviews <==> v in t.reviews && v.userId != userId
    ensures forall c :: c in r.comments <==> c in t.comments && c.userId != userId && c.reviewId !in ReviewIdsOf(t.reviews, userId)
    ensures r.media == t.media
  {
    var gone := ReviewIdsOf(t.reviews, userId);
    Tables(Filter(t.users, (u: UserRow) => u.id != userId),
           t.media,
           Filter(t.reviews, (v: ReviewRow) => v.userId != userId),
           Filter(t.comments, (c: CommentRow) => c.userId != userId && c.reviewId !in gone))
  }

  /**
   DELETE: 401 without a session; otherwise the account is deleted with
   200. Deleting an account that no longer exists, or a database error,
   gives 500. The user is signed out first, on a best-effort basis: a failed
   sign-out (`signOutFails`) changes neither the answer nor the tables.
   */
  function Delete(session: Option<string>, t: Tables, signOutFails: bool, fault: bool): (o: Outcome)
    ensures session.None? <==> o.reply == Unauthorized("Unauthorized. Please log in to delete account.")
    ensures o.reply.status == 200 <==> session.Some? && !fault && Find(t.users, UserKey, session.value).Some?
    ensures o.reply.status != 200 ==> o.tables == t
    ensures o.reply.status == 200 ==> o.tables == WithoutUser(t, session.value)
    ensures o.reply.status in {200, 401, 500}
  {
    if session.None? then Outcome(Unauthorized("Unauthorized. Please log in to delete account."), t, None)
    else if fault || Find(t.users, UserKey, session.value).None? then Outcome(ServerError("Failed to delete user"), t, None)
    else Outcome(Ok("User deleted successfully"), WithoutUser(t, session.value), None)
  }

  /** After a successful deletion nothing references the user, and every other account is kept. */
  lemma DeleteForgetsUser(userId: string, t: Tables, signOutFails: bool, fault: bool)
    requires Delete(Some(userId), t, signOutFails, fault).reply.status == 200
    ensures Forgotten(Delete(Some(userId), t, signOutFails, fault).tables, userId)
    ensures forall u :: u in t.users && u.id != userId ==> u in Delete(Some(userId), t, signOutFails, fault).tables.users
  {
    var r := Delete(Some(userId), t, signOutFails, fault).tables;
    forall c, v | c in r.comments && v in r.reviews
      ensures c.reviewId != v.id || v.userId != userId
    {
      assert v.userId != userId;
    }
  }

  /** Deleting twice: the second request finds no account and fails, changing nothing. */
  lemma DeleteTwiceFails(userId: string, t: Tables, signOutFails: bool, signOutFails2: bool, fault2: bool)
    requires Delete(Some(userId), t, signOutFails, false).reply.status == 200
    ensures var t2 := Delete(Some(userId), t, signOutFails, false).tables;
      Delete(Some(userId), t2, signOutFails2, fault2) == Outcome(ServerError("Failed to delete user"), t2, None)
  {
  }

  // ---------------------------------------------------------------- PATCH

  /** The `name` field of the body: a string, any other JSON value, or absent. */
  datatype NameField = NameText(text: string) | NotText | Absent

  /** A name is accepted when it is a non-empty string with at least two characters once trimmed. */
  predicate Acceptable(n: NameField) {
    n.NameText? && n.text != "" && |Trim(n.text)| >= 2
  }

  /** `user.update({ where: { id }, data: { name } })`. */
  function SetName(users: seq<UserRow>, id: string, name: string): (r: seq<UserRow>)
    ensures |r| == |users|
    ensures forall k :: 0 <= k < |users| ==> r[k] == if users[k].id == id then users[k].(name := Some(name)) else users[k]
  {
    seq(|users|, k requires 0 <= k < |users| => if users[k].id == id then users[k].(name := Some(name)) else users[k])
  }

  /**
   PATCH: 401 without a session; 400 unless the name is a string of at least
   two characters once trimmed; otherwise the trimmed name is stored and the
   updated account returned with 200. An unknown account, a database error
   or a body that is not JSON gives 500.
   */
  function Patch(session: Option<string>, body: Option<NameField>, t: Tables, fault: bool): (o: Outcome)
    ensures session.None? <==> o.reply == Unauthorized("Unauthorized. Please log in to update your name.")
    ensures session.Some? && body.Some? ==> (!Acceptable(body.value) <==> o.reply == Invalid("Name must be at least 2 characters long"))
    ensures o.reply.status == 200 <==> (session.Some? && body.Some? && Acceptable(body.value) && !fault
                                        && Find(t.users, UserKey, session.value).Some?)
    ensures o.reply.status != 200 ==> o.tables == t && o.user.None?
    ensures o.reply.status == 200 ==> o.tables == t.(users := SetName(t.users, session.value, Trim(body.value.text)))
    ensures o.reply.status == 200 ==> o.user.Some? && o.user.value in o.tables.users && o.user.value.id == session.value
    ensures o.reply.status == 200 ==> o.user.value.name == Some(Trim(body.value.text))
    ensures o.reply.status in {200, 400, 401, 500}
  {
    if session.None? then Outcome(Unauthorized("Unauthorized. Please log in to update your name."), t, None)
    else if body.None? then Outcome(ServerError("Failed to update user name"), t, None)
    else if !Acceptable(body.value) then Outcome(Invalid("Name must be at least 2 characters long"), t, None)
    else
      var u := Find(t.users, UserKey, session.value);
      if fault || u.None? then Outcome(ServerError("Failed to update user name"), t, None)
      else
        var name := Trim(body.value.text);
        SetNameStores(t.users, session.value, name);
        Outcome(Ok("Name updated successfully"), t.(users := SetName(t.users, session.value, name)),
                Some(u.value.(name := Some(name))))
  }

  /** The account found under the id is in the renamed table with its new name. */
  lemma SetNameStores(users: seq<UserRow>, id: string, name: string)
    requires Find(users, UserKey, id).Some?
    ensures Find(users, UserKey, id).value.(name := Some(name)) in SetName(users, id, name)
  {
    var u := Find(users, UserKey, id).value;
    var k :| 0 <= k < |users| && users[k] == u;
    assert SetName(users, id, name)[k] == u.(name := Some(name));
  }

  /** A stored name is trimmed and at least two characters long. */
  lemma StoredNameValid(userId: string, n: NameField, t: Tables, fault: bool)
    ensures var o := Patch(Some(userId), Some(n), t, fault);
      o.reply.status == 200 ==> var v := o.user.value.name.value; |v| >= 2 && Trim(v) == v
  {
    if n.NameText? {
      TrimIdempotent(n.text);
    }
  }

  /** Sending the stored name back changes nothing: the update is idempotent. */
  lemma PatchIdempotent(userId: string, n: NameField, t: Tables)
    ensures var o := Patch(Some(userId), Some(n), t, false);
      o.reply.status == 200 ==>
        Patch(Some(userId), Some(NameText(o.user.value.name.value)), o.tables, false).tables == o.tables
  {
    var o := Patch(Some(userId), Some(n), t, false);
    if o.reply.status == 200 {
      var v := Trim(n.text);
      TrimIdempotent(n.text);
      assert Acceptable(NameText(v));
      var u := o.user.value;
      assert Find(o.tables.users, UserKey, userId).Some? by {
        var k :| 0 <= k < |o.tables.users| && o.tables.users[k] == u;
      }
      SetNameTwice(t.users, userId, v);
    }
  }

  lemma SetNameTwice(users: seq<UserRow>, id: string, name: string)
    ensures SetName(SetName(users, id, name), id, name) == SetName(users, id, name)
  {
  }
}

=== FILE: user_stats.dfy ===
/**
 The aggregates of a user's profile statistics: liked count, rating mean and
 distribution, genre counts in first-seen order and the five favourite
 genres. Ratings are half-units; the mean is kept as a sum and a count.
 */
module UserStats {
  import opened Optional
  import opened Seqs
  import opened Sorting
  import opened Db

  predicate IsLiked(r: ReviewRow) { r.liked == Some(true) }

  /** `reduce((acc, r) => acc + (r.liked ? 1 : 0), 0)`. */
  function Likes(rs: seq<ReviewRow>): (n: nat)
    ensures n <= |rs|
    ensures n == |Filter(rs, IsLiked)|
    decreases |rs|
  {
    if rs == [] then 0 else (if IsLiked(rs[0]) then 1 else 0) + Likes(rs[1..])
  }

  predicate IsRated(r: ReviewRow) { r.rating.Some? }

  /** Some review carries rating `v`. */
  predicate RatedWith(rs: seq<ReviewRow>, v: int) {
    exists k :: 0 <= k < |rs| && rs[k].rating == Some(v)
  }

  /** The ratings of the rated reviews, in order. */
  function Ratings(rs: seq<ReviewRow>): (r: seq<int>)
    ensures |r| <= |rs|
    ensures forall v :: v in r <==> RatedWith(rs, v)
    ensures |r| == |Filter(rs, IsRated)|
    decreases |rs|
  {
    if rs == [] then []
    else
      var rest := Ratings(rs[1..]);
      RatedWithCons(rs);
      if IsRated(rs[0]) then [rs[0].rating.value] + rest else rest
  }

  lemma RatedWithCons(rs: seq<ReviewRow>)
    requires rs != []
    ensures forall v :: RatedWith(rs, v) <==> rs[0].rating == Some(v) || RatedWith(rs[1..], v)
  {
    forall v | RatedWith(rs, v)
      ensures rs[0].rating == Some(v) || RatedWith(rs[1..], v)
    {
      var k :| 0 <= k < |rs| && rs[k].rating == Some(v);
      if k > 0 {
        assert rs[1..][k - 1] == rs[k];
      }
    }
    forall v | RatedWith(rs[1..], v)
      ensures RatedWith(rs, v)
    {
      var k :| 0 <= k < |rs[1..]| && rs[1..][k].rating == Some(v);
      assert rs[k + 1] == rs[1..][k];
    }
  }

  function Sum(xs: seq<int>): int
    decreases |xs|
  {
    if xs == [] then 0 else xs[0] + Sum(xs[1..])
  }

  /** `reduce((acc, r) => acc + (r.rating || 0), 0)` over the rated reviews: unrated ones add nothing. */
  function RatingSum(rs: seq<ReviewRow>): int
    decreases |rs|
  {
    if rs == [] then 0 else (if IsRated(rs[0]) then rs[0].rating.value else 0) + RatingSum(rs[1..])
  }

  /** The ratings list adds up to the reviews' rating sum. */
  lemma {:induction false} SumOfRatings(rs: seq<ReviewRow>)
    ensures Sum(Ratings(rs)) == RatingSum(rs)
    decreases |rs|
  {
    if rs != [] {
      SumOfRatings(rs[1..]);
      if IsRated(rs[0]) {
        var rest := Ratings(rs[1..]);
        assert ([rs[0].rating.value] + rest)[1..] == rest;
      }
    }
  }

  /** An average held exactly: 0 when nothing was rated, else `sum / count`. */
  datatype Mean = Mean(sum: int, count: nat)

  /** `ratingDistribution`: how many rated reviews carry each rating. */
  function Distribution(xs: seq<int>): (d: map<int, nat>)
    ensures forall v :: v in d <==> v in xs
    ensures forall v :: v in d ==> d[v] == multiset(xs)[v]
    decreases |xs|
  {
    if xs == [] then map[]
    else
      var front := xs[..|xs| - 1];
      var x := xs[|xs| - 1];
      assert xs == front + [x];
      var d := Distribution(front);
      d[x := (if x in d then d[x] else 0) + 1]
  }

  ghost function PickKey(m: map<int, nat>): int
    requires |m| > 0
  {
    NonEmptyKeys(m);
    var k :| k in m; k
  }

  lemma NonEmptyKeys(m: map<int, nat>)
    requires |m| > 0
    ensures exists k :: k in m
  {
    assert (forall k :: k !in m) ==> m == map[];
  }

  /** The sum of a map's values. */
  ghost function MapSum(m: map<int, nat>): nat
    decreases |m|
  {
    if |m| == 0 then 0
    else
      var k := PickKey(m);
      m[k] + MapSum(m - {k})
  }

  /** The sum does not depend on which key is taken first. */
  lemma {:induction false} MapSumRemove(m: map<int, nat>, k: int)
    requires k in m
    ensures MapSum(m) == m[k] + MapSum(m - {k})
    decreases |m|
  {
    var j := PickKey(m);
    if j != k {
      MapSumRemove(m - {j}, k);
      MapSumRemove(m - {k}, j);
      assert m - {j} - {k} == m - {k} - {j};
    }
  }

  /** The distribution's counts add up to the number of rated reviews. */
  lemma {:induction false} DistributionTotal(xs: seq<int>)
    ensures MapSum(Distribution(xs)) == |xs|
    decreases |xs|
  {
    if xs != [] {
      DistributionTotal(xs[..|xs| - 1]);
      DistributionStep(xs);
    }
  }

  /** The last rating adds one to the distribution's total. */
  lemma DistributionStep(xs: seq<int>)
    requires xs != []
    ensures MapSum(Distribution(xs)) == MapSum(Distribution(xs[..|xs| - 1])) + 1
  {
    var x := xs[|xs| - 1];
    var d := Distribution(xs[..|xs| - 1]);
    assert Distribution(xs) == d[x := (if x in d then d[x] else 0) + 1];
    MapSumBump(d, x);
  }

  /** Counting one more `x` adds one to the sum. */
  lemma MapSumBump(d: map<int, nat>, x: int)
    ensures MapSum(d[x := (if x in d then d[x] else 0) + 1]) == MapSum(d) + 1
  {
    var d' := d[x := (if x in d then d[x] else 0) + 1];
    MapSumRemove(d', x);
    assert d' - {x} == d - {x};
    if x in d {
      MapSumRemove(d, x);
    } else {
      assert d - {x} == d;
    }
  }

  // ---------------------------------------------------------------- genre counts

  datatype GenreCount = GenreCount(genre: string, count: nat)

  function CountOf(e: GenreCount): int { e.count }

  /** The position of the first occurrence of `g`. */
  function FirstIndex(gs: seq<string>, g: string): (i: nat)
    requires g in gs
    ensures i < |gs| && gs[i] == g && g !in gs[..i]
    decreases |gs|
  {
    if gs[0] == g then 0 else 1 + FirstIndex(gs[1..], g)
  }

  /** The genres of the entries, in order. */
  function Genres(es: seq<GenreCount>): (r: seq<string>)
    ensures |r| == |es| && forall k :: 0 <= k < |es| ==> r[k] == es[k].genre
  {
    seq(|es|, k requires 0 <= k < |es| => es[k].genre)
  }

  predicate DistinctGenres(es: seq<GenreCount>) {
    forall i, j :: 0 <= i < j < |es| ==> es[i].genre != es[j].genre
  }

  lemma GenresCons(e: GenreCount, t: seq<GenreCount>)
    ensures Genres([e] + t) == [e.genre] + Genres(t)
  {
  }

  /** One more occurrence of `g`: its entry counts one more, or a new entry with 1 is appended. */
  function Bump(es: seq<GenreCount>, g: string): (r: seq<GenreCount>)
    requires DistinctGenres(es)
    ensures BumpedFrom(es, g, r)
    decreases |es|
  {
    if es == [] then [GenreCount(g, 1)]
    else if es[0].genre == g then
      BumpHere(es, g);
      [es[0].(count := es[0].count + 1)] + es[1..]
    else
      assert DistinctGenres(es[1..]);
      var rest := Bump(es[1..], g);
      BumpFurther(es, g, rest);
      [es[0]] + rest
  }

  /** `r` is `es` with one more `g`. */
  predicate BumpedFrom(es: seq<GenreCount>, g: string, r: seq<GenreCount>) {
    && Genres(r) == (if g in Genres(es) then Genres(es) else Genres(es) + [g])
    && (|r| == |es| + 1 ==> r[|es|] == GenreCount(g, 1))
    && forall k :: 0 <= k < |es| ==> r[k].count == es[k].count + if es[k].genre == g then 1 else 0
  }

  lemma BumpHere(es: seq<GenreCount>, g: string)
    requires DistinctGenres(es) && es != [] && es[0].genre == g
    ensures BumpedFrom(es, g, [es[0].(count := es[0].count + 1)] + es[1..])
  {
    var r := [es[0].(count := es[0].count + 1)] + es[1..];
    assert es == [es[0]] + es[1..];
    GenresCons(es[0], es[1..]);
    GenresCons(r[0], es[1..]);
    forall k | 0 <= k < |es|
      ensures r[k].count == es[k].count + if es[k].genre == g then 1 else 0
    {
      if k > 0 {
        assert r[k] == es[k];
      }
    }
  }

  lemma BumpFurther(es: seq<GenreCount>, g: string, rest: seq<GenreCount>)
    requires es != [] && es[0].genre != g
    requires BumpedFrom(es[1..], g, rest)
    ensures BumpedFrom(es, g, [es[0]] + rest)
  {
    var r := [es[0]] + rest;
    var t := es[1..];
    GenresFurther(es[0], t, rest, g);
    assert es == [es[0]] + t;
    if |r| == |es| + 1 {
      assert r[|es|] == rest[|t|];
    }
    BumpCons(es, rest, g);
  }

  lemma GenresFurther(e: GenreCount, t: seq<GenreCount>, rest: seq<GenreCount>, g: string)
    requires e.genre != g
    requires Genres(rest) == if g in Genres(t) then Genres(t) else Genres(t) + [g]
    ensures Genres([e] + rest) == if g in Genres([e] + t) then Genres([e] + t) else Genres([e] + t) + [g]
  {
    GenresCons(e, t);
    GenresCons(e, rest);
    var h := [e.genre];
    assert g in Genres([e] + t) <==> g in Genres(t);
    if g !in Genres(t) {
      assert h + (Genres(t) + [g]) == (h + Genres(t)) + [g];
    }
  }

  /** Putting an entry of another genre in front keeps the counts of one more `g`. */
  lemma BumpCons(es: seq<GenreCount>, rest: seq<GenreCount>, g: string)
    requires es != [] && es[0].genre != g && |rest| >= |es| - 1
    requires forall k :: 0 <= k < |es| - 1 ==> rest[k].count == es[1..][k].count + if es[1..][k].genre == g then 1 else 0
    ensures var r := [es[0]] + rest;
      forall k :: 0 <= k < |es| ==> r[k].count == es[k].count + if es[k].genre == g then 1 else 0
  {
    var r := [es[0]] + rest;
    forall k | 0 <= k < |es|
      ensures r[k].count == es[k].count + if es[k].genre == g then 1 else 0
    {
      if k > 0 {
        assert r[k] == rest[k - 1] && es[k] == es[1..][k - 1];
      }
    }
  }

  /**
   `genreCounts` read back with `Object.entries`: one entry per distinct
   genre, in order of first appearance, counting its occurrences. (JavaScript
   would list integer-like labels first; that reordering is not modelled.)
   */
  function GenreCounts(gs: seq<string>): (r: seq<GenreCount>)
    ensures DistinctGenres(r)
    ensures forall g :: g in gs <==> g in Genres(r)
    ensures forall k :: 0 <= k < |r| ==> r[k].genre in gs && r[k].count == multiset(gs)[r[k].genre]
    ensures FirstSeenOrder(gs, Genres(r))
    decreases |gs|
  {
    if gs == [] then []
    else
      var front := gs[..|gs| - 1];
      var g := gs[|gs| - 1];
      assert gs == front + [g];
      var es := GenreCounts(front);
      GenreCountsStep(front, g, es);
      Bump(es, g)
  }

  /** Counting one more genre keeps the entries' properties. */
  lemma GenreCountsStep(front: seq<string>, g: string, es: seq<GenreCount>)
    requires DistinctGenres(es)
    requires forall h :: h in front <==> h in Genres(es)
    requires forall k :: 0 <= k < |es| ==> es[k].genre in front && es[k].count == multiset(front)[es[k].genre]
    requires FirstSeenOrder(front, Genres(es))
    ensures var gs := front + [g];
      var r := Bump(es, g);
      && DistinctGenres(r)
      && (forall h :: h in gs <==> h in Genres(r))
      && (forall k :: 0 <= k < |r| ==> r[k].genre in gs && r[k].count == multiset(gs)[r[k].genre])
      && FirstSeenOrder(gs, Genres(r))
  {
    var gs := front + [g];
    var r := Bump(es, g);
    assert forall h :: h in gs <==> h in front || h == g;
    BumpDistinct(g, es);
    BumpCounts(front, g, es);
    if g in Genres(es) {
      FirstSeenPrefix(front, g, Genres(es));
    } else {
      FirstSeenAppend(front, g, Genres(es));
    }
  }

  lemma BumpDistinct(g: string, es: seq<GenreCount>)
    requires DistinctGenres(es)
    ensures DistinctGenres(Bump(es, g))
  {
    var r := Bump(es, g);
    assert forall k :: 0 <= k < |r| ==> r[k].genre == Genres(r)[k];
    if g !in Genres(es) {
      forall i, j | 0 <= i < j < |r|
        ensures r[i].genre != r[j].genre
      {
        if j == |es| {
          assert r[i].genre == Genres(es)[i];
        } else {
          assert r[i].genre == es[i].genre && r[j].genre == es[j].genre;
        }
      }
    } else {
      assert forall k :: 0 <= k < |r| ==> r[k].genre == es[k].genre;
    }
  }

  lemma BumpCounts(front: seq<string>, g: string, es: seq<GenreCount>)
    requires DistinctGenres(es)
    requires forall h :: h in front <==> h in Genres(es)
    requires forall k :: 0 <= k < |es| ==> es[k].genre in front && es[k].count == multiset(front)[es[k].genre]
    ensures var r := Bump(es, g);
      forall k :: 0 <= k < |r| ==> r[k].genre in front + [g] && r[k].count == multiset(front + [g])[r[k].genre]
  {
    var gs := front + [g];
    assert multiset(gs) == multiset(front) + multiset{g};
    var r := Bump(es, g);
    forall k | 0 <= k < |r|
      ensures r[k].genre in gs && r[k].count == multiset(gs)[r[k].genre]
    {
      assert r[k].genre == Genres(r)[k];
      if k < |es| {
        assert Genres(r)[k] == Genres(es)[k] == es[k].genre;
      } else {
        assert g !in Genres(es) && r[k] == GenreCount(g, 1);
        assert multiset(front)[g] == 0;
      }
    }
  }

  /** `hs` lists elements of `gs` in order of their first occurrence in `gs`. */
  predicate FirstSeenOrder(gs: seq<string>, hs: seq<string>) {
    && (forall k :: 0 <= k < |hs| ==> hs[k] in gs)
    && (forall i, j :: 0 <= i < j < |hs| ==> FirstIndex(gs, hs[i]) < FirstIndex(gs, hs[j]))
  }

  lemma FirstSeenPrefix(front: seq<string>, x: string, hs: seq<string>)
    requires FirstSeenOrder(front, hs)
    ensures FirstSeenOrder(front + [x], hs)
  {
    forall k | 0 <= k < |hs|
      ensures FirstIndex(front + [x], hs[k]) == FirstIndex(front, hs[k])
    {
      FirstIndexPrefix(front, x, hs[k]);
    }
  }

  lemma FirstSeenAppend(front: seq<string>, x: string, hs: seq<string>)
    requires FirstSeenOrder(front, hs) && x !in front
    ensures FirstSeenOrder(front + [x], hs + [x])
  {
    var gs := front + [x];
    var hs' := hs + [x];
    FirstSeenPrefix(front, x, hs);
    assert FirstIndex(gs, x) == |front| by {
      assert gs[|front|] == x && gs[..|front|] == front;
    }
    forall i, j | 0 <= i < j < |hs'|
      ensures FirstIndex(gs, hs'[i]) < FirstIndex(gs, hs'[j])
    {
      if j == |hs| {
        assert hs'[i] == hs[i] && hs[i] in front;
        assert FirstIndex(gs, hs[i]) == FirstIndex(front, hs[i]);
      } else {
        assert hs'[i] == hs[i] && hs'[j] == hs[j];
      }
    }
  }

  lemma {:induction false} FirstIndexPrefix(front: seq<string>, x: string, g: string)
    requires g in front
    ensures FirstIndex(front + [x], g) == FirstIndex(front, g)
    decreases |front|
  {
    if front[0] != g {
      assert (front + [x])[1..] == front[1..] + [x];
      FirstIndexPrefix(front[1..], x, g);
    }
  }

  /** `sort((a, b) => b.count - a.count).slice(0, 5)`. */
  function FavoriteGenres(es: seq<GenreCount>): (r: seq<GenreCount>)
    ensures |r| == if |es| < 5 then |es| else 5
    ensures forall i, j :: 0 <= i < j < |r| ==> r[i].count >= r[j].count
    ensures forall x :: x in r ==> x in es
  {
    var sorted := SortBy(es, Desc(CountOf));
    SortDescOrdered(es, CountOf);
    assert forall x :: x in sorted ==> x in multiset(es);
    var r := if |sorted| <= 5 then sorted else sorted[..5];
    assert forall k :: 0 <= k < |r| ==> r[k] == sorted[k] && r[k].count == CountOf(sorted[k]);
    assert forall x :: x in r ==> x in sorted;
    r
  }

  /** No genre left out of the favourites was counted more often than one kept. */
  lemma FavoritesAreTop(es: seq<GenreCount>, x: GenreCount, k: int)
    requires x in es && x !in FavoriteGenres(es)
    requires 0 <= k < |FavoriteGenres(es)|
    ensures x.count <= FavoriteGenres(es)[k].count
  {
    var sorted := SortBy(es, Desc(CountOf));
    SortDescOrdered(es, CountOf);
    assert x in multiset(sorted);
    var j :| 0 <= j < |sorted| && sorted[j] == x;
    assert FavoriteGenres(es) == if |sorted| <= 5 then sorted else sorted[..5];
    assert CountOf(sorted[k]) >= CountOf(sorted[j]);
  }

  /** Genres counted equally keep their first-seen order among the favourites' source order. */
  lemma FavoriteTiesStable(es: seq<GenreCount>, c: int)
    ensures WithKey(SortBy(es, Desc(CountOf)), CountOf, c) == WithKey(es, CountOf, c)
  {
    SortDescStable(es, CountOf, c);
  }

  /** `UserStats`. */
  datatype Stats = Stats(
    totalReviews: nat,
    totalLikesReceived: nat,
    averageRating: Mean,
    ratingDistribution: map<int, nat>,
    favoriteGenres: seq<GenreCount>)

  /** The statistics of a user's reviews, given each review's media genres. */
  function StatsOf(rs: seq<ReviewRow>, genres: seq<seq<string>>): (s: Stats)
    ensures s.totalReviews == |rs|
    ensures s.totalLikesReceived <= s.totalReviews
    ensures s.totalLikesReceived == |Filter(rs, IsLiked)|
    ensures s.averageRating.count == |Filter(rs, IsRated)|
    ensures s.averageRating.sum == RatingSum(rs)
    ensures forall v :: v in s.ratingDistribution <==> RatedWith(rs, v)
    ensures |s.favoriteGenres| <= 5
  {
    var ratings := Ratings(rs);
    SumOfRatings(rs);
    Stats(|rs|, Likes(rs), Mean(Sum(ratings), |ratings|), Distribution(ratings),
          FavoriteGenres(GenreCounts(Flatten(genres))))
  }

  /** The distribution counts every rated review exactly once. */
  lemma StatsDistributionTotal(rs: seq<ReviewRow>, genres: seq<seq<string>>)
    ensures MapSum(StatsOf(rs, genres).ratingDistribution) == StatsOf(rs, genres).averageRating.count
  {
    DistributionTotal(Ratings(rs));
  }
}
